=== FILE: README.md ===
# Sales-analytics core, modelled in Dafny

The application is a Next.js site where sales staff store AI call analyses
and administrators watch how the staff use it. Its route handlers and pages
forward most work to a hosted Postgres/auth service. Between those calls sits
a layer of pure computation. This project models that layer and proves
properties of it:

- the activity analytics: date-dimension bucket keys and the ISO 8601 week
  number, per-salesperson login/action timelines, the three anomaly rules,
  the dashboard aggregates and the analysis statistics;
- request validation and record shaping in the routes: required fields,
  `|| null` normalisation, the tag filter, the batch-update whitelist,
  activity-log records and login-session bookkeeping, pagination
  arithmetic, upload checks and file names, and the `requireAuth` /
  `requireAdmin` gate;
- the client-side helpers: CSV quoting and export, keyed sorting,
  de-duplication and top-N selection, bucket-label rendering, the severity
  roll-up, and form-to-payload conversion and form checks.

How the outside world appears in the model:

- A store read is an input sequence (or `None` when the query failed), and
  the model applies the query's `eq`/`in`/`gte`/`lte`/`order`/`range`
  itself. A write is an output value or a new `Store` value.
- The current time is a parameter `now`. Instants are a civil date plus
  milliseconds of the day, and local time is taken to be UTC, so
  `setDate(getDate() - k)` is exactly `k` days and `setHours(h - 1)` is one
  hour.
- `new Date(text)` is a parameter `parseDate`. It returns `None` for an
  Invalid Date, and `toISOString` then throws, which the model turns into
  a 500 reply.
- A thrown error is a `Result` failure carrying the error's message. The
  auth helpers' outcome is passed to each handler as its `gate`.
- JSON values are the `Js.JVal` datatype. An object is a list of
  key/value pairs, and a lookup finds the last binding. JavaScript
  truthiness, `String(v)` and `parseInt` (with leading blanks, a sign and
  `0x`) are modelled in `js.dfy` and `text.dfy`.
- `Array.prototype.sort` is stable and is given consistent comparators, so
  it is modelled by a stable insertion sort (`Sorting.Sort`).
  `localeCompare` and `<` on strings are modelled as order by Unicode code
  point (`Text.StrLt`). A Dafny string is a sequence of Unicode scalar
  values, so the model's `|s|` counts characters. Where the code compares a
  JavaScript `.length`, which counts UTF-16 code units, the model uses
  `Text.Utf16Length`.
- `Object.keys` lists array-index keys first, in numeric order, and the
  other keys after them in insertion order (`Js.ObjectKeys`). An array or a
  string has its indices as keys and answers `length` (`Js.OwnKeys`,
  `Js.Prop`).

One module per source file, plus shared modules: `Wrappers`, `Js`, `Text`,
`Seqs`, `Sorting`, `Grouping` (first-appearance tallies and `groupBy`),
`Civil` (calendar, epoch milliseconds, ISO weeks), `Csv` (cell quoting and a
reader used to state round trips), `Pagination` and `DateKeys`.

Where the code differs from what its comments or its usual description
suggest, the model follows the code:

- `getAllTags` adds every tag of every array, so an empty-string tag appears
  in the pick list. Only salesperson names must be truthy
  (src/app/analyses/page.tsx:86-95).
- The analyses POST defaults `analyzed_by` to 'manual' only when it is
  absent. An explicit `null` is stored as `null`
  (src/app/api/analyses/route.ts:22).
- Salesperson entries in the analysis statistics that have no scores keep
  their `scores: []` array and `avgScore: 0`
  (src/app/api/analyses/stats/route.ts:87-94).
- The users page's search box says "email or name", but the route searches
  the email only (src/app/api/admin/users/route.ts:34-37).
- The users page's pager buttons are at src/app/admin/users/page.tsx:755-773.
  The filter handlers that reset the page are at lines 343-389.

## Model

| member | source | states |
|---|---|---|
| Civil.IsoWeek | src/app/api/admin/activity/user-stats/route.ts:199-202 | the day of the year of the week's Thursday, divided by 7 and rounded up, is always between 1 and 53 when 1 January of the Thursday's own year is the start |
| Civil.UtcFields | src/app/api/admin/activity/user-stats/route.ts:198 | `Date.UTC` of a date's fields is the date itself, except that years 0 to 99 become 1900 to 1999, with 29 February moving to 1 March when that year is not a leap year |
| Civil.GetIsoWeek | src/app/api/admin/activity/user-stats/route.ts:197-203 | the week is between 1 and 53 exactly when the week's Thursday, found from the date `Date.UTC` makes, is not in the years 0 to 99; then it is that date's ISO week. Otherwise `yearStart` (line 201) is 1 January of 1900 + y and the week is negative |
| Civil.GetIsoWeekIsIsoWeek | src/app/api/admin/activity/user-stats/route.ts:197-203 | for a year from 101 on or from -2 down, `getISOWeek` is the date's ISO week |
| Civil.GetIsoWeekYearHundred | src/app/api/admin/activity/user-stats/route.ts:197-203 | 0100-01-01 is in ISO week 53, but its Thursday 0099-12-31 is measured from 1999-01-01 and `getISOWeek` gives -99085 |
| Civil.GetIsoWeekCenturyShift | src/app/api/admin/activity/user-stats/route.ts:197-203 | 0006-01-01 is in ISO week 52, but `getISOWeek` gives 1, the week of 1906-01-01 |
| Civil.IsoWeekMatchesDefinition | src/app/api/admin/activity/user-stats/route.ts:197-203 | the date lies in the week-numbering year whose week 1 starts on the Monday of the week holding 4 January, and its number is the count of whole weeks since that Monday plus one (ISO 8601 week date) |
| Civil.Jan4InWeekOne | src/app/api/admin/activity/user-stats/route.ts:197-203 | 4 January is always in week 1 of its own year |
| Civil.NextDaySameWeek | src/app/api/admin/activity/user-stats/route.ts:197-203 | from Monday to Saturday the next day has the same week number |
| Civil.NextDayNewWeek | src/app/api/admin/activity/user-stats/route.ts:197-203 | after a Sunday the week number goes up by one or restarts at 1 |
| Civil.IsoWeekExampleMonday | src/app/api/admin/activity/user-stats/route.ts:197-203 | 2024-01-01 is in week 1 of 2024 |
| Civil.IsoWeekExampleNewYear | src/app/api/admin/activity/user-stats/route.ts:197-203 | 2024-12-31 is in week 1 of 2025 |
| Civil.IsoWeekExampleOldYear | src/app/api/admin/activity/user-stats/route.ts:197-203 | 2021-01-01 is in week 53 of 2020 |
| Civil.MinusDays | src/app/api/admin/activity/user-stats/route.ts:31-35 | going back k days moves the instant exactly k·86400000 ms earlier |
| Civil.MinusHour | src/app/api/admin/activity/anomalies/route.ts:116-117 | going back one hour moves the instant exactly 3600000 ms earlier |
| Civil.MinusMonths | src/app/api/admin/activity/user-stats/route.ts:37-39 | going back months always gives a valid date |
| Civil.MinusMonthsKeepsDay | src/app/api/admin/activity/user-stats/route.ts:37-39 | for a day of month up to 28, going back k months keeps the day and lowers the month count by k |
| Civil.MinusYear | src/app/api/admin/activity/user-stats/route.ts:40-42 | going back a year keeps month and day, except that 29 February becomes 1 March |
| DateKeys.FormatDateByDimension | src/app/api/admin/activity/user-stats/route.ts:175-194 | every key begins with the calendar year's digits |
| DateKeys.DayKeyRoundTrip | src/app/api/admin/activity/user-stats/route.ts:176-182 | a day key `YYYY-MM-DD` reads back as the same date |
| DateKeys.MonthKeyRoundTrip | src/app/api/admin/activity/user-stats/route.ts:176-188 | a month key `YYYY-MM` reads back as the year and month |
| DateKeys.MonthKeyPrefix | src/app/api/admin/activity/user-stats/route.ts:176-188 | the day key is the month key followed by `-` and the two-digit day |
| DateKeys.FormatDateDimensions | src/app/api/admin/activity/user-stats/route.ts:180-193 | month and year keys read back as their fields, and any dimension other than week, month or year gives the day key |
| DateKeys.KeyWidths | src/app/api/admin/activity/user-stats/route.ts:176-193 | for four-digit years the day, month, week and year keys have 10, 7, 8 and 4 characters |
| DateKeys.WeekKeyYearHundred | src/app/api/admin/activity/user-stats/route.ts:183-186 | 0100-01-01 gets the week key `100-W-99085` |
| DateKeys.DayKeyOrder | src/app/api/admin/activity/user-stats/route.ts:126-132 | day keys compare as text exactly as their dates compare in time, so sorting by key sorts by date |
| DateKeys.WeekKeyMergesYearEnds | src/app/api/admin/activity/user-stats/route.ts:183-186 | 2024-01-01 (week 1 of 2024) and 2024-12-31 (week 1 of 2025) get the same week key, because the key uses the calendar year |
| DateKeys.UtcDayKeyOrder | src/app/api/admin/activity/stats/route.ts:66-68 | the UTC day text of `toISOString` orders as the dates do, and two dates have the same text only if they are equal |
| DateKeys.UtcDayKeyMonotone | src/app/api/admin/activity/stats/route.ts:57-68 | a later instant never has an earlier UTC day text |
| DateKeys.BucketLabel | src/components/admin/BusinessUsagePanel.tsx:70-86 | a year key is shown as the key followed by 年 |
| DateKeys.WeekLabel | src/components/admin/BusinessUsagePanel.tsx:71-74 | a week key renders as `Y年第N週`, with N the `getISOWeek` number without leading zeros, a negative number keeping its sign |
| DateKeys.MonthLabel | src/components/admin/BusinessUsagePanel.tsx:75-78 | a month key renders as `Y年M月`, with M the month without a leading zero |
| UsageStats.DefaultStart | src/app/api/admin/activity/user-stats/route.ts:26-45 | without dates, the start is now minus 7 days, 28 days, 6 months or 1 year for day, week, month and year, else minus 30 days |
| UsageStats.QueryRange | src/app/api/admin/activity/user-stats/route.ts:16-46 | both dates given: they are parsed; otherwise the range is the dimension's default up to now |
| UsageStats.FindPoint | src/app/api/admin/activity/user-stats/route.ts:110-112 | a found bucket has the key, and a missing one means no bucket has it |
| UsageStats.BumpTallies | src/app/api/admin/activity/user-stats/route.ts:108-123 | adding one login or action key keeps every bucket's counts equal to the number of keys it holds, keeps keys distinct and keeps the sums equal to the numbers of rows |
| UsageStats.AddAllTallies | src/app/api/admin/activity/user-stats/route.ts:108-123 | adding a whole list of keys keeps the same invariant |
| UsageStats.SortTallies | src/app/api/admin/activity/user-stats/route.ts:126-132 | sorting the buckets by key keeps the invariant |
| UsageStats.TimelineFacts | src/app/api/admin/activity/user-stats/route.ts:104-132 | the timeline has one bucket per distinct key, strictly ascending by key, each counting the logins and actions with its key, and the counts add up to the numbers of logins and actions |
| UsageStats.UserStatsFacts | src/app/api/admin/activity/user-stats/route.ts:91-143 | an entry copies the profile's id, email and last times, uses the name or else the email, counts exactly that salesperson's rows, and its timeline sums to those counts in ascending key order |
| UsageStats.IdleSalesperson | src/app/api/admin/activity/user-stats/route.ts:97-102 | a salesperson without rows in range still gets an entry, with zero counts and an empty timeline |
| UsageStats.LoggedInLaterOrder | src/app/api/admin/activity/user-stats/route.ts:145-153 | the result comparator is a strict weak order |
| UsageStats.UserStatsGet | src/app/api/admin/activity/user-stats/route.ts:6-171 | a failed admin gate gives 403 or 500 by its message; no salespersons gives an empty 200 before any date is used; an Invalid Date gives 500; otherwise the data is a permutation of one entry per wanted salesperson, a failed log query counting as no rows |
| UsageStats.UserStatsOrdered | src/app/api/admin/activity/user-stats/route.ts:145-153 | users with a last login come before users without, and among them the latest login comes first |
| UsageStats.AtMostOneWanted | src/app/api/admin/activity/user-stats/route.ts:91-92 | with `user_id` given and distinct ids, at most one salesperson passes the filter |
| UsageStats.OnlyRequestedUser | src/app/api/admin/activity/user-stats/route.ts:55-65 | with `user_id` given, every entry is that user's, there is at most one, and there is one exactly when the id is a salesperson's |
| Anomalies.Window | src/app/api/admin/activity/anomalies/route.ts:16-22 | each missing bound defaults on its own: the end to now and the start to now minus 30 days |
| Anomalies.RowPairs | src/app/api/admin/activity/anomalies/route.ts:58-65 | the inner loop yields exactly the later sessions concurrent with session i, in index order |
| Anomalies.PairsFrom | src/app/api/admin/activity/anomalies/route.ts:57-65 | the loops from row i on yield exactly the concurrent pairs i ≤ a < b, in loop order |
| Anomalies.Pairs | src/app/api/admin/activity/anomalies/route.ts:57-65 | exactly the index pairs a < b whose logins are less than 300000 ms apart from different addresses, each unordered pair once, in loop order |
| Anomalies.MultiLogin | src/app/api/admin/activity/anomalies/route.ts:66-89 | the anomaly is `multiple_logins`, medium, for the user, detected at the later of the two login times |
| Anomalies.UserMultiLogins | src/app/api/admin/activity/anomalies/route.ts:55-93 | one anomaly per qualifying pair, in pair order |
| Anomalies.MultiLoginsOfUser | src/app/api/admin/activity/anomalies/route.ts:44-93 | a user's multiple-login anomalies are exactly those computed from that user's sessions alone |
| Anomalies.FrequentLogin | src/app/api/admin/activity/anomalies/route.ts:114-139 | an anomaly exists iff more than 5 logins are at or after now minus one hour; it is `frequent_login`, low, carries that count and is detected at one of those logins |
| Anomalies.FrequentLoginNewest | src/app/api/admin/activity/anomalies/route.ts:97-133 | with the logins newest first, the detection time is the newest recent login |
| Anomalies.UserLoginsNewestFirst | src/app/api/admin/activity/anomalies/route.ts:97-112 | each user's logins from the query are newest first |
| Anomalies.FrequentLoginsOfUser | src/app/api/admin/activity/anomalies/route.ts:105-140 | each user gets at most one frequent-login anomaly, computed from that user's logins |
| Anomalies.Inactive | src/app/api/admin/activity/anomalies/route.ts:154-172 | the anomaly is `inactive`, low, detected now, and its day count is the elapsed milliseconds divided by 86400000, rounded down |
| Anomalies.Inactives | src/app/api/admin/activity/anomalies/route.ts:143-175 | exactly the salespersons without a last login created strictly before now minus 30 days are reported |
| Anomalies.InactiveAge | src/app/api/admin/activity/anomalies/route.ts:151-170 | a reported account is at least 30 days old |
| Anomalies.DetectedLaterOrder | src/app/api/admin/activity/anomalies/route.ts:177-180 | the detection-time comparator is a strict weak order |
| Anomalies.AnomaliesGet | src/app/api/admin/activity/anomalies/route.ts:6-198 | a failed admin gate gives 403 or 500; 200 exactly when both bounds are valid dates; the data is a permutation of the three rules' findings, and a failed sub-query contributes nothing |
| Anomalies.AnomaliesNewestFirst | src/app/api/admin/activity/anomalies/route.ts:177-180 | the report is ordered by detection time, newest first |
| Anomalies.AnomaliesStable | src/app/api/admin/activity/anomalies/route.ts:177-180 | anomalies detected at the same instant keep the order in which the rules found them |
| DashboardStats.StartDate | src/app/api/admin/activity/stats/route.ts:15-28 | with both dates, the start date is parsed; otherwise it is now minus `days` (30 when absent), and it is invalid exactly when `days` is not a number or the result lies more than 8.64e15 ms from the epoch |
| DashboardStats.DefaultThirtyDays | src/app/api/admin/activity/stats/route.ts:25-27 | without dates or `days`, the start is exactly 30 days before now, valid iff that time is within a `Date`'s range |
| DashboardStats.HugeDaysInvalid | src/app/api/admin/activity/stats/route.ts:25-34 | `days=200000000` from any valid time since 1970 gives an Invalid Date and a 500 reply |
| DashboardStats.CountOf | src/app/api/admin/activity/stats/route.ts:30-43 | a count is the number of matching rows, and a failed count is 0 |
| DashboardStats.TodayStart | src/app/api/admin/activity/stats/route.ts:37-38 | today's start is midnight of now's date, at most one day before now |
| DashboardStats.ActiveUsers | src/app/api/admin/activity/stats/route.ts:45-54 | the active-user count is 0 for a failed query and never exceeds the number of rows |
| DashboardStats.ActiveUsersDistinct | src/app/api/admin/activity/stats/route.ts:45-54 | active users are the distinct user ids among rows since both now minus 7 days and the start |
| DashboardStats.ActiveUsersRepeat | src/app/api/admin/activity/stats/route.ts:54 | repeating a row does not change the active-user count |
| DashboardStats.LoginTrendCounts | src/app/api/admin/activity/stats/route.ts:56-69 | the trend has one entry per UTC day with its login count, and the counts add up to the number of logins since the start |
| DashboardStats.LoginTrendAscending | src/app/api/admin/activity/stats/route.ts:57-69 | because the query is oldest first, the trend's days ascend |
| DashboardStats.CountersOfUser | src/app/api/admin/activity/stats/route.ts:77-89 | each user has at most one counter, present iff the user has rows; its count is the user's row count and its name equals its email |
| DashboardStats.TopUsersOrdered | src/app/api/admin/activity/stats/route.ts:91-97 | at most 10 users, with non-increasing counts |
| DashboardStats.TopUsersBest | src/app/api/admin/activity/stats/route.ts:91-97 | no user left out has a higher count than a user kept |
| DashboardStats.Recent | src/app/api/admin/activity/stats/route.ts:99-109 | at most 20 recent activities, and none for a failed query |
| DashboardStats.RecentNewestFirst | src/app/api/admin/activity/stats/route.ts:99-109 | recent activities are newest first |
| DashboardStats.Compute | src/app/api/admin/activity/stats/route.ts:111-123 | the response holds at most 10 top users and 20 recent activities |
| DashboardStats.DashboardGet | src/app/api/admin/activity/stats/route.ts:6-137 | a failed admin gate gives 403 or 500; 200 with data exactly when the start date is valid, and 500 without data when it is invalid |
| DashboardStats.EndDateIgnored | src/app/api/admin/activity/stats/route.ts:18-28 | changing a given `end_date` never changes the reply |
| AnalysisStats.MeanFacts | src/app/api/analyses/stats/route.ts:47-53 | the mean times the number of scores is their sum, and the mean lies within any bounds that hold every score |
| AnalysisStats.Scores | src/app/api/analyses/stats/route.ts:48-50 | the scores are the non-null scores, one per scored row, in row order |
| AnalysisStats.Bucket | src/app/api/analyses/stats/route.ts:63-69 | each score falls in exactly one of five buckets: ≤20, then each next 20, then >80 |
| AnalysisStats.DistributionCounts | src/app/api/analyses/stats/route.ts:55-69 | each bucket counts the scores that fall in it |
| AnalysisStats.DistributionSum | src/app/api/analyses/stats/route.ts:55-69 | the bucket counts add up to the number of scores |
| AnalysisStats.Histogram | src/app/api/analyses/stats/route.ts:55-62 | five entries named `0-20` … `81-100`, with the distribution's counts |
| AnalysisStats.ToStat | src/app/api/analyses/stats/route.ts:87-94 | a salesperson's entry has the group's name and size, and its mean score (0 when none) |
| AnalysisStats.SalespersonStatsFacts | src/app/api/analyses/stats/route.ts:71-94 | one entry per distinct name (null as 未指定) in first-appearance order, each counting that name's rows, with the mean of its scores; the counts add up to the total |
| AnalysisStats.TagStatsCounts | src/app/api/analyses/stats/route.ts:96-104 | the tag counts are a first-appearance tally of every tag occurrence, adding up to the number of occurrences |
| AnalysisStats.AllTagsCount | src/app/api/analyses/stats/route.ts:96-104 | a tag's count is the sum over rows of its occurrences in that row's array |
| AnalysisStats.ComputeParts | src/app/api/analyses/stats/route.ts:55-120 | each bucket counts its scores; salesperson entries are the distinct names in first-appearance order with their row count and mean score; the tag stats are the tally of all tags; the 7-day count is at most the 30-day count, which is at most the row count |
| AnalysisStats.Compute | src/app/api/analyses/stats/route.ts:30-133 | no rows give all zeros and no `recent30Count`; otherwise the total is the row count, the average times the number of scores is their sum (0 without scores), the five buckets count their scores, each salesperson entry has its name's row count and mean, the tag stats tally every tag, and the recent counts are the rows since 7 and 30 days ago |
| AnalysisStats.EmptyStats | src/app/api/analyses/stats/route.ts:30-42 | an empty table gives zeros, empty maps and no `recent30Count` |
| AnalysisStats.RecentCounts | src/app/api/analyses/stats/route.ts:106-120 | the 7-day count is at most the 30-day count, which is at most the total |
| AnalysisStats.AnalysisStatsGet | src/app/api/analyses/stats/route.ts:6-140 | without a user 401; a failed read 400 with its message; otherwise 200 whose body is exactly the statistics of the table as Compute states them |
| Analyses.ColumnValue | src/app/api/analyses/route.ts:9-50 | optional columns store the value or null when falsy; `analysis_text` is stored as sent; `analyzed_by` defaults to 'manual' only when absent |
| Analyses.Record | src/app/api/analyses/route.ts:36-50 | the insert row has exactly the thirteen columns in order, each with its column value |
| Analyses.RecordColumns | src/app/api/analyses/route.ts:36-50 | looking a column up in the insert row gives its column value |
| Analyses.FalsyBecomesNull | src/app/api/analyses/route.ts:37-48 | an optional field of 0 or '' is stored as null, so score 0 becomes null |
| Analyses.AnalysesPost | src/app/api/analyses/route.ts:5-70 | a row is inserted iff `analysis_text` is truthy; otherwise 400 with nothing stored; the insert's failure gives 400, its success 201 |
| Text.FilledOnly | src/app/api/analyses/route.ts:92-100 | an equality filter is applied exactly when its parameter is non-empty, with the parameter itself; the activity listing uses the same rule (src/app/api/admin/activity/route.ts:160-174) |
| Analyses.BoundFilter | src/app/api/analyses/route.ts:101-106 | a score bound is applied exactly when given, with the `parseInt` of its text |
| Analyses.OffsetRange | src/app/api/analyses/route.ts:82-89 | the requested rows start at the offset and number `limit` |
| Analyses.DefaultListRange | src/app/api/analyses/route.ts:82-89 | without limit and offset, rows 0 to 999 are requested |
| Analyses.TagFilter | src/app/api/analyses/route.ts:117-128 | with no wanted tags all rows are kept; otherwise a row is kept iff its tags array holds a wanted tag; the result is never longer than the rows |
| Analyses.BlankTagsKeepAll | src/app/api/analyses/route.ts:119-121 | a `tags` text of only commas and spaces filters nothing |
| Analyses.AnalysesGet | src/app/api/analyses/route.ts:73-134 | a failed query gives 400 with its message; otherwise 200 with the tag-filtered rows and `count` equal to their number |
| Batch.UpdateValue | src/app/api/analyses/batch/route.ts:49-60 | score '' becomes null and any other score its `parseInt` (NaN as null); the other fields store the value or null when falsy |
| Batch.UpdateDataColumns | src/app/api/analyses/batch/route.ts:47-60 | the update holds a column iff it is one of salesperson_name, tags, score, customer_name and is defined in `fields`, with its update value |
| Batch.ScoreValue | src/app/api/analyses/batch/route.ts:55-57 | a numeric score is stored unchanged and '' as null |
| Batch.Answer | src/app/api/analyses/batch/route.ts:24-35 | a store error gives 400 with its message; success gives 200 with a message reporting the number of ids |
| Batch.BatchPost | src/app/api/analyses/batch/route.ts:5-92 | ids must be a non-empty array before anything else; a delete happens iff action is 'delete'; an update iff action is 'update' with a truthy object `fields`, writing exactly the whitelisted columns; every other rejection is 400 |
| Batch.ArrayFieldsUpdateNothing | src/app/api/analyses/batch/route.ts:40-60 | an array passes the `fields` check but selects no columns |
| Activity.ClientIp | src/app/api/admin/activity/route.ts:29-32 | the address is x-forwarded-for, else x-real-ip, else 'unknown', and never empty |
| Activity.LogRecord | src/app/api/admin/activity/route.ts:74-96 | the record has at least the four base columns |
| Activity.LogRecordColumns | src/app/api/admin/activity/route.ts:74-96 | user_id is always the caller's id, ip_address the client address, activity_type as sent, user_agent the sent value or ''; page_path, action and metadata are present iff sent non-null |
| Activity.LatestActive | src/app/api/admin/activity/route.ts:56-65 | finds the caller's active session with the latest login, or none when the caller has no active session |
| Activity.CloseLatest | src/app/api/admin/activity/route.ts:54-66 | closing keeps the number of sessions |
| Activity.CloseLatestEffect | src/app/api/admin/activity/route.ts:54-66 | logout marks exactly the latest active session inactive with logout time now, leaves every other session alone, and lowers the caller's active count by one |
| Activity.ActivityPost | src/app/api/admin/activity/route.ts:6-123 | no user 401; no activity_type 400; a log row is appended iff the insert succeeds, and the reply is 200 exactly then; a login appends an active session and a logout closes the latest one, and a session error never blocks the log |
| Activity.SessionWriteKept | src/app/api/admin/activity/route.ts:34-51 | a failed log insert after a login keeps the new session and answers 400 |
| Activity.OrDefault | src/app/api/admin/activity/route.ts:139-143 | an empty or missing parameter takes its default |
| Activity.DefaultListing | src/app/api/admin/activity/route.ts:139-157 | without parameters: sorted by created_at descending, rows 0 to 49 |
| Activity.AscendingOnlyForAsc | src/app/api/admin/activity/route.ts:156 | the order is ascending exactly when `sort_order` is 'asc' |
| Activity.ActivityGet | src/app/api/admin/activity/route.ts:126-209 | a failed gate gives 403 or 500; a failed query 400; otherwise 200 with the rows and page, limit, total (0 when null) and the page count |
| Activity.GateFailuresForbidden | src/app/api/admin/activity/route.ts:196-202 | both 'Unauthorized' and the admin-required message give 403 |
| Pagination.IntParam | src/app/api/admin/activity/route.ts:139-140 | a missing or empty parameter parses its default, otherwise its own text |
| Pagination.DefaultPage | src/app/api/admin/activity/route.ts:139 | the default page is 1 |
| Pagination.DefaultLimit | src/app/api/admin/activity/route.ts:140 | the default limit is 50 |
| Pagination.RequestedRange | src/app/api/admin/activity/route.ts:141-157 | the range starts at (page−1)·limit and holds `limit` rows |
| Pagination.PageRows | src/app/api/admin/activity/route.ts:141-157 | page p requests rows (p−1)·limit to p·limit−1 |
| Pagination.Window | src/app/api/admin/activity/route.ts:157 | a range returns the rows from its start up to its end or the table's end, and none past the end |
| Pagination.CeilDivBounds | src/app/api/admin/activity/route.ts:193 | the page count is the least whole number of pages that holds all rows |
| Pagination.TotalPages | src/app/api/admin/activity/route.ts:193 | for a positive limit the pages hold all rows and one page fewer would not; 0 rows give 0 pages |
| Pagination.Total | src/app/api/admin/activity/route.ts:192 | a null count is reported as 0 |
| Pagination.PageInfoOf | src/app/api/admin/users/route.ts:49-57 | the pagination block echoes page and limit with their defaults, the total, and its page count |
| Pagination.PagesCoverRows | src/app/api/admin/users/route.ts:16-57 | the pages 1 to totalPages together return every row in order |
| Pagination.PageAfterLastEmpty | src/app/api/admin/users/route.ts:16-57 | a page past totalPages returns no rows |
| Users.ActiveFilter | src/app/api/admin/users/route.ts:31-33 | the is_active filter applies whenever the parameter is present, true exactly for 'true' |
| Users.ListQuery | src/app/api/admin/users/route.ts:13-37 | the role filter applies when non-empty, the email pattern is `%search%` when search is non-empty, and the range follows page and limit |
| Users.SearchSelects | src/app/api/admin/users/route.ts:28-37 | a profile is selected iff it matches the role and active filters and its email contains the search text ignoring case; the name plays no part |
| Users.SearchIgnoresCase | src/app/api/admin/users/route.ts:34-37 | the search matches an email holding the text in any letter case |
| Users.DefaultUserListing | src/app/api/admin/users/route.ts:16-25 | without page and limit, rows 0 to 49 are requested |
| Users.UsersGet | src/app/api/admin/users/route.ts:6-72 | a failed gate gives 403 or 500; a missing admin configuration 500 'Internal server error'; a failed query 400; 200 with the rows and the pagination block exactly when gate, configuration and query all succeed |
| Users.FormOf | src/app/api/admin/users/route.ts:81 | role defaults to 'salesperson' and is_active to true only when absent |
| Users.Merged | src/app/api/admin/users/route.ts:139-148 | the reply prefers the stored profile's name and role when truthy and its is_active when not null, and falls back to the request |
| Users.UsersPost | src/app/api/admin/users/route.ts:75-163 | a failed gate gives 403 or 500; missing email or password 400 before any call; then a missing admin configuration 500; a failed creation 400; no user 500; otherwise the profile is updated and 200 returns the merged data, whatever the update did |
| AdminClient.CreateAdminClient | src/lib/supabase-admin.ts:5-19 | a client is made iff both the URL and the service-role key are non-empty, and then with those values; otherwise the error carries the missing-variables message |
| AdminClient.MissingAdminEnvStatus | src/lib/supabase-admin.ts:9-11 | the missing-variables message holds no 'Forbidden', so the admin routes answer it with 500 'Internal server error' |
| Users.CreateDefaults | src/app/api/admin/users/route.ts:81-124 | with only email and password, the profile gets name = email, role 'salesperson' and is_active true |
| Users.StoredProfileWins | src/app/api/admin/users/route.ts:144-146 | stored profile values win over the request |
| Upload.Extension | src/app/api/upload/route.ts:74 | the extension contains no dot |
| Upload.ExtensionOf | src/app/api/upload/route.ts:74 | the extension is the text after the last dot |
| Upload.ExtensionWithoutDot | src/app/api/upload/route.ts:74 | a name without a dot is its own extension |
| Upload.StoredName | src/app/api/upload/route.ts:71-75 | the stored name is `<timestamp>_<random>.<ext>` and has the original's extension |
| Upload.UploadPost | src/app/api/upload/route.ts:20-164 | missing configuration 500 first; a body that is not form data 500 with its error; no entry or an empty text 400; a non-empty text entry 500 from the failed `file.name.split`; then too large and empty files each 400 in that order; an upload happens iff a file's size is in 1..104857600 and the bucket exists; 200 echoes the name and size |
| Upload.SizeBounds | src/app/api/upload/route.ts:54-69 | with configuration and bucket, a file is uploaded iff its size is between 1 and 104857600 |
| Auth.ProjectRefOfProjectUrl | src/lib/auth-server.ts:16-17 | the project ref of `http(s)://<ref>.supabase.co…` is the host label |
| Auth.ProjectRefWithoutSuffix | src/lib/auth-server.ts:16-17 | a URL without `.supabase.co` gives the empty ref |
| Auth.CookieValue | src/lib/auth-server.ts:24-25 | a cookie value is found iff a cookie has the name, and it is that cookie's value |
| Auth.CookieToken | src/lib/auth-server.ts:34-40 | a cookie that is not JSON yields its raw value |
| Auth.FirstYield | src/lib/auth-server.ts:29-43 | the scan stops at the first token cookie that yields a truthy token |
| Auth.ScanCookies | src/lib/auth-server.ts:28-44 | the scanned token is truthy, and none is found iff no cookie yields one |
| Auth.AccessToken | src/lib/auth-server.ts:20-44 | a token found is truthy |
| Auth.StandardCookieFirst | src/lib/auth-server.ts:22-29 | a non-empty `sb-<ref>-auth-token` cookie wins over every other cookie |
| Auth.NoProjectRefScans | src/lib/auth-server.ts:16-44 | without a project ref, the token comes from the cookie scan |
| Auth.CreateServerClient | src/lib/auth-server.ts:5-58 | missing configuration fails; otherwise the client has the configured URL and key, and a `Bearer` header exactly when a token was found |
| Auth.UserRecord | src/lib/auth-server.ts:69-81 | role is the profile's or 'salesperson', name the profile's or the email |
| Auth.GetCurrentUser | src/lib/auth-server.ts:61-82 | no user iff the provider reports an error or no user; otherwise the user record from the profile |
| Auth.RequireAuth | src/lib/auth-server.ts:85-91 | fails with 'Unauthorized' exactly when there is no current user, otherwise returns it |
| Auth.RequireAdmin | src/lib/auth-server.ts:94-100 | succeeds iff the user's role is 'admin', returning the user unchanged; a non-admin fails with the admin-required message |
| Auth.AdminErrorStatus | src/app/api/admin/activity/route.ts:196-207 | 'Unauthorized' and any message containing 'Forbidden' give 403; everything else 500 |
| Auth.AdminErrorMessage | src/app/api/admin/activity/route.ts:196-207 | 403 carries the admin-access text and 500 'Internal server error' |
| Auth.MissingEnvStatus | src/lib/auth-server.ts:9-11 | a missing configuration error gives 500 |
| Auth.AdminRequiredStatus | src/lib/auth-server.ts:96-98 | a non-admin gives 403 |
| Auth.AdminGateMessage | src/lib/auth-server.ts:85-100 | a failed admin gate carries 'Unauthorized' or the admin-required message when configured, the configuration error otherwise |
| Auth.AdminGateStatus | src/lib/auth-server.ts:85-100 | a failed admin gate is answered 403 exactly when the configuration is present |
| AnalysesPage.BeforeOrder | src/app/analyses/page.tsx:157-185 | each sort comparator is a strict weak order |
| AnalysesPage.SortAnalyses | src/app/analyses/page.tsx:155-188 | the result is a permutation of the input, ordered by the chosen key, with null score as −1 and null names as '' |
| AnalysesPage.SortAnalysesStable | src/app/analyses/page.tsx:157-185 | rows with equal keys keep their order |
| AnalysesPage.NextSort | src/app/analyses/page.tsx:191-197 | choosing the current field flips the order; another field is selected descending |
| AnalysesPage.NextSortTwice | src/app/analyses/page.tsx:192-193 | choosing the current field twice restores the state |
| AnalysesPage.SortChange | src/app/analyses/page.tsx:191-201 | the state moves on, but the list is a permutation sorted by the old state |
| AnalysesPage.SortChangeStale | src/app/analyses/page.tsx:191-201 | from the opening state, clicking "score" leaves a lower score before a higher one under "score descending" |
| AnalysesPage.SortChangeIntended | src/app/analyses/page.tsx:191-201 | the corrected change sorts the list by the new state |
| AnalysesPage.SortedDistinct | src/app/analyses/page.tsx:75-95 | `Array.from(new Set(..)).sort()` gives a strictly ascending list of exactly the values |
| AnalysesPage.AllSalespersons | src/app/analyses/page.tsx:75-84 | strictly ascending, holding exactly the non-empty salesperson names present |
| AnalysesPage.AllTags | src/app/analyses/page.tsx:86-95 | strictly ascending, holding exactly the tags present in any tags array |
| AnalysesPage.SelectOne | src/app/analyses/page.tsx:214-223 | checking adds the id and unchecking removes it; everything else stays and nothing repeats |
| AnalysesPage.SelectAll | src/app/analyses/page.tsx:204-212 | select-all holds exactly the shown ids, without repeats; clearing empties it |
| AnalysesPage.SelectOneUndo | src/app/analyses/page.tsx:214-223 | checking then unchecking a new id restores the selection |
| AnalysesPage.Flatten | src/app/analyses/page.tsx:422-424 | the text keeps its length and has no newline or comma left |
| AnalysesPage.NoCommas | src/app/analyses/page.tsx:425 | the notes keep their length and have no comma left |
| AnalysesPage.Cells | src/app/analyses/page.tsx:415-430 | each row has as many cells as the header |
| AnalysesPage.CellsContents | src/app/analyses/page.tsx:415-430 | date, score, method and id cells are as formatted, and the text columns hold no newline or comma |
| AnalysesPage.ExportCsv | src/app/analyses/page.tsx:392-396 | nothing is exported exactly when no analysis is shown |
| AnalysesPage.ExportReadsBack | src/app/analyses/page.tsx:433-445 | the CSV reads back as the 12-column header followed by each analysis's cells |
| AnalysesPage.EditFields | src/app/analyses/page.tsx:265-282 | the payload is empty exactly when every form field is empty |
| AnalysesPage.EditFieldsLookup | src/app/analyses/page.tsx:265-277 | a field is in the payload iff non-empty, tags as a trimmed non-empty list |
| AnalysesPage.BatchEditRequest | src/app/analyses/page.tsx:262-295 | a request is sent iff ids are selected and the payload is non-empty |
| AnalysesPage.BatchDeleteRequest | src/app/analyses/page.tsx:226-243 | a request is sent iff ids are selected and the deletion is confirmed |
| AnalysesPage.BatchEditUpdates | src/app/analyses/page.tsx:262-295 | the route updates the selected ids, writing exactly the filled whitelisted fields, a filled score as its `parseInt` |
| AnalysesPage.EditColumn | src/app/analyses/page.tsx:265-277 | the route's whitelist keeps exactly the filled fields of the form |
| AnalysesPage.BatchEditWrite | src/app/analyses/page.tsx:284-295 | the page's request makes the route update the selected ids |
| AnalysesPage.BatchDeleteDeletes | src/app/analyses/page.tsx:233-243 | a confirmed delete request makes the route delete exactly the selected ids |
| Csv.EscapeCell | src/app/analyses/page.tsx:438-442 | a cell without comma, quote or newline is unchanged; otherwise it is wrapped in quotes (RFC 4180 section 2, rules 6 and 7) |
| Csv.ReadEscapedCell | src/app/analyses/page.tsx:438-442 | an escaped cell reads back as the original text |
| Csv.PlainLine | src/app/analyses/page.tsx:434 | cells needing no quotes form the same line as a plain comma join |
| Csv.DocumentRoundTrip | src/app/analyses/page.tsx:433-445 | lines of escaped cells joined by newlines read back as the rows |
| Csv.TableReadsBack | src/app/admin/activity/page.tsx:119-130 | a plain header followed by escaped rows reads back as header and rows |
| ExportButton.Terminated | src/components/admin/ExportButton.tsx:29-44 | every line, the last one too, ends with a newline |
| Js.IndexKeyOf | src/components/admin/ExportButton.tsx:28 | the decimal text of every number up to 2^32−2 is an array-index key, and its value is that number |
| Js.ObjectKeysBound | src/components/admin/ExportButton.tsx:28 | `Object.keys` of an object has no repeats, and a key is listed iff the object binds it |
| Js.ObjectKeysOrder | src/components/admin/ExportButton.tsx:28 | `Object.keys` lists array-index keys first, in ascending numeric order, then the other keys in first-appearance order |
| Js.ObjectKeysExample | src/components/admin/ExportButton.tsx:28 | `Object.keys({b: 1, 2: 2})` is `["2", "b"]` |
| Js.IndexKeysBound | src/components/admin/ExportButton.tsx:28 | the index keys of a length are `"0"` to its predecessor, without repeats, and a key is among them iff it is an index below the length |
| Js.OwnKeysFacts | src/components/admin/ExportButton.tsx:28 | the keys of an object are its bound names, of an array or string its indices, of anything else none; no repeats, and indices first |
| Js.IndexKeysRead | src/components/admin/ExportButton.tsx:28-42 | reading an index key of an array gives its element, of a string the one-character string |
| Js.Prop | src/components/admin/ExportButton.tsx:34 | `row[key]`: an object gives its last binding of the key; an array's `length` is its element count and a string's its UTF-16 length; other keys of arrays and strings that are not indices, and every key of a number, boolean or null, give undefined |
| ExportButton.CellText | src/components/admin/ExportButton.tsx:34-41 | null and undefined become '', other values their `String` text |
| ExportButton.RowTexts | src/components/admin/ExportButton.tsx:32-43 | a row has one cell per header key, in header order, each the text of the row's property under that key |
| ExportButton.ArrayCsv | src/components/admin/ExportButton.tsx:27-44 | the export fails exactly when the first element has keys and some element is null |
| ExportButton.EntryText | src/components/admin/ExportButton.tsx:49 | falsy values become '' |
| ExportButton.HandleExport | src/components/admin/ExportButton.tsx:19-55 | an empty array exports nothing; null, or an array whose first element is null, fails; an object exports its `項目,值` table; other values give empty content |
| ExportButton.StringRowExample | src/components/admin/ExportButton.tsx:27-44 | an array holding the string "ab" exports the header `0,1` and the row `a,b` |
| ExportButton.ArrayReadsBack | src/components/admin/ExportButton.tsx:27-44 | for an array without nulls whose first element has plain keys, the export succeeds and reads back as the first element's `Object.keys` and each row's values in that order |
| ExportButton.ArrayExport | src/components/admin/ExportButton.tsx:27-44 | the array export is the header and one line per element, each newline-terminated |
| ExportButton.ObjectReadsBack | src/components/admin/ExportButton.tsx:45-55 | for an object with plain keys, the file reads back as `項目,值` and one key/value row per entry, in `Object.entries` order |
| ExportButton.PlainKeyLine | src/components/admin/ExportButton.tsx:53 | a key needing no quotes gives the same line as the unquoted `key,value` the code writes |
| ActivityPage.UserCell | src/app/admin/activity/page.tsx:111 | the user cell is the profile email if present, else the user id |
| ActivityPage.Cells | src/app/admin/activity/page.tsx:109-117 | seven cells in header order: the formatted time, the user, the type label, then path, action, IP and agent, each the value when present and '' when missing |
| ActivityPage.ExportReadsBack | src/app/admin/activity/page.tsx:106-130 | the CSV reads back as the 7-column header followed by each activity's cells |
| ActivityPage.TypeLabel | src/app/admin/activity/page.tsx:144-152 | the four activity types get their labels, and any other type not named after an `Object.prototype` member is shown unchanged |
| ActivityPage.TypeLabelsDistinct | src/app/admin/activity/page.tsx:144-152 | different known types get different labels |
| NewAnalysis.TextOrNull | src/app/analyses/new/page.tsx:83-92 | an empty field is sent as null |
| NewAnalysis.TagsValue | src/app/analyses/new/page.tsx:71-74 | empty tags give null, otherwise a list without empty tags |
| NewAnalysis.ScoreValue | src/app/analyses/new/page.tsx:85 | an empty score is null, otherwise its `parseInt` |
| NewAnalysis.BodyGet | src/app/analyses/new/page.tsx:81-94 | each body field holds the converted form value, and analyzed_by is 'manual' |
| NewAnalysis.Submit | src/app/analyses/new/page.tsx:55-115 | a file is uploaded only if chosen and not yet uploaded; a failed upload stops the submission; a save resets the form and file; a failed save keeps them |
| NewAnalysis.RetryDoesNotUpload | src/app/analyses/new/page.tsx:62-69 | after a failed save that uploaded, a retry does not upload again |
| NewAnalysis.BodyRecordingUrl | src/app/analyses/new/page.tsx:92 | the recording address sent is the upload's |
| NewAnalysis.SavedRecord | src/app/analyses/new/page.tsx:81-94 | the route stores the page's body with analyzed_by 'manual' and a score that parses to 0 or not at all as null, and refuses an empty analysis text |
| StatsPage.TopByCount | src/app/analyses/stats/page.tsx:46-59 | at most n entries from the input, non-increasing by count, none left out with a higher count, all when there are at most n |
| StatsPage.TopByCountDistinct | src/app/analyses/stats/page.tsx:48-58 | distinct input keys stay distinct |
| StatsPage.TopSalespersons | src/app/analyses/stats/page.tsx:46-51 | [] without stats; otherwise at most n salespersons by non-increasing count, none left out with a higher count |
| StatsPage.TopTags | src/app/analyses/stats/page.tsx:54-59 | [] without stats; otherwise at most n tags by non-increasing count, none left out with a higher count |
| StatsPage.TopSalespersonsBest | src/app/analyses/stats/page.tsx:46-51 | all salespersons are kept when there are at most n, and names do not repeat |
| StatsPage.TopTagsBest | src/app/analyses/stats/page.tsx:54-59 | all tags are kept when there are at most n, and tags do not repeat |
| UsagePanel.Toggle | src/components/admin/BusinessUsagePanel.tsx:148 | clicking the selected row deselects it; clicking another row selects it |
| UsagePanel.ToggleTwice | src/components/admin/BusinessUsagePanel.tsx:148 | two clicks on a row deselect it; a click on another row then selects that row |
| UsagePanel.Find | src/components/admin/BusinessUsagePanel.tsx:109-111 | finds the first row with the id, or reports none has it |
| UsagePanel.Detail | src/components/admin/BusinessUsagePanel.tsx:109-111 | a detail is shown only for the selected user's first row, and only when its timeline is non-empty |
| UsagePanel.SelectShowsRow | src/components/admin/BusinessUsagePanel.tsx:109-111 | selecting a row shows its timeline exactly when it has entries |
| AnomalyAlert.Rank | src/components/admin/AnomalyAlert.tsx:97 | high ranks 2, medium 1, anything else 0 |
| AnomalyAlert.AlertBanner | src/components/admin/AnomalyAlert.tsx:61-70 | nothing while loading or with no anomalies; otherwise the total, and the level is high iff any is high, else medium iff any is medium |
| AnomalyAlert.FilterCount | src/components/admin/AnomalyAlert.tsx:69-70 | the severity filter's length is the number of anomalies with that severity |
| AnomalyAlert.BannerIsWorst | src/components/admin/AnomalyAlert.tsx:69-97 | the banner counts the high and medium anomalies, and its level is the worst severity present |
| AnomalyAlert.TypeLabel | src/components/admin/AnomalyAlert.tsx:85-92 | the three anomaly types get labels, and any other type not named after an `Object.prototype` member is shown unchanged |
| AnomalyAlert.TypeLabelsDistinct | src/components/admin/AnomalyAlert.tsx:85-92 | different known types get different labels |
| AnomalyAlert.Badge | src/components/admin/AnomalyAlert.tsx:129-130 | high shows 高風險, medium 中風險, anything else 低風險 |
| UsersPage.CreateCheck | src/app/admin/users/page.tsx:112-115 | creation is refused locally exactly when email or password is empty |
| UsersPage.CreateBodyGet | src/app/admin/users/page.tsx:122-130 | the create body carries the form's fields |
| UsersPage.CreateMatchesRoute | src/app/admin/users/page.tsx:122-130 | the route reads the page's body back as the form: name or else email, role and active flag |
| UsersPage.ResetCheck | src/app/admin/users/page.tsx:235-243 | a mismatch is reported whenever the passwords differ; a short password, under 6 UTF-16 code units, only when they match |
| UsersPage.ResetAccepts | src/app/admin/users/page.tsx:235-243 | a reset is accepted iff the passwords match and have a JavaScript length of at least 6; the mismatch check runs first; under 3 characters is always too short, 6 or more always long enough, and for text without astral characters the length is the character count |
| UsersPage.ResetAcceptsThreeEmoji | src/app/admin/users/page.tsx:238 | three astral emoji have JavaScript length 6 and are accepted |
| Text.Utf16Length | src/app/admin/users/page.tsx:238 | the UTF-16 length lies between the character count and twice it, and equals the count iff no character is astral |
| UsersPage.StartEdit | src/app/admin/users/page.tsx:280-289 | editing copies email and role, a null name becomes '', a null active flag true, and the password is cleared |
| UsersPage.UpdateBody | src/app/admin/users/page.tsx:170-174 | the update sends exactly name, role and is_active |
| UsersPage.UpdateNeverSendsEmail | src/app/admin/users/page.tsx:170-174 | the update never sends an email |
| UsersPage.UnchangedEditKeepsUser | src/app/admin/users/page.tsx:170-174 | saving an untouched edit sends the user's own name, role and active flag |
| UsersPage.ListParams | src/app/admin/users/page.tsx:71-76 | a filter is sent iff non-empty, and page and limit always |
| UsersPage.ListQueryOfPage | src/app/admin/users/page.tsx:71-76 | the route turns the page's parameters into the matching filters and rows (page−1)·limit to page·limit−1 |
| UsersPage.SetFilters | src/app/admin/users/page.tsx:343-389 | a filter change sets the filters and resets the page to 1, keeping the rest |
| UsersPage.Click | src/app/admin/users/page.tsx:755-773 | an enabled pager button moves one page; previous is disabled at page 1 and next at the last page |
| UsersPage.ClicksStayInRange | src/app/admin/users/page.tsx:755-773 | any sequence of pager clicks keeps the page between 1 and the page count |
| UsersPage.FilterChangeInRange | src/app/admin/users/page.tsx:343-389 | after a filter change the page is in range |

## Left out

- Calls to the hosted database, the identity provider (`getUser`, `admin.createUser`) and storage (`listBuckets`, `upload`, `getPublicUrl`): they are foreign calls. Their results are inputs or function parameters, and the model applies the query filters itself.
- Rendering, routing, `alert`/`confirm` dialogs, timers and React state timing. The state setters are modelled as returning the next state.
- src/hooks/useActivityTracking.ts and src/components/ActivityTracker.tsx: browser timers, `beforeunload` and `sendBeacon`.
- `formatAnalysisText` and paragraph classification in src/app/analyses/page.tsx: presentation logic driven by regular expressions.
- Customer CRUD (src/app/api/customers/route.ts and its pages), the analysis edit page, the users `[id]` and reset-password routes, the guards, the navigation bar, the date-range picker, the dashboard, login and home pages, the session/refresh/test routes, src/lib/auth.ts and next.config.ts: they are not part of this model because they are pass-through code or UI only. Of src/lib/supabase-admin.ts, only the configuration check of `createAdminClient` is modelled (AdminClient); the client it builds is a foreign call.
- AnalysisStats.Compute: averageScore is the exact mean; the two-decimal rounding (`Math.round(x * 100) / 100`) is floating point and is left out.
- Percentage bar widths on the dashboard, statistics and usage pages, because they are floating-point presentation.
- Upload.StoredName: the random suffix and the timestamp are parameters, because `Math.random` and `Date.now` are not modelled.
- `toLocaleString`/`toLocaleDateString`, the day label of the usage panel (a parameter of DateKeys.BucketLabel), the byte-order mark and the Blob download: they depend on locale and the browser.
- Time zones and daylight saving: local time is UTC throughout.
- Concurrency and multi-write consistency: session and log writes are one sequential state update.
- DateKeys.DayKeyOrder: requires four-digit years, because shorter or negative years do not sort as text.
- DashboardStats.LoginTrendAscending: holds only for years 0 to 9999, where the ISO date text sorts as time does.
- TagStatsCounts: entries are in first-appearance order. When the reply is serialised, JavaScript lists array-index keys (a tag "2024", say) first, in numeric order; that reordering of the `tagStats` object is not modelled.
- SalespersonStatsFacts: the same holds for `salespersonStats`: a salesperson named "2024" would be listed first in the reply, and the model keeps first-appearance order.
- SalespersonStatsFacts: a name equal to an inherited member of `Object.prototype` ("constructor", "toString", "__proto__" and the like) finds the inherited value in `salespersonStats[name]`, so the code skips creating the entry and the name is missing from the reply. The model treats every name as a fresh key and gives it an entry.
- AllTagsCount: the same applies to tags. For a tag such as "constructor", `(tagStats[tag] || 0) + 1` starts from the inherited function, so its "count" becomes a string. A tag "__proto__" is dropped. The model counts every tag as a number. TagStatsCounts and AnalysisStats.Compute share this gap.
- AnomalyAlert.TypeLabel: the same holds for `labels[type] || type` in the anomaly list: a type such as "constructor" or "toString" shows the inherited value, where the model shows the type unchanged.
- ActivityPage.TypeLabel: `labels[type] || type` returns the inherited value for a type named after an `Object.prototype` member ("constructor" gives the `Object` function), where the model shows the type unchanged.
- Text.StrLt stands in for `localeCompare` and the default `sort()`. It orders by Unicode code point. That agrees with JavaScript's UTF-16 code-unit order on the ASCII keys (dates, ids) the code sorts. It differs between astral characters and U+E000–U+FFFF, and `localeCompare` is locale-dependent, so it is not stated for arbitrary Unicode names.
- RowTexts: `row[header]` on an object also finds inherited `Object.prototype` members ("toString", say) that the object does not bind. The model reads only own keys and gives ''. This shows when the first element binds such a key and a later element does not.
- RowTexts: a string row's index keys and elements are counted in Unicode characters. JavaScript counts UTF-16 code units, so a string with an astral character has more keys there, and each half of a surrogate pair is its own element. The string's `length` is modelled in UTF-16 units.
- Users.SearchSelects: states the search as a literal substring with ASCII-only case folding. The store's ILIKE also treats `%` and `_` in the search as wildcards (PostgREST also takes `*` for `%`), and it folds the case of non-ASCII letters. Searches holding those characters are not modelled faithfully.
- ScoreValue (Batch.ScoreValue): JSON numbers are integers in the model (`Js.JNum(int)`), so a fractional score sent to the batch route, such as 72.5, cannot be expressed. The same holds for the analyses POST `score`.
- CellText (ExportButton.CellText): `String(v)` of a number is stated for integers only, as their decimal digits. JavaScript writes numbers of 1e21 and more in exponent form ("1e+21") and has fractional numbers, neither of which the model represents.
- Civil.MinusMonths: the contract states validity, and MinusMonthsKeepsDay the exact result only for days up to 28; the overflow for days 29 to 31 is modelled but not stated.
- DashboardStats.Compute: states only the bounds on its lists; the parts are stated by the lemmas on each part.
- Store ordering among equal timestamps is taken to be table order (the store does not promise one).

## Findings

| source | as written | input that shows it | evidently intended | confidence | as-written member | corrected member |
|---|---|---|---|---|---|---|
| src/app/analyses/page.tsx:191-201 | `handleSortChange` sets the new sort state but re-sorts the list with `sortAnalyses`, which still reads the old `sortBy`/`sortOrder` | opening state (created_at, desc); analyses a (newer, score 10) and b (older, score 90); click "score": the header says score descending but the list stays [a, b] | the list is sorted by the new field and order | high (not executed) | AnalysesPage.SortChangeStale | AnalysesPage.SortChangeIntended |

=== FILE: activity.dfy ===
/** The activity route. `POST /api/admin/activity` records one activity of the
    signed-in user, opening a login session on 'login' and closing the user's
    latest active session on 'logout'; `GET /api/admin/activity` lists the
    log for admins, one page at a time. The two tables the POST writes are a
    single sequential state; whether each write fails is a parameter, since
    the store decides it. */
module Activity {
  import opened Wrappers
  import opened Text
  import opened Seqs
  import opened Civil
  import opened Js
  import opened Pagination
  import Auth

  // ---------------------------------------------------------------------------
  // POST

  /** A `login_sessions` row. */
  datatype Session = Session(
    userId: string,
    loginAt: Time,
    ip: string,
    userAgent: JVal,
    active: bool,
    logoutAt: Option<Time>)

  /** The two tables the handler writes: sessions, and log rows as the fields
      inserted. */
  datatype Store = Store(sessions: seq<Session>, logs: seq<seq<(string, JVal)>>)

  datatype Headers = Headers(forwardedFor: Option<string>, realIp: Option<string>)

  datatype PostReply = PostReply(status: int, result: Result<seq<(string, JVal)>>)

  /** `x-forwarded-for || x-real-ip || 'unknown'`. */
  function ClientIp(h: Headers): (ip: string)
    ensures Filled(h.forwardedFor) ==> ip == h.forwardedFor.value
    ensures !Filled(h.forwardedFor) && Filled(h.realIp) ==> ip == h.realIp.value
    ensures !Filled(h.forwardedFor) && !Filled(h.realIp) ==> ip == "unknown"
    ensures ip != ""
  {
    if Filled(h.forwardedFor) then h.forwardedFor.value
    else if Filled(h.realIp) then h.realIp.value
    else "unknown"
  }

  /** The optional log columns, copied only when neither `null` nor `undefined`. */
  const OptionalKeys: seq<string> := ["page_path", "action", "metadata"]

  const BaseKeys: seq<string> := ["user_id", "activity_type", "ip_address", "user_agent"]

  function NotNull(v: JVal): bool { v != JNull }

  function Same(k: string, v: JVal): JVal { v }

  /** `user_agent || ''`. */
  function UserAgent(body: JVal): JVal {
    OrElse(Get(body, "user_agent"), JStr(""))
  }

  /** The four basic columns of the log row. */
  function BaseColumns(userId: string, body: JVal, ip: string): seq<(string, JVal)> {
    [("user_id", JStr(userId)), ("activity_type", OrNull(Get(body, "activity_type"))),
     ("ip_address", JStr(ip)), ("user_agent", UserAgent(body))]
  }

  /** The log row: the four basic columns, then the optional ones present. */
  function LogRecord(userId: string, body: JVal, ip: string): (rec: seq<(string, JVal)>)
    ensures |rec| >= 4
  {
    BaseColumns(userId, body, ip) + Pick(body, OptionalKeys, NotNull, Same)
  }

  /** The optional columns hold exactly the optional keys the body gives a
      value other than `null`. */
  lemma OptionalColumns(body: JVal, k: string)
    ensures Lookup(Pick(body, OptionalKeys, NotNull, Same), k) ==
      if k in OptionalKeys && Present(Get(body, k)) then Get(body, k) else None
  {
    assert NoDup(OptionalKeys);
    PickLookup(body, OptionalKeys, NotNull, Same, k);
  }

  /** The four basic columns are bound once each. */
  lemma LogRecordBase(userId: string, body: JVal, ip: string, i: nat)
    requires i < 4
    ensures BaseKeys[i] == LogRecord(userId, body, ip)[i].0
    ensures Lookup(LogRecord(userId, body, ip), BaseKeys[i]) == Some(LogRecord(userId, body, ip)[i].1)
  {
    var base := BaseColumns(userId, body, ip);
    var extra := Pick(body, OptionalKeys, NotNull, Same);
    var k := BaseKeys[i];
    LookupAppend(base, extra, k);
    OptionalColumns(body, k);
    KeysApart(k);
    BaseColumnKeys(userId, body, ip);
    LookupAt(base, i);
  }

  /** The basic columns are `BaseKeys`, in order. */
  lemma BaseColumnKeys(userId: string, body: JVal, ip: string)
    ensures var base := BaseColumns(userId, body, ip);
            |base| == 4 && forall j :: 0 <= j < 4 ==> base[j].0 == BaseKeys[j]
  {
  }

  /** An optional column is bound exactly when the body gives it a value
      other than `null`. */
  lemma LogRecordOptional(userId: string, body: JVal, ip: string, k: string)
    requires k in OptionalKeys
    ensures Lookup(LogRecord(userId, body, ip), k) == if Present(Get(body, k)) then Get(body, k) else None
  {
    var base := BaseColumns(userId, body, ip);
    var extra := Pick(body, OptionalKeys, NotNull, Same);
    LookupAppend(base, extra, k);
    OptionalColumns(body, k);
    BaseColumnKeys(userId, body, ip);
    KeysApart(k);
  }

  /** No optional column is a basic one (their names differ in length). */
  lemma KeysApart(k: string)
    ensures k in OptionalKeys ==> k !in BaseKeys
  {
    if k in OptionalKeys {
      assert |k| == 9 || |k| == 6 || |k| == 8;
    }
  }

  /** The row's user is always the signed-in user, whatever the body says; its
      user agent defaults to ''; and each optional column is present exactly
      when the body gives it a non-null value, which it then holds. */
  lemma LogRecordColumns(userId: string, body: JVal, ip: string, k: string)
    requires Truthy(Get(body, "activity_type"))
    ensures Lookup(LogRecord(userId, body, ip), "user_id") == Some(JStr(userId))
    ensures Lookup(LogRecord(userId, body, ip), "ip_address") == Some(JStr(ip))
    ensures Lookup(LogRecord(userId, body, ip), "activity_type") == Get(body, "activity_type")
    ensures Lookup(LogRecord(userId, body, ip), "user_agent") ==
      Some(if Truthy(Get(body, "user_agent")) then Get(body, "user_agent").value else JStr(""))
    ensures k in OptionalKeys ==>
      Lookup(LogRecord(userId, body, ip), k) == if Present(Get(body, k)) then Get(body, k) else None
  {
    LogRecordBase(userId, body, ip, 0);
    LogRecordBase(userId, body, ip, 1);
    LogRecordBase(userId, body, ip, 2);
    LogRecordBase(userId, body, ip, 3);
    if k in OptionalKeys {
      LogRecordOptional(userId, body, ip, k);
    }
  }

  /** The user's active session with the latest login time (the first such
      row on a tie), or `None` when the user has no active session. */
  function LatestActive(sessions: seq<Session>, userId: string): (r: Option<nat>)
    ensures r.None? <==> forall j :: 0 <= j < |sessions| ==> !(sessions[j].userId == userId && sessions[j].active)
    ensures r.Some? ==> r.value < |sessions| && sessions[r.value].userId == userId && sessions[r.value].active
    ensures r.Some? ==> forall j :: 0 <= j < |sessions| && sessions[j].userId == userId && sessions[j].active ==>
      EpochMs(sessions[j].loginAt) <= EpochMs(sessions[r.value].loginAt)
  {
    if |sessions| == 0 then None
    else
      var init := sessions[..|sessions| - 1];
      var last := sessions[|sessions| - 1];
      var best := LatestActive(init, userId);
      var r :=
        if !(last.userId == userId && last.active) then best
        else if best.Some? && EpochMs(last.loginAt) <= EpochMs(init[best.value].loginAt) then best
        else Some(|sessions| - 1);
      LatestStep(sessions, userId, best, r);
      r
  }

  /** `r` picks a latest active session of the user among `sessions`. */
  predicate IsLatest(sessions: seq<Session>, userId: string, r: Option<nat>) {
    && (r.None? <==> forall j :: 0 <= j < |sessions| ==> !(sessions[j].userId == userId && sessions[j].active))
    && (r.Some? ==> r.value < |sessions| && sessions[r.value].userId == userId && sessions[r.value].active)
    && (r.Some? ==> forall j :: 0 <= j < |sessions| && sessions[j].userId == userId && sessions[j].active ==>
          EpochMs(sessions[j].loginAt) <= EpochMs(sessions[r.value].loginAt))
  }

  /** The inductive step of `LatestActive`: comparing the last row with the
      latest one before it. */
  lemma LatestStep(sessions: seq<Session>, userId: string, best: Option<nat>, r: Option<nat>)
    requires |sessions| > 0
    requires IsLatest(sessions[..|sessions| - 1], userId, best)
    requires var last := sessions[|sessions| - 1];
      r == if !(last.userId == userId && last.active) then best
           else if best.Some? && EpochMs(last.loginAt) <= EpochMs(sessions[..|sessions| - 1][best.value].loginAt) then best
           else Some(|sessions| - 1)
    ensures IsLatest(sessions, userId, r)
  {
    var init := sessions[..|sessions| - 1];
    assert forall j :: 0 <= j < |init| ==> init[j] == sessions[j];
  }

  /** Marks the user's latest active session logged out at `now`. */
  function CloseLatest(sessions: seq<Session>, userId: string, now: Time): (r: seq<Session>)
    ensures |r| == |sessions|
  {
    match LatestActive(sessions, userId)
    case None => sessions
    case Some(i) => sessions[i := sessions[i].(active := false, logoutAt := Some(now))]
  }

  function ActiveOf(userId: string): Session -> bool {
    (s: Session) => s.userId == userId && s.active
  }

  /** Logging out closes exactly one session, the user's latest active one,
      when there is one, and leaves every other row as it was; the user then
      has one active session fewer. */
  lemma CloseLatestEffect(sessions: seq<Session>, userId: string, now: Time)
    ensures var r := CloseLatest(sessions, userId, now);
      && (LatestActive(sessions, userId).None? ==> r == sessions)
      && (LatestActive(sessions, userId).Some? ==>
            var i := LatestActive(sessions, userId).value;
            && r[i] == sessions[i].(active := false, logoutAt := Some(now))
            && (forall j :: 0 <= j < |sessions| && j != i ==> r[j] == sessions[j])
            && |Filter(r, ActiveOf(userId))| + 1 == |Filter(sessions, ActiveOf(userId))|)
  {
    var li := LatestActive(sessions, userId);
    if li.Some? {
      var i := li.value;
      var r := CloseLatest(sessions, userId, now);
      FilterUpdateOne(sessions, i, r[i], ActiveOf(userId));
    }
  }

  /** Replacing one kept row by a dropped one removes one row from a filter. */
  lemma {:induction false} FilterUpdateOne<T>(s: seq<T>, i: nat, x: T, p: T -> bool)
    requires i < |s| && p(s[i]) && !p(x)
    ensures |Filter(s[i := x], p)| + 1 == |Filter(s, p)|
  {
    if i == |s| - 1 {
      UpdateLastFilter(s, x, p);
    } else {
      FilterUpdateOne(s[..|s| - 1], i, x, p);
      UpdateInitFilter(s, i, x, p);
    }
  }

  /** Replacing the last element leaves the filter of the others as it is. */
  lemma UpdateLastFilter<T>(s: seq<T>, x: T, p: T -> bool)
    requires |s| > 0
    ensures |Filter(s[|s| - 1 := x], p)| == |Filter(s[..|s| - 1], p)| + (if p(x) then 1 else 0)
    ensures |Filter(s, p)| == |Filter(s[..|s| - 1], p)| + (if p(s[|s| - 1]) then 1 else 0)
  {
    var t := s[|s| - 1 := x];
    assert t[..|t| - 1] == s[..|s| - 1];
    FilterLast(s, p);
    FilterLast(t, p);
  }

  /** Replacing an element before the last one changes only the filter of
      the elements before the last. */
  lemma UpdateInitFilter<T>(s: seq<T>, i: nat, x: T, p: T -> bool)
    requires i < |s| - 1
    ensures |Filter(s[i := x], p)| - |Filter(s, p)|
      == |Filter(s[..|s| - 1][i := x], p)| - |Filter(s[..|s| - 1], p)|
  {
    var t := s[i := x];
    assert t[..|t| - 1] == s[..|s| - 1][i := x];
    FilterLast(s, p);
    FilterLast(t, p);
  }

  /** The handler. A missing configuration throws (500); no user answers 401;
      an unreadable or `null` body throws (500); a falsy `activity_type`
      answers 400 and writes nothing. Otherwise 'login' opens a session and
      'logout' closes the latest one, a failed session write being ignored;
      then the log row is inserted, and only its failure (400) is reported. */
  function ActivityPost(
    user: Result<Option<Auth.CurrentUser>>,
    body: Option<JVal>,
    h: Headers,
    now: Time,
    st: Store,
    sessionFails: bool,
    logError: Option<string>): (out: (PostReply, Store))
    ensures user.Fail? ==> out == (PostReply(500, Fail("Internal server error")), st)
    ensures user == Ok(None) ==> out == (PostReply(401, Fail("Unauthorized")), st)
    ensures user.Ok? && user.value.Some? && (body.None? || body == Some(JNull)) ==> out.0.status == 500 && out.1 == st
    ensures user.Ok? && user.value.Some? && body.Some? && body.value != JNull && !Truthy(Get(body.value, "activity_type")) ==>
      out == (PostReply(400, Fail("activity_type is required")), st)
    ensures user.Ok? && user.value.Some? && body.Some? && body.value != JNull && Truthy(Get(body.value, "activity_type")) ==>
      (out.0.status == 200 <==> logError.None?)
    ensures out.1.logs != st.logs ==>
      && logError.None? && out.0.status == 200
      && out.1.logs == st.logs + [LogRecord(user.value.value.id, body.value, ClientIp(h))]
    ensures out.0.status == 200 ==> out.1.logs != st.logs
    ensures out.1.sessions != st.sessions ==>
      && !sessionFails && out.0.status != 401 && out.0.status != 500
      && Truthy(Get(body.value, "activity_type"))
      && (Get(body.value, "activity_type") == Some(JStr("login")) ==>
            out.1.sessions == st.sessions + [Session(user.value.value.id, now, ClientIp(h), UserAgent(body.value), true, None)])
      && (Get(body.value, "activity_type") == Some(JStr("logout")) ==>
            out.1.sessions == CloseLatest(st.sessions, user.value.value.id, now))
  {
    if user.Fail? then (PostReply(500, Fail("Internal server error")), st)
    else if user.value.None? then (PostReply(401, Fail("Unauthorized")), st)
    else if body.None? || body.value == JNull then (PostReply(500, Fail("Internal server error")), st)
    else
      var u := user.value.value;
      var b := body.value;
      if !Truthy(Get(b, "activity_type")) then (PostReply(400, Fail("activity_type is required")), st)
      else
        var ip := ClientIp(h);
        var kind := Get(b, "activity_type");
        var sessions :=
          if sessionFails then st.sessions
          else if kind == Some(JStr("login")) then st.sessions + [Session(u.id, now, ip, UserAgent(b), true, None)]
          else if kind == Some(JStr("logout")) then CloseLatest(st.sessions, u.id, now)
          else st.sessions;
        var rec := LogRecord(u.id, b, ip);
        if logError.Some? then (PostReply(400, Fail(logError.value)), st.(sessions := sessions))
        else (PostReply(200, Ok(rec)), Store(sessions, st.logs + [rec]))
  }

  /** A failed log insert does not undo the session write before it. */
  lemma SessionWriteKept(user: Auth.CurrentUser, b: JVal, h: Headers, now: Time, st: Store, m: string)
    requires b != JNull && Get(b, "activity_type") == Some(JStr("login"))
    ensures var out := ActivityPost(Ok(Some(user)), Some(b), h, now, st, false, Some(m));
      && out.0 == PostReply(400, Fail(m))
      && out.1.sessions == st.sessions + [Session(user.id, now, ClientIp(h), UserAgent(b), true, None)]
      && out.1.logs == st.logs
  {
  }

  // ---------------------------------------------------------------------------
  // GET

  datatype ListParams = ListParams(
    userId: Option<string>,
    activityType: Option<string>,
    pagePath: Option<string>,
    startDate: Option<string>,
    endDate: Option<string>,
    page: Option<string>,
    limit: Option<string>,
    sortBy: Option<string>,
    sortOrder: Option<string>)

  /** The list query: equality filters, a case-insensitive `%path%` match,
      date bounds as given, the sort column and direction, and the range. */
  datatype Query = Query(
    userId: Option<string>,
    activityType: Option<string>,
    pathPattern: Option<string>,
    from: Option<string>,
    to: Option<string>,
    sortBy: string,
    ascending: bool,
    range: Option<Range>)

  datatype ListReply<T> = ListReply(status: int, result: Result<seq<T>>, pagination: Option<PageInfo>)

  function OrDefault(v: Option<string>, d: string): (r: string)
    ensures Filled(v) ==> r == v.value
    ensures !Filled(v) ==> r == d
  {
    if Filled(v) then v.value else d
  }

  function ListQuery(p: ListParams): Query {
    Query(
      FilledOnly(p.userId),
      FilledOnly(p.activityType),
      if Filled(p.pagePath) then Some("%" + p.pagePath.value + "%") else None,
      FilledOnly(p.startDate),
      FilledOnly(p.endDate),
      OrDefault(p.sortBy, "created_at"),
      OrDefault(p.sortOrder, "desc") == "asc",
      RequestedRange(IntParam(p.page, "1"), IntParam(p.limit, "50")))
  }

  /** Without paging or sorting parameters: newest first by `created_at`,
      rows 0 through 49. */
  lemma DefaultListing(p: ListParams)
    requires !Filled(p.page) && !Filled(p.limit) && !Filled(p.sortBy) && !Filled(p.sortOrder)
    ensures ListQuery(p).sortBy == "created_at" && !ListQuery(p).ascending
    ensures ListQuery(p).range == Some(Range(0, 49))
  {
    DefaultPage(p.page);
    DefaultLimit(p.limit);
  }

  /** Only the exact value 'asc' sorts ascending. */
  lemma AscendingOnlyForAsc(p: ListParams)
    ensures ListQuery(p).ascending <==> p.sortOrder == Some("asc")
  {
  }

  /** The handler: a failed admin gate answers 403 or 500 by its message; a
      failed query 400 with its message; otherwise the page, with the page
      number and limit as parsed, the total (`count || 0`) and the number of
      pages. */
  function ActivityGet<T>(gate: Result<Auth.CurrentUser>, p: ListParams, store: Query -> Result<Listing<T>>): (r: ListReply<T>)
    ensures gate.Fail? ==> r == ListReply(Auth.AdminErrorStatus(gate.message), Fail(Auth.AdminErrorMessage(gate.message)), None)
    ensures gate.Ok? && store(ListQuery(p)).Fail? ==> r == ListReply(400, Fail(store(ListQuery(p)).message), None)
    ensures gate.Ok? && store(ListQuery(p)).Ok? ==>
      var l := store(ListQuery(p)).value;
      var limit := IntParam(p.limit, "50");
      && r.status == 200 && r.result == Ok(l.rows) && r.pagination.Some?
      && r.pagination.value.page == IntParam(p.page, "1")
      && r.pagination.value.limit == limit
      && r.pagination.value.total == Total(l.count)
      && r.pagination.value.totalPages == TotalPages(Total(l.count), limit)
  {
    if gate.Fail? then ListReply(Auth.AdminErrorStatus(gate.message), Fail(Auth.AdminErrorMessage(gate.message)), None)
    else
      match store(ListQuery(p))
      case Fail(m) => ListReply(400, Fail(m), None)
      case Ok(l) => ListReply(200, Ok(l.rows), Some(PageInfoOf(p.page, p.limit, l.count)))
  }

  /** A gate that failed for want of a user, or of the admin role, answers 403. */
  lemma GateFailuresForbidden<T>(p: ListParams, store: Query -> Result<Listing<T>>, m: string)
    requires m == Auth.Unauthorized || m == Auth.AdminRequired
    ensures ActivityGet(Fail(m), p, store).status == 403
  {
    if m == Auth.AdminRequired {
      Auth.AdminRequiredStatus(m);
    }
  }
}

=== FILE: activitypage.dfy ===
/** The activity log page: the CSV export of the listed activities and the
    activity type labels. The locale-dependent rendering of a timestamp is a
    parameter. */
module ActivityPage {
  import opened Wrappers
  import opened Seqs
  import opened Text
  import opened Csv

  /** One listed activity; `profileEmail` is `None` when the log has no
      profile attached. */
  datatype Activity = Activity(
    userId: string,
    activityType: string,
    pagePath: Option<string>,
    action: Option<string>,
    ipAddress: Option<string>,
    userAgent: Option<string>,
    createdAt: int,
    profileEmail: Option<string>)

  const Headers: seq<string> := ["時間", "用戶", "活動類型", "頁面路徑", "操作", "IP地址", "瀏覽器"]

  /** `user_profiles?.email || user_id`. */
  function UserCell(a: Activity): (u: string)
    ensures Filled(a.profileEmail) ==> u == a.profileEmail.value
    ensures !Filled(a.profileEmail) ==> u == a.userId
  {
    if Filled(a.profileEmail) then a.profileEmail.value else a.userId
  }

  /** The seven cells of one activity, in header order. */
  function Cells(formatTime: int -> string, a: Activity): (c: seq<string>)
    ensures |c| == |Headers|
    ensures c[0] == formatTime(a.createdAt)
    ensures c[1] == UserCell(a) && c[2] == a.activityType
    ensures a.pagePath.None? ==> c[3] == ""
    ensures a.pagePath.Some? ==> c[3] == a.pagePath.value
    ensures a.action.None? ==> c[4] == ""
    ensures a.action.Some? ==> c[4] == a.action.value
    ensures a.ipAddress.None? ==> c[5] == ""
    ensures a.ipAddress.Some? ==> c[5] == a.ipAddress.value
    ensures a.userAgent.None? ==> c[6] == ""
    ensures a.userAgent.Some? ==> c[6] == a.userAgent.value
  {
    [ formatTime(a.createdAt),
      UserCell(a),
      a.activityType,
      OrEmpty(a.pagePath),
      OrEmpty(a.action),
      OrEmpty(a.ipAddress),
      OrEmpty(a.userAgent) ]
  }

  function CellsOf(formatTime: int -> string): Activity -> seq<string> {
    (a: Activity) => Cells(formatTime, a)
  }

  /** `handleExport`: the header line, then one line of escaped cells per
      activity, joined with '\n' (an empty list gives the header alone). */
  function ExportCsv(formatTime: int -> string, activities: seq<Activity>): string {
    Table(Headers, MapSeq(activities, CellsOf(formatTime)))
  }

  lemma HeadersPlain()
    ensures forall i :: 0 <= i < |Headers| ==> !NeedsQuotes(Headers[i])
  {
  }

  /** Read back as CSV, the export is the seven headers followed by each
      activity's seven cells, in list order. */
  lemma ExportReadsBack(formatTime: int -> string, activities: seq<Activity>)
    ensures var rows := ReadDocument(ExportCsv(formatTime, activities));
            && |rows| == |activities| + 1
            && rows[0] == Headers
            && forall i :: 0 <= i < |activities| ==> rows[i + 1] == Cells(formatTime, activities[i])
  {
    HeadersPlain();
    TableReadsBack(Headers, MapSeq(activities, CellsOf(formatTime)));
  }

  /** The four known activity types. */
  predicate KnownType(t: string) {
    t == "login" || t == "logout" || t == "page_view" || t == "action"
  }

  /** `getActivityTypeLabel`: the Chinese label of a known type, any other
      type as it is. */
  function TypeLabel(t: string): (shown: string)
    ensures shown != t <==> KnownType(t)
    ensures shown != "" <==> t != "" || KnownType(t)
  {
    if t == "login" then "登入"
    else if t == "logout" then "登出"
    else if t == "page_view" then "頁面訪問"
    else if t == "action" then "操作"
    else t
  }

  /** Distinct known types get distinct labels. */
  lemma TypeLabelsDistinct(s: string, t: string)
    requires KnownType(s) && KnownType(t) && s != t
    ensures TypeLabel(s) != TypeLabel(t)
  {
  }
}

=== FILE: adminclient.dfy ===
/** The service-role client the user administration routes build on each
    request: it needs the project URL and the service-role key, and building
    it throws when either is missing or empty. */
module AdminClient {
  import opened Wrappers
  import opened Text
  import Auth

  const MissingAdminEnv :=
    "Missing Supabase Admin " + "environment variables. " + "Please set " +
    "NEXT_PUBLIC_SUPABASE_URL" + " and " + "SUPABASE_SERVICE_ROLE_KEY"

  /** The two server-side configuration variables (`undefined` is `None`). */
  datatype AdminEnv = AdminEnv(url: Option<string>, serviceRoleKey: Option<string>)

  datatype Client = Client(url: string, serviceRoleKey: string)

  /** `createAdminClient`: a client for a configured project, else the thrown
      configuration error, which the admin routes answer with 500. */
  function CreateAdminClient(env: AdminEnv): (r: Result<Client>)
    ensures r.Ok? <==> Filled(env.url) && Filled(env.serviceRoleKey)
    ensures r.Ok? ==> r.value == Client(env.url.value, env.serviceRoleKey.value)
    ensures r.Fail? ==> r.message == MissingAdminEnv && Auth.AdminErrorStatus(r.message) == 500
  {
    if !Filled(env.url) || !Filled(env.serviceRoleKey) then
      MissingAdminEnvStatus();
      Fail(MissingAdminEnv)
    else Ok(Client(env.url.value, env.serviceRoleKey.value))
  }

  /** The configuration error is neither `Unauthorized` nor a `Forbidden`
      message, so the admin routes' catch answers it with 500. */
  lemma MissingAdminEnvStatus()
    ensures Auth.AdminErrorStatus(MissingAdminEnv) == 500
    ensures Auth.AdminErrorMessage(MissingAdminEnv) == "Internal server error"
  {
    NoCapitalF();
    Auth.NotSubstring("Forbidden", MissingAdminEnv);
  }

  /** The message has no capital F, so it cannot hold "Forbidden". */
  lemma NoCapitalF()
    ensures 'F' !in MissingAdminEnv
  {
    var a := "Missing Supabase Admin ";
    var b := "environment variables. ";
    var c := "Please set ";
    var d := "NEXT_PUBLIC_SUPABASE_URL";
    var e := " and ";
    var f := "SUPABASE_SERVICE_ROLE_KEY";
    assert 'F' !in a && 'F' !in b && 'F' !in c;
    assert 'F' !in d && 'F' !in e && 'F' !in f;
    NotInJoin('F', a, b);
    NotInJoin('F', a + b, c);
    NotInJoin('F', a + b + c, d);
    NotInJoin('F', a + b + c + d, e);
    NotInJoin('F', a + b + c + d + e, f);
  }

  lemma NotInJoin(x: char, s: string, t: string)
    requires x !in s && x !in t
    ensures x !in s + t
  {
  }
}

=== FILE: analysesapi.dfy ===
/** The analyses collection route: `POST /api/analyses` validates a new
    analysis and shapes the row to insert, `GET /api/analyses` builds the list
    query from the query string and filters its answer by tags. The request
    body is `None` when it is not valid JSON. The store is a parameter: it
    answers an insert with the stored row or an error message, and a list
    query with rows or an error message. */
module Analyses {
  import opened Wrappers
  import opened Text
  import opened Seqs
  import opened Js
  import opened Pagination

  // ---------------------------------------------------------------------------
  // POST

  /** The columns written, in the order the handler lists them. */
  const InsertKeys: seq<string> := [
    "recording_id", "customer_id", "customer_name", "analysis_text", "analysis_json",
    "transcript", "customer_profile", "score", "tags", "notes", "salesperson_name",
    "recording_file_url", "analyzed_by"]

  /** The columns written as `value || null`. */
  predicate Optional(k: string) {
    k != "analysis_text" && k != "analyzed_by"
  }

  datatype PostReply = PostReply(status: int, result: Result<JVal>, inserted: Option<seq<(string, JVal)>>)

  /** The value written for column `k`: `analysis_text` as given,
      `analyzed_by` defaulting to 'manual' only when it is absent (an explicit
      `null` stays `null`), everything else `|| null`. */
  function ColumnValue(body: JVal, k: string): (v: JVal)
    requires Truthy(Get(body, "analysis_text"))
    ensures Optional(k) ==> v == OrNull(Get(body, k))
    ensures k == "analysis_text" ==> Some(v) == Get(body, k)
    ensures k == "analyzed_by" ==> v == (if Get(body, k).None? then JStr("manual") else Get(body, k).value)
  {
    if k == "analysis_text" then Get(body, k).value
    else if k == "analyzed_by" then (if Get(body, k).None? then JStr("manual") else Get(body, k).value)
    else OrNull(Get(body, k))
  }

  function Record(body: JVal): (rec: seq<(string, JVal)>)
    requires Truthy(Get(body, "analysis_text"))
    ensures |rec| == |InsertKeys|
    ensures forall i :: 0 <= i < |rec| ==> rec[i] == (InsertKeys[i], ColumnValue(body, InsertKeys[i]))
  {
    seq(|InsertKeys|, i requires 0 <= i < |InsertKeys| => (InsertKeys[i], ColumnValue(body, InsertKeys[i])))
  }

  /** Every column of the row is written once, with its value. */
  lemma RecordColumns(body: JVal, k: string)
    requires Truthy(Get(body, "analysis_text"))
    requires k in InsertKeys
    ensures Lookup(Record(body), k) == Some(ColumnValue(body, k))
  {
    var i :| 0 <= i < |InsertKeys| && InsertKeys[i] == k;
    InsertKeysDistinct();
    KeyedLookup(InsertKeys, Record(body), i);
  }

  lemma InsertKeysDistinct()
    ensures NoDup(InsertKeys)
  {
  }

  /** A score of 0 is falsy, so it is stored as `null`; so are an empty
      customer name and empty notes. */
  lemma FalsyBecomesNull(body: JVal, k: string)
    requires Truthy(Get(body, "analysis_text"))
    requires k in InsertKeys && Optional(k)
    requires Get(body, k) == Some(JNum(0)) || Get(body, k) == Some(JStr(""))
    ensures Lookup(Record(body), k) == Some(JNull)
  {
    RecordColumns(body, k);
  }

  /** The handler. Destructuring a `null` body throws (500); a missing or
      falsy `analysis_text` answers 400 and writes nothing; otherwise the row
      is inserted and the store's answer is returned, 201 or 400 with its
      message. */
  function AnalysesPost(body: Option<JVal>, insert: seq<(string, JVal)> -> Result<JVal>): (r: PostReply)
    ensures body.None? || body == Some(JNull) ==> r.status == 500 && r.inserted.None?
    ensures body.Some? && body.value != JNull ==>
      (r.inserted.Some? <==> Truthy(Get(body.value, "analysis_text")))
    ensures body.Some? && body.value != JNull && !Truthy(Get(body.value, "analysis_text")) ==>
      r == PostReply(400, Fail("analysis_text is required"), None)
    ensures r.inserted.Some? ==>
      && r.inserted.value == Record(body.value)
      && r.status == (if insert(r.inserted.value).Ok? then 201 else 400)
      && r.result == insert(r.inserted.value)
  {
    match body
    case None => PostReply(500, Fail("Internal server error"), None)
    case Some(b) =>
      if b == JNull then PostReply(500, Fail("Internal server error"), None)
      else if !Truthy(Get(b, "analysis_text")) then PostReply(400, Fail("analysis_text is required"), None)
      else
        var rec := Record(b);
        var answer := insert(rec);
        PostReply(if answer.Ok? then 201 else 400, answer, Some(rec))
  }

  // ---------------------------------------------------------------------------
  // GET

  datatype ListParams = ListParams(
    customerId: Option<string>,
    recordingId: Option<string>,
    salespersonName: Option<string>,
    scoreMin: Option<string>,
    scoreMax: Option<string>,
    tags: Option<string>,
    limit: Option<string>,
    offset: Option<string>)

  /** The list query: equality filters, score bounds (`Some(None)` is a bound
      of `NaN`), and the requested range (`None` when it involves `NaN`),
      always newest first. */
  datatype Query = Query(
    customerId: Option<string>,
    recordingId: Option<string>,
    salespersonName: Option<string>,
    scoreMin: Option<Option<int>>,
    scoreMax: Option<Option<int>>,
    range: Option<Range>)

  function BoundFilter(v: Option<string>): (f: Option<Option<int>>)
    ensures f.Some? <==> Filled(v)
    ensures f.Some? ==> f.value == ParseInt(v.value)
  {
    if Filled(v) then Some(ParseInt(v.value)) else None
  }

  /** `range(offset, offset + limit - 1)`. */
  function OffsetRange(offset: Option<int>, limit: Option<int>): (r: Option<Range>)
    ensures r.Some? <==> offset.Some? && limit.Some?
    ensures r.Some? ==> r.value.from == offset.value && r.value.to - r.value.from + 1 == limit.value
  {
    if offset.Some? && limit.Some? then Some(Range(offset.value, offset.value + limit.value - 1)) else None
  }

  function ListQuery(p: ListParams): Query {
    Query(
      FilledOnly(p.customerId),
      FilledOnly(p.recordingId),
      FilledOnly(p.salespersonName),
      BoundFilter(p.scoreMin),
      BoundFilter(p.scoreMax),
      OffsetRange(IntParam(p.offset, "0"), IntParam(p.limit, "1000")))
  }

  /** Without `limit` and `offset`, rows 0 through 999 are requested. */
  lemma DefaultListRange(p: ListParams)
    requires !Filled(p.limit) && !Filled(p.offset)
    ensures ListQuery(p).range == Some(Range(0, 999))
  {
    ParseThousand();
    ParseZero();
    assert ListQuery(p).range == OffsetRange(IntParam(p.offset, "0"), IntParam(p.limit, "1000"));
  }

  lemma ParseZero()
    ensures ParseInt("0") == Some(0)
  {
    assert NatToString(0) == "0";
    ParseNatString(0, "0");
  }

  lemma ParseThousand()
    ensures ParseInt("1000") == Some(1000)
  {
    assert NatToString(1000) == "1000" by {
      assert NatToString(1) == "1";
      assert NatToString(10) == "10";
      assert NatToString(100) == "100";
    }
    ParseNatString(1000, "1000");
  }

  /** The columns the tag filter reads; `tags` is the column's JSON value. */
  datatype Row = Row(id: string, tags: Option<JVal>)

  /** `analysis.tags` is an array holding at least one of the wanted tags. */
  predicate HasAnyTag(wanted: seq<string>, r: Row) {
    r.tags.Some? && r.tags.value.JArr? && exists i :: 0 <= i < |wanted| && JStr(wanted[i]) in r.tags.value.items
  }

  function HasAnyTagOf(wanted: seq<string>): Row -> bool {
    (r: Row) => HasAnyTag(wanted, r)
  }

  /** The requested tags: none without a `tags` parameter. */
  function WantedTags(tags: Option<string>): seq<string> {
    if Filled(tags) then CommaList(tags.value) else []
  }

  /** Filtering the answer by tags: no filtering when no tag is requested,
      otherwise a row is kept exactly when it holds one of the tags. */
  function TagFilter(tags: Option<string>, rows: seq<Row>): (r: seq<Row>)
    ensures |WantedTags(tags)| == 0 ==> r == rows
    ensures |WantedTags(tags)| > 0 ==> forall i :: 0 <= i < |rows| ==> (rows[i] in r <==> HasAnyTag(WantedTags(tags), rows[i]))
    ensures |r| <= |rows|
  {
    var wanted := WantedTags(tags);
    if |wanted| == 0 then rows
    else
      var kept := Filter(rows, HasAnyTagOf(wanted));
      assert forall i :: 0 <= i < |kept| ==> HasAnyTag(wanted, kept[i]);
      kept
  }

  /** A `tags` parameter of only commas and spaces filters nothing. */
  lemma BlankTagsKeepAll(tags: string, rows: seq<Row>)
    requires forall i :: 0 <= i < |tags| ==> tags[i] == ',' || tags[i] == ' '
    ensures TagFilter(Some(tags), rows) == rows
  {
    var parts := Split(tags, ',');
    forall i | 0 <= i < |parts|
      ensures Trim(parts[i]) == ""
    {
      BlankPart(tags, parts[i]);
    }
    CommaListBlank(tags);
  }

  lemma BlankPart(tags: string, part: string)
    requires forall i :: 0 <= i < |tags| ==> tags[i] == ',' || tags[i] == ' '
    requires part in Split(tags, ',')
    ensures Trim(part) == ""
  {
    assert forall i :: 0 <= i < |part| ==> part[i] == ' ' by {
      SplitPartChars(tags, ',', part);
    }
    SpacesTrim(part);
  }

  lemma SplitPartChars(s: string, c: char, part: string)
    requires part in Split(s, c)
    ensures forall i :: 0 <= i < |part| ==> part[i] in s && part[i] != c
    decreases |s|
  {
    if c in s {
      var i := IndexOfChar(s, c);
      if part != s[..i] {
        SplitPartChars(s[i + 1..], c, part);
      }
    }
  }

  lemma {:induction false} SpacesTrim(s: string)
    requires forall i :: 0 <= i < |s| ==> s[i] == ' '
    ensures Trim(s) == ""
  {
    SpacesTrimStart(s);
  }

  lemma {:induction false} SpacesTrimStart(s: string)
    requires forall i :: 0 <= i < |s| ==> s[i] == ' '
    ensures TrimStart(s) == ""
  {
    if |s| > 0 {
      SpacesTrimStart(s[1..]);
    }
  }

  datatype ListReply = ListReply(status: int, result: Result<seq<Row>>, count: nat)

  /** The handler: the store's error answers 400 with its message; otherwise
      the tag-filtered rows and their number. */
  function AnalysesGet(p: ListParams, store: Query -> Result<seq<Row>>): (r: ListReply)
    ensures store(ListQuery(p)).Fail? ==> r == ListReply(400, Fail(store(ListQuery(p)).message), 0)
    ensures store(ListQuery(p)).Ok? ==>
      && r.status == 200 && r.result.Ok?
      && r.result.value == TagFilter(p.tags, store(ListQuery(p)).value)
      && r.count == |r.result.value|
  {
    match store(ListQuery(p))
    case Fail(m) => ListReply(400, Fail(m), 0)
    case Ok(rows) =>
      var data := TagFilter(p.tags, rows);
      ListReply(200, Ok(data), |data|)
  }
}

=== FILE: analysespage.dfy ===
/** The analyses list page: client-side sorting of the shown analyses and the
    sort-header clicks, the salesperson and tag pick lists, the row selection,
    the CSV export and the request bodies of the batch actions. Creation
    times are epoch milliseconds; the locale-dependent `formatDate` is a
    parameter. */
module AnalysesPage {
  import opened Wrappers
  import opened Seqs
  import opened Text
  import opened Js
  import opened Sorting
  import opened Csv
  import Batch

  /** One analysis as the list route returns it. */
  datatype Analysis = Analysis(
    id: string,
    createdAt: int,
    analysisText: string,
    transcript: Option<string>,
    customerProfile: Option<string>,
    score: Option<int>,
    tags: Option<seq<string>>,
    notes: Option<string>,
    salespersonName: Option<string>,
    customerName: Option<string>,
    recordingFileUrl: Option<string>,
    analyzedBy: string)

  // ---------------------------------------------------------------------------
  // Sorting

  datatype Field = CreatedAt | Score | SalespersonName | CustomerName

  datatype Order = Asc | Desc

  datatype SortState = SortState(field: Field, order: Order)

  /** The page opens sorted by creation time, newest first. */
  const InitialSort := SortState(CreatedAt, Desc)

  function TimeKey(a: Analysis): int { a.createdAt }

  /** `score ?? -1`: an unscored analysis sorts as -1. */
  function ScoreKey(a: Analysis): int {
    if a.score.Some? then a.score.value else -1
  }

  function SalespersonKey(a: Analysis): string { OrEmpty(a.salespersonName) }

  function CustomerKey(a: Analysis): string { OrEmpty(a.customerName) }

  function IntLt(a: int, b: int): bool { a < b }

  /** The reversed relation. */
  function Flip<T>(lt: (T, T) -> bool): (T, T) -> bool {
    (a: T, b: T) => lt(b, a)
  }

  /** `a` comes before `b` under the page's comparator: its key is smaller
      (ascending) or larger (descending). */
  function Before(s: SortState): (Analysis, Analysis) -> bool {
    var asc := match s.field
      case CreatedAt => ByKey(IntLt, TimeKey)
      case Score => ByKey(IntLt, ScoreKey)
      case SalespersonName => ByKey(StrLt, SalespersonKey)
      case CustomerName => ByKey(StrLt, CustomerKey);
    if s.order == Asc then asc else Flip(asc)
  }

  /** `a <= b` for strings. */
  predicate StrLe(a: string, b: string) {
    a == b || StrLt(a, b)
  }

  /** `a` may be listed before `b`: its key is no larger (ascending) or no
      smaller (descending). */
  predicate InOrder(s: SortState, a: Analysis, b: Analysis) {
    match s.field
    case CreatedAt => if s.order == Asc then a.createdAt <= b.createdAt else b.createdAt <= a.createdAt
    case Score => if s.order == Asc then ScoreKey(a) <= ScoreKey(b) else ScoreKey(b) <= ScoreKey(a)
    case SalespersonName =>
      if s.order == Asc then StrLe(SalespersonKey(a), SalespersonKey(b))
      else StrLe(SalespersonKey(b), SalespersonKey(a))
    case CustomerName =>
      if s.order == Asc then StrLe(CustomerKey(a), CustomerKey(b))
      else StrLe(CustomerKey(b), CustomerKey(a))
  }

  lemma IntLtOrder()
    ensures StrictWeakOrder(IntLt)
  {
  }

  lemma FlipOrder<T(!new)>(lt: (T, T) -> bool)
    requires StrictWeakOrder(lt)
    ensures StrictWeakOrder(Flip(lt))
  {
    forall a, b, c | Flip(lt)(a, c)
      ensures Flip(lt)(a, b) || Flip(lt)(b, c)
    {
      assert lt(c, a);
    }
  }

  /** Every sort state's comparator is consistent, so the sort is well defined. */
  lemma BeforeOrder(s: SortState)
    ensures StrictWeakOrder(Before(s))
  {
    IntLtOrder();
    StrLtOrder();
    var asc := match s.field
      case CreatedAt => ByKey(IntLt, TimeKey)
      case Score => ByKey(IntLt, ScoreKey)
      case SalespersonName => ByKey(StrLt, SalespersonKey)
      case CustomerName => ByKey(StrLt, CustomerKey);
    match s.field
    case CreatedAt => ByKeyOrder(IntLt, TimeKey);
    case Score => ByKeyOrder(IntLt, ScoreKey);
    case SalespersonName => ByKeyOrder(StrLt, SalespersonKey);
    case CustomerName => ByKeyOrder(StrLt, CustomerKey);
    if s.order == Desc {
      FlipOrder(asc);
    }
  }

  /** Two neighbours the comparator leaves in place are in order. */
  lemma NotBeforeInOrder(s: SortState, a: Analysis, b: Analysis)
    requires !Before(s)(b, a)
    ensures InOrder(s, a, b)
  {
    match s.field
    case CreatedAt =>
      assert ByKey(IntLt, TimeKey)(b, a) == IntLt(TimeKey(b), TimeKey(a));
      assert ByKey(IntLt, TimeKey)(a, b) == IntLt(TimeKey(a), TimeKey(b));
    case Score =>
      assert ByKey(IntLt, ScoreKey)(b, a) == IntLt(ScoreKey(b), ScoreKey(a));
      assert ByKey(IntLt, ScoreKey)(a, b) == IntLt(ScoreKey(a), ScoreKey(b));
    case SalespersonName =>
      assert Before(s)(b, a) == if s.order == Asc then StrLt(SalespersonKey(b), SalespersonKey(a))
                                else StrLt(SalespersonKey(a), SalespersonKey(b));
      StrLtTotal(SalespersonKey(a), SalespersonKey(b));
    case CustomerName =>
      assert Before(s)(b, a) == if s.order == Asc then StrLt(CustomerKey(b), CustomerKey(a))
                                else StrLt(CustomerKey(a), CustomerKey(b));
      StrLtTotal(CustomerKey(a), CustomerKey(b));
  }

  /** `sortAnalyses`: a sorted copy of the list. */
  function SortAnalyses(s: SortState, rows: seq<Analysis>): (r: seq<Analysis>)
    ensures multiset(r) == multiset(rows)
    ensures forall i, j :: 0 <= i < j < |r| ==> InOrder(s, r[i], r[j])
  {
    BeforeOrder(s);
    SortSorted(rows, Before(s));
    var r := Sort(rows, Before(s));
    assert forall i, j :: 0 <= i < j < |r| ==> InOrder(s, r[i], r[j]) by {
      forall i, j | 0 <= i < j < |r|
        ensures InOrder(s, r[i], r[j])
      {
        NotBeforeInOrder(s, r[i], r[j]);
      }
    }
    r
  }

  /** The sort is stable: analyses with equal keys keep their order. */
  lemma SortAnalysesStable(s: SortState, rows: seq<Analysis>, y: Analysis)
    ensures TiesWith(SortAnalyses(s, rows), Before(s), y) == TiesWith(rows, Before(s), y)
  {
    BeforeOrder(s);
    SortStable(rows, Before(s), y);
  }

  /** A header click: the current field flips the order, another field is
      selected newest/largest first. */
  function NextSort(s: SortState, field: Field): (t: SortState)
    ensures t.field == field
    ensures field == s.field ==> t.order != s.order
    ensures field != s.field ==> t.order == Desc
  {
    if s.field == field then SortState(field, if s.order == Asc then Desc else Asc)
    else SortState(field, Desc)
  }

  /** Clicking the current field twice comes back to the same state. */
  lemma NextSortTwice(s: SortState)
    ensures NextSort(NextSort(s, s.field), s.field) == s
  {
  }

  /** `handleSortChange` as written: the state moves on, but the list is
      re-sorted by the comparator of the state the click started from. */
  function SortChange(s: SortState, field: Field, shown: seq<Analysis>): (r: (SortState, seq<Analysis>))
    ensures r.0 == NextSort(s, field)
    ensures multiset(r.1) == multiset(shown)
    ensures forall i, j :: 0 <= i < j < |r.1| ==> InOrder(s, r.1[i], r.1[j])
  {
    (NextSort(s, field), SortAnalyses(s, shown))
  }

  /** From the opening state, clicking "score" leaves two analyses newest
      first although the header now says "score, descending". */
  lemma SortChangeStale()
    ensures var a := Analysis("a", 2, "x", None, None, Some(10), None, None, None, None, None, "manual");
            var b := Analysis("b", 1, "x", None, None, Some(90), None, None, None, None, None, "manual");
            var r := SortChange(InitialSort, Score, [a, b]);
            r.0 == SortState(Score, Desc) && r.1 == [a, b] && !InOrder(r.0, r.1[0], r.1[1])
  {
    var a := Analysis("a", 2, "x", None, None, Some(10), None, None, None, None, None, "manual");
    var b := Analysis("b", 1, "x", None, None, Some(90), None, None, None, None, None, "manual");
    var r := SortAnalyses(InitialSort, [a, b]);
    assert multiset(r) == multiset{a, b};
    assert |r| == 2;
    assert r == [r[0], r[1]];
    assert multiset(r) == multiset{r[0], r[1]};
    assert r[0] == a && r[1] == b;
  }

  /** The evidently intended `handleSortChange`: the list is re-sorted by the
      new state, so it agrees with the header. */
  function SortChangeIntended(s: SortState, field: Field, shown: seq<Analysis>): (r: (SortState, seq<Analysis>))
    ensures r.0 == NextSort(s, field)
    ensures multiset(r.1) == multiset(shown)
    ensures forall i, j :: 0 <= i < j < |r.1| ==> InOrder(r.0, r.1[i], r.1[j])
  {
    var t := NextSort(s, field);
    (t, SortAnalyses(t, shown))
  }

  // ---------------------------------------------------------------------------
  // Pick lists

  /** The truthy salesperson names, in list order. */
  function Names(rows: seq<Analysis>): (r: seq<string>)
    ensures forall x :: x in r <==> x != "" && exists i :: 0 <= i < |rows| && rows[i].salespersonName == Some(x)
  {
    if |rows| == 0 then []
    else
      var n := rows[0].salespersonName;
      var rest := Names(rows[1..]);
      assert forall i :: 1 <= i < |rows| ==> rows[i] == rows[1..][i - 1];
      (if n.Some? && n.value != "" then [n.value] else []) + rest
  }

  /** Every tag of every tagged analysis, in list order. */
  function TagValues(rows: seq<Analysis>): (r: seq<string>)
    ensures forall x :: x in r <==> exists i :: 0 <= i < |rows| && rows[i].tags.Some? && x in rows[i].tags.value
  {
    if |rows| == 0 then []
    else
      var rest := TagValues(rows[1..]);
      assert forall i :: 1 <= i < |rows| ==> rows[i] == rows[1..][i - 1];
      (if rows[0].tags.Some? then rows[0].tags.value else []) + rest
  }

  /** `Array.from(new Set(xs)).sort()`: the distinct strings, ascending. */
  function SortedDistinct(xs: seq<string>): (r: seq<string>)
    ensures forall i, j :: 0 <= i < j < |r| ==> StrLt(r[i], r[j])
    ensures forall x :: x in r <==> x in xs
  {
    var r := Sort(Dedup(xs), StrLt);
    SortedDistinctFacts(xs, r);
    r
  }

  lemma SortedDistinctFacts(xs: seq<string>, r: seq<string>)
    requires r == Sort(Dedup(xs), StrLt)
    ensures forall i, j :: 0 <= i < j < |r| ==> StrLt(r[i], r[j])
    ensures forall x :: x in r <==> x in xs
  {
    SortedDistinctOrder(Dedup(xs), r);
    forall x | true
      ensures x in r <==> x in xs
    {
      SortMembers(Dedup(xs), StrLt, x);
    }
  }

  /** Sorting distinct strings orders them strictly. */
  lemma SortedDistinctOrder(d: seq<string>, r: seq<string>)
    requires NoDup(d) && r == Sort(d, StrLt)
    ensures forall i, j :: 0 <= i < j < |r| ==> StrLt(r[i], r[j])
  {
    StrLtOrder();
    SortSorted(d, StrLt);
    SortNoDup(d, StrLt);
    forall i, j | 0 <= i < j < |r|
      ensures StrLt(r[i], r[j])
    {
      StrLtTotal(r[i], r[j]);
    }
  }

  /** `getAllSalespersons`: the non-empty names present, ascending, each once. */
  function AllSalespersons(rows: seq<Analysis>): (r: seq<string>)
    ensures forall i, j :: 0 <= i < j < |r| ==> StrLt(r[i], r[j])
    ensures forall x :: x in r <==> x != "" && exists i :: 0 <= i < |rows| && rows[i].salespersonName == Some(x)
  {
    SortedDistinct(Names(rows))
  }

  /** `getAllTags`: every tag present, ascending, each once (an empty tag
      included). */
  function AllTags(rows: seq<Analysis>): (r: seq<string>)
    ensures forall i, j :: 0 <= i < j < |r| ==> StrLt(r[i], r[j])
    ensures forall x :: x in r <==> exists i :: 0 <= i < |rows| && rows[i].tags.Some? && x in rows[i].tags.value
  {
    SortedDistinct(TagValues(rows))
  }

  // ---------------------------------------------------------------------------
  // Selection

  /** The selected ids in insertion order, as `Array.from` lists a `Set`. */
  function SelectOne(selected: seq<string>, id: string, checked: bool): (r: seq<string>)
    requires NoDup(selected)
    ensures NoDup(r)
    ensures forall x :: x in r <==> if x == id then checked else x in selected
  {
    if checked then (if id in selected then selected else selected + [id])
    else
      FilterNoDup(selected, NotId(id));
      Filter(selected, NotId(id))
  }

  function NotId(id: string): string -> bool {
    (x: string) => x != id
  }

  /** "Select all" selects every shown analysis; clearing it selects none. */
  function SelectAll(shown: seq<Analysis>, checked: bool): (r: seq<string>)
    ensures NoDup(r)
    ensures forall x :: x in r <==> checked && exists i :: 0 <= i < |shown| && shown[i].id == x
  {
    if checked then Dedup(MapSeq(shown, IdOf)) else []
  }

  function IdOf(a: Analysis): string { a.id }

  /** Checking and then unchecking an id that was not selected restores the
      selection's members. */
  lemma SelectOneUndo(selected: seq<string>, id: string)
    requires NoDup(selected) && id !in selected
    ensures SelectOne(SelectOne(selected, id, true), id, false) == selected
  {
    var added := selected + [id];
    assert added[..|added| - 1] == selected;
    FilterAll(selected, NotId(id));
  }

  /** Filtering keeps a sequence free of duplicates. */
  lemma {:induction false} FilterNoDup<T>(s: seq<T>, p: T -> bool)
    requires NoDup(s)
    ensures NoDup(Filter(s, p))
  {
    if |s| > 0 {
      var init := s[..|s| - 1];
      FilterNoDup(init, p);
    }
  }

  // ---------------------------------------------------------------------------
  // CSV export

  const Headers: seq<string> := [
    "日期", "業務名", "客戶名字", "評分", "標籤", "分析結果",
    "逐字稿", "客戶畫像", "備註", "錄音檔連結", "分析方式", "ID"]

  /** Line feeds become spaces and commas become full-width commas. */
  function Flatten(s: string): (r: string)
    ensures |r| == |s|
    ensures '\n' !in r && ',' !in r
  {
    var noLines := ReplaceChar(s, '\n', ' ');
    ReplaceCharRemoves(s, '\n', ' ');
    ReplaceCharRemoves(noLines, ',', '，');
    ReplaceCharKeepsAbsent(noLines, ',', '，', '\n');
    ReplaceChar(noLines, ',', '，')
  }

  /** Commas become full-width commas; line feeds stay. */
  function NoCommas(s: string): (r: string)
    ensures |r| == |s|
    ensures ',' !in r
  {
    ReplaceCharRemoves(s, ',', '，');
    ReplaceChar(s, ',', '，')
  }

  /** A truthy optional text through `f`, or ''. */
  function TextCell(s: Option<string>, f: string -> string): string {
    if s.Some? && s.value != "" then f(s.value) else ""
  }

  /** The twelve cells of one analysis, in header order. */
  function Cells(formatDate: int -> string, a: Analysis): (c: seq<string>)
    ensures |c| == |Headers|
  {
    [ formatDate(a.createdAt),
      OrEmpty(a.salespersonName),
      OrEmpty(a.customerName),
      if a.score.Some? then IntToString(a.score.value) else "",
      if a.tags.Some? then Join(a.tags.value, "; ") else "",
      Flatten(a.analysisText),
      TextCell(a.transcript, Flatten),
      TextCell(a.customerProfile, Flatten),
      TextCell(a.notes, NoCommas),
      OrEmpty(a.recordingFileUrl),
      a.analyzedBy,
      a.id ]
  }

  /** The date, score, author and id cells hold the analysis's values; the
      free-text cells hold no line feed and no comma, the notes cell no
      comma. */
  lemma CellsContents(formatDate: int -> string, a: Analysis)
    ensures var c := Cells(formatDate, a);
      && c[0] == formatDate(a.createdAt) && c[11] == a.id && c[10] == a.analyzedBy
      && c[3] == (if a.score.Some? then IntToString(a.score.value) else "")
      && '\n' !in c[5] && ',' !in c[5]
      && '\n' !in c[6] && ',' !in c[6]
      && '\n' !in c[7] && ',' !in c[7]
      && ',' !in c[8]
  {
    FlatCell(a.transcript);
    FlatCell(a.customerProfile);
    NoCommaCell(a.notes);
  }

  lemma FlatCell(s: Option<string>)
    ensures '\n' !in TextCell(s, Flatten) && ',' !in TextCell(s, Flatten)
  {
  }

  lemma NoCommaCell(s: Option<string>)
    ensures ',' !in TextCell(s, NoCommas)
  {
  }

  function CellsOf(formatDate: int -> string): Analysis -> seq<string> {
    (a: Analysis) => Cells(formatDate, a)
  }

  /** `exportToCSV`: nothing for an empty list; otherwise the header line
      and one line of escaped cells per analysis. */
  function ExportCsv(formatDate: int -> string, shown: seq<Analysis>): (r: Option<string>)
    ensures r.None? <==> |shown| == 0
  {
    if |shown| == 0 then None
    else Some(Table(Headers, MapSeq(shown, CellsOf(formatDate))))
  }

  /** The header cells need no quoting. */
  lemma HeadersPlain()
    ensures forall i :: 0 <= i < |Headers| ==> !NeedsQuotes(Headers[i])
  {
  }

  /** Read back as CSV, the export is the header row followed by each shown
      analysis's twelve cells, in list order. */
  lemma ExportReadsBack(formatDate: int -> string, shown: seq<Analysis>)
    requires |shown| > 0
    ensures var rows := ReadDocument(ExportCsv(formatDate, shown).value);
            && |rows| == |shown| + 1
            && rows[0] == Headers
            && forall i :: 0 <= i < |shown| ==> rows[i + 1] == Cells(formatDate, shown[i])
  {
    HeadersPlain();
    TableReadsBack(Headers, MapSeq(shown, CellsOf(formatDate)));
  }

  // ---------------------------------------------------------------------------
  // Batch requests

  /** The batch-edit form; an empty field means "leave unchanged". */
  datatype EditForm = EditForm(salespersonName: string, tags: string, score: string, customerName: string)

  /** The form as it opens: every field empty. */
  const BlankEdit := EditForm("", "", "", "")

  /** The form field behind an update column ('' for any other key). */
  function FormValue(f: EditForm, k: string): string {
    if k == "salesperson_name" then f.salespersonName
    else if k == "tags" then f.tags
    else if k == "score" then f.score
    else if k == "customer_name" then f.customerName
    else ""
  }

  function TagItem(t: string): JVal { JStr(t) }

  /** What the page sends for a filled-in field: the trimmed non-empty tags
      as an array, everything else as the text typed. */
  function FormJVal(f: EditForm, k: string): JVal {
    if k == "tags" then JArr(MapSeq(CommaList(f.tags), TagItem)) else JStr(FormValue(f, k))
  }

  function Entry(f: EditForm, k: string): seq<(string, JVal)> {
    if FormValue(f, k) != "" then [(k, FormJVal(f, k))] else []
  }

  /** The `fields` object: one entry per filled-in field, in form order. */
  function EditFields(f: EditForm): (fields: seq<(string, JVal)>)
    ensures |fields| == 0 <==> f == BlankEdit
  {
    assert FormValue(f, "salesperson_name") == f.salespersonName;
    assert FormValue(f, "tags") == f.tags;
    assert FormValue(f, "score") == f.score;
    assert FormValue(f, "customer_name") == f.customerName;
    Entry(f, "salesperson_name") + Entry(f, "tags") + Entry(f, "score") + Entry(f, "customer_name")
  }

  /** A field is sent exactly when it is filled in, with its sent value. */
  lemma EditFieldsLookup(f: EditForm, k: string)
    ensures Lookup(EditFields(f), k) == if FormValue(f, k) != "" then Some(FormJVal(f, k)) else None
  {
    var a := Entry(f, "salesperson_name");
    var b := Entry(f, "tags");
    var c := Entry(f, "score");
    var d := Entry(f, "customer_name");
    assert EditFields(f) == a + b + c + d;
    LookupAppend(a + b + c, d, k);
    LookupAppend(a + b, c, k);
    LookupAppend(a, b, k);
    EntryLookup(f, "salesperson_name", k);
    EntryLookup(f, "tags", k);
    EntryLookup(f, "score", k);
    EntryLookup(f, "customer_name", k);
    if FormValue(f, k) != "" {
      assert k == "salesperson_name" || k == "tags" || k == "score" || k == "customer_name";
    }
  }

  lemma EntryLookup(f: EditForm, key: string, k: string)
    ensures Lookup(Entry(f, key), k) == if key == k && FormValue(f, k) != "" then Some(FormJVal(f, k)) else None
  {
  }

  function IdList(ids: seq<string>): JVal {
    JArr(MapSeq(ids, TagItem))
  }

  /** `handleBatchEdit`: nothing is sent without a selection or without a
      filled-in field. */
  function BatchEditRequest(ids: seq<string>, f: EditForm): (body: Option<JVal>)
    ensures body.Some? <==> |ids| > 0 && f != BlankEdit
  {
    var fields := EditFields(f);
    if |ids| == 0 || |fields| == 0 then None
    else Some(JObj([("ids", IdList(ids)), ("action", JStr("update")), ("fields", JObj(fields))]))
  }

  /** `handleBatchDelete`: a confirmed, non-empty selection. */
  function BatchDeleteRequest(ids: seq<string>, confirmed: bool): (body: Option<JVal>)
    ensures body.Some? <==> |ids| > 0 && confirmed
  {
    if |ids| == 0 || !confirmed then None
    else Some(JObj([("ids", IdList(ids)), ("action", JStr("delete"))]))
  }

  /** A batch edit the page sends makes the route update exactly the selected
      ids, writing exactly the columns whose form field was filled in; a typed
      score is written as its `parseInt` value. */
  lemma BatchEditUpdates(
    ids: seq<string>, f: EditForm, k: string,
    deleteIn: seq<JVal> -> Option<string>,
    updateIn: (seq<JVal>, seq<(string, JVal)>) -> Option<string>)
    requires BatchEditRequest(ids, f).Some?
    ensures var r := Batch.BatchPost(BatchEditRequest(ids, f), deleteIn, updateIn);
            && r.write.Update?
            && r.write.ids == IdList(ids).items
            && (Lookup(r.write.data, k).Some? <==> k in Batch.UpdateKeys && FormValue(f, k) != "")
            && (k == "score" && f.score != "" ==> Lookup(r.write.data, k) == Some(NumOrNull(ParseInt(f.score))))
  {
    var r := Batch.BatchPost(BatchEditRequest(ids, f), deleteIn, updateIn);
    var data := Batch.UpdateData(JObj(EditFields(f)));
    BatchEditWrite(ids, f, deleteIn, updateIn);
    assert r.write == Batch.Update(IdList(ids).items, data);
    EditColumn(f, k);
  }

  /** The columns the route writes for the page's `fields`. */
  lemma EditColumn(f: EditForm, k: string)
    ensures var data := Batch.UpdateData(JObj(EditFields(f)));
            && (Lookup(data, k).Some? <==> k in Batch.UpdateKeys && FormValue(f, k) != "")
            && (k == "score" && f.score != "" ==> Lookup(data, k) == Some(NumOrNull(ParseInt(f.score))))
  {
    var fields := JObj(EditFields(f));
    Batch.UpdateDataColumns(fields, k);
    EditFieldsLookup(f, k);
    assert Get(fields, k) == Lookup(EditFields(f), k);
    if k == "score" && f.score != "" {
      EditScore(f);
    }
  }

  lemma EditScore(f: EditForm)
    requires f.score != ""
    ensures Batch.UpdateValue("score", FormJVal(f, "score")) == NumOrNull(ParseInt(f.score))
  {
    assert FormJVal(f, "score") == JStr(f.score);
    assert ToJsStringOpt(Some(JStr(f.score))) == f.score;
  }

  lemma BatchEditWrite(
    ids: seq<string>, f: EditForm,
    deleteIn: seq<JVal> -> Option<string>,
    updateIn: (seq<JVal>, seq<(string, JVal)>) -> Option<string>)
    requires BatchEditRequest(ids, f).Some?
    ensures Batch.BatchPost(BatchEditRequest(ids, f), deleteIn, updateIn).write
         == Batch.Update(IdList(ids).items, Batch.UpdateData(JObj(EditFields(f))))
  {
    UpdateBodyWrite(IdList(ids).items, EditFields(f), deleteIn, updateIn);
  }

  /** The route's reading of an update body with these three entries. */
  lemma UpdateBodyWrite(
    items: seq<JVal>, fields: seq<(string, JVal)>,
    deleteIn: seq<JVal> -> Option<string>,
    updateIn: (seq<JVal>, seq<(string, JVal)>) -> Option<string>)
    requires |items| > 0
    ensures var body := JObj([("ids", JArr(items)), ("action", JStr("update")), ("fields", JObj(fields))]);
            Batch.BatchPost(Some(body), deleteIn, updateIn).write == Batch.Update(items, Batch.UpdateData(JObj(fields)))
  {
    var entries := [("ids", JArr(items)), ("action", JStr("update")), ("fields", JObj(fields))];
    LookupAt(entries, 0);
    LookupAt(entries, 1);
    LookupAt(entries, 2);
  }

  /** A confirmed batch delete makes the route delete exactly the selected ids. */
  lemma BatchDeleteDeletes(
    ids: seq<string>,
    deleteIn: seq<JVal> -> Option<string>,
    updateIn: (seq<JVal>, seq<(string, JVal)>) -> Option<string>)
    requires |ids| > 0
    ensures Batch.BatchPost(BatchDeleteRequest(ids, true), deleteIn, updateIn).write == Batch.Delete(IdList(ids).items)
  {
    var entries := [("ids", IdList(ids)), ("action", JStr("delete"))];
    assert BatchDeleteRequest(ids, true) == Some(JObj(entries));
    LookupAt(entries, 0);
    LookupAt(entries, 1);
  }
}

=== FILE: analysisstats.dfy ===
/** The analysis statistics route (`GET /api/analyses/stats`): over all stored
    analyses, the total, the mean score, a five-bucket score histogram,
    per-salesperson counts and mean scores, tag occurrence counts and the
    numbers created in the last 7 and 30 days. The table is an input, a
    `Fail` carrying the store's error message when the query failed. Means are
    exact rationals; the final rounding to two decimals is not modelled. */
module AnalysisStats {
  import opened Wrappers
  import opened Text
  import opened Seqs
  import opened Civil
  import opened Grouping
  import Auth

  const Unassigned := "未指定"

  /** The columns the statistics read; `tags` is `None` unless it holds an array. */
  datatype AnalysisRow = AnalysisRow(
    salesperson: Option<string>,
    score: Option<int>,
    tags: Option<seq<string>>,
    created: Time)

  /** One `salespersonStats` value; `emptyScores` is the `scores: []` key left
      on a salesperson none of whose analyses has a score. */
  datatype SalesStat = SalesStat(name: string, count: nat, avgScore: real, emptyScores: bool)

  datatype Stats = Stats(
    total: nat,
    averageScore: real,
    scoreDistribution: seq<Entry<string>>,
    salespersonStats: seq<SalesStat>,
    tagStats: seq<Entry<string>>,
    recentCount: nat,
    recent30Count: Option<nat>)

  datatype Reply = Reply(status: int, data: Result<Stats>)

  // ---------------------------------------------------------------------------
  // Mean

  function Mean(xs: seq<int>): (m: real) {
    if |xs| == 0 then 0.0 else (Sum(xs) as real) / (|xs| as real)
  }

  lemma {:induction false} SumBounds(xs: seq<int>, lo: int, hi: int)
    requires forall i :: 0 <= i < |xs| ==> lo <= xs[i] <= hi
    ensures lo * |xs| <= Sum(xs) <= hi * |xs|
  {
    if |xs| > 0 {
      var init := xs[..|xs| - 1];
      SumBounds(init, lo, hi);
      assert Sum(xs) == Sum(init) + xs[|xs| - 1];
      assert lo * |xs| == lo * |init| + lo;
      assert hi * |xs| == hi * |init| + hi;
    }
  }

  /** Dividing both sides of `a * n <= b * n` by a positive `n`. */
  lemma RealScale(a: real, b: real, n: real)
    requires n > 0.0 && a * n <= b * n
    ensures a <= b
  {
    assert (b - a) * n == b * n - a * n;
  }

  /** The mean of scores between `lo` and `hi` lies between them, and the mean
      times the count is the sum. */
  lemma MeanFacts(xs: seq<int>, lo: int, hi: int)
    requires |xs| > 0
    requires forall i :: 0 <= i < |xs| ==> lo <= xs[i] <= hi
    ensures Mean(xs) * (|xs| as real) == Sum(xs) as real
    ensures lo as real <= Mean(xs) <= hi as real
  {
    SumBounds(xs, lo, hi);
    MeanTimesCount(xs);
    RatioBetween(Sum(xs), |xs|, lo, hi);
  }

  /** `total / count` lies between `lo` and `hi` when `total` lies between
      `lo * count` and `hi * count`. */
  lemma RatioBetween(total: int, count: int, lo: int, hi: int)
    requires count > 0 && lo * count <= total <= hi * count
    ensures lo as real <= (total as real) / (count as real) <= hi as real
  {
    var n := count as real;
    var m := (total as real) / n;
    assert m * n == total as real;
    RealProduct(lo, count);
    RealProduct(hi, count);
    MeanBetween(m, n, total as real, lo as real, hi as real);
  }

  /** If `m * n` lies between `lo * n` and `hi * n` for a positive `n`, then
      `m` lies between `lo` and `hi`. */
  lemma MeanBetween(m: real, n: real, total: real, lo: real, hi: real)
    requires n > 0.0 && m * n == total && lo * n <= total <= hi * n
    ensures lo <= m <= hi
  {
    RealScale(lo, m, n);
    RealScale(m, hi, n);
  }

  /** An integer product read as a real is the product of the reals. */
  lemma {:induction false} RealProduct(a: int, b: nat)
    ensures (a * b) as real == (a as real) * (b as real)
  {
    if b > 0 {
      RealProduct(a, b - 1);
      assert a * b == a * (b - 1) + a;
      assert (a as real) * (b as real) == (a as real) * ((b - 1) as real) + a as real;
    }
  }

  lemma MeanTimesCount(xs: seq<int>)
    requires |xs| > 0
    ensures Mean(xs) * (|xs| as real) == Sum(xs) as real
  {
    var n := |xs| as real;
    assert Mean(xs) == (Sum(xs) as real) / n;
  }

  /** `m` is the mean of `xs`: `m` times the number of values is their sum. */
  predicate Averages(m: real, xs: seq<int>) {
    m * (|xs| as real) == Sum(xs) as real
  }

  lemma MeanAverages(xs: seq<int>)
    ensures Averages(Mean(xs), xs)
  {
    if |xs| > 0 {
      MeanTimesCount(xs);
    } else {
      assert Sum(xs) == 0;
    }
  }

  function Score(a: AnalysisRow): int requires a.score.Some? { a.score.value }

  function Scored(a: AnalysisRow): bool { a.score.Some? }

  /** The non-null scores, in row order. */
  function Scores(rows: seq<AnalysisRow>): (xs: seq<int>)
    ensures |xs| == |Filter(rows, Scored)|
    ensures forall i :: 0 <= i < |xs| ==> Filter(rows, Scored)[i].score == Some(xs[i])
  {
    var kept := Filter(rows, Scored);
    seq(|kept|, i requires 0 <= i < |kept| => kept[i].score.value)
  }

  // ---------------------------------------------------------------------------
  // Histogram

  const BucketNames: seq<string> := ["0-20", "21-40", "41-60", "61-80", "81-100"]

  /** The first bound a score does not exceed: 20, 40, 60, 80, else the last
      bucket (negative scores fall in the first, scores above 100 in the last). */
  function Bucket(score: int): (b: nat)
    ensures b < 5
    ensures b == 0 <==> score <= 20
    ensures b == 4 <==> score > 80
    ensures 0 < b < 4 ==> 20 * b < score <= 20 * (b + 1)
  {
    if score <= 20 then 0
    else if score <= 40 then 1
    else if score <= 60 then 2
    else if score <= 80 then 3
    else 4
  }

  /** `scoreDistribution[bucket]++` for every score, from all zeros. */
  function Distribution(scores: seq<int>): (d: seq<int>)
    ensures |d| == 5
  {
    if |scores| == 0 then [0, 0, 0, 0, 0]
    else
      var d := Distribution(scores[..|scores| - 1]);
      var b := Bucket(scores[|scores| - 1]);
      d[b := d[b] + 1]
  }

  /** Each bucket counts the scores that fall in it. */
  lemma {:induction false} DistributionCounts(scores: seq<int>, b: nat)
    requires b < 5
    ensures Distribution(scores)[b] == Count(MapSeq(scores, Bucket), b)
  {
    if |scores| > 0 {
      var init := scores[..|scores| - 1];
      DistributionCounts(init, b);
      var m, last := MapSeq(scores, Bucket), Bucket(scores[|scores| - 1]);
      assert m[..|m| - 1] == MapSeq(init, Bucket);
      assert Count(m, b) == Count(MapSeq(init, Bucket), b) + (if last == b then 1 else 0);
      var d := Distribution(init);
      assert Distribution(scores) == d[last := d[last] + 1];
    }
  }

  /** Every score lands in exactly one bucket. */
  lemma {:induction false} DistributionSum(scores: seq<int>)
    ensures Sum(Distribution(scores)) == |scores|
  {
    if |scores| > 0 {
      var init := scores[..|scores| - 1];
      DistributionSum(init);
      var d := Distribution(init);
      var b := Bucket(scores[|scores| - 1]);
      assert Distribution(scores) == d[b := d[b] + 1];
      SumUpdate(d, b, 1);
    } else {
      SumZero(Distribution(scores));
    }
  }

  function Histogram(scores: seq<int>): (h: seq<Entry<string>>)
    ensures |h| == 5
    ensures forall b :: 0 <= b < 5 ==> h[b].key == BucketNames[b] && h[b].count == Distribution(scores)[b]
  {
    var d := Distribution(scores);
    forall b | 0 <= b < 5
      ensures d[b] >= 0
    {
      DistributionCounts(scores, b);
    }
    seq(5, b requires 0 <= b < 5 => Entry(BucketNames[b], d[b]))
  }

  // ---------------------------------------------------------------------------
  // Per salesperson

  /** `analysis.salesperson_name || '未指定'`. */
  function NameOf(a: AnalysisRow): string {
    if Filled(a.salesperson) then a.salesperson.value else Unassigned
  }

  /** The entry of one salesperson: the number of analyses and, when some have
      a score, their mean score (the `scores` list is then deleted). */
  function ToStat(g: Group<string, AnalysisRow>): (s: SalesStat)
    ensures s.name == g.key && s.count == |g.items|
    ensures s.avgScore == Mean(Scores(g.items))
    ensures s.emptyScores <==> |Scores(g.items)| == 0
  {
    var scores := Scores(g.items);
    if |scores| > 0 then SalesStat(g.key, |g.items|, Mean(scores), false)
    else SalesStat(g.key, |g.items|, 0.0, true)
  }

  function SalespersonStats(rows: seq<AnalysisRow>): seq<SalesStat> {
    MapSeq(GroupBy(rows, NameOf), ToStat)
  }

  function StatCount(s: SalesStat): int { s.count }

  function StatName(s: SalesStat): string { s.name }

  /** One entry per name, in order of first appearance, each with the number
      of that name's analyses and the mean of their non-null scores (0 when
      there are none); the counts add up to the total. */
  lemma SalespersonStatsFacts(rows: seq<AnalysisRow>)
    ensures var st := SalespersonStats(rows);
      && MapSeq(st, StatName) == Dedup(MapSeq(rows, NameOf))
      && (forall i :: 0 <= i < |st| ==>
            && st[i].count == |WithKey(rows, NameOf, st[i].name)|
            && st[i].avgScore == Mean(Scores(WithKey(rows, NameOf, st[i].name))))
      && Sum(MapSeq(st, StatCount)) == |rows|
  {
    GroupByGroups(rows, NameOf);
    GroupBySizes(rows, NameOf);
    var gs := GroupBy(rows, NameOf);
    assert MapSeq(MapSeq(gs, ToStat), StatCount) == MapSeq(gs, GroupSize);
  }

  // ---------------------------------------------------------------------------
  // Tags

  function RowTags(a: AnalysisRow): seq<string> {
    if a.tags.Some? then a.tags.value else []
  }

  /** Every tag of every analysis, in row order. */
  function AllTags(rows: seq<AnalysisRow>): seq<string> {
    if |rows| == 0 then [] else AllTags(rows[..|rows| - 1]) + RowTags(rows[|rows| - 1])
  }

  function TagStats(rows: seq<AnalysisRow>): seq<Entry<string>> {
    Tally(AllTags(rows))
  }

  /** One entry per tag, in order of first appearance, counting every
      occurrence of the tag in every array. */
  lemma TagStatsCounts(rows: seq<AnalysisRow>)
    ensures TagStats(rows) == Counted(AllTags(rows))
    ensures Sum(MapSeq(TagStats(rows), EntryCount)) == |AllTags(rows)|
  {
    TallyCounts(AllTags(rows));
    TallySum(AllTags(rows));
  }

  lemma {:induction false} AllTagsCount(rows: seq<AnalysisRow>, t: string)
    ensures Count(AllTags(rows), t) == Sum(MapSeq(rows, (a: AnalysisRow) => Count(RowTags(a), t)))
  {
    if |rows| > 0 {
      var init := rows[..|rows| - 1];
      var f := (a: AnalysisRow) => Count(RowTags(a), t);
      AllTagsCount(init, t);
      assert MapSeq(rows, f)[..|rows| - 1] == MapSeq(init, f);
      assert multiset(AllTags(rows)) == multiset(AllTags(init)) + multiset(RowTags(rows[|rows| - 1]));
    }
  }

  // ---------------------------------------------------------------------------
  // Recent counts and the route

  function CreatedSince(cut: Time): AnalysisRow -> bool {
    (a: AnalysisRow) => EpochMs(a.created) >= EpochMs(cut)
  }

  /** The facts about each part that Compute passes on to its result. */
  lemma ComputeParts(rows: seq<AnalysisRow>, now: Time)
    ensures forall b :: 0 <= b < 5 ==> Distribution(Scores(rows))[b] == Count(MapSeq(Scores(rows), Bucket), b)
    ensures var st := SalespersonStats(rows);
      && MapSeq(st, StatName) == Dedup(MapSeq(rows, NameOf))
      && (forall i :: 0 <= i < |st| ==>
            && st[i].count == |WithKey(rows, NameOf, st[i].name)|
            && st[i].avgScore == Mean(Scores(WithKey(rows, NameOf, st[i].name))))
    ensures TagStats(rows) == Counted(AllTags(rows))
    ensures |Filter(rows, CreatedSince(MinusDays(now, 7)))| <= |Filter(rows, CreatedSince(MinusDays(now, 30)))| <= |rows|
  {
    forall b | 0 <= b < 5
      ensures Distribution(Scores(rows))[b] == Count(MapSeq(Scores(rows), Bucket), b)
    {
      DistributionCounts(Scores(rows), b);
    }
    SalespersonStatsFacts(rows);
    TagStatsCounts(rows);
    FilterWeaker(rows, CreatedSince(MinusDays(now, 7)), CreatedSince(MinusDays(now, 30)));
  }

  /** The statistics of a non-empty table: the mean times the number of
      scores is their sum, each bucket counts the scores falling in it, one
      salesperson entry per name in order of first appearance with that name's
      count and mean, one tag entry per tag with its occurrences, and the
      7-day count within the 30-day count within the total. An empty table
      gives zeros and empty maps. */
  function Compute(rows: seq<AnalysisRow>, now: Time): (s: Stats)
    ensures s.total == |rows|
    ensures |rows| == 0 ==> s == Stats(0, 0.0, [], [], [], 0, None)
    ensures |rows| > 0 ==> Averages(s.averageScore, Scores(rows))
    ensures |rows| > 0 && |Scores(rows)| == 0 ==> s.averageScore == 0.0
    ensures |rows| > 0 ==> |s.scoreDistribution| == 5
    ensures |rows| > 0 ==> forall b :: 0 <= b < |s.scoreDistribution| ==>
      s.scoreDistribution[b] == Entry(BucketNames[b], Count(MapSeq(Scores(rows), Bucket), b))
    ensures |rows| > 0 ==> MapSeq(s.salespersonStats, StatName) == Dedup(MapSeq(rows, NameOf))
    ensures |rows| > 0 ==> forall i :: 0 <= i < |s.salespersonStats| ==>
      && s.salespersonStats[i].count == |WithKey(rows, NameOf, s.salespersonStats[i].name)|
      && s.salespersonStats[i].avgScore == Mean(Scores(WithKey(rows, NameOf, s.salespersonStats[i].name)))
    ensures |rows| > 0 ==> s.tagStats == Counted(AllTags(rows))
    ensures |rows| > 0 ==> s.recentCount == |Filter(rows, CreatedSince(MinusDays(now, 7)))|
    ensures |rows| > 0 ==> s.recent30Count == Some(|Filter(rows, CreatedSince(MinusDays(now, 30)))|)
    ensures |rows| > 0 ==> s.recentCount <= s.recent30Count.value <= s.total
  {
    if |rows| == 0 then Stats(0, 0.0, [], [], [], 0, None)
    else
      var scores := Scores(rows);
      ComputeParts(rows, now);
      MeanAverages(scores);
      Stats(
        |rows|,
        Mean(scores),
        Histogram(scores),
        SalespersonStats(rows),
        TagStats(rows),
        |Filter(rows, CreatedSince(MinusDays(now, 7)))|,
        Some(|Filter(rows, CreatedSince(MinusDays(now, 30)))|))
  }

  /** An empty table gives zeros and empty maps, and no `recent30Count`. */
  lemma EmptyStats(now: Time)
    ensures Compute([], now) == Stats(0, 0.0, [], [], [], 0, None)
  {
  }

  /** The last week's count is at most the last 30 days', which is at most the total. */
  lemma RecentCounts(rows: seq<AnalysisRow>, now: Time)
    requires |rows| > 0
    ensures Compute(rows, now).recent30Count.Some?
    ensures Compute(rows, now).recentCount <= Compute(rows, now).recent30Count.value <= Compute(rows, now).total
  {
    FilterWeaker(rows, CreatedSince(MinusDays(now, 7)), CreatedSince(MinusDays(now, 30)));
  }

  /** The handler: no user gives 401, a failed query 400 with its message. */
  function AnalysisStatsGet(gate: Result<Auth.CurrentUser>, table: Result<seq<AnalysisRow>>, now: Time): (r: Reply)
    ensures gate.Fail? ==> r.status == 401 && r.data.Fail?
    ensures gate.Ok? && table.Fail? ==> r == Reply(400, Fail(table.message))
    ensures gate.Ok? && table.Ok? ==> r == Reply(200, Ok(Compute(table.value, now)))
  {
    if gate.Fail? then Reply(401, Fail("Unauthorized. Please login first."))
    else if table.Fail? then Reply(400, Fail(table.message))
    else Reply(200, Ok(Compute(table.value, now)))
  }
}

=== FILE: anomalies.dfy ===
/** The anomaly report (`GET /api/admin/activity/anomalies`). Three rules run
    over the store's answers:
    - concurrent logins: two sessions of one user less than five minutes apart
      from different IP addresses (`multiple_logins`, medium);
    - frequent logins: more than five logins of one user in the last hour
      (`frequent_login`, low);
    - never used: a salesperson who has never logged in, created more than 30
      days ago (`inactive`, low).
    The report lists them newest first. The three tables are inputs, `None`
    when that query failed; the range, type and order clauses of the queries are
    applied here. Every `new Date()` of the handler is the one instant `now`. */
module Anomalies {
  import opened Wrappers
  import opened Text
  import opened Seqs
  import opened Sorting
  import opened Civil
  import opened Grouping
  import Auth

  const FiveMinutesMs: int := 5 * 60 * 1000

  /** A `login_sessions` row joined with its user's profile; the join is an
      inner join, so a session whose user has no profile is not a row. */
  datatype SessionRow = SessionRow(
    userId: string,
    login: Time,
    ip: Option<string>,
    email: Option<string>,
    name: Option<string>)

  /** A `user_activity_logs` row joined with its user's profile. */
  datatype LogRow = LogRow(
    userId: string,
    activityType: string,
    created: Time,
    email: Option<string>,
    name: Option<string>)

  datatype ProfileRow = ProfileRow(
    id: string,
    email: Option<string>,
    name: Option<string>,
    role: string,
    created: Time,
    lastLogin: Option<Time>)

  /** The `details` object of each kind of anomaly. */
  datatype Details =
    | SessionPair(login1: Time, ip1: Option<string>, login2: Time, ip2: Option<string>)
    | LoginBurst(loginCount: nat)
    | NeverLoggedIn(created: Time, daysSinceCreation: int)

  datatype Anomaly = Anomaly(
    id: string,
    kind: string,
    severity: string,
    userId: string,
    userEmail: string,
    name: string,
    description: string,
    detected: Time,
    details: Details)

  datatype Params = Params(startDate: Option<string>, endDate: Option<string>)

  datatype Reply = Reply(status: int, data: seq<Anomaly>)

  function AnomalyUser(a: Anomaly): string { a.userId }

  /** `profile?.email || ''`. */
  function EmailText(email: Option<string>): string {
    if Filled(email) then email.value else ""
  }

  /** `profile?.name || profile?.email || ''`. */
  function NameText(name: Option<string>, email: Option<string>): string {
    if Filled(name) then name.value else EmailText(email)
  }

  /** A template literal shows a missing IP address as `null`. */
  function IpText(ip: Option<string>): string {
    if ip.Some? then ip.value else "null"
  }

  function Abs(x: int): nat {
    if x < 0 then -x else x
  }

  // ---------------------------------------------------------------------------
  // Range

  /** `end` is the parsed `end_date`, or now; `start` the parsed `start_date`,
      or 30 days before now. Each is decided on its own. `None` is an Invalid
      Date, whose `toISOString()` throws. */
  function Window(p: Params, now: Time, parseDate: string -> Option<Time>): (r: Period)
    ensures Filled(p.startDate) ==> r.start == parseDate(p.startDate.value)
    ensures !Filled(p.startDate) ==> r.start.Some? && EpochMs(r.start.value) == EpochMs(now) - 30 * MsPerDay
    ensures Filled(p.endDate) ==> r.end == parseDate(p.endDate.value)
    ensures !Filled(p.endDate) ==> r.end == Some(now)
  {
    Period(if Filled(p.startDate) then parseDate(p.startDate.value) else Some(MinusDays(now, 30)),
           if Filled(p.endDate) then parseDate(p.endDate.value) else Some(now))
  }

  // ---------------------------------------------------------------------------
  // Rule 1: concurrent logins from different addresses

  /** The sessions query: rows in the window, newest first (the store's order
      among equal times is taken to be table order). */
  function SessionQuery(table: seq<SessionRow>, start: Time, end: Time): seq<SessionRow> {
    Sort(Filter(table, (s: SessionRow) => InWindow(s.login, start, end)), SessionNewer)
  }

  predicate SessionNewer(a: SessionRow, b: SessionRow) {
    EpochMs(a.login) > EpochMs(b.login)
  }

  function SessionUser(s: SessionRow): string { s.userId }

  /** Less than five minutes apart, and from different addresses (a missing
      address equals only a missing address). */
  predicate Concurrent(a: SessionRow, b: SessionRow) {
    Abs(EpochMs(a.login) - EpochMs(b.login)) < FiveMinutesMs && a.ip != b.ip
  }

  predicate PairBefore(p: (nat, nat), q: (nat, nat)) {
    p.0 < q.0 || (p.0 == q.0 && p.1 < q.1)
  }

  /** The inner loop for a fixed `i`: the qualifying pairs `(i, j)` with `j`
      from `from` on. */
  function RowPairs(s: seq<SessionRow>, i: nat, from: nat): (r: seq<(nat, nat)>)
    requires i < |s|
    ensures forall p :: p in r <==> p.0 == i && from <= p.1 < |s| && Concurrent(s[i], s[p.1])
    ensures forall a, b :: 0 <= a < b < |r| ==> r[a].0 == r[b].0 && r[a].1 < r[b].1
    decreases |s| - from
  {
    if from >= |s| then []
    else (if Concurrent(s[i], s[from]) then [(i, from)] else []) + RowPairs(s, i, from + 1)
  }

  /** The outer loop from `i` on. */
  function PairsFrom(s: seq<SessionRow>, i: nat): (r: seq<(nat, nat)>)
    ensures forall p :: p in r <==> i <= p.0 < p.1 < |s| && Concurrent(s[p.0], s[p.1])
    ensures forall a, b :: 0 <= a < b < |r| ==> PairBefore(r[a], r[b])
    decreases |s| - i
  {
    if i >= |s| then []
    else
      var row := RowPairs(s, i, i + 1);
      var rest := PairsFrom(s, i + 1);
      assert forall a :: 0 <= a < |row| ==> row[a] in row && row[a].0 == i;
      assert forall b :: 0 <= b < |rest| ==> rest[b] in rest && rest[b].0 > i;
      row + rest
  }

  /** Every unordered pair of one user's sessions, each once, in loop order. */
  function Pairs(s: seq<SessionRow>): (r: seq<(nat, nat)>)
    ensures forall p :: p in r <==> p.0 < p.1 < |s| && Concurrent(s[p.0], s[p.1])
    ensures forall a, b :: 0 <= a < b < |r| ==> PairBefore(r[a], r[b])
  {
    PairsFrom(s, 0)
  }

  /** The anomaly for the pair `(i, j)` of user `uid`'s sessions `s`; the
      contact details come from the first session's profile. */
  function MultiLogin(uid: string, s: seq<SessionRow>, i: nat, j: nat): (a: Anomaly)
    requires i < j < |s|
    ensures a.kind == "multiple_logins" && a.severity == "medium" && a.userId == uid
    ensures a.detected == s[i].login || a.detected == s[j].login
    ensures EpochMs(a.detected) >= EpochMs(s[i].login) && EpochMs(a.detected) >= EpochMs(s[j].login)
  {
    var x := s[i];
    var y := s[j];
    Anomaly(
      "multiple-login-" + uid + "-" + NatToString(i) + "-" + NatToString(j),
      "multiple_logins", "medium", uid,
      EmailText(x.email), NameText(x.name, x.email),
      "用戶在5分鐘內從不同IP地址登入（" + IpText(x.ip) + " 和 " + IpText(y.ip) + "）",
      if EpochMs(x.login) >= EpochMs(y.login) then x.login else y.login,
      SessionPair(x.login, x.ip, y.login, y.ip))
  }

  /** One user's `multiple_logins` anomalies: one per qualifying pair, in loop order. */
  function UserMultiLogins(uid: string, s: seq<SessionRow>): (r: seq<Anomaly>)
    ensures |r| == |Pairs(s)|
    ensures forall k :: 0 <= k < |r| ==> r[k] == MultiLogin(uid, s, Pairs(s)[k].0, Pairs(s)[k].1)
  {
    var ps := Pairs(s);
    seq(|ps|, k requires 0 <= k < |ps| => assert ps[k] in ps; MultiLogin(uid, s, ps[k].0, ps[k].1))
  }

  function MultiLogins(rows: seq<SessionRow>): seq<Anomaly> {
    FlatMapGroups(GroupBy(rows, SessionUser), UserMultiLogins)
  }

  /** The anomalies about user `u` are those of the pair scan over `u`'s own
      sessions: each qualifying pair once, none for a pair exactly five minutes
      apart or from the same address. */
  lemma MultiLoginsOfUser(rows: seq<SessionRow>, u: string)
    ensures WithKey(MultiLogins(rows), AnomalyUser, u) == UserMultiLogins(u, WithKey(rows, SessionUser, u))
  {
    forall k, vs, w | w in UserMultiLogins(k, vs)
      ensures AnomalyUser(w) == k
    {
    }
    PerKey(rows, SessionUser, UserMultiLogins, AnomalyUser, u);
  }

  // ---------------------------------------------------------------------------
  // Rule 2: frequent logins

  /** The login query: login rows in the window, newest first. */
  function LoginQuery(table: seq<LogRow>, start: Time, end: Time): seq<LogRow> {
    Sort(Filter(table, LoginIn(start, end)), LogNewer)
  }

  function LoginIn(start: Time, end: Time): LogRow -> bool {
    (l: LogRow) => l.activityType == "login" && InWindow(l.created, start, end)
  }

  predicate LogNewer(a: LogRow, b: LogRow) {
    EpochMs(a.created) > EpochMs(b.created)
  }

  function LogUser(l: LogRow): string { l.userId }

  function AtOrAfter(cut: Time): LogRow -> bool {
    (l: LogRow) => EpochMs(l.created) >= EpochMs(cut)
  }

  /** User `uid`'s logins since one hour before now. */
  function Recent(logins: seq<LogRow>, now: Time): seq<LogRow> {
    Filter(logins, AtOrAfter(MinusHour(now)))
  }

  /** More than five recent logins give one anomaly, detected at the first
      recent login in query order. */
  function FrequentLogin(uid: string, logins: seq<LogRow>, now: Time): (r: Option<Anomaly>)
    ensures r.Some? <==> |Recent(logins, now)| > 5
    ensures r.Some? ==> r.value.kind == "frequent_login" && r.value.severity == "low" && r.value.userId == uid
    ensures r.Some? ==> r.value.details == LoginBurst(|Recent(logins, now)|)
    ensures r.Some? ==> r.value.detected in MapSeq(Recent(logins, now), (l: LogRow) => l.created)
  {
    var recent := Recent(logins, now);
    if |recent| > 5 then
      var first := recent[0];
      assert MapSeq(recent, (l: LogRow) => l.created)[0] == first.created;
      Some(Anomaly(
        "frequent-login-" + uid + "-" + IntToString(EpochMs(now)),
        "frequent_login", "low", uid,
        EmailText(first.email), NameText(first.name, first.email),
        "用戶在1小時內登入 " + NatToString(|recent|) + " 次",
        first.created,
        LoginBurst(|recent|)))
    else None
  }

  function AsSeq<T>(o: Option<T>): (r: seq<T>)
    ensures |r| <= 1
  {
    if o.Some? then [o.value] else []
  }

  function UserFrequentLogins(uid: string, logins: seq<LogRow>, now: Time): seq<Anomaly> {
    AsSeq(FrequentLogin(uid, logins, now))
  }

  function FrequentLogins(rows: seq<LogRow>, now: Time): seq<Anomaly> {
    FlatMapGroups(GroupBy(rows, LogUser), (u: string, ls: seq<LogRow>) => UserFrequentLogins(u, ls, now))
  }

  /** When the logins are newest first, the anomaly is detected at the newest
      recent login. */
  lemma FrequentLoginNewest(uid: string, logins: seq<LogRow>, now: Time)
    requires SortedBy(logins, LogNewer)
    requires FrequentLogin(uid, logins, now).Some?
    ensures forall l :: l in logins && EpochMs(l.created) >= EpochMs(MinusHour(now)) ==>
      EpochMs(l.created) <= EpochMs(FrequentLogin(uid, logins, now).value.detected)
  {
    var recent := Recent(logins, now);
    FilterSorted(logins, AtOrAfter(MinusHour(now)), LogNewer);
    forall l | l in logins && EpochMs(l.created) >= EpochMs(MinusHour(now))
      ensures EpochMs(l.created) <= EpochMs(recent[0].created)
    {
      var k :| 0 <= k < |recent| && recent[k] == l;
      if k > 0 {
        assert !LogNewer(recent[k], recent[0]);
      }
    }
  }

  /** A user has at most one `frequent_login`, and has one exactly when more
      than five of their logins in the window are at or after one hour before
      now (see `FrequentLogin` and `FrequentLoginNewest`). */
  lemma FrequentLoginsOfUser(rows: seq<LogRow>, now: Time, u: string)
    ensures WithKey(FrequentLogins(rows, now), AnomalyUser, u) == AsSeq(FrequentLogin(u, WithKey(rows, LogUser, u), now))
  {
    var f := (k: string, ls: seq<LogRow>) => UserFrequentLogins(k, ls, now);
    forall k, vs, w | w in f(k, vs)
      ensures AnomalyUser(w) == k
    {
    }
    PerKey(rows, LogUser, f, AnomalyUser, u);
  }

  lemma LogNewerOrder()
    ensures StrictWeakOrder(LogNewer)
  {
  }

  /** Each user's logins, as the query returns them, are newest first. */
  lemma UserLoginsNewestFirst(table: seq<LogRow>, start: Time, end: Time, u: string)
    ensures SortedBy(WithKey(LoginQuery(table, start, end), LogUser, u), LogNewer)
  {
    LogNewerOrder();
    SortSorted(Filter(table, LoginIn(start, end)), LogNewer);
    WithKeySorted(LoginQuery(table, start, end), LogUser, u, LogNewer);
  }

  // ---------------------------------------------------------------------------
  // Rule 3: salespersons who never logged in

  /** The profiles query (`role = 'salesperson'`, `last_login_at is null`) and
      the age test: created strictly before 30 days before now. */
  predicate NeverUsed(p: ProfileRow, now: Time) {
    p.role == "salesperson" && p.lastLogin.None? && EpochMs(p.created) < EpochMs(MinusDays(now, 30))
  }

  /** The anomaly for a profile that never logged in, detected now; the days
      since creation are rounded down. */
  function Inactive(p: ProfileRow, now: Time): (a: Anomaly)
    ensures a.kind == "inactive" && a.severity == "low" && a.userId == p.id && a.detected == now
    ensures a.details.NeverLoggedIn? && a.details.created == p.created
    ensures a.details.daysSinceCreation * MsPerDay <= EpochMs(now) - EpochMs(p.created)
        < (a.details.daysSinceCreation + 1) * MsPerDay
  {
    Anomaly(
      "inactive-" + p.id, "inactive", "low", p.id,
      EmailText(p.email), NameText(p.name, p.email),
      "業務帳號創建超過30天但從未登入",
      now,
      NeverLoggedIn(p.created, (EpochMs(now) - EpochMs(p.created)) / MsPerDay))
  }

  function NeverUsedAt(now: Time): ProfileRow -> bool {
    (p: ProfileRow) => NeverUsed(p, now)
  }

  function InactiveAt(now: Time): ProfileRow -> Anomaly {
    (p: ProfileRow) => Inactive(p, now)
  }

  function Inactives(table: seq<ProfileRow>, now: Time): (r: seq<Anomaly>)
    ensures forall p :: p in table && NeverUsed(p, now) ==> Inactive(p, now) in r
    ensures forall k :: 0 <= k < |r| ==> exists p :: p in table && NeverUsed(p, now) && r[k] == Inactive(p, now)
  {
    var kept := Filter(table, NeverUsedAt(now));
    var r := MapSeq(kept, InactiveAt(now));
    assert forall k :: 0 <= k < |r| ==> kept[k] in table && NeverUsed(kept[k], now) && r[k] == Inactive(kept[k], now);
    forall p | p in table && NeverUsed(p, now)
      ensures Inactive(p, now) in r
    {
      var k :| 0 <= k < |table| && table[k] == p;
      var j :| 0 <= j < |kept| && kept[j] == p;
      assert r[j] == Inactive(p, now);
    }
    r
  }

  /** A reported account is at least 30 days old. */
  lemma InactiveAge(p: ProfileRow, now: Time)
    requires NeverUsed(p, now)
    ensures Inactive(p, now).details.daysSinceCreation >= 30
  {
    var d := Inactive(p, now).details.daysSinceCreation;
    assert EpochMs(now) - EpochMs(p.created) > 30 * MsPerDay;
    assert (d + 1) * MsPerDay > 30 * MsPerDay;
  }

  // ---------------------------------------------------------------------------
  // The route

  predicate DetectedLater(a: Anomaly, b: Anomaly) {
    EpochMs(a.detected) > EpochMs(b.detected)
  }

  lemma DetectedLaterOrder()
    ensures StrictWeakOrder(DetectedLater)
  {
  }

  /** The anomalies of the three rules, in the order they are found; a failed
      query adds none. */
  function Found(sessions: Option<seq<SessionRow>>, logs: Option<seq<LogRow>>, profiles: Option<seq<ProfileRow>>,
                 start: Time, end: Time, now: Time): seq<Anomaly> {
    (if sessions.Some? then MultiLogins(SessionQuery(sessions.value, start, end)) else [])
    + (if logs.Some? then FrequentLogins(LoginQuery(logs.value, start, end), now) else [])
    + (if profiles.Some? then Inactives(profiles.value, now) else [])
  }

  /** The handler: a failed admin gate answers 403 or 500 by its message, an
      Invalid Date 500, and otherwise the found anomalies newest first. */
  function AnomaliesGet(
    gate: Result<Auth.CurrentUser>, p: Params, now: Time, parseDate: string -> Option<Time>,
    sessions: Option<seq<SessionRow>>, logs: Option<seq<LogRow>>, profiles: Option<seq<ProfileRow>>): (r: Reply)
    ensures gate.Fail? ==> r == Reply(Auth.AdminErrorStatus(gate.message), [])
    ensures gate.Ok? ==> (r.status == 200 <==> Window(p, now, parseDate).start.Some? && Window(p, now, parseDate).end.Some?)
    ensures r.status != 200 ==> r.data == []
    ensures r.status == 200 ==>
      multiset(r.data) == multiset(Found(sessions, logs, profiles, Window(p, now, parseDate).start.value, Window(p, now, parseDate).end.value, now))
  {
    if gate.Fail? then Reply(Auth.AdminErrorStatus(gate.message), [])
    else
      var w := Window(p, now, parseDate);
      if w.start.None? || w.end.None? then Reply(500, [])
      else Reply(200, Sort(Found(sessions, logs, profiles, w.start.value, w.end.value, now), DetectedLater))
  }

  /** The report is newest first. */
  lemma AnomaliesNewestFirst(found: seq<Anomaly>)
    ensures var d := Sort(found, DetectedLater);
      forall i, j :: 0 <= i < j < |d| ==> EpochMs(d[i].detected) >= EpochMs(d[j].detected)
  {
    DetectedLaterOrder();
    SortSorted(found, DetectedLater);
  }

  /** Anomalies detected at the same instant keep the order in which they were
      found. */
  lemma AnomaliesStable(found: seq<Anomaly>, y: Anomaly)
    ensures TiesWith(Sort(found, DetectedLater), DetectedLater, y) == TiesWith(found, DetectedLater, y)
  {
    DetectedLaterOrder();
    SortStable(found, DetectedLater, y);
  }

  /** The data of a successful report is the found anomalies sorted. */
  lemma AnomaliesData(
    gate: Result<Auth.CurrentUser>, p: Params, now: Time, parseDate: string -> Option<Time>,
    sessions: Option<seq<SessionRow>>, logs: Option<seq<LogRow>>, profiles: Option<seq<ProfileRow>>)
    requires AnomaliesGet(gate, p, now, parseDate, sessions, logs, profiles).status == 200
    ensures var w := Window(p, now, parseDate);
      AnomaliesGet(gate, p, now, parseDate, sessions, logs, profiles).data
        == Sort(Found(sessions, logs, profiles, w.start.value, w.end.value, now), DetectedLater)
  {
    var r := AnomaliesGet(gate, p, now, parseDate, sessions, logs, profiles);
    assert gate.Ok?;
    var w := Window(p, now, parseDate);
    assert w.start.Some? && w.end.Some?;
    assert r == Reply(200, Sort(Found(sessions, logs, profiles, w.start.value, w.end.value, now), DetectedLater));
  }
}

=== FILE: anomalyalert.dfy ===
/** The anomaly banner of the admin pages: nothing while loading or when no
    anomaly was reported, otherwise a banner coloured by the most severe
    anomaly, with the numbers of high and medium ones, and per anomaly a type
    label and a severity badge. */
module AnomalyAlert {
  import opened Wrappers
  import opened Seqs

  /** What the banner reads of one reported anomaly. */
  datatype Shown = Shown(kind: string, severity: string)

  /** The banner: its colour level and the counts it prints. */
  datatype Banner = Banner(level: string, total: nat, high: nat, medium: nat)

  function Severity(a: Shown): string { a.severity }

  function IsHigh(a: Shown): bool { a.severity == "high" }

  function IsMedium(a: Shown): bool { a.severity == "medium" }

  /** The ranking of severities the banner colour follows; anything unknown
      ranks as low. */
  function Rank(severity: string): (r: nat)
    ensures r <= 2
    ensures r == 2 <==> severity == "high"
    ensures r == 1 <==> severity == "medium"
  {
    if severity == "high" then 2 else if severity == "medium" then 1 else 0
  }

  /** The banner, or `None` when the component renders nothing. The level is
      'high' when some anomaly is high, else 'medium' when some is medium,
      else 'low'. */
  function AlertBanner(loading: bool, anomalies: seq<Shown>): (r: Option<Banner>)
    ensures r.None? <==> loading || |anomalies| == 0
    ensures r.Some? ==> r.value.total == |anomalies|
    ensures r.Some? ==> (r.value.level == "high" <==> exists i :: 0 <= i < |anomalies| && anomalies[i].severity == "high")
    ensures r.Some? ==> (r.value.level == "medium" <==>
      && (forall i :: 0 <= i < |anomalies| ==> anomalies[i].severity != "high")
      && exists i :: 0 <= i < |anomalies| && anomalies[i].severity == "medium")
  {
    if loading || |anomalies| == 0 then None
    else
      var high := |Filter(anomalies, IsHigh)|;
      var medium := |Filter(anomalies, IsMedium)|;
      FilterEmpty(anomalies, IsHigh);
      FilterEmpty(anomalies, IsMedium);
      var level := if high > 0 then "high" else if medium > 0 then "medium" else "low";
      Some(Banner(level, |anomalies|, high, medium))
  }

  /** A filter is empty exactly when no element satisfies the condition. */
  lemma FilterEmpty<T>(s: seq<T>, p: T -> bool)
    ensures |Filter(s, p)| == 0 <==> forall i :: 0 <= i < |s| ==> !p(s[i])
  {
  }

  /** Filtering by one severity counts the anomalies of that severity. */
  lemma {:induction false} FilterCount(s: seq<Shown>, p: Shown -> bool, v: string)
    requires forall a :: p(a) <==> a.severity == v
    ensures |Filter(s, p)| == Count(MapSeq(s, Severity), v)
  {
    if |s| > 0 {
      var init := s[..|s| - 1];
      var x := s[|s| - 1];
      FilterCount(init, p, v);
      assert |Filter(s, p)| == |Filter(init, p)| + (if p(x) then 1 else 0);
      assert p(x) <==> x.severity == v;
      var m := MapSeq(s, Severity);
      assert m[..|m| - 1] == MapSeq(init, Severity);
      assert m[|m| - 1] == s[|s| - 1].severity;
    }
  }

  /** The banner's counts are the numbers of high and medium severities among
      the anomalies, and its level is the highest rank any anomaly has. */
  lemma BannerIsWorst(anomalies: seq<Shown>)
    requires |anomalies| > 0
    ensures var b := AlertBanner(false, anomalies).value;
            && b.high == Count(MapSeq(anomalies, Severity), "high")
            && b.medium == Count(MapSeq(anomalies, Severity), "medium")
            && (forall i :: 0 <= i < |anomalies| ==> Rank(anomalies[i].severity) <= Rank(b.level))
            && exists i :: 0 <= i < |anomalies| && Rank(anomalies[i].severity) == Rank(b.level)
  {
    var b := AlertBanner(false, anomalies).value;
    FilterCount(anomalies, IsHigh, "high");
    FilterCount(anomalies, IsMedium, "medium");
    if b.level == "low" {
      assert Rank(anomalies[0].severity) == 0;
    }
  }

  /** `getTypeLabel`: the label of one of the three anomaly types, any other
      type as it is. */
  function TypeLabel(kind: string): (shown: string)
    ensures shown != kind <==> kind in {"multiple_logins", "frequent_login", "inactive"}
  {
    if kind == "multiple_logins" then "同時多個登入"
    else if kind == "frequent_login" then "頻繁登入"
    else if kind == "inactive" then "長時間無活動"
    else kind
  }

  /** The three known types get three different labels. */
  lemma TypeLabelsDistinct(a: string, b: string)
    requires a in {"multiple_logins", "frequent_login", "inactive"}
    requires b in {"multiple_logins", "frequent_login", "inactive"}
    requires a != b
    ensures TypeLabel(a) != TypeLabel(b)
  {
  }

  /** The badge: 'high' and 'medium' have their own text, anything else reads
      as low risk. */
  function Badge(severity: string): (text: string)
    ensures text == "高風險" <==> Rank(severity) == 2
    ensures text == "中風險" <==> Rank(severity) == 1
    ensures text == "低風險" <==> Rank(severity) == 0
  {
    if severity == "high" then "高風險"
    else if severity == "medium" then "中風險"
    else "低風險"
  }
}

=== FILE: auth.dfy ===
/** The server-side authentication helpers every API route starts with: the
    access token is taken from the request cookies, the identity provider is
    asked who it belongs to, the user's profile supplies role and name, and
    `requireAuth` / `requireAdmin` turn a missing user or a missing admin role
    into thrown errors. The JSON parser, the identity provider and the profile
    lookup are parameters. */
module Auth {
  import opened Wrappers
  import opened Text
  import opened Js

  const MissingEnv := "Missing Supabase environment variables"
  const Unauthorized := "Unauthorized"
  const AdminRequired := "Forbidden: Admin access required"

  /** The two public configuration variables (`undefined` is `None`). */
  datatype Env = Env(url: Option<string>, anonKey: Option<string>)

  datatype Cookie = Cookie(name: string, value: string)

  /** What the identity provider answers for a request's Authorization header. */
  datatype AuthUser = AuthUser(id: string, email: Option<string>)
  datatype AuthReply = AuthReply(user: Option<AuthUser>, failed: bool)

  /** A `user_profiles` row; both columns are nullable. */
  datatype Profile = Profile(role: Option<string>, name: Option<string>)

  /** The external services the helpers call: `JSON.parse` (`None` when it
      throws), `auth.getUser()` for a given Authorization header, and the
      profile lookup by user id (`None` when no row comes back). */
  datatype Services = Services(
    parseJson: string -> Option<JVal>,
    getUser: Option<string> -> AuthReply,
    profileOf: string -> Option<Profile>)

  datatype Request = Request(env: Env, cookies: seq<Cookie>)

  datatype ClientConfig = ClientConfig(url: string, anonKey: string, authorization: Option<string>)

  datatype CurrentUser = CurrentUser(id: string, email: Option<string>, role: string, name: Option<string>)

  // ---------------------------------------------------------------------------
  // Project reference: the capture of /https?:\/\/([^.]+)\.supabase\.co/

  const Suffix := ".supabase.co"

  /** Where the host starts when a match can begin at `p`. */
  function SchemeEnd(url: string, p: nat): (q: Option<nat>)
    ensures q.Some? ==> q.value <= |url|
  {
    if OccursAt("https://", url, p) then Some(p + 8)
    else if OccursAt("http://", url, p) then Some(p + 7)
    else None
  }

  /** The end of the run of characters other than '.' that starts at `q`. */
  function RunEnd(url: string, q: nat): (e: nat)
    requires q <= |url|
    ensures q <= e <= |url|
    ensures forall i :: q <= i < e ==> url[i] != '.'
    ensures e < |url| ==> url[e] == '.'
    decreases |url| - q
  {
    if q == |url| || url[q] == '.' then q else RunEnd(url, q + 1)
  }

  /** The capture of a match that begins at `p`. `[^.]+` is greedy and the
      suffix starts with '.', so only the longest run can be followed by it. */
  function MatchAt(url: string, p: nat): Option<string> {
    match SchemeEnd(url, p)
    case None => None
    case Some(q) =>
      var e := RunEnd(url, q);
      if e > q && OccursAt(Suffix, url, e) then Some(url[q..e]) else None
  }

  /** The capture of the leftmost match at or after `p`. */
  function FirstMatch(url: string, p: nat): Option<string>
    decreases |url| - p
  {
    if p > |url| then None
    else if MatchAt(url, p).Some? then MatchAt(url, p)
    else FirstMatch(url, p + 1)
  }

  /** `urlMatch ? urlMatch[1] : ''`. */
  function ProjectRef(url: string): string {
    FirstMatch(url, 0).GetOr("")
  }

  lemma RunEndExact(url: string, q: nat, e: nat)
    requires q <= e < |url| && url[e] == '.'
    requires forall i :: q <= i < e ==> url[i] != '.'
    ensures RunEnd(url, q) == e
    decreases e - q
  {
    if q < e {
      RunEndExact(url, q + 1, e);
    }
  }

  /** A match begins at `p` exactly when the text there is a scheme, a
      non-empty host label without '.', and ".supabase.co"; the host is the
      capture. */
  lemma MatchAtPattern(url: string, p: nat, scheme: string, host: string)
    requires scheme == "https://" || scheme == "http://"
    requires |host| > 0 && '.' !in host
    requires OccursAt(scheme + host + Suffix, url, p)
    ensures MatchAt(url, p) == Some(host)
  {
    OccursSplit(scheme + host, Suffix, url, p);
    OccursSplit(scheme, host, url, p);
    var q := p + |scheme|;
    SchemeEndAt(url, p, scheme);
    forall i | q <= i < q + |host|
      ensures url[i] != '.'
    {
      assert url[q..q + |host|][i - q] == host[i - q];
    }
    var e := q + |host|;
    assert |scheme + host| == e - p;
    assert url[e..e + |Suffix|] == Suffix;
    assert url[e] == url[e..e + |Suffix|][0];
    RunEndExact(url, q, e);
  }

  /** An occurrence of `a + b` is an occurrence of `a` followed by one of `b`. */
  lemma OccursSplit(a: string, b: string, t: string, i: int)
    requires OccursAt(a + b, t, i)
    ensures OccursAt(a, t, i) && OccursAt(b, t, i + |a|)
  {
    assert t[i..i + |a|] == (a + b)[..|a|];
    assert t[i + |a|..i + |a| + |b|] == (a + b)[|a|..];
  }

  /** A scheme at `p` puts the host right after it. */
  lemma SchemeEndAt(url: string, p: nat, scheme: string)
    requires scheme == "https://" || scheme == "http://"
    requires OccursAt(scheme, url, p)
    ensures SchemeEnd(url, p) == Some(p + |scheme|)
  {
    if scheme == "http://" {
      assert url[p..p + 7][4] == ':';
      assert !OccursAt("https://", url, p) by {
        if p + 8 <= |url| {
          assert url[p..p + 8][4] == url[p + 4];
        }
      }
    }
  }

  /** The configured project URL yields its host label as the project reference. */
  lemma ProjectRefOfProjectUrl(scheme: string, host: string, rest: string)
    requires scheme == "https://" || scheme == "http://"
    requires |host| > 0 && '.' !in host
    ensures ProjectRef(scheme + host + Suffix + rest) == host
  {
    var url := scheme + host + Suffix + rest;
    assert url[0..|scheme + host + Suffix|] == scheme + host + Suffix;
    MatchAtPattern(url, 0, scheme, host);
  }

  lemma {:induction false} NoSuffixNoMatch(url: string, p: nat)
    requires !IsSubstring(Suffix, url)
    ensures FirstMatch(url, p) == None
    decreases |url| - p
  {
    if p <= |url| {
      assert MatchAt(url, p) == None by {
        match SchemeEnd(url, p)
        case None =>
        case Some(q) =>
          var e := RunEnd(url, q);
          assert !OccursAt(Suffix, url, e);
      }
      NoSuffixNoMatch(url, p + 1);
    }
  }

  /** A URL without ".supabase.co" has the empty project reference. */
  lemma ProjectRefWithoutSuffix(url: string)
    requires !IsSubstring(Suffix, url)
    ensures ProjectRef(url) == ""
  {
    NoSuffixNoMatch(url, 0);
  }

  // ---------------------------------------------------------------------------
  // Access token

  /** `request.cookies.get(name)?.value`: the first cookie of that name. */
  function CookieValue(cookies: seq<Cookie>, name: string): (r: Option<string>)
    ensures r.Some? <==> exists i :: 0 <= i < |cookies| && cookies[i].name == name
    ensures r.Some? ==> exists i :: 0 <= i < |cookies| && cookies[i] == Cookie(name, r.value)
  {
    if |cookies| == 0 then None
    else if cookies[0].name == name then Some(cookies[0].value)
    else
      var r := CookieValue(cookies[1..], name);
      assert forall i :: 1 <= i < |cookies| ==> cookies[i] == cookies[1..][i - 1];
      r
  }

  /** The standard cookie name `sb-<ref>-auth-token`. */
  function StandardCookie(ref: string): string {
    "sb-" + ref + "-auth-token"
  }

  /** A cookie the fallback scan looks at. */
  predicate IsTokenCookie(c: Cookie) {
    IsSubstring("auth-token", c.name) || IsSubstring("access-token", c.name)
  }

  /** The token a scanned cookie gives: `parsed.access_token || parsed.accessToken`
      when the value parses as JSON, and the raw value when parsing throws or
      when reading a property of the parsed `null` throws. */
  function CookieToken(value: string, parseJson: string -> Option<JVal>): (r: Option<JVal>)
    ensures parseJson(value).None? ==> r == Some(JStr(value))
  {
    match parseJson(value)
    case None => Some(JStr(value))
    case Some(JNull) => Some(JStr(value))
    case Some(p) =>
      var a := Get(p, "access_token");
      if Truthy(a) then a else Get(p, "accessToken")
  }

  /** A scanned cookie whose token is truthy, so the loop stops at it. */
  predicate Yields(c: Cookie, parseJson: string -> Option<JVal>) {
    IsTokenCookie(c) && Truthy(CookieToken(c.value, parseJson))
  }

  /** The position where the fallback loop over `getAll()` stops: the first
      scanned cookie whose token is truthy. */
  function FirstYield(cookies: seq<Cookie>, parseJson: string -> Option<JVal>): (r: Option<nat>)
    ensures r.Some? ==> r.value < |cookies| && Yields(cookies[r.value], parseJson)
    ensures r.Some? ==> forall j :: 0 <= j < r.value ==> !Yields(cookies[j], parseJson)
    ensures r.None? ==> forall i :: 0 <= i < |cookies| ==> !Yields(cookies[i], parseJson)
  {
    if |cookies| == 0 then None
    else if Yields(cookies[0], parseJson) then Some(0)
    else
      var r := FirstYield(cookies[1..], parseJson);
      assert forall i :: 1 <= i < |cookies| ==> cookies[i] == cookies[1..][i - 1];
      if r.Some? then Some(r.value + 1) else None
  }

  /** The token the loop ends with, when it is truthy. */
  function ScanCookies(cookies: seq<Cookie>, parseJson: string -> Option<JVal>): (r: Option<JVal>)
    ensures r.Some? ==> Truthy(r)
    ensures r.None? <==> forall i :: 0 <= i < |cookies| ==> !Yields(cookies[i], parseJson)
  {
    match FirstYield(cookies, parseJson)
    case Some(i) => CookieToken(cookies[i].value, parseJson)
    case None => None
  }

  /** The access token: the standard cookie when the URL has a project
      reference and that cookie is non-empty, otherwise the scan. `None` stands
      for every falsy outcome, since only truthiness is used afterwards. */
  function AccessToken(req: Request, svc: Services): (r: Option<JVal>)
    requires Filled(req.env.url)
    ensures r.Some? ==> Truthy(r)
  {
    var ref := ProjectRef(req.env.url.value);
    var std := if ref != "" then CookieValue(req.cookies, StandardCookie(ref)) else None;
    if std.Some? && std.value != "" then Some(JStr(std.value))
    else ScanCookies(req.cookies, svc.parseJson)
  }

  /** `createServerClient`: fails when either variable is unset or empty, and
      attaches `Authorization: Bearer <token>` exactly when a token was found. */
  function CreateServerClient(req: Request, svc: Services): (r: Result<ClientConfig>)
    ensures r.Fail? <==> !Filled(req.env.url) || !Filled(req.env.anonKey)
    ensures r.Fail? ==> r.message == MissingEnv
    ensures r.Ok? ==> r.value.url == req.env.url.value && r.value.anonKey == req.env.anonKey.value
    ensures r.Ok? ==> (r.value.authorization.Some? <==> AccessToken(req, svc).Some?)
    ensures r.Ok? && r.value.authorization.Some? ==> "Bearer " <= r.value.authorization.value
  {
    if !Filled(req.env.url) || !Filled(req.env.anonKey) then Fail(MissingEnv)
    else
      var token := AccessToken(req, svc);
      var header := if token.Some? then Some("Bearer " + ToJsString(token.value)) else None;
      Ok(ClientConfig(req.env.url.value, req.env.anonKey.value, header))
  }

  /** A non-empty standard cookie wins over every other cookie. */
  lemma StandardCookieFirst(req: Request, svc: Services, scheme: string, host: string, rest: string, v: string)
    requires scheme == "https://" || scheme == "http://"
    requires |host| > 0 && '.' !in host
    requires req.env.url == Some(scheme + host + Suffix + rest)
    requires CookieValue(req.cookies, StandardCookie(host)) == Some(v) && v != ""
    ensures AccessToken(req, svc) == Some(JStr(v))
  {
    ProjectRefOfProjectUrl(scheme, host, rest);
  }

  /** Without a project reference in the URL the scan alone decides. */
  lemma NoProjectRefScans(req: Request, svc: Services)
    requires Filled(req.env.url) && !IsSubstring(Suffix, req.env.url.value)
    ensures AccessToken(req, svc) == ScanCookies(req.cookies, svc.parseJson)
  {
    ProjectRefWithoutSuffix(req.env.url.value);
  }

  // ---------------------------------------------------------------------------
  // Current user and the role gate

  /** The user record: role `profile?.role || 'salesperson'`, name
      `profile?.name || user.email`. */
  function UserRecord(u: AuthUser, p: Option<Profile>): (c: CurrentUser)
    ensures c.id == u.id && c.email == u.email && c.role != ""
    ensures p.None? ==> c.role == "salesperson" && c.name == u.email
    ensures p.Some? && Filled(p.value.role) ==> c.role == p.value.role.value
    ensures p.Some? && !Filled(p.value.role) ==> c.role == "salesperson"
    ensures p.Some? && Filled(p.value.name) ==> c.name == p.value.name
    ensures p.Some? && !Filled(p.value.name) ==> c.name == u.email
  {
    var role := if p.Some? && Filled(p.value.role) then p.value.role.value else "salesperson";
    var name := if p.Some? && Filled(p.value.name) then p.value.name else u.email;
    CurrentUser(u.id, u.email, role, name)
  }

  /** `getCurrentUser`: no user when the provider reports an error or no user. */
  function GetCurrentUser(req: Request, svc: Services): (r: Result<Option<CurrentUser>>)
    ensures r.Fail? <==> CreateServerClient(req, svc).Fail?
    ensures r.Fail? ==> r.message == MissingEnv
    ensures r.Ok? ==> var reply := svc.getUser(CreateServerClient(req, svc).value.authorization);
      && (r.value.None? <==> reply.failed || reply.user.None?)
      && (r.value.Some? ==> r.value.value == UserRecord(reply.user.value, svc.profileOf(reply.user.value.id)))
  {
    match CreateServerClient(req, svc)
    case Fail(m) => Fail(m)
    case Ok(client) =>
      var reply := svc.getUser(client.authorization);
      if reply.failed || reply.user.None? then Ok(None)
      else Ok(Some(UserRecord(reply.user.value, svc.profileOf(reply.user.value.id))))
  }

  /** `requireAuth`: throws 'Unauthorized' exactly when there is no user. */
  function RequireAuth(req: Request, svc: Services): (r: Result<CurrentUser>)
    ensures r == Fail(Unauthorized) <==> GetCurrentUser(req, svc) == Ok(None)
    ensures r.Ok? <==> GetCurrentUser(req, svc).Ok? && GetCurrentUser(req, svc).value.Some?
    ensures r.Ok? ==> GetCurrentUser(req, svc) == Ok(Some(r.value))
  {
    match GetCurrentUser(req, svc)
    case Fail(m) => Fail(m)
    case Ok(None) => Fail(Unauthorized)
    case Ok(Some(u)) => Ok(u)
  }

  /** `requireAdmin`: the signed-in user unchanged when the role is 'admin'. */
  function RequireAdmin(req: Request, svc: Services): (r: Result<CurrentUser>)
    ensures r.Ok? <==> RequireAuth(req, svc).Ok? && RequireAuth(req, svc).value.role == "admin"
    ensures r.Ok? ==> r == RequireAuth(req, svc)
    ensures r == Fail(AdminRequired) <==> RequireAuth(req, svc).Ok? && RequireAuth(req, svc).value.role != "admin"
    ensures RequireAuth(req, svc).Fail? ==> r == RequireAuth(req, svc)
  {
    match RequireAuth(req, svc)
    case Fail(m) => Fail(m)
    case Ok(u) => if u.role != "admin" then Fail(AdminRequired) else Ok(u)
  }

  /** The status the admin routes answer a thrown error with. */
  function AdminErrorStatus(message: string): (status: int)
    ensures status == 403 || status == 500
  {
    if message == Unauthorized || IsSubstring("Forbidden", message) then 403 else 500
  }

  /** The error text the admin routes answer a thrown error with. */
  function AdminErrorMessage(message: string): (text: string)
    ensures AdminErrorStatus(message) == 403 ==> text == "Unauthorized. Admin access required."
    ensures AdminErrorStatus(message) == 500 ==> text == "Internal server error"
  {
    if AdminErrorStatus(message) == 403 then "Unauthorized. Admin access required." else "Internal server error"
  }

  lemma NotSubstring(p: string, t: string)
    requires |p| > 0 && p[0] !in t
    ensures !IsSubstring(p, t)
  {
  }

  lemma MissingEnvStatus(m: string)
    requires m == MissingEnv
    ensures AdminErrorStatus(m) == 500
  {
    NotSubstring("Forbidden", m);
  }

  lemma AdminRequiredStatus(m: string)
    requires m == AdminRequired
    ensures AdminErrorStatus(m) == 403
  {
    assert OccursAt("Forbidden", m, 0);
  }

  /** The messages a failed admin gate can carry. */
  lemma AdminGateMessage(req: Request, svc: Services)
    requires RequireAdmin(req, svc).Fail?
    ensures var m := RequireAdmin(req, svc).message;
      if Filled(req.env.url) && Filled(req.env.anonKey) then m == Unauthorized || m == AdminRequired
      else m == MissingEnv
  {
  }

  /** A failed admin gate is answered with 403 exactly when the configuration
      is present: a missing user and a non-admin role both give 403, a missing
      configuration gives 500. */
  lemma AdminGateStatus(req: Request, svc: Services)
    requires RequireAdmin(req, svc).Fail?
    ensures AdminErrorStatus(RequireAdmin(req, svc).message) == 403
        <==> Filled(req.env.url) && Filled(req.env.anonKey)
  {
    var m := RequireAdmin(req, svc).message;
    AdminGateMessage(req, svc);
    if m == MissingEnv {
      MissingEnvStatus(m);
    } else if m == AdminRequired {
      AdminRequiredStatus(m);
    }
  }
}

=== FILE: batch.dfy ===
/** The batch route (`POST /api/analyses/batch`): delete or update a list of
    analyses by id. The request body is `None` when it is not valid JSON. The
    store is a pair of parameters, one per write, each answering `None` on
    success and the error message otherwise; the reply records the write the
    handler issued. */
module Batch {
  import opened Wrappers
  import opened Text
  import opened Seqs
  import opened Js

  /** The columns a batch update may set, in the order the handler tests them. */
  const UpdateKeys: seq<string> := ["salesperson_name", "tags", "score", "customer_name"]

  datatype Write =
    | NoWrite
    | Delete(ids: seq<JVal>)
    | Update(ids: seq<JVal>, data: seq<(string, JVal)>)

  datatype Reply = Reply(status: int, message: Result<string>, write: Write)

  /** The value written for an update column: `score` is `parseInt`ed unless
      it is the empty string (and `NaN` is sent as `null`); the other columns
      are written `|| null`. */
  function UpdateValue(key: string, v: JVal): (w: JVal)
    ensures key == "score" && v == JStr("") ==> w == JNull
    ensures key == "score" && v != JStr("") ==> w == NumOrNull(ParseIntOf(Some(v)))
    ensures key != "score" ==> w == OrNull(Some(v))
  {
    if key == "score" then (if v != JStr("") then NumOrNull(ParseIntOf(Some(v))) else JNull)
    else OrNull(Some(v))
  }

  function Always(v: JVal): bool { true }

  /** The update: the four columns `fields` defines, with their values. */
  function UpdateData(fields: JVal): seq<(string, JVal)> {
    Pick(fields, UpdateKeys, Always, UpdateValue)
  }

  /** The update holds exactly the four columns that `fields` defines (an
      explicit `null` counts as defined), each with its written value; any
      other key is dropped. */
  lemma UpdateDataColumns(fields: JVal, k: string)
    ensures Lookup(UpdateData(fields), k).Some? <==> k in UpdateKeys && Get(fields, k).Some?
    ensures Lookup(UpdateData(fields), k).Some? ==>
      Lookup(UpdateData(fields), k) == Some(UpdateValue(k, Get(fields, k).value))
  {
    assert NoDup(UpdateKeys);
    PickLookup(fields, UpdateKeys, Always, UpdateValue, k);
  }

  /** A numeric score is written as that number, an empty one as `null`. */
  lemma ScoreValue(n: int)
    ensures UpdateValue("score", JNum(n)) == JNum(n)
    ensures UpdateValue("score", JStr("")) == JNull
  {
    ParseIntOfNumber(n);
  }

  function Done(verb: string, n: nat): string {
    "Successfully " + verb + " " + NatToString(n) + " analysis(es)"
  }

  /** The store's answer to a write: its error message gives 400, otherwise
      200 with the count of requested ids. */
  function Answer(error: Option<string>, verb: string, ids: seq<JVal>, w: Write): (r: Reply)
    ensures r.write == w
    ensures error.Some? <==> r.status == 400
    ensures error.Some? ==> r.message == Fail(error.value)
    ensures error.None? ==> r == Reply(200, Ok(Done(verb, |ids|)), w)
  {
    if error.Some? then Reply(400, Fail(error.value), w) else Reply(200, Ok(Done(verb, |ids|)), w)
  }

  /** The handler. A `null` body throws (500); a missing, non-array or empty
      `ids` answers 400 before the action is looked at; `delete` deletes the
      ids; `update` needs a truthy object-typed `fields` (an array passes and
      updates nothing) and writes only the defined update columns; any other
      action answers 400. */
  function BatchPost(
    body: Option<JVal>,
    deleteIn: seq<JVal> -> Option<string>,
    updateIn: (seq<JVal>, seq<(string, JVal)>) -> Option<string>): (r: Reply)
    ensures body.None? || body == Some(JNull) ==> r.status == 500 && r.write == NoWrite
    ensures r.write.Delete? ==>
      && Get(body.value, "action") == Some(JStr("delete"))
      && Some(JArr(r.write.ids)) == Get(body.value, "ids") && |r.write.ids| > 0
      && r == Answer(deleteIn(r.write.ids), "deleted", r.write.ids, r.write)
    ensures r.write.Update? ==>
      && Get(body.value, "action") == Some(JStr("update"))
      && Some(JArr(r.write.ids)) == Get(body.value, "ids") && |r.write.ids| > 0
      && Truthy(Get(body.value, "fields")) && IsObjectType(Get(body.value, "fields"))
      && r.write.data == UpdateData(Get(body.value, "fields").value)
      && r == Answer(updateIn(r.write.ids, r.write.data), "updated", r.write.ids, r.write)
    ensures body.Some? && body.value != JNull && !IdsGiven(Get(body.value, "ids")) ==>
      r == Reply(400, Fail("IDs array is required"), NoWrite)
    ensures body.Some? && body.value != JNull && IdsGiven(Get(body.value, "ids")) ==>
      (r.write.Delete? <==> Get(body.value, "action") == Some(JStr("delete")))
      && (r.write.Update? <==>
            && Get(body.value, "action") == Some(JStr("update"))
            && Truthy(Get(body.value, "fields"))
            && IsObjectType(Get(body.value, "fields")))
    ensures r.write == NoWrite && r.status != 500 && r.status != 200 ==> r.status == 400 && r.message.Fail?
  {
    match body
    case None => Reply(500, Fail("Internal server error"), NoWrite)
    case Some(b) =>
      if b == JNull then Reply(500, Fail("Internal server error"), NoWrite)
      else
        var ids := Get(b, "ids");
        if !IdsGiven(ids) then Reply(400, Fail("IDs array is required"), NoWrite)
        else
          var action := Get(b, "action");
          if action == Some(JStr("delete")) then
            var w := Delete(ids.value.items);
            Answer(deleteIn(ids.value.items), "deleted", ids.value.items, w)
          else if action == Some(JStr("update")) then
            var fields := Get(b, "fields");
            if !Truthy(fields) || !IsObjectType(fields) then
              Reply(400, Fail("Fields object is required for update"), NoWrite)
            else
              var data := UpdateData(fields.value);
              var w := Update(ids.value.items, data);
              Answer(updateIn(ids.value.items, data), "updated", ids.value.items, w)
          else Reply(400, Fail("Invalid action. Use \"delete\" or \"update\""), NoWrite)
  }

  /** `ids && Array.isArray(ids) && ids.length > 0`. */
  predicate IdsGiven(ids: Option<JVal>) {
    Truthy(ids) && IsArray(ids) && |ids.value.items| > 0
  }

  /** An update whose `fields` is not an object (an array) reaches the store
      with no column. */
  lemma ArrayFieldsUpdateNothing(items: seq<JVal>)
    ensures UpdateData(JArr(items)) == []
  {
    var d := UpdateData(JArr(items));
    if |d| > 0 {
      assert NoDup(UpdateKeys);
      PickLookup(JArr(items), UpdateKeys, Always, UpdateValue, d[0].0);
    }
  }
}

=== FILE: civil.dfy ===
/** Proleptic Gregorian civil dates and instants, with the date arithmetic the
    routes use: `setDate(getDate() - k)`, `setMonth(getMonth() - k)`,
    `setFullYear(getFullYear() - 1)`, `getTime()`, and the ISO 8601 week number
    computed by `getISOWeek`. Local time is taken to be UTC. */
module Civil {
  import opened Wrappers

  const MsPerDay: int := 86400000
  const MsPerHour: int := 3600000

  /** Day number of 1970-01-01 when 0001-01-01 is day 0. */
  const EpochDay: int := 719162

  datatype Date = Date(year: int, month: int, day: int)

  /** An instant: a UTC calendar date and the milliseconds elapsed since its midnight. */
  datatype Instant = Instant(date: Date, ms: int)

  predicate IsLeap(y: int) {
    y % 4 == 0 && (y % 100 != 0 || y % 400 == 0)
  }

  function DaysInMonth(y: int, m: int): (n: int)
    ensures 28 <= n <= 31
  {
    if m == 2 then (if IsLeap(y) then 29 else 28)
    else if m == 4 || m == 6 || m == 9 || m == 11 then 30
    else 31
  }

  function DaysInYear(y: int): (n: int)
    ensures n == 365 || n == 366
  {
    if IsLeap(y) then 366 else 365
  }

  predicate ValidDate(d: Date) {
    1 <= d.month <= 12 && 1 <= d.day <= DaysInMonth(d.year, d.month)
  }

  predicate ValidInstant(i: Instant) {
    ValidDate(i.date) && 0 <= i.ms < MsPerDay
  }

  /** A timestamp that parsed: what `new Date(...)` holds when it is not an
      Invalid Date. */
  type Time = i: Instant | ValidInstant(i) witness Instant(Date(1970, 1, 1), 0)

  /** Days in the months of year `y` before month `m`. */
  function DaysBeforeMonth(y: int, m: int): (n: nat)
    requires 1 <= m <= 13
  {
    if m == 1 then 0 else DaysBeforeMonth(y, m - 1) + DaysInMonth(y, m - 1)
  }

  /** Days in the years before year `y`, counted from 0001-01-01. */
  function DaysBeforeYear(y: int): int {
    365 * (y - 1) + (y - 1) / 4 - (y - 1) / 100 + (y - 1) / 400
  }

  /** 1 for January 1st, up to 365 or 366. */
  function DayOfYear(d: Date): (n: int)
    requires ValidDate(d)
    ensures 1 <= n <= DaysInYear(d.year)
  {
    MonthsFillYear(d.year);
    DaysBeforeMonthGrows(d.year, d.month, 12);
    DaysBeforeMonth(d.year, d.month) + d.day
  }

  /** Consecutive days have consecutive numbers; 0001-01-01 is day 0. */
  function DayNumber(d: Date): int
    requires ValidDate(d)
  {
    DaysBeforeYear(d.year) + DayOfYear(d) - 1
  }

  /** Milliseconds since 1970-01-01T00:00:00Z, what `getTime()` returns. */
  function EpochMs(i: Instant): int
    requires ValidInstant(i)
  {
    (DayNumber(i.date) - EpochDay) * MsPerDay + i.ms
  }

  /** The largest magnitude of a `Date` time value: 8.64e15 ms, 100 000 000
      days either side of the epoch. A setter whose result lies further out
      makes an Invalid Date (the TimeClip operation of ECMA-262). */
  const MaxTimeValue: int := 8640000000000000

  predicate InTimeRange(t: int) {
    -MaxTimeValue <= t <= MaxTimeValue
  }

  /** `t` lies between `start` and `end`, both included: a `.gte` and a
      `.lte` filter on a timestamp column. */
  predicate InWindow(t: Time, start: Time, end: Time) {
    EpochMs(start) <= EpochMs(t) <= EpochMs(end)
  }

  /** The start and end of a queried range; `None` is an Invalid Date. */
  datatype Period = Period(start: Option<Time>, end: Option<Time>)

  /** Monday = 1 ... Sunday = 7, what `getUTCDay() || 7` gives (0001-01-01 is a Monday). */
  function IsoWeekday(d: Date): (w: int)
    requires ValidDate(d)
    ensures 1 <= w <= 7
  {
    DayNumber(d) % 7 + 1
  }

  // ---------------------------------------------------------------------------
  // Facts about the calendar

  lemma MonthsFillYear(y: int)
    ensures DaysBeforeMonth(y, 13) == DaysInYear(y)
    ensures DaysBeforeMonth(y, 12) + 31 == DaysInYear(y)
  {
    var feb := DaysInMonth(y, 2);
    assert DaysBeforeMonth(y, 2) == 31;
    assert DaysBeforeMonth(y, 3) == 31 + feb;
    assert DaysBeforeMonth(y, 4) == 62 + feb;
    assert DaysBeforeMonth(y, 5) == 92 + feb;
    assert DaysBeforeMonth(y, 6) == 123 + feb;
    assert DaysBeforeMonth(y, 7) == 153 + feb;
    assert DaysBeforeMonth(y, 8) == 184 + feb;
    assert DaysBeforeMonth(y, 9) == 215 + feb;
    assert DaysBeforeMonth(y, 10) == 245 + feb;
    assert DaysBeforeMonth(y, 11) == 276 + feb;
    assert DaysBeforeMonth(y, 12) == 306 + feb;
  }

  lemma {:induction false} DaysBeforeMonthGrows(y: int, m: int, m': int)
    requires 1 <= m <= m' <= 13
    ensures DaysBeforeMonth(y, m) <= DaysBeforeMonth(y, m')
    decreases m' - m
  {
    if m < m' {
      DaysBeforeMonthGrows(y, m, m' - 1);
    }
  }

  /** Each year adds its own length to the count of days before it. */
  lemma DaysBeforeNextYear(y: int)
    ensures DaysBeforeYear(y + 1) == DaysBeforeYear(y) + DaysInYear(y)
  {
    DivStep(y, 4);
    DivStep(y, 100);
    DivStep(y, 400);
    if y % 100 == 0 {
      MultipleOfMultiple(y, 4, 25);
    }
    if y % 400 == 0 {
      MultipleOfMultiple(y, 100, 4);
    }
  }

  /** Stepping from `y - 1` to `y` adds one to `y / d` exactly at a multiple of `d`. */
  lemma DivStep(y: int, d: int)
    requires d > 0
    ensures y / d == (y - 1) / d + (if y % d == 0 then 1 else 0)
  {
    var q := (y - 1) / d;
    var r := (y - 1) % d;
    assert y - 1 == d * q + r;
    if r == d - 1 {
      assert y == d * (q + 1) + 0;
      DivUnique(y, d, q + 1, 0);
    } else {
      assert y == d * q + (r + 1);
      DivUnique(y, d, q, r + 1);
    }
  }

  /** Quotient and remainder are the only pair that rebuilds `y`. */
  lemma DivUnique(y: int, d: int, q: int, r: int)
    requires d > 0 && 0 <= r < d && y == d * q + r
    ensures y / d == q && y % d == r
  {
    var q', r' := y / d, y % d;
    assert d * q' + r' == d * q + r;
    if q' > q {
      MulAtLeast(d, q' - q);
    } else if q' < q {
      MulAtLeast(d, q - q');
    }
  }

  lemma MulAtLeast(d: int, k: int)
    requires d > 0 && k >= 1
    ensures d * k >= d
  {
    assert d * k == d + d * (k - 1);
  }

  /** A multiple of `a * b` is a multiple of `a`. */
  lemma MultipleOfMultiple(y: int, a: int, b: int)
    requires a > 0 && b > 0 && y % (a * b) == 0
    ensures y % a == 0
  {
    var q := y / (a * b);
    assert y == (a * b) * q;
    assert y == a * (b * q);
  }

  lemma {:induction false} DaysBeforeYearIncreasing(a: int, b: int)
    requires a < b
    ensures DaysBeforeYear(a) + 365 <= DaysBeforeYear(b)
    decreases b - a
  {
    DaysBeforeNextYear(a);
    if a + 1 < b {
      DaysBeforeYearIncreasing(a + 1, b);
    }
  }

  /** The day numbers of year `y` are exactly those from `DaysBeforeYear(y)` on,
      below `DaysBeforeYear(y + 1)`. */
  lemma DayNumberInYear(d: Date)
    requires ValidDate(d)
    ensures DaysBeforeYear(d.year) <= DayNumber(d) < DaysBeforeYear(d.year + 1)
  {
    DaysBeforeNextYear(d.year);
  }

  /** The year of a date is determined by its day number. */
  lemma YearOfDayNumber(d: Date, y: int)
    requires ValidDate(d)
    requires DaysBeforeYear(y) <= DayNumber(d) < DaysBeforeYear(y + 1)
    ensures d.year == y
  {
    DayNumberInYear(d);
    if d.year < y {
      DaysBeforeYearIncreasing(d.year, y);
      if d.year + 1 < y {
        DaysBeforeYearIncreasing(d.year + 1, y);
      }
    } else if d.year > y {
      if y + 1 < d.year {
        DaysBeforeYearIncreasing(y + 1, d.year);
      }
    }
  }

  /** Calendar order: by year, then month, then day. */
  predicate DateBefore(a: Date, b: Date) {
    a.year < b.year
    || (a.year == b.year && a.month < b.month)
    || (a.year == b.year && a.month == b.month && a.day < b.day)
  }

  lemma DateBeforeNumber(a: Date, b: Date)
    requires ValidDate(a) && ValidDate(b)
    requires DateBefore(a, b)
    ensures DayNumber(a) < DayNumber(b)
  {
    if a.year < b.year {
      DayNumberInYear(a);
      DayNumberInYear(b);
      if a.year + 1 < b.year {
        DaysBeforeYearIncreasing(a.year + 1, b.year);
      }
    } else if a.month < b.month {
      DaysBeforeMonthGrows(a.year, a.month + 1, b.month);
    }
  }

  /** Day numbers follow calendar order. */
  lemma DayNumberOrder(a: Date, b: Date)
    requires ValidDate(a) && ValidDate(b)
    ensures DateBefore(a, b) <==> DayNumber(a) < DayNumber(b)
  {
    if DateBefore(a, b) {
      DateBeforeNumber(a, b);
    } else if DateBefore(b, a) {
      DateBeforeNumber(b, a);
    }
  }

  // ---------------------------------------------------------------------------
  // Day steps

  function NextDay(d: Date): (r: Date)
    requires ValidDate(d)
    ensures ValidDate(r)
  {
    if d.day < DaysInMonth(d.year, d.month) then Date(d.year, d.month, d.day + 1)
    else if d.month < 12 then Date(d.year, d.month + 1, 1)
    else Date(d.year + 1, 1, 1)
  }

  function PrevDay(d: Date): (r: Date)
    requires ValidDate(d)
    ensures ValidDate(r)
  {
    if d.day > 1 then Date(d.year, d.month, d.day - 1)
    else if d.month > 1 then Date(d.year, d.month - 1, DaysInMonth(d.year, d.month - 1))
    else Date(d.year - 1, 12, 31)
  }

  lemma NextDayNumber(d: Date)
    requires ValidDate(d)
    ensures DayNumber(NextDay(d)) == DayNumber(d) + 1
  {
    if d.day == DaysInMonth(d.year, d.month) && d.month == 12 {
      DaysBeforeNextYear(d.year);
      MonthsFillYear(d.year);
    }
  }

  lemma PrevDayNumber(d: Date)
    requires ValidDate(d)
    ensures DayNumber(PrevDay(d)) == DayNumber(d) - 1
  {
    if d.day == 1 && d.month == 1 {
      DaysBeforeNextYear(d.year - 1);
      MonthsFillYear(d.year - 1);
    }
  }

  /** `setDate(getDate() + k)`: the date `k` days later (earlier when `k < 0`). */
  function AddDays(d: Date, k: int): (r: Date)
    requires ValidDate(d)
    ensures ValidDate(r)
    decreases if k < 0 then -k else k
  {
    if k == 0 then d
    else if k > 0 then AddDays(NextDay(d), k - 1)
    else AddDays(PrevDay(d), k + 1)
  }

  lemma {:induction false} AddDaysNumber(d: Date, k: int)
    requires ValidDate(d)
    ensures DayNumber(AddDays(d, k)) == DayNumber(d) + k
    decreases if k < 0 then -k else k
  {
    if k > 0 {
      NextDayNumber(d);
      AddDaysNumber(NextDay(d), k - 1);
    } else if k < 0 {
      PrevDayNumber(d);
      AddDaysNumber(PrevDay(d), k + 1);
    }
  }

  /** `new Date(now)` after `setDate(getDate() - k)`: the time of day is kept. */
  function MinusDays(i: Instant, k: int): (r: Instant)
    requires ValidInstant(i)
    ensures ValidInstant(r)
    ensures EpochMs(r) == EpochMs(i) - k * MsPerDay
  {
    AddDaysNumber(i.date, -k);
    Instant(AddDays(i.date, -k), i.ms)
  }

  /** `setHours(getHours() - 1)`: one hour earlier, into the previous day if need be. */
  function MinusHour(i: Instant): (r: Instant)
    requires ValidInstant(i)
    ensures ValidInstant(r)
    ensures EpochMs(r) == EpochMs(i) - MsPerHour
  {
    if i.ms >= MsPerHour then Instant(i.date, i.ms - MsPerHour)
    else
      PrevDayNumber(i.date);
      Instant(PrevDay(i.date), i.ms + MsPerDay - MsPerHour)
  }

  /** A day-of-month that may run past the end of its month rolls over into the
      next month, as the `Date` setters do. */
  function Overflow(y: int, m: int, day: int): (r: Date)
    requires 1 <= m <= 12 && 1 <= day <= 31
    ensures ValidDate(r)
    ensures day <= DaysInMonth(y, m) ==> r == Date(y, m, day)
  {
    if day <= DaysInMonth(y, m) then Date(y, m, day)
    else if m < 12 then Date(y, m + 1, day - DaysInMonth(y, m))
    else Date(y + 1, 1, day - DaysInMonth(y, m))
  }

  /** `setMonth(getMonth() - k)`: the month index is normalised into the year
      (borrowing years), then the day of month overflows if the month is shorter. */
  function MinusMonths(d: Date, k: nat): (r: Date)
    requires ValidDate(d)
    ensures ValidDate(r)
  {
    var index := d.month - 1 - k;
    Overflow(d.year + index / 12, index % 12 + 1, d.day)
  }

  /** `setFullYear(getFullYear() - 1)`: February 29th becomes March 1st. */
  function MinusYear(d: Date): (r: Date)
    requires ValidDate(d)
    ensures ValidDate(r)
    ensures !(d.month == 2 && d.day == 29) ==> r == Date(d.year - 1, d.month, d.day)
    ensures d.month == 2 && d.day == 29 ==> r == Date(d.year - 1, 3, 1)
  {
    Overflow(d.year - 1, d.month, d.day)
  }

  /** Going back whole months keeps the day of month whenever the target month has it. */
  lemma MinusMonthsKeepsDay(d: Date, k: nat)
    requires ValidDate(d)
    requires d.day <= 28
    ensures MinusMonths(d, k).day == d.day
    ensures MinusMonths(d, k).year * 12 + MinusMonths(d, k).month == d.year * 12 + d.month - k
  {
  }

  // ---------------------------------------------------------------------------
  // ISO 8601 week numbers

  /** The Thursday of the Monday-to-Sunday week containing `d`:
      `setUTCDate(getUTCDate() + 4 - dayNum)`. */
  function WeekThursday(d: Date): (r: Date)
    requires ValidDate(d)
    ensures ValidDate(r)
  {
    AddDays(d, 4 - IsoWeekday(d))
  }

  /** `getISOWeek`: the day of the year of the week's Thursday, divided by 7 and
      rounded up. */
  function IsoWeek(d: Date): (w: int)
    requires ValidDate(d)
    ensures 1 <= w <= 53
  {
    ThursdayWeek(WeekThursday(d))
  }

  /** `Date.UTC(y, m, d)` as `getISOWeek` builds it from a date's fields: a
      year from 0 to 99 is read as 1900 + y, and a day the new year lacks
      (29 February of a leap year before 100) rolls over into March. */
  function UtcFields(d: Date): (r: Date)
    requires ValidDate(d)
    ensures ValidDate(r)
    ensures !(0 <= d.year <= 99) ==> r == d
    ensures 0 <= d.year <= 99 && !(d.month == 2 && d.day == 29) ==> r == Date(d.year + 1900, d.month, d.day)
    ensures 0 <= d.year <= 99 && d.month == 2 && d.day == 29 ==>
      r == (if IsLeap(d.year + 1900) then Date(d.year + 1900, 2, 29) else Date(d.year + 1900, 3, 1))
  {
    if 0 <= d.year <= 99 then Overflow(d.year + 1900, d.month, d.day) else d
  }

  /** The Thursday `getISOWeek` finds for `d` lies in the years 0 to 99, so
      its `yearStart` is 1 January of 1900 + y instead of its own year. */
  predicate CenturyThursday(d: Date)
    requires ValidDate(d)
  {
    0 <= WeekThursday(UtcFields(d)).year <= 99
  }

  /** `getISOWeek(date)`: the Thursday of the week of the date `Date.UTC`
      makes of the fields, and the whole weeks from `yearStart` to it rounded
      up. `yearStart` is made by `Date.UTC` too, so a Thursday in the years 0
      to 99 is measured from 1 January 1900 + y and the week is negative.
      `Math.ceil((days + 1) / 7)` is `(days + 7) / 7` in floor division. */
  function GetIsoWeek(d: Date): (w: int)
    requires ValidDate(d)
    ensures !CenturyThursday(d) ==> w == IsoWeek(UtcFields(d))
    ensures CenturyThursday(d) ==> w < 0
    ensures 1 <= w <= 53 <==> !CenturyThursday(d)
  {
    var t := WeekThursday(UtcFields(d));
    var yearStart := UtcFields(Date(t.year, 1, 1));
    YearStartDays(t);
    (DayNumber(t) - DayNumber(yearStart) + 7) / 7
  }

  /** Measured from its own 1 January a day is its day of the year; measured
      from 1 January 1900 + y it lies more than a year before. */
  lemma YearStartDays(t: Date)
    requires ValidDate(t)
    ensures !(0 <= t.year <= 99) ==>
      DayNumber(t) - DayNumber(UtcFields(Date(t.year, 1, 1))) + 1 == DayOfYear(t)
    ensures 0 <= t.year <= 99 ==>
      DayNumber(t) - DayNumber(UtcFields(Date(t.year, 1, 1))) + 365 < 0
  {
    var jan1 := Date(t.year, 1, 1);
    if 0 <= t.year <= 99 {
      var start := UtcFields(jan1);
      assert start == Date(t.year + 1900, 1, 1);
      DayNumberInYear(t);
      DayNumberInYear(start);
      DaysBeforeYearIncreasing(t.year + 1, t.year + 1900);
    } else {
      assert UtcFields(jan1) == jan1;
      assert DayOfYear(jan1) == 1;
    }
  }

  /** Outside the years 0 to 99 and their neighbours `getISOWeek` gives the
      ISO week. */
  lemma GetIsoWeekIsIsoWeek(d: Date)
    requires ValidDate(d) && (d.year >= 101 || d.year <= -2)
    ensures GetIsoWeek(d) == IsoWeek(d)
  {
    var t := WeekThursday(d);
    WeekThursdayNumber(d);
    DayNumberInYear(d);
    DayNumberInYear(t);
    if d.year >= 101 && t.year <= 99 {
      DaysBeforeYearIncreasing(t.year + 1, d.year);
      assert false;
    }
    if d.year <= -2 && t.year >= 0 {
      DaysBeforeYearIncreasing(d.year + 1, t.year);
      assert false;
    }
  }

  /** The day of the year of `t`, divided by 7 and rounded up. */
  function ThursdayWeek(t: Date): (w: int)
    requires ValidDate(t)
    ensures 1 <= w <= 53
  {
    (DayOfYear(t) + 6) / 7
  }

  /** The year whose weeks contain `d` in ISO 8601 week numbering: the year of its
      week's Thursday. */
  function IsoWeekYear(d: Date): int
    requires ValidDate(d)
  {
    WeekThursday(d).year
  }

  /** Reference definition (ISO 8601:2004 section 4.1.4.2): week 1 of year `y`
      is the Monday-to-Sunday week that contains January 4th. This is the day
      number of its Monday. */
  function FirstWeekMonday(y: int): (n: int)
    ensures n % 7 == 0
    ensures DaysBeforeYear(y) - 3 <= n <= DaysBeforeYear(y) + 3
  {
    var jan4 := DaysBeforeYear(y) + 3;
    RoundDown(jan4, 7);
    jan4 - jan4 % 7
  }

  /** Rounding down to a multiple of `d` moves by less than `d`. */
  lemma RoundDown(x: int, d: int)
    requires d > 0
    ensures (x - x % d) % d == 0 && 0 <= x % d < d
  {
    assert x - x % d == d * (x / d) + 0;
    DivUnique(x - x % d, d, x / d, 0);
  }

  /** `IsoWeek` agrees with the reference definition: `d` lies between the first
      Mondays of its ISO year and of the next one, and its week number counts
      the weeks since the first. */
  lemma IsoWeekMatchesDefinition(d: Date)
    requires ValidDate(d)
    ensures FirstWeekMonday(IsoWeekYear(d)) <= DayNumber(d) < FirstWeekMonday(IsoWeekYear(d) + 1)
    ensures IsoWeek(d) == (DayNumber(d) - FirstWeekMonday(IsoWeekYear(d))) / 7 + 1
  {
    WeekThursdayNumber(d);
    ThursdayWeekFromMondays(DayNumber(d), WeekThursday(d));
  }

  /** The same for any date `t` three days after the Monday of the week of
      day number `n`, kept apart from how `WeekThursday` steps to it. */
  lemma ThursdayWeekFromMondays(n: int, t: Date)
    requires ValidDate(t)
    requires DayNumber(t) == n + 3 - n % 7
    ensures FirstWeekMonday(t.year) <= n < FirstWeekMonday(t.year + 1)
    ensures ThursdayWeek(t) == (n - FirstWeekMonday(t.year)) / 7 + 1
  {
    DayNumberInYear(t);
    ThursdayWeekOf(t);
    YearWeeks(t.year, n, DayNumber(t), ThursdayWeek(t));
  }

  /** The same once more in terms of the year `y` alone, whose day numbers
      hold the Thursday `thursday` and whose week `w` it is. */
  lemma YearWeeks(y: int, n: int, thursday: int, w: int)
    requires thursday == n + 3 - n % 7
    requires DaysBeforeYear(y) <= thursday < DaysBeforeYear(y + 1)
    requires w == (thursday - DaysBeforeYear(y) + 7) / 7
    ensures FirstWeekMonday(y) <= n < FirstWeekMonday(y + 1)
    ensures w == (n - FirstWeekMonday(y)) / 7 + 1
  {
    FirstWeekMondayOf(y);
    FirstWeekMondayOf(y + 1);
    WeekArithmetic(n, thursday, DaysBeforeYear(y), DaysBeforeYear(y + 1),
                   FirstWeekMonday(y), FirstWeekMonday(y + 1), w);
  }

  lemma ThursdayWeekOf(t: Date)
    requires ValidDate(t)
    ensures ThursdayWeek(t) == (DayNumber(t) - DaysBeforeYear(t.year) + 7) / 7
  {
    assert DayOfYear(t) + 6 == DayNumber(t) - DaysBeforeYear(t.year) + 7;
  }

  lemma FirstWeekMondayOf(y: int)
    ensures FirstWeekMonday(y) == (DaysBeforeYear(y) + 3) - (DaysBeforeYear(y) + 3) % 7
  {
  }

  /** The arithmetic behind `IsoWeekMatchesDefinition`, for day number `n`
      whose Thursday `thursday` falls in the year spanning day numbers
      `j` to `j' - 1`, whose first Mondays are `f` and `f'`, and week number
      `w` of that Thursday. */
  lemma WeekArithmetic(n: int, thursday: int, j: int, j': int, f: int, f': int, w: int)
    requires thursday == n + 3 - n % 7 && j <= thursday < j'
    requires f == (j + 3) - (j + 3) % 7 && f' == (j' + 3) - (j' + 3) % 7
    requires w == (thursday - j + 7) / 7
    ensures f <= n < f'
    ensures w == (n - f) / 7 + 1
  {
    var a, r := n / 7, n % 7;
    var b, s := (j + 3) / 7, (j + 3) % 7;
    var c, u := (j' + 3) / 7, (j' + 3) % 7;
    assert n == 7 * a + r;
    assert j + 3 == 7 * b + s;
    assert j' + 3 == 7 * c + u;
    assert b <= a;
    assert a < c;
    assert n - 7 * b == 7 * (a - b) + r;
    DivUnique(n - 7 * b, 7, a - b, r);
    assert n + 3 - r - j + 1 + 6 == 7 * (a - b + 1) + (6 - s);
    DivUnique(n + 3 - r - j + 1 + 6, 7, a - b + 1, 6 - s);
  }

  /** January 4th is always in week 1 of its own year. */
  lemma Jan4InWeekOne(y: int)
    ensures ValidDate(Date(y, 1, 4))
    ensures IsoWeek(Date(y, 1, 4)) == 1
    ensures IsoWeekYear(Date(y, 1, 4)) == y
  {
    var d := Date(y, 1, 4);
    var t := WeekThursday(d);
    AddDaysNumber(d, 4 - IsoWeekday(d));
    DaysBeforeNextYear(y);
    YearOfDayNumber(t, y);
  }

  /** Monday to Saturday are followed by a day of the same week. */
  lemma {:induction false} NextDaySameWeek(d: Date)
    requires ValidDate(d)
    requires IsoWeekday(d) != 7
    ensures IsoWeekday(NextDay(d)) == IsoWeekday(d) + 1
    ensures WeekThursday(NextDay(d)) == WeekThursday(d)
    ensures IsoWeek(NextDay(d)) == IsoWeek(d)
  {
    var e := NextDay(d);
    NextDayNumber(d);
    WeekdayStep(DayNumber(d));
    WeekThursdayNumber(d);
    WeekThursdayNumber(e);
    DayNumberInjective(WeekThursday(e), WeekThursday(d));
  }

  /** Within a week the day after `n` has the next weekday. */
  lemma WeekdayStep(n: int)
    requires n % 7 != 6
    ensures (n + 1) % 7 == n % 7 + 1
  {
    assert n + 1 == 7 * (n / 7) + (n % 7 + 1);
    DivUnique(n + 1, 7, n / 7, n % 7 + 1);
  }

  /** After a Sunday comes week 1 or the next week number. */
  lemma {:induction false} NextDayNewWeek(d: Date)
    requires ValidDate(d)
    requires IsoWeekday(d) == 7
    ensures IsoWeekday(NextDay(d)) == 1
    ensures IsoWeek(NextDay(d)) == IsoWeek(d) + 1 || IsoWeek(NextDay(d)) == 1
  {
    var e := NextDay(d);
    NextDayNumber(d);
    SundayThenMonday(DayNumber(d));
    WeekThursdayNumber(d);
    WeekThursdayNumber(e);
    ThursdayWeekStep(WeekThursday(d), WeekThursday(e));
  }

  lemma SundayThenMonday(n: int)
    requires n % 7 == 6
    ensures (n + 1) % 7 == 0
  {
  }

  lemma WeekThursdayNumber(d: Date)
    requires ValidDate(d)
    ensures DayNumber(WeekThursday(d)) == DayNumber(d) + 4 - IsoWeekday(d)
  {
    AddDaysNumber(d, 4 - IsoWeekday(d));
  }

  lemma ThursdayWeekStep(t: Date, t': Date)
    requires ValidDate(t) && ValidDate(t')
    requires DayNumber(t') == DayNumber(t) + 7
    ensures ThursdayWeek(t') == ThursdayWeek(t) + 1 || ThursdayWeek(t') == 1
  {
    DayNumberInYear(t);
    DayNumberInYear(t');
    var y := t.year;
    var y' := t'.year;
    if y' != y {
      assert y < y' by {
        if y' < y {
          DaysBeforeYearIncreasing(y', y);
        }
      }
      if y + 1 < y' {
        DaysBeforeYearIncreasing(y + 1, y');
      }
      assert DayOfYear(t') <= 7;
    }
  }

  lemma DayNumberInjective(a: Date, b: Date)
    requires ValidDate(a) && ValidDate(b)
    requires DayNumber(a) == DayNumber(b)
    ensures a == b
  {
    DayNumberInYear(a);
    YearOfDayNumber(b, a.year);
    if a.month < b.month {
      DaysBeforeMonthGrows(a.year, a.month + 1, b.month);
    } else if b.month < a.month {
      DaysBeforeMonthGrows(a.year, b.month + 1, a.month);
    }
  }

  /** `t` is the Thursday of `d`'s week when its day number is the one the
      week's Monday-to-Sunday position of `d` calls for. */
  lemma ThursdayOf(d: Date, t: Date)
    requires ValidDate(d) && ValidDate(t)
    requires DayNumber(t) == DayNumber(d) + 4 - (DayNumber(d) % 7 + 1)
    ensures WeekThursday(d) == t
  {
    WeekThursdayNumber(d);
    DayNumberInjective(WeekThursday(d), t);
  }

  /** 2024-01-01 is a Monday in week 1 of 2024. */
  lemma IsoWeekExampleMonday(d: Date)
    requires d == Date(2024, 1, 1)
    ensures IsoWeek(d) == 1 && IsoWeekYear(d) == 2024
  {
    assert DayNumber(d) == 738885;
    assert DayNumber(Date(2024, 1, 4)) == 738888;
    ThursdayOf(d, Date(2024, 1, 4));
  }

  /** 2024-12-31 is a Tuesday already in week 1 of 2025. */
  lemma IsoWeekExampleNewYear(d: Date)
    requires d == Date(2024, 12, 31)
    ensures IsoWeek(d) == 1 && IsoWeekYear(d) == 2025
  {
    assert DayNumber(d) == 739250;
    assert DayNumber(Date(2025, 1, 2)) == 739252;
    ThursdayOf(d, Date(2025, 1, 2));
  }

  /** 0006-01-01 is a Sunday in week 52 of year 5, but `getISOWeek` reads
      its fields as 1906-01-01, a Monday in week 1. */
  lemma GetIsoWeekCenturyShift(d: Date)
    requires d == Date(6, 1, 1)
    ensures IsoWeek(d) == 52
    ensures GetIsoWeek(d) == 1
  {
    IsoWeekExampleYearSix(d);
    assert UtcFields(d) == Date(1906, 1, 1);
    IsoWeekExample1906(Date(1906, 1, 1));
  }

  /** 0006-01-01 is a Sunday in week 52 of year 5. */
  lemma IsoWeekExampleYearSix(d: Date)
    requires d == Date(6, 1, 1)
    ensures IsoWeek(d) == 52
  {
    assert DayNumber(d) == 1826;
    assert DayNumber(Date(5, 12, 29)) == 1823;
    ThursdayOf(d, Date(5, 12, 29));
  }

  /** 1906-01-01 is a Monday in week 1. */
  lemma IsoWeekExample1906(d: Date)
    requires d == Date(1906, 1, 1)
    ensures WeekThursday(d) == Date(1906, 1, 4)
    ensures IsoWeek(d) == 1
  {
    assert DayNumber(d) == 695786;
    assert DayNumber(Date(1906, 1, 4)) == 695789;
    ThursdayOf(d, Date(1906, 1, 4));
  }

  /** 0100-01-01 is a Friday in week 53 of year 99, but its Thursday,
      0099-12-31, is measured from 1999-01-01: `getISOWeek` gives -99085. */
  lemma GetIsoWeekYearHundred(d: Date)
    requires d == Date(100, 1, 1)
    ensures IsoWeek(d) == 53
    ensures GetIsoWeek(d) == -99085
  {
    IsoWeekExampleYearHundred(d);
    assert UtcFields(d) == d;
    var t := WeekThursday(d);
    var yearStart := UtcFields(Date(t.year, 1, 1));
    YearStartOf99(yearStart);
    assert GetIsoWeek(d) == (DayNumber(t) - DayNumber(yearStart) + 7) / 7;
  }

  /** `Date.UTC(99, 0, 1)` is 1999-01-01, day 729754. */
  lemma YearStartOf99(r: Date)
    requires r == UtcFields(Date(99, 1, 1))
    ensures DayNumber(r) == 729754
  {
    assert r == Date(1999, 1, 1);
  }

  /** 0100-01-01 is a Friday in week 53 of year 99. */
  lemma IsoWeekExampleYearHundred(d: Date)
    requires d == Date(100, 1, 1)
    ensures WeekThursday(d) == Date(99, 12, 31)
    ensures DayNumber(WeekThursday(d)) == 36158
    ensures IsoWeek(d) == 53
  {
    assert DayNumber(d) == 36159;
    assert DayNumber(Date(99, 12, 31)) == 36158;
    ThursdayOf(d, Date(99, 12, 31));
    MonthsFillYear(99);
  }

  /** 2021-01-01 is a Friday still in week 53 of 2020. */
  lemma IsoWeekExampleOldYear(d: Date)
    requires d == Date(2021, 1, 1)
    ensures IsoWeek(d) == 53 && IsoWeekYear(d) == 2020
  {
    assert DayNumber(d) == 737790;
    assert DayNumber(Date(2020, 12, 31)) == 737789;
    ThursdayOf(d, Date(2020, 12, 31));
  }
}

=== FILE: csv.dfy ===
/** CSV cells and lines as the three exporters write them: a cell holding a
    comma, a double quote or a line feed is wrapped in double quotes with each
    inner double quote doubled (section 2, rules 6 and 7 of RFC 4180, except that
    a carriage return alone does not trigger quoting); cells are joined with ','
    and lines with '\n'. A reference reader in the style of RFC 4180 shows that
    the written text reads back as the cells it was written from. */
module Csv {
  import opened Seqs
  import opened Text

  predicate NeedsQuotes(s: string) {
    ',' in s || '"' in s || '\n' in s
  }

  /** `s.replace(/"/g, '""')`. */
  function DoubleQuotes(s: string): (r: string)
    ensures |r| >= |s|
  {
    if |s| == 0 then "" else (if s[0] == '"' then "\"\"" else [s[0]]) + DoubleQuotes(s[1..])
  }

  /** The quoting rule shared by the exporters. */
  function EscapeCell(s: string): (r: string)
    ensures !NeedsQuotes(s) ==> r == s
    ensures NeedsQuotes(s) ==> |r| >= |s| + 2 && r[0] == '"' && r[|r| - 1] == '"'
  {
    if NeedsQuotes(s) then "\"" + DoubleQuotes(s) + "\"" else s
  }

  /** One line: the escaped cells joined with ','. */
  function Line(cells: seq<string>): string {
    Join(MapSeq(cells, EscapeCell), ",")
  }

  /** Lines joined with '\n' (no newline after the last one). */
  function Document(rows: seq<seq<string>>): string {
    Join(MapSeq(rows, Line), "\n")
  }

  // ---------------------------------------------------------------------------
  // Reference reader

  /** What a reader took from the front of a text, and the text after it. */
  datatype Read<T> = Read(value: T, rest: string)

  predicate AtBoundary(t: string) {
    |t| == 0 || t[0] == ',' || t[0] == '\n'
  }

  /** An unquoted field: everything up to the next ',' or '\n'. */
  function ReadPlain(s: string): (r: Read<string>)
    ensures |r.rest| <= |s|
    ensures AtBoundary(r.rest)
  {
    if AtBoundary(s) then Read("", s)
    else
      var r := ReadPlain(s[1..]);
      Read([s[0]] + r.value, r.rest)
  }

  /** The inside of a quoted field, after its opening quote: `""` stands for one
      quote and a lone `"` closes the field. */
  function ReadQuoted(s: string): (r: Read<string>)
    ensures |r.rest| <= |s|
  {
    if |s| == 0 then Read("", "")
    else if s[0] == '"' then
      if |s| > 1 && s[1] == '"' then
        var r := ReadQuoted(s[2..]);
        Read("\"" + r.value, r.rest)
      else Read("", s[1..])
    else
      var r := ReadQuoted(s[1..]);
      Read([s[0]] + r.value, r.rest)
  }

  function ReadField(s: string): (r: Read<string>)
    ensures |r.rest| <= |s|
  {
    if |s| > 0 && s[0] == '"' then ReadQuoted(s[1..]) else ReadPlain(s)
  }

  /** The fields of one record, and the text after it. */
  function ReadRecord(s: string): (r: Read<seq<string>>)
    ensures |r.value| >= 1
    ensures |r.rest| <= |s|
    decreases |s|
  {
    var f := ReadField(s);
    if |f.rest| > 0 && f.rest[0] == ',' then
      var r := ReadRecord(f.rest[1..]);
      Read([f.value] + r.value, r.rest)
    else Read([f.value], f.rest)
  }

  /** All records of a text; the character after each record is its line break. */
  function ReadDocument(s: string): (rows: seq<seq<string>>)
    ensures |rows| >= 1
    decreases |s|
  {
    var r := ReadRecord(s);
    if |r.rest| > 0 then [r.value] + ReadDocument(r.rest[1..]) else [r.value]
  }

  // ---------------------------------------------------------------------------
  // Round trip

  lemma {:induction false} ReadPlainCell(c: string, t: string)
    requires !NeedsQuotes(c) && AtBoundary(t)
    ensures ReadPlain(c + t) == Read(c, t)
  {
    if |c| > 0 {
      assert (c + t)[1..] == c[1..] + t;
      ReadPlainCell(c[1..], t);
      assert c == [c[0]] + c[1..];
    } else {
      assert c + t == t;
    }
  }

  lemma {:induction false} ReadQuotedCell(c: string, t: string)
    requires |t| == 0 || t[0] != '"'
    ensures ReadQuoted(DoubleQuotes(c) + "\"" + t) == Read(c, t)
  {
    var s := DoubleQuotes(c) + "\"" + t;
    if |c| == 0 {
      assert s == "\"" + t;
      assert s[1..] == t;
    } else if c[0] == '"' {
      assert s == "\"\"" + (DoubleQuotes(c[1..]) + "\"" + t);
      assert s[2..] == DoubleQuotes(c[1..]) + "\"" + t;
      ReadQuotedCell(c[1..], t);
      assert c == "\"" + c[1..];
    } else {
      assert s == [c[0]] + (DoubleQuotes(c[1..]) + "\"" + t);
      assert s[1..] == DoubleQuotes(c[1..]) + "\"" + t;
      ReadQuotedCell(c[1..], t);
      assert c == [c[0]] + c[1..];
    }
  }

  /** An escaped cell reads back as the cell, leaving what follows it. */
  lemma ReadEscapedCell(c: string, t: string)
    requires AtBoundary(t)
    ensures ReadField(EscapeCell(c) + t) == Read(c, t)
  {
    if NeedsQuotes(c) {
      assert EscapeCell(c) == "\"" + DoubleQuotes(c) + "\"";
      ReadQuotedField(c, t);
    } else {
      ReadPlainField(c, t);
    }
  }

  lemma ReadQuotedField(c: string, t: string)
    requires AtBoundary(t)
    ensures ReadField("\"" + DoubleQuotes(c) + "\"" + t) == Read(c, t)
  {
    var inner := DoubleQuotes(c) + "\"" + t;
    var s := "\"" + DoubleQuotes(c) + "\"" + t;
    assert s == "\"" + inner;
    assert s[1..] == inner;
    ReadQuotedCell(c, t);
  }

  lemma ReadPlainField(c: string, t: string)
    requires !NeedsQuotes(c) && AtBoundary(t)
    ensures ReadField(c + t) == Read(c, t)
  {
    ReadPlainCell(c, t);
    if |c| > 0 {
      assert c[0] != '"';
      assert (c + t)[0] == c[0];
    }
  }

  /** A line reads back as its cells, leaving what follows it. */
  lemma {:induction false} ReadLine(cells: seq<string>, t: string)
    requires |cells| >= 1
    requires |t| == 0 || t[0] == '\n'
    ensures ReadRecord(Line(cells) + t) == Read(cells, t)
  {
    var e := MapSeq(cells, EscapeCell);
    if |cells| == 1 {
      ReadEscapedCell(cells[0], t);
      assert cells == [cells[0]];
    } else {
      var tail := Line(cells[1..]);
      assert MapSeq(cells[1..], EscapeCell) == e[1..];
      assert Line(cells) == e[0] + "," + tail;
      var s := Line(cells) + t;
      assert s == e[0] + ("," + (tail + t));
      ReadEscapedCell(cells[0], "," + (tail + t));
      assert ("," + (tail + t))[1..] == tail + t;
      ReadLine(cells[1..], t);
      assert cells == [cells[0]] + cells[1..];
    }
  }

  /** Written lines read back as the rows they were written from: quoting keeps
      commas, quotes and line feeds inside a cell. */
  lemma {:induction false} DocumentRoundTrip(rows: seq<seq<string>>)
    requires |rows| >= 1
    requires forall i :: 0 <= i < |rows| ==> |rows[i]| >= 1
    ensures ReadDocument(Document(rows)) == rows
  {
    if |rows| == 1 {
      ReadLine(rows[0], "");
      assert Line(rows[0]) + "" == Line(rows[0]);
      assert rows == [rows[0]];
    } else {
      DocumentRoundTrip(rows[1..]);
      DocumentCons(rows);
      DocumentStep(rows);
    }
  }

  /** A document of two or more rows is its first line, a line feed and the
      document of the other rows. */
  lemma DocumentCons(rows: seq<seq<string>>)
    requires |rows| >= 2
    ensures Document(rows) == Line(rows[0]) + ("\n" + Document(rows[1..]))
  {
    var lines := MapSeq(rows, Line);
    assert MapSeq(rows[1..], Line) == lines[1..];
  }

  /** The inductive step of `DocumentRoundTrip`. */
  lemma DocumentStep(rows: seq<seq<string>>)
    requires |rows| >= 2 && |rows[0]| >= 1
    requires ReadDocument(Document(rows[1..])) == rows[1..]
    requires Document(rows) == Line(rows[0]) + ("\n" + Document(rows[1..]))
    ensures ReadDocument(Document(rows)) == rows
  {
    var tail := Document(rows[1..]);
    ReadLine(rows[0], "\n" + tail);
    assert ("\n" + tail)[1..] == tail;
    assert rows == [rows[0]] + rows[1..];
  }

  /** Cells that need no quoting are written as they are, so a plain header list
      joined with ',' is the same line. */
  lemma {:induction false} PlainLine(cells: seq<string>)
    requires forall i :: 0 <= i < |cells| ==> !NeedsQuotes(cells[i])
    ensures Line(cells) == Join(cells, ",")
  {
    if |cells| > 1 {
      PlainLine(cells[1..]);
      assert MapSeq(cells[1..], EscapeCell) == MapSeq(cells, EscapeCell)[1..];
    }
  }

  /** A table as the pages export it: the header cells joined with ',' as
      they are, then one line of escaped cells per row, joined with '\n'. */
  function Table(headers: seq<string>, rows: seq<seq<string>>): string {
    Join([Join(headers, ",")] + MapSeq(rows, Line), "\n")
  }

  /** With headers that need no quoting, a table reads back as its header row
      followed by its rows. */
  lemma TableReadsBack(headers: seq<string>, rows: seq<seq<string>>)
    requires |headers| >= 1
    requires forall i :: 0 <= i < |headers| ==> !NeedsQuotes(headers[i])
    requires forall i :: 0 <= i < |rows| ==> |rows[i]| >= 1
    ensures ReadDocument(Table(headers, rows)) == [headers] + rows
  {
    var all := [headers] + rows;
    PlainLine(headers);
    assert MapSeq(all, Line) == [Join(headers, ",")] + MapSeq(rows, Line);
    assert forall i :: 0 <= i < |all| ==> |all[i]| >= 1;
    DocumentRoundTrip(all);
  }
}

=== FILE: dashboard.dfy ===
/** The dashboard statistics route (`GET /api/admin/activity/stats`): the
    number of activities since the start date, today's logins, the number of
    distinct users active in the last seven days, logins per UTC day, the ten
    most active users and the twenty newest activities. Each of the six store
    queries reads the activity-log table; its answer is an input, `None` when
    that query failed. Their filter, order and limit clauses are applied here. */
module DashboardStats {
  import opened Wrappers
  import opened Text
  import opened Seqs
  import opened Sorting
  import opened Civil
  import opened DateKeys
  import opened Grouping
  import opened Pagination
  import Auth

  /** The joined `user_profiles` row of an activity. */
  datatype ProfileRef = ProfileRef(email: Option<string>)

  datatype ActivityRow = ActivityRow(
    id: string,
    userId: string,
    activityType: string,
    created: Time,
    profile: Option<ProfileRef>)

  /** The log table as each query saw it. */
  datatype Tables = Tables(
    total: Option<seq<ActivityRow>>,
    today: Option<seq<ActivityRow>>,
    active: Option<seq<ActivityRow>>,
    trend: Option<seq<ActivityRow>>,
    top: Option<seq<ActivityRow>>,
    recent: Option<seq<ActivityRow>>)

  datatype Params = Params(startDate: Option<string>, endDate: Option<string>, days: Option<string>)

  datatype TopUser = TopUser(userId: string, count: nat, email: string, name: string)

  datatype Stats = Stats(
    totalActivities: nat,
    todayLogins: nat,
    activeUsers: nat,
    loginTrend: seq<Entry<string>>,
    topUsers: seq<TopUser>,
    recentActivities: seq<ActivityRow>)

  datatype Reply = Reply(status: int, data: Option<Stats>)

  function RowUser(r: ActivityRow): string { r.userId }

  predicate Since(t: Time, cut: Time) {
    EpochMs(t) >= EpochMs(cut)
  }

  function SinceCut(cut: Time): ActivityRow -> bool {
    (r: ActivityRow) => Since(r.created, cut)
  }

  function LoginSince(cut: Time): ActivityRow -> bool {
    (r: ActivityRow) => r.activityType == "login" && Since(r.created, cut)
  }

  // ---------------------------------------------------------------------------
  // Start of the range

  /** With both dates given, the parsed `start_date` (the end date is never
      used); otherwise `days` (default 30) days before now, where a `days` that
      does not parse, or one that moves the date beyond the range a `Date`
      can hold, makes an Invalid Date. `None` is an Invalid Date, whose
      `toISOString()` throws. */
  function StartDate(p: Params, now: Time, parseDate: string -> Option<Time>): (r: Option<Time>)
    ensures Filled(p.startDate) && Filled(p.endDate) ==> r == parseDate(p.startDate.value)
    ensures !(Filled(p.startDate) && Filled(p.endDate)) ==>
      (r.Some? <==> IntParam(p.days, "30").Some? &&
                    InTimeRange(EpochMs(now) - IntParam(p.days, "30").value * MsPerDay))
    ensures !(Filled(p.startDate) && Filled(p.endDate)) && r.Some? ==>
      EpochMs(r.value) == EpochMs(now) - IntParam(p.days, "30").value * MsPerDay
  {
    if Filled(p.startDate) && Filled(p.endDate) then parseDate(p.startDate.value)
    else
      match IntParam(p.days, "30")
      case None => None
      case Some(days) =>
        var start := MinusDays(now, days);
        if InTimeRange(EpochMs(start)) then Some(start) else None
  }

  /** Without dates and without `days`, the range is the last 30 days, unless
      that lies before the earliest time a `Date` can hold. */
  lemma DefaultThirtyDays(p: Params, now: Time, parseDate: string -> Option<Time>)
    requires !Filled(p.startDate) && !Filled(p.days)
    ensures StartDate(p, now, parseDate).Some? <==> InTimeRange(EpochMs(now) - 30 * MsPerDay)
    ensures StartDate(p, now, parseDate).Some? ==>
      EpochMs(StartDate(p, now, parseDate).value) == EpochMs(now) - 30 * MsPerDay
  {
    DefaultLimit(p.days);
    assert NatToString(30) == "30" by {
      assert NatToString(3) == "3";
    }
    ParseNatString(30, "30");
  }

  /** A `days` of 200 000 000 from any valid time since 1970 moves the
      start before the earliest time a `Date` can hold, so the start date is
      invalid and the handler answers 500. */
  lemma HugeDaysInvalid(gate: Result<Auth.CurrentUser>, p: Params, now: Time, parseDate: string -> Option<Time>, t: Tables)
    requires gate.Ok? && !Filled(p.startDate)
    requires IntParam(p.days, "30") == Some(200000000)
    requires 0 <= EpochMs(now) < MaxTimeValue
    ensures StartDate(p, now, parseDate).None?
    ensures DashboardGet(gate, p, now, parseDate, t) == Reply(500, None)
  {
    var start := MinusDays(now, 200000000);
    assert 200000000 * MsPerDay == 17280000000000000;
    BeforeTimeRange(EpochMs(now), EpochMs(start));
    assert StartDate(p, now, parseDate) == None;
  }

  lemma BeforeTimeRange(from: int, ms: int)
    requires 0 <= from < MaxTimeValue && ms == from - 17280000000000000
    ensures !InTimeRange(ms)
  {
  }

  // ---------------------------------------------------------------------------
  // The counters

  /** A head count; a failed count is reported as 0. */
  function CountOf(rows: Option<seq<ActivityRow>>, p: ActivityRow -> bool): (n: nat)
    ensures rows.None? ==> n == 0
    ensures rows.Some? ==> n == |Filter(rows.value, p)|
  {
    if rows.Some? then |Filter(rows.value, p)| else 0
  }

  /** `setHours(0, 0, 0, 0)`: midnight at the start of today. */
  function TodayStart(now: Time): (t: Time)
    ensures t.date == now.date && EpochMs(t) <= EpochMs(now) < EpochMs(t) + MsPerDay
  {
    Instant(now.date, 0)
  }

  /** Both lower bounds of the active-users query. */
  function ActiveSince(start: Time, now: Time): ActivityRow -> bool {
    (r: ActivityRow) => Since(r.created, MinusDays(now, 7)) && Since(r.created, start)
  }

  /** `new Set(activeUsers?.map(a => a.user_id) || []).size`. */
  function ActiveUsers(rows: Option<seq<ActivityRow>>, start: Time, now: Time): (n: nat)
    ensures rows.None? ==> n == 0
    ensures rows.Some? ==> n <= |rows.value|
  {
    if rows.None? then 0 else |Dedup(MapSeq(Filter(rows.value, ActiveSince(start, now)), RowUser))|
  }

  /** The number of distinct users among the rows since both the start date
      and seven days before now. */
  lemma ActiveUsersDistinct(rows: seq<ActivityRow>, start: Time, now: Time)
    ensures ActiveUsers(Some(rows), start, now) == |set r | r in rows && ActiveSince(start, now)(r) :: r.userId|
  {
    var p := ActiveSince(start, now);
    var ids := MapSeq(Filter(rows, p), RowUser);
    DedupCardinality(ids);
    FilterMapSet(rows, p, RowUser);
    assert (set x | x in ids) == (set r | r in rows && p(r) :: RowUser(r));
    assert (set r | r in rows && p(r) :: RowUser(r)) == (set r | r in rows && p(r) :: r.userId);
  }

  /** Repeating a row does not change the number of active users. */
  lemma ActiveUsersRepeat(rows: seq<ActivityRow>, k: nat, start: Time, now: Time)
    requires k < |rows|
    ensures ActiveUsers(Some(rows + [rows[k]]), start, now) == ActiveUsers(Some(rows), start, now)
  {
    ActiveUsersDistinct(rows, start, now);
    ActiveUsersDistinct(rows + [rows[k]], start, now);
    assert (set r | r in rows + [rows[k]] && ActiveSince(start, now)(r) :: r.userId)
        == (set r | r in rows && ActiveSince(start, now)(r) :: r.userId);
  }

  // ---------------------------------------------------------------------------
  // Login trend

  predicate Earlier(a: ActivityRow, b: ActivityRow) {
    EpochMs(a.created) < EpochMs(b.created)
  }

  lemma EarlierOrder()
    ensures StrictWeakOrder(Earlier)
  {
  }

  /** The trend query: logins since the start, oldest first (the store's order
      among equal times is taken to be table order). */
  function TrendQuery(table: seq<ActivityRow>, start: Time): seq<ActivityRow> {
    Sort(Filter(table, LoginSince(start)), Earlier)
  }

  function DayOf(r: ActivityRow): string {
    UtcDayKey(r.created.date)
  }

  /** `loginTrendMap[date] = (loginTrendMap[date] || 0) + 1` over the query's
      rows, read back with `Object.entries`. */
  function LoginTrend(rows: Option<seq<ActivityRow>>, start: Time): seq<Entry<string>> {
    if rows.None? then [] else Tally(MapSeq(TrendQuery(rows.value, start), DayOf))
  }

  /** One entry per UTC day with logins, holding that day's number of logins;
      the counts add up to the number of logins since the start. */
  lemma LoginTrendCounts(table: seq<ActivityRow>, start: Time)
    ensures var days := MapSeq(TrendQuery(table, start), DayOf);
      LoginTrend(Some(table), start) == Counted(days)
    ensures Sum(MapSeq(LoginTrend(Some(table), start), EntryCount)) == |Filter(table, LoginSince(start))|
  {
    var days := MapSeq(TrendQuery(table, start), DayOf);
    TallyCounts(days);
    TallySum(days);
  }

  /** Days ascend: the query returns the logins oldest first, so (for years 0
      to 9999, where the ISO date text sorts as time does) days appear in
      ascending order. */
  lemma LoginTrendAscending(table: seq<ActivityRow>, start: Time)
    requires forall r :: r in table ==> 0 <= r.created.date.year <= 9999
    ensures var t := LoginTrend(Some(table), start);
      forall i, j :: 0 <= i < j < |t| ==> StrLt(t[i].key, t[j].key)
  {
    var rows := TrendQuery(table, start);
    var days := MapSeq(rows, DayOf);
    EarlierOrder();
    SortSorted(Filter(table, LoginSince(start)), Earlier);
    forall i, j | 0 <= i < j < |days|
      ensures !StrLt(days[j], days[i])
    {
      assert !Earlier(rows[j], rows[i]);
      SortMembers(Filter(table, LoginSince(start)), Earlier, rows[i]);
      SortMembers(Filter(table, LoginSince(start)), Earlier, rows[j]);
      UtcDayKeyMonotone(rows[i].created, rows[j].created);
    }
    DedupAscending(days);
    TallyCounts(days);
  }

  // ---------------------------------------------------------------------------
  // Top users

  function WithProfileSince(start: Time): ActivityRow -> bool {
    (r: ActivityRow) => r.profile.Some? && Since(r.created, start)
  }

  /** A user's counter: the number of their rows, and the email of the first
      one's profile (`profile?.email || ''`), also used as the name. */
  function Counter(uid: string, rows: seq<ActivityRow>): seq<TopUser> {
    if |rows| == 0 then []
    else
      var email := if rows[0].profile.Some? && Filled(rows[0].profile.value.email) then rows[0].profile.value.email.value else "";
      [TopUser(uid, |rows|, email, email)]
  }

  predicate MoreActive(a: TopUser, b: TopUser) {
    a.count > b.count
  }

  lemma MoreActiveOrder()
    ensures StrictWeakOrder(MoreActive)
  {
  }

  /** The per-user counters in order of first activity. */
  function Counters(rows: seq<ActivityRow>): seq<TopUser> {
    FlatMapGroups(GroupBy(rows, RowUser), Counter)
  }

  /** The counters sorted by count, most active first, cut to ten. */
  function TopUsers(rows: Option<seq<ActivityRow>>, start: Time): seq<TopUser> {
    if rows.None? then [] else TopN(Counters(Filter(rows.value, WithProfileSince(start))), MoreActive, 10)
  }

  function TopUserId(u: TopUser): string { u.userId }

  /** Each user has one counter, holding the number of their rows. */
  lemma CountersOfUser(rows: seq<ActivityRow>, u: string)
    ensures var c := WithKey(Counters(rows), TopUserId, u);
      |c| <= 1 && (|c| == 1 <==> u in MapSeq(rows, RowUser))
      && (|c| == 1 ==> c[0].count == |WithKey(rows, RowUser, u)| && c[0].name == c[0].email)
  {
    forall k, vs, w | w in Counter(k, vs)
      ensures TopUserId(w) == k
    {
    }
    PerKey(rows, RowUser, Counter, TopUserId, u);
    var mine := WithKey(rows, RowUser, u);
    if u in MapSeq(rows, RowUser) {
      var k :| 0 <= k < |rows| && MapSeq(rows, RowUser)[k] == u;
      WithKeyHas(rows, RowUser, k);
    } else {
      WithKeyNone(rows, RowUser, u);
    }
  }

  /** At most ten users, most active first. */
  lemma TopUsersOrdered(table: seq<ActivityRow>, start: Time)
    ensures var t := TopUsers(Some(table), start);
      |t| <= 10 && forall i, j :: 0 <= i < j < |t| ==> t[i].count >= t[j].count
  {
    MoreActiveOrder();
    TopNProperties(Counters(Filter(table, WithProfileSince(start))), MoreActive, 10);
  }

  /** No user left out was more active than a user kept. */
  lemma TopUsersBest(table: seq<ActivityRow>, start: Time)
    ensures var all := Counters(Filter(table, WithProfileSince(start)));
      var t := TopUsers(Some(table), start);
      forall x, y :: x in multiset(all) - multiset(t) && y in t ==> x.count <= y.count
  {
    var all := Counters(Filter(table, WithProfileSince(start)));
    assert TopUsers(Some(table), start) == TopN(all, MoreActive, 10);
    MoreActiveOrder();
    TopNProperties(all, MoreActive, 10);
    forall x, y | x in multiset(all) - multiset(TopN(all, MoreActive, 10)) && y in TopN(all, MoreActive, 10)
      ensures x.count <= y.count
    {
      assert !MoreActive(x, y);
    }
  }

  // ---------------------------------------------------------------------------
  // Recent activities and the route

  predicate Newer(a: ActivityRow, b: ActivityRow) {
    EpochMs(a.created) > EpochMs(b.created)
  }

  lemma NewerOrder()
    ensures StrictWeakOrder(Newer)
  {
  }

  /** The twenty newest rows of the whole table, newest first. */
  function Recent(rows: Option<seq<ActivityRow>>): (r: seq<ActivityRow>)
    ensures |r| <= 20
    ensures rows.None? ==> r == []
  {
    if rows.None? then [] else TopN(rows.value, Newer, 20)
  }

  lemma RecentNewestFirst(table: seq<ActivityRow>)
    ensures var r := Recent(Some(table));
      forall i, j :: 0 <= i < j < |r| ==> EpochMs(r[i].created) >= EpochMs(r[j].created)
  {
    NewerOrder();
    TopNProperties(table, Newer, 20);
  }

  function Compute(t: Tables, start: Time, now: Time): (s: Stats)
    ensures |s.topUsers| <= 10 && |s.recentActivities| <= 20
  {
    Stats(
      CountOf(t.total, SinceCut(start)),
      CountOf(t.today, LoginSince(TodayStart(now))),
      ActiveUsers(t.active, start, now),
      LoginTrend(t.trend, start),
      TopUsers(t.top, start),
      Recent(t.recent))
  }

  /** The handler: a failed admin gate answers 403 or 500 by its message, an
      Invalid Date start 500, and otherwise the statistics. */
  function DashboardGet(gate: Result<Auth.CurrentUser>, p: Params, now: Time, parseDate: string -> Option<Time>, t: Tables): (r: Reply)
    ensures gate.Fail? ==> r == Reply(Auth.AdminErrorStatus(gate.message), None)
    ensures gate.Ok? ==> (r.status == 200 <==> StartDate(p, now, parseDate).Some?)
    ensures gate.Ok? && StartDate(p, now, parseDate).None? ==> r == Reply(500, None)
    ensures r.status == 200 <==> r.data.Some?
    ensures r.status != 200 ==> r.status == 403 || r.status == 500
    ensures r.data.Some? ==> r.data.value == Compute(t, StartDate(p, now, parseDate).value, now)
  {
    if gate.Fail? then Reply(Auth.AdminErrorStatus(gate.message), None)
    else
      match StartDate(p, now, parseDate)
      case None => Reply(500, None)
      case Some(start) => Reply(200, Some(Compute(t, start, now)))
  }

  /** Which end date is given makes no difference: it bounds no query. */
  lemma EndDateIgnored(gate: Result<Auth.CurrentUser>, p: Params, e: string, now: Time, parseDate: string -> Option<Time>, t: Tables)
    requires Filled(p.endDate) && e != ""
    ensures DashboardGet(gate, p.(endDate := Some(e)), now, parseDate, t) == DashboardGet(gate, p, now, parseDate, t)
  {
  }
}

=== FILE: datekeys.dfy ===
/** Bucket keys for activity timelines. The usage statistics route turns each
    activity's date into a key for the chosen dimension (`formatDateByDimension`),
    the dashboard route keys logins by their UTC date (`toISOString().split('T')[0]`),
    and the usage panel turns keys back into labels (`formatDate`). */
module DateKeys {
  import opened Wrappers
  import opened Text
  import opened Civil

  // ---------------------------------------------------------------------------
  // formatDateByDimension

  function DayKey(d: Date): string
    requires ValidDate(d)
  {
    IntToString(d.year) + "-" + Pad2(d.month) + "-" + Pad2(d.day)
  }

  function MonthKey(d: Date): string
    requires ValidDate(d)
  {
    IntToString(d.year) + "-" + Pad2(d.month)
  }

  /** The week key puts the calendar year, not the ISO week-numbering year, in
      front of the week number `getISOWeek` computes. */
  function WeekKey(d: Date): string
    requires ValidDate(d)
  {
    IntToString(d.year) + "-W" + PadInt2(GetIsoWeek(d))
  }

  function YearKey(d: Date): string {
    IntToString(d.year)
  }

  /** The bucket key of a date for `dimension`; any dimension other than week,
      month or year gets the day key. Every key starts with the year. */
  function FormatDateByDimension(d: Date, dimension: string): (k: string)
    requires ValidDate(d)
    ensures IntToString(d.year) <= k
  {
    match dimension
    case "day" => DayKey(d)
    case "week" => WeekKey(d)
    case "month" => MonthKey(d)
    case "year" => YearKey(d)
    case _ => DayKey(d)
  }

  /** Reference decoder for day keys: three `-`-separated decimal fields. */
  function ParseDayKey(k: string): Option<Date> {
    var parts := Split(k, '-');
    if |parts| != 3 then None
    else
      match (ParseInt(parts[0]), ParseInt(parts[1]), ParseInt(parts[2]))
      case (Some(y), Some(m), Some(day)) => Some(Date(y, m, day))
      case _ => None
  }

  /** Reference decoder for month keys. */
  function ParseMonthKey(k: string): Option<(int, int)> {
    var parts := Split(k, '-');
    if |parts| != 2 then None
    else
      match (ParseInt(parts[0]), ParseInt(parts[1]))
      case (Some(y), Some(m)) => Some((y, m))
      case _ => None
  }

  lemma DayKeyParts(d: Date)
    requires ValidDate(d) && d.year >= 0
    ensures Split(DayKey(d), '-') == [NatToString(d.year), Pad2(d.month), Pad2(d.day)]
  {
    var y, m, dd := NatToString(d.year), Pad2(d.month), Pad2(d.day);
    assert DayKey(d) == y + ['-'] + (m + ['-'] + dd);
    SplitFirst(y, '-', m + ['-'] + dd);
    SplitFirst(m, '-', dd);
    SplitNoSeparator(dd, '-');
  }

  /** Day keys of dates from year 0 on decode back to their date, so distinct
      days never share a bucket. */
  lemma DayKeyRoundTrip(d: Date)
    requires ValidDate(d) && d.year >= 0
    ensures ParseDayKey(DayKey(d)) == Some(d)
  {
    DayKeyParts(d);
    ParseNatToString(d.year);
    ParsePad2(d.month);
    ParsePad2(d.day);
  }

  lemma MonthKeyRoundTrip(d: Date)
    requires ValidDate(d) && d.year >= 0
    ensures ParseMonthKey(MonthKey(d)) == Some((d.year, d.month))
  {
    var y, m := NatToString(d.year), Pad2(d.month);
    assert MonthKey(d) == y + ['-'] + m;
    SplitFirst(y, '-', m);
    SplitNoSeparator(m, '-');
    ParseNatToString(d.year);
    ParsePad2(d.month);
  }

  /** A day's month bucket is the prefix of its day bucket. */
  lemma MonthKeyPrefix(d: Date)
    requires ValidDate(d)
    ensures DayKey(d) == MonthKey(d) + "-" + Pad2(d.day)
  {
  }

  /** The dimensions select their formats, and any unrecognised one falls back to
      the day format. */
  lemma FormatDateDimensions(d: Date, dimension: string)
    requires ValidDate(d) && d.year >= 0
    ensures dimension == "month" ==> ParseMonthKey(FormatDateByDimension(d, dimension)) == Some((d.year, d.month))
    ensures dimension == "year" ==> ParseInt(FormatDateByDimension(d, dimension)) == Some(d.year)
    ensures dimension !in {"week", "month", "year"} ==>
      ParseDayKey(FormatDateByDimension(d, dimension)) == Some(d)
  {
    var k := FormatDateByDimension(d, dimension);
    if dimension == "month" {
      assert k == MonthKey(d);
      MonthKeyRoundTrip(d);
    } else if dimension == "year" {
      assert k == YearKey(d);
      ParseIntToString(d.year);
    } else if dimension != "week" {
      assert k == DayKey(d);
      DayKeyRoundTrip(d);
    }
  }

  /** Four-digit years give fixed-width keys. */
  lemma KeyWidths(d: Date)
    requires ValidDate(d) && 1000 <= d.year <= 9999
    ensures |DayKey(d)| == 10 && |MonthKey(d)| == 7 && |WeekKey(d)| == 8 && |YearKey(d)| == 4
  {
    NatToStringPadded(d.year, 4);
    GetIsoWeekIsIsoWeek(d);
    assert |PadInt2(GetIsoWeek(d))| == 2;
  }

  /** For four-digit years, sorting day keys as strings sorts the days in time. */
  lemma DayKeyOrder(a: Date, b: Date)
    requires ValidDate(a) && ValidDate(b)
    requires 1000 <= a.year <= 9999 && 1000 <= b.year <= 9999
    ensures StrLt(DayKey(a), DayKey(b)) <==> DayNumber(a) < DayNumber(b)
  {
    NatToStringPadded(a.year, 4);
    NatToStringPadded(b.year, 4);
    DatePartsOrder(a, b, PadNum(a.year, 4), PadNum(b.year, 4));
  }

  /** Two strings joined by `-` to parts of equal width compare by the first
      parts, then by the second. */
  lemma DashOrder(x1: string, y1: string, x2: string, y2: string)
    requires |x1| == |x2|
    ensures StrLt(x1 + "-" + y1, x2 + "-" + y2) <==> StrLt(x1, x2) || (x1 == x2 && StrLt(y1, y2))
  {
    assert x1 + "-" + y1 == x1 + ("-" + y1);
    assert x2 + "-" + y2 == x2 + ("-" + y2);
    StrLtConcat(x1, "-" + y1, x2, "-" + y2);
    StrLtConcat("-", y1, "-", y2);
    StrLtIrreflexive("-");
  }

  /** `MM-DD` compares like (month, day). */
  lemma MonthDayOrder(a: Date, b: Date)
    requires ValidDate(a) && ValidDate(b)
    ensures StrLt(PadNum(a.month, 2) + "-" + PadNum(a.day, 2), PadNum(b.month, 2) + "-" + PadNum(b.day, 2))
      <==> a.month < b.month || (a.month == b.month && a.day < b.day)
  {
    DashOrder(PadNum(a.month, 2), PadNum(a.day, 2), PadNum(b.month, 2), PadNum(b.day, 2));
    PadNumOrder(a.month, b.month, 2);
    PadNumOrder(a.day, b.day, 2);
  }

  /** `YYYY-MM-DD` with a fixed-width year field compares like the date. */
  lemma DatePartsOrder(a: Date, b: Date, ya: string, yb: string)
    requires ValidDate(a) && ValidDate(b)
    requires 0 <= a.year < 10000 && 0 <= b.year < 10000
    requires ya == PadNum(a.year, 4) && yb == PadNum(b.year, 4)
    ensures StrLt(ya + "-" + Pad2(a.month) + "-" + Pad2(a.day), yb + "-" + Pad2(b.month) + "-" + Pad2(b.day))
      <==> DayNumber(a) < DayNumber(b)
  {
    DashParts(a, ya);
    DashParts(b, yb);
    PaddedOrder(a, b, ya, yb);
  }

  /** The month and day fields of a key, as two-digit numbers. */
  lemma DashParts(a: Date, ya: string)
    requires ValidDate(a)
    ensures ya + "-" + Pad2(a.month) + "-" + Pad2(a.day) == ya + "-" + (PadNum(a.month, 2) + "-" + PadNum(a.day, 2))
  {
    Pad2IsPadNum(a.month);
    Pad2IsPadNum(a.day);
  }

  /** Zero-padded year, month and day fields compare like the date. */
  lemma PaddedOrder(a: Date, b: Date, ya: string, yb: string)
    requires ValidDate(a) && ValidDate(b)
    requires 0 <= a.year < 10000 && 0 <= b.year < 10000
    requires ya == PadNum(a.year, 4) && yb == PadNum(b.year, 4)
    ensures StrLt(ya + "-" + (PadNum(a.month, 2) + "-" + PadNum(a.day, 2)), yb + "-" + (PadNum(b.month, 2) + "-" + PadNum(b.day, 2)))
      <==> DayNumber(a) < DayNumber(b)
  {
    DashOrder(ya, PadNum(a.month, 2) + "-" + PadNum(a.day, 2), yb, PadNum(b.month, 2) + "-" + PadNum(b.day, 2));
    MonthDayOrder(a, b);
    PadNumOrder(a.year, b.year, 4);
    DayNumberOrder(a, b);
  }

  /** The week key ignores the ISO week-numbering year: the first and the last
      day of 2024 lie in different ISO weeks (week 1 of 2024 and week 1 of 2025,
      see `IsoWeekExampleMonday` and `IsoWeekExampleNewYear`) yet share a key. */
  lemma WeekKeyMergesYearEnds(first: Date, last: Date)
    requires first == Date(2024, 1, 1) && last == Date(2024, 12, 31)
    ensures WeekKey(first) == WeekKey(last)
  {
    YearEndsWeekOne(first, last);
    SameWeekKey(first, last);
  }

  lemma YearEndsWeekOne(first: Date, last: Date)
    requires first == Date(2024, 1, 1) && last == Date(2024, 12, 31)
    ensures ValidDate(first) && ValidDate(last) && IsoWeek(first) == 1 && IsoWeek(last) == 1
  {
    IsoWeekExampleMonday(first);
    IsoWeekExampleNewYear(last);
  }

  /** A date whose week's Thursday falls in the year 99 gets a negative week
      in its key: 0100-01-01 is keyed "100-W-99085". */
  lemma WeekKeyYearHundred(d: Date)
    requires d == Date(100, 1, 1)
    ensures WeekKey(d) == "100-W-99085"
  {
    GetIsoWeekYearHundred(d);
    var w := GetIsoWeek(d);
    assert WeekKey(d) == IntToString(100) + "-W" + PadInt2(w);
    YearHundredText();
    WeekTextYearHundred();
    YearHundredKeyText();
  }

  lemma YearHundredKeyText()
    ensures "100" + "-W" + "-99085" == "100-W-99085"
  {
    var k := "100" + "-W" + "-99085";
    assert k[..5] == "100-W" && k[5..] == "-99085";
  }

  lemma YearHundredText()
    ensures IntToString(100) == "100"
  {
    assert NatToString(1) == "1";
    assert NatToString(10) == "10";
  }

  lemma WeekTextYearHundred()
    ensures PadInt2(-99085) == "-99085"
  {
    assert NatToString(9) == "9";
    assert NatToString(99) == "99";
    assert NatToString(990) == "990";
    assert NatToString(9908) == "9908";
    assert NatToString(99085) == "99085";
  }

  lemma SameWeekKey(a: Date, b: Date)
    requires ValidDate(a) && ValidDate(b)
    requires a.year == b.year && a.year >= 101 && IsoWeek(a) == IsoWeek(b)
    ensures WeekKey(a) == WeekKey(b)
  {
    GetIsoWeekIsIsoWeek(a);
    GetIsoWeekIsIsoWeek(b);
  }

  // ---------------------------------------------------------------------------
  // toISOString().split('T')[0]

  /** The year field of `toISOString`: four digits for years 0 to 9999, a sign
      and six digits otherwise. */
  function IsoYear(y: int): (s: string)
    ensures 0 <= y <= 9999 ==> s == PadNum(y, 4)
    ensures y < 0 ==> |s| == 7 && s[0] == '-'
  {
    if 0 <= y <= 9999 then PadNum(y, 4)
    else if y < 0 then "-" + PadNum(-y, 6)
    else "+" + PadNum(y, 6)
  }

  /** The UTC calendar date part of `toISOString()`. */
  function UtcDayKey(d: Date): string
    requires ValidDate(d)
  {
    IsoYear(d.year) + "-" + PadNum(d.month, 2) + "-" + PadNum(d.day, 2)
  }

  /** Sorting UTC day keys as strings sorts the days in time (years 0 to 9999),
      and two days share a key only if they are the same day. */
  lemma UtcDayKeyOrder(a: Date, b: Date)
    requires ValidDate(a) && ValidDate(b)
    requires 0 <= a.year <= 9999 && 0 <= b.year <= 9999
    ensures StrLt(UtcDayKey(a), UtcDayKey(b)) <==> DayNumber(a) < DayNumber(b)
    ensures UtcDayKey(a) == UtcDayKey(b) <==> a == b
  {
    Pad2IsPadNum(a.month);
    Pad2IsPadNum(b.month);
    Pad2IsPadNum(a.day);
    Pad2IsPadNum(b.day);
    DatePartsOrder(a, b, PadNum(a.year, 4), PadNum(b.year, 4));
    DatePartsOrder(b, a, PadNum(b.year, 4), PadNum(a.year, 4));
    StrLtTotal(UtcDayKey(a), UtcDayKey(b));
    StrLtIrreflexive(UtcDayKey(a));
    DayNumberOrder(a, b);
    DayNumberOrder(b, a);
  }

  /** An instant no later than another has a day key no later than the other's. */
  lemma UtcDayKeyMonotone(a: Time, b: Time)
    requires 0 <= a.date.year <= 9999 && 0 <= b.date.year <= 9999
    requires EpochMs(a) <= EpochMs(b)
    ensures !StrLt(UtcDayKey(b.date), UtcDayKey(a.date))
  {
    UtcDayKeyOrder(b.date, a.date);
    var da := DayNumber(a.date) - EpochDay;
    var db := DayNumber(b.date) - EpochDay;
    assert da * MsPerDay < (db + 1) * MsPerDay;
  }

  // ---------------------------------------------------------------------------
  // The usage panel's `formatDate`

  /** How a template literal prints the result of `parseInt`. */
  function NumText(n: Option<int>): string {
    if n.Some? then IntToString(n.value) else "NaN"
  }

  /** The second element of a destructured split, `undefined` when missing
      (and `parseInt(undefined)` is `NaN`). */
  function Second(parts: seq<string>): Option<string> {
    if |parts| >= 2 then Some(parts[1]) else None
  }

  function ParseOpt(s: Option<string>): Option<int> {
    if s.Some? then ParseInt(s.value) else None
  }

  /** `formatDate(dateStr)` for the panel's current dimension; the day labels use
      the browser's locale formatting, given here as `dayLabel`. */
  function BucketLabel(dimension: string, key: string, dayLabel: string -> string): (r: string)
    ensures dimension == "year" ==> r == key + "年"
  {
    if dimension == "week" then
      var parts := SplitOn(key, "-W");
      parts[0] + "年第" + NumText(ParseOpt(Second(parts))) + "週"
    else if dimension == "month" then
      var parts := Split(key, '-');
      parts[0] + "年" + NumText(ParseOpt(Second(parts))) + "月"
    else if dimension == "year" then key + "年"
    else dayLabel(key)
  }

  /** A week key renders as "Y年第N週" with the week number's leading zero
      dropped; a negative week keeps its sign. */
  lemma WeekLabel(d: Date, dayLabel: string -> string)
    requires ValidDate(d) && d.year >= 0
    ensures BucketLabel("week", WeekKey(d), dayLabel) == NatToString(d.year) + "年第" + IntToString(GetIsoWeek(d)) + "週"
  {
    var w := GetIsoWeek(d);
    if w >= 0 {
      SplitOnDigits(NatToString(d.year), "-W", Pad2(w));
      ParsePad2(w);
    } else {
      assert PadInt2(w) == "-" + NatToString(-w);
      SplitOnDigitsNegative(NatToString(d.year), "-W", NatToString(-w));
      ParseIntToString(w);
    }
  }

  /** A month key renders as "Y年M月" with the month's leading zero dropped. */
  lemma MonthLabel(d: Date, dayLabel: string -> string)
    requires ValidDate(d) && d.year >= 0
    ensures BucketLabel("month", MonthKey(d), dayLabel) == NatToString(d.year) + "年" + NatToString(d.month) + "月"
  {
    var y, m := NatToString(d.year), Pad2(d.month);
    assert MonthKey(d) == y + ['-'] + m;
    SplitFirst(y, '-', m);
    SplitNoSeparator(m, '-');
    ParsePad2(d.month);
  }
}

=== FILE: exportbutton.dfy ===
/** The generic export button: turns the JSON data it is given into CSV text.
    An array becomes a header line of the first element's `Object.keys` and
    one line per element; a plain object becomes a two-column key/value
    table. Every line ends with '\n'. The download itself (a UTF-8 byte order
    mark, then the text) is not part of this model. */
module ExportButton {
  import opened Wrappers
  import opened Seqs
  import opened Text
  import opened Js
  import opened Csv

  /** What a click produces: the "no data" alert, a thrown error (caught and
      reported), or the text offered for download. */
  datatype Export = NoData | Failed | Download(content: string)

  /** Lines each followed by '\n', as the `+=` loop builds them. */
  function Terminated(lines: seq<string>): (r: string)
    ensures |lines| > 0 ==> |r| > 0 && r[|r| - 1] == '\n'
  {
    if |lines| == 0 then "" else lines[0] + "\n" + Terminated(lines[1..])
  }

  /** Terminated lines are the '\n'-joined lines plus one final '\n'. */
  lemma {:induction false} TerminatedJoin(lines: seq<string>)
    requires |lines| > 0
    ensures Terminated(lines) == Join(lines, "\n") + "\n"
  {
    if |lines| > 1 {
      TerminatedJoin(lines[1..]);
    }
  }

  /** A cell's text: `null` and missing values are empty, anything else is
      `String(value)`. */
  function CellText(v: Option<JVal>): (t: string)
    ensures !Present(v) ==> t == ""
    ensures Present(v) ==> t == ToJsString(v.value)
  {
    if Present(v) then ToJsString(v.value) else ""
  }

  /** The texts of one element, in header order: `row[header]` for each
      header, which for an array or string element is its item at that index
      or its `length`. */
  function RowTexts(headers: seq<string>, row: JVal): (cells: seq<string>)
    ensures |cells| == |headers|
    ensures forall i :: 0 <= i < |headers| ==> cells[i] == CellText(Prop(row, headers[i]))
  {
    MapSeq(headers, (k: string) => CellText(Prop(row, k)))
  }

  function RowLine(headers: seq<string>): JVal -> string {
    (row: JVal) => Line(RowTexts(headers, row))
  }

  /** The array branch: the first element's keys joined as they are, then one
      line of escaped values per element. Reading a property of a `null`
      element throws. */
  function ArrayCsv(items: seq<JVal>): (r: Export)
    requires |items| > 0 && !items[0].JNull?
    ensures r.Failed? <==> |OwnKeys(items[0])| > 0 && JNull in items
  {
    var headers := OwnKeys(items[0]);
    if |headers| > 0 && JNull in items then Failed
    else Download(Terminated([Join(headers, ",")] + MapSeq(items, RowLine(headers))))
  }

  /** The value text of a key/value line: `String(value || '')`. */
  function EntryText(v: JVal): (t: string)
    ensures !Truthy(Some(v)) ==> t == ""
    ensures Truthy(Some(v)) ==> t == ToJsString(v)
  {
    if Truthy(Some(v)) then ToJsString(v) else ""
  }

  /** The value bound to a key (every key listed is bound). */
  function EntryValue(fields: seq<(string, JVal)>, k: string): JVal {
    if Lookup(fields, k).Some? then Lookup(fields, k).value else JNull
  }

  /** One `key,value` line: the key is never quoted, the value is. */
  function EntryLine(fields: seq<(string, JVal)>): string -> string {
    (k: string) => k + "," + EscapeCell(EntryText(EntryValue(fields, k)))
  }

  function EntryPair(fields: seq<(string, JVal)>): string -> seq<string> {
    (k: string) => [k, EntryText(EntryValue(fields, k))]
  }

  const EntryHeader := "項目,值"

  /** The object branch: the fixed header, then one line per key. */
  function ObjectCsv(fields: seq<(string, JVal)>): string {
    EntriesCsv(fields, ObjectKeys(fields))
  }

  /** The header line, then one `key,value` line per key. */
  function EntriesCsv(fields: seq<(string, JVal)>, keys: seq<string>): string {
    Terminated([EntryHeader] + MapSeq(keys, EntryLine(fields)))
  }

  /** `handleExport`. An empty array exports nothing; `Object.keys` of a
      `null` first element throws, and so does `Object.entries(null)`; any
      other non-object value exports an empty text. */
  function HandleExport(data: JVal): (r: Export)
    ensures data == JArr([]) ==> r == NoData
    ensures data == JNull ==> r == Failed
    ensures data.JArr? && |data.items| > 0 && data.items[0].JNull? ==> r == Failed
    ensures r.Download? && data.JObj? ==> r.content == ObjectCsv(data.fields)
    ensures !data.JArr? && !data.JObj? && !data.JNull? ==> r == Download("")
  {
    match data
    case JArr(items) =>
      if |items| == 0 then NoData
      else if items[0].JNull? then Failed
      else ArrayCsv(items)
    case JObj(fields) => Download(ObjectCsv(fields))
    case JNull => Failed
    case _ => Download("")
  }

  /** A string element is exported through its index keys: `["ab"]` gives
      the header `0,1` and the line `a,b`. */
  lemma StringRowExample()
    ensures HandleExport(JArr([JStr("ab")])) == Download("0,1\na,b\n")
  {
    var items := [JStr("ab")];
    assert !items[0].JNull?;
    assert HandleExport(JArr(items)) == ArrayCsv(items);
    StringRowCsv();
    ExampleLines();
  }

  lemma StringRowCsv()
    ensures ArrayCsv([JStr("ab")]) == Download(Terminated(["0,1", "a,b"]))
  {
    var row := JStr("ab");
    var headers := StringRowKeys();
    StringRowHeader();
    StringRowLine();
    var lines := [Join(headers, ",")] + MapSeq([row], RowLine(headers));
    assert MapSeq([row], RowLine(headers))[0] == "a,b";
    assert lines == ["0,1", "a,b"];
    assert JNull !in [row];
  }

  lemma ExampleLines()
    ensures Terminated(["0,1", "a,b"]) == "0,1\na,b\n"
  {
    TwoLines("0,1", "a,b");
    var t := "0,1" + "\n" + "a,b" + "\n";
    assert |t| == 8;
    assert forall i :: 0 <= i < 8 ==> t[i] == "0,1\na,b\n"[i];
  }

  lemma StringRowKeys() returns (headers: seq<string>)
    ensures headers == OwnKeys(JStr("ab")) == ["0", "1"]
  {
    headers := OwnKeys(JStr("ab"));
    assert Text.NatToString(0) == "0" && Text.NatToString(1) == "1";
  }

  lemma StringRowHeader()
    ensures Join(["0", "1"], ",") == "0,1"
  {
    PlainPair("0", "1");
    assert "0" + "," + "1" == "0,1";
  }

  lemma StringRowLine()
    ensures RowLine(["0", "1"])(JStr("ab")) == "a,b"
  {
    StringRowTexts();
    PlainPair("a", "b");
    assert "a" + "," + "b" == "a,b";
    assert RowLine(["0", "1"])(JStr("ab")) == Line(RowTexts(["0", "1"], JStr("ab")));
  }

  /** Two one-character cells that need no quotes are joined as they are. */
  lemma PlainPair(a: string, b: string)
    requires !NeedsQuotes(a) && !NeedsQuotes(b)
    ensures Join([a, b], ",") == a + "," + b
    ensures Line([a, b]) == a + "," + b
  {
    assert [a, b][1..] == [b];
    PlainLine([a, b]);
  }

  lemma StringRowTexts()
    ensures RowTexts(["0", "1"], JStr("ab")) == ["a", "b"]
  {
    IndexKeyOf(0);
    IndexKeyOf(1);
    assert Text.NatToString(0) == "0" && Text.NatToString(1) == "1";
    assert Prop(JStr("ab"), "0") == Some(JStr("a"));
    assert Prop(JStr("ab"), "1") == Some(JStr("b"));
  }

  lemma TwoLines(a: string, b: string)
    ensures Terminated([a, b]) == a + "\n" + b + "\n"
  {
    assert [a, b][1..] == [b];
    assert Terminated([b]) == b + "\n" + Terminated([]);
  }

  /** A downloaded text ends with '\n' and, read as CSV before that final
      newline, gives `rows`. */
  predicate ReadsBackAs(c: string, rows: seq<seq<string>>) {
    |c| > 0 && c[|c| - 1] == '\n' && ReadDocument(c[..|c| - 1]) == rows
  }

  /** Terminated CSV lines read back, before the final '\n', as the rows
      they were written from. */
  lemma TerminatedReadsBack(rows: seq<seq<string>>)
    requires |rows| >= 1
    requires forall i :: 0 <= i < |rows| ==> |rows[i]| >= 1
    ensures ReadsBackAs(Terminated(MapSeq(rows, Line)), rows)
  {
    var c := Terminated(MapSeq(rows, Line));
    TerminatedJoin(MapSeq(rows, Line));
    assert c == Document(rows) + "\n";
    assert c[..|c| - 1] == Document(rows);
    DocumentRoundTrip(rows);
  }

  function RowTextsOf(headers: seq<string>): JVal -> seq<string> {
    (row: JVal) => RowTexts(headers, row)
  }

  /** With keys that need no quoting, an exported array reads back as the
      keys followed by each element's values in key order, before the final
      '\n'. */
  lemma ArrayReadsBack(items: seq<JVal>)
    requires |items| > 0 && JNull !in items
    requires |OwnKeys(items[0])| > 0
    requires forall i :: 0 <= i < |OwnKeys(items[0])| ==> !NeedsQuotes(OwnKeys(items[0])[i])
    ensures HandleExport(JArr(items)).Download?
    ensures ReadsBackAs(HandleExport(JArr(items)).content, ArrayRows(items))
  {
    var rows := ArrayRows(items);
    ArrayExport(items);
    ArrayRowsFilled(items);
    TerminatedReadsBack(rows);
  }

  /** The rows an array export is written from: the keys, then each
      element's texts. */
  function ArrayRows(items: seq<JVal>): seq<seq<string>>
    requires |items| > 0
  {
    [OwnKeys(items[0])] + MapSeq(items, RowTextsOf(OwnKeys(items[0])))
  }

  lemma ArrayExport(items: seq<JVal>)
    requires |items| > 0 && JNull !in items
    requires forall i :: 0 <= i < |OwnKeys(items[0])| ==> !NeedsQuotes(OwnKeys(items[0])[i])
    ensures HandleExport(JArr(items)) == Download(Terminated(MapSeq(ArrayRows(items), Line)))
  {
    ArrayLines(items, OwnKeys(items[0]));
  }

  lemma ArrayRowsFilled(items: seq<JVal>)
    requires |items| > 0
    requires |OwnKeys(items[0])| > 0
    ensures forall i :: 0 <= i < |ArrayRows(items)| ==> |ArrayRows(items)[i]| >= 1
  {
    HeaderRowsFilled(OwnKeys(items[0]), items);
  }

  lemma HeaderRowsFilled(headers: seq<string>, items: seq<JVal>)
    requires |headers| > 0
    ensures forall i :: 0 <= i < |items| + 1 ==> |([headers] + MapSeq(items, RowTextsOf(headers)))[i]| >= 1
  {
    var rows := [headers] + MapSeq(items, RowTextsOf(headers));
    forall i | 0 <= i < |rows|
      ensures |rows[i]| >= 1
    {
      if i > 0 {
        assert rows[i] == RowTexts(headers, items[i - 1]);
      }
    }
  }

  lemma ArrayLines(items: seq<JVal>, headers: seq<string>)
    requires forall i :: 0 <= i < |headers| ==> !NeedsQuotes(headers[i])
    ensures [Join(headers, ",")] + MapSeq(items, RowLine(headers)) == MapSeq([headers] + MapSeq(items, RowTextsOf(headers)), Line)
  {
    var body := MapSeq(items, RowTextsOf(headers));
    assert MapSeq(items, RowLine(headers)) == MapSeq(body, Line);
    MapSeqCons(headers, body, Line);
    PlainLine(headers);
  }

  /** With keys that need no quoting, an exported object reads back as the
      header pair followed by one `[key, value text]` pair per key. */
  lemma ObjectReadsBack(fields: seq<(string, JVal)>)
    requires forall i :: 0 <= i < |ObjectKeys(fields)| ==> !NeedsQuotes(ObjectKeys(fields)[i])
    ensures ReadsBackAs(ObjectCsv(fields), EntryRows(fields, ObjectKeys(fields)))
  {
    EntriesReadBack(fields, ObjectKeys(fields));
  }

  /** The rows an object export is written from: the header pair, then one
      `[key, value text]` pair per key. */
  function EntryRows(fields: seq<(string, JVal)>, keys: seq<string>): seq<seq<string>> {
    [["項目", "值"]] + MapSeq(keys, EntryPair(fields))
  }

  lemma EntriesReadBack(fields: seq<(string, JVal)>, keys: seq<string>)
    requires forall i :: 0 <= i < |keys| ==> !NeedsQuotes(keys[i])
    ensures ReadsBackAs(EntriesCsv(fields, keys), EntryRows(fields, keys))
  {
    var rows := EntryRows(fields, keys);
    EntriesWritten(fields, keys);
    EntryRowsFilled(fields, keys);
    TerminatedReadsBack(rows);
  }

  lemma EntriesWritten(fields: seq<(string, JVal)>, keys: seq<string>)
    requires forall i :: 0 <= i < |keys| ==> !NeedsQuotes(keys[i])
    ensures EntriesCsv(fields, keys) == Terminated(MapSeq(EntryRows(fields, keys), Line))
  {
    ObjectLines(fields, keys);
  }

  lemma EntryRowsFilled(fields: seq<(string, JVal)>, keys: seq<string>)
    ensures forall i :: 0 <= i < |EntryRows(fields, keys)| ==> |EntryRows(fields, keys)[i]| >= 1
  {
    var rows := EntryRows(fields, keys);
    forall i | 0 <= i < |rows|
      ensures |rows[i]| >= 1
    {
      if i > 0 {
        assert rows[i] == EntryPair(fields)(keys[i - 1]);
      }
    }
  }

  /** The object's lines are the CSV lines of the header pair and the
      key/value pairs. */
  lemma ObjectLines(fields: seq<(string, JVal)>, keys: seq<string>)
    requires forall i :: 0 <= i < |keys| ==> !NeedsQuotes(keys[i])
    ensures [EntryHeader] + MapSeq(keys, EntryLine(fields)) == MapSeq(EntryRows(fields, keys), Line)
  {
    var pairs := MapSeq(keys, EntryPair(fields));
    forall i | 0 <= i < |keys|
      ensures EntryLine(fields)(keys[i]) == Line(pairs[i])
    {
      PlainKeyLine(keys[i], EntryText(EntryValue(fields, keys[i])));
    }
    assert MapSeq(keys, EntryLine(fields)) == MapSeq(pairs, Line);
    MapSeqCons(["項目", "值"], pairs, Line);
    HeaderPair();
  }

  lemma HeaderPair()
    ensures Line(["項目", "值"]) == EntryHeader
  {
    PlainKeyLine("項目", "值");
  }

  /** A key/value line is the CSV line of the pair when the key needs no
      quoting. */
  lemma PlainKeyLine(k: string, v: string)
    requires !NeedsQuotes(k)
    ensures Line([k, v]) == k + "," + EscapeCell(v)
  {
    var e := MapSeq([k, v], EscapeCell);
    assert e == [k, EscapeCell(v)];
    assert Join(e[1..], ",") == EscapeCell(v);
    assert Join(e, ",") == e[0] + "," + Join(e[1..], ",");
  }
}

=== FILE: grouping.dfy ===
/** Grouping rows into a JavaScript object keyed by a string and reading it back
    with `Object.entries`: keys come out in order of first insertion. Two
    shapes occur: counters (`map[k] = (map[k] || 0) + 1`) and lists
    (`map[k] ||= []; map[k].push(row)`). */
module Grouping {
  import opened Wrappers
  import opened Seqs

  datatype Entry<K> = Entry(key: K, count: nat)

  datatype Group<K, V> = Group(key: K, items: seq<V>)

  function EntryKey<K>(e: Entry<K>): K { e.key }

  function EntryCount<K>(e: Entry<K>): int { e.count }

  function GroupKey<K, V>(g: Group<K, V>): K { g.key }

  /** The position of the element keyed `k` (the last one, should there be
      several), if there is one: a lookup `map[k]` in the object. */
  function FindKey<T, K(==)>(s: seq<T>, key: T -> K, k: K): (r: Option<nat>)
    ensures r.Some? ==> r.value < |s| && key(s[r.value]) == k
    ensures r.None? ==> forall i :: 0 <= i < |s| ==> key(s[i]) != k
  {
    if |s| == 0 then None
    else if key(s[|s| - 1]) == k then Some(|s| - 1)
    else FindKey(s[..|s| - 1], key, k)
  }

  // ---------------------------------------------------------------------------
  // Counters

  /** `map[k] = (map[k] || 0) + 1`. */
  function Bump<K(==)>(entries: seq<Entry<K>>, k: K): seq<Entry<K>> {
    match FindKey(entries, EntryKey, k)
    case Some(i) => entries[i := Entry(k, entries[i].count + 1)]
    case None => entries + [Entry(k, 1)]
  }

  /** Counting `keys` one by one into an initially empty object. */
  function Tally<K(==)>(keys: seq<K>): seq<Entry<K>> {
    if |keys| == 0 then [] else Bump(Tally(keys[..|keys| - 1]), keys[|keys| - 1])
  }

  /** Reference: one entry per distinct key, in order of first appearance, with
      the number of times the key occurs. */
  function Counted<K(==,!new)>(keys: seq<K>): (r: seq<Entry<K>>)
    ensures |r| == |Dedup(keys)|
    ensures forall i :: 0 <= i < |r| ==> r[i] == Entry(Dedup(keys)[i], Count(keys, Dedup(keys)[i]))
  {
    var d := Dedup(keys);
    seq(|d|, i requires 0 <= i < |d| => Entry(d[i], Count(keys, d[i])))
  }

  lemma CountSnoc<K>(keys: seq<K>, k: K, x: K)
    ensures Count(keys + [k], x) == Count(keys, x) + (if x == k then 1 else 0)
  {
    assert (keys + [k])[..|keys|] == keys;
  }

  lemma CountAbsent<K>(keys: seq<K>, k: K)
    requires k !in keys
    ensures Count(keys, k) == 0
  {
  }

  lemma CountedStep<K(!new)>(keys: seq<K>, k: K)
    ensures Counted(keys + [k]) == Bump(Counted(keys), k)
  {
    var s := keys + [k];
    assert s[..|s| - 1] == keys;
    if k in Dedup(keys) {
      CountedStepOld(keys, k);
    } else {
      CountedStepNew(keys, k);
    }
  }

  lemma CountedStepOld<K(!new)>(keys: seq<K>, k: K)
    requires k in Dedup(keys)
    ensures Counted(keys + [k]) == Bump(Counted(keys), k)
  {
    var s := keys + [k];
    assert s[..|s| - 1] == keys;
    var d := Dedup(keys);
    assert Dedup(s) == d;
    var c := Counted(keys);
    var r := Counted(s);
    var p := Bump(c, k);
    assert FindKey(c, EntryKey, k).Some?;
    assert |r| == |p|;
    forall j | 0 <= j < |r|
      ensures r[j] == p[j]
    {
      CountSnoc(keys, k, d[j]);
    }
  }

  lemma CountedStepNew<K(!new)>(keys: seq<K>, k: K)
    requires k !in Dedup(keys)
    ensures Counted(keys + [k]) == Bump(Counted(keys), k)
  {
    DedupSnoc(keys, k);
    NotCounted(keys, k);
    CountedAppendNew(keys, k);
  }

  /** A key that does not occur has no entry and a count of 0. */
  lemma NotCounted<K(!new)>(keys: seq<K>, k: K)
    requires k !in Dedup(keys)
    ensures FindKey(Counted(keys), EntryKey, k).None? && Count(keys, k) == 0
  {
    var c := Counted(keys);
    forall i | 0 <= i < |c|
      ensures c[i].key != k
    {
      assert c[i].key == Dedup(keys)[i];
    }
    CountAbsent(keys, k);
  }

  lemma CountedAppendNew<K(!new)>(keys: seq<K>, k: K)
    requires Dedup(keys + [k]) == Dedup(keys) + [k]
    requires Count(keys, k) == 0
    ensures Counted(keys + [k]) == Counted(keys) + [Entry(k, 1)]
  {
    var d := Dedup(keys);
    var r := Counted(keys + [k]);
    var c := Counted(keys);
    forall j | 0 <= j < |d|
      ensures r[j] == c[j]
    {
      CountSnoc(keys, k, d[j]);
    }
    CountSnoc(keys, k, k);
    assert r[|d|] == Entry(k, 1);
    assert r == c + [Entry(k, 1)];
  }

  /** The counters hold one entry per distinct key, in order of first
      appearance, each with the number of occurrences. */
  lemma {:induction false} TallyCounts<K(!new)>(keys: seq<K>)
    ensures Tally(keys) == Counted(keys)
  {
    if |keys| > 0 {
      var init := keys[..|keys| - 1];
      TallyCounts(init);
      CountedStep(init, keys[|keys| - 1]);
      assert init + [keys[|keys| - 1]] == keys;
    }
  }

  /** Bumping adds one to the total of the counters. */
  lemma BumpSum<K>(entries: seq<Entry<K>>, k: K)
    ensures Sum(MapSeq(Bump(entries, k), EntryCount)) == Sum(MapSeq(entries, EntryCount)) + 1
  {
    var before := MapSeq(entries, EntryCount);
    match FindKey(entries, EntryKey, k)
    case Some(i) =>
      SumUpdate(before, i, 1);
      assert MapSeq(Bump(entries, k), EntryCount) == before[i := before[i] + 1];
    case None =>
      SumAppend(before, [1]);
      assert MapSeq(Bump(entries, k), EntryCount) == before + [1];
  }

  /** The counts add up to the number of keys counted. */
  lemma {:induction false} TallySum<K>(keys: seq<K>)
    ensures Sum(MapSeq(Tally(keys), EntryCount)) == |keys|
  {
    if |keys| > 0 {
      TallySum(keys[..|keys| - 1]);
      BumpSum(Tally(keys[..|keys| - 1]), keys[|keys| - 1]);
    }
  }

  // ---------------------------------------------------------------------------
  // Lists

  /** `(map[k] ||= []).push(v)`. */
  function Push<K(==), V>(groups: seq<Group<K, V>>, k: K, v: V): seq<Group<K, V>> {
    match FindKey(groups, GroupKey, k)
    case Some(i) => groups[i := Group(k, groups[i].items + [v])]
    case None => groups + [Group(k, [v])]
  }

  /** Pushing each row onto the list of its key. */
  function GroupBy<K(==), V>(rows: seq<V>, key: V -> K): seq<Group<K, V>> {
    if |rows| == 0 then []
    else
      var v := rows[|rows| - 1];
      Push(GroupBy(rows[..|rows| - 1], key), key(v), v)
  }

  /** Reference: one group per distinct key, in order of first appearance,
      holding that key's rows in their original order. */
  function Grouped<K(==,!new), V>(rows: seq<V>, key: V -> K): (r: seq<Group<K, V>>)
    ensures |r| == |Dedup(MapSeq(rows, key))|
    ensures forall i :: 0 <= i < |r| ==>
      r[i] == Group(Dedup(MapSeq(rows, key))[i], WithKey(rows, key, Dedup(MapSeq(rows, key))[i]))
  {
    var d := Dedup(MapSeq(rows, key));
    seq(|d|, i requires 0 <= i < |d| => Group(d[i], WithKey(rows, key, d[i])))
  }

  lemma WithKeyNone<K, V>(rows: seq<V>, key: V -> K, k: K)
    requires k !in MapSeq(rows, key)
    ensures WithKey(rows, key, k) == []
  {
    forall i | 0 <= i < |rows|
      ensures key(rows[i]) != k
    {
      assert MapSeq(rows, key)[i] == key(rows[i]);
    }
    WithKeyAbsent(rows, key, k);
  }

  lemma MapSeqSnoc<T, U>(s: seq<T>, f: T -> U, v: T)
    ensures MapSeq(s + [v], f) == MapSeq(s, f) + [f(v)]
  {
  }

  lemma GroupedStep<K(!new), V>(rows: seq<V>, key: V -> K, v: V)
    ensures Grouped(rows + [v], key) == Push(Grouped(rows, key), key(v), v)
  {
    var s := rows + [v];
    var k := key(v);
    MapSeqSnoc(rows, key, v);
    var m := MapSeq(rows, key);
    assert MapSeq(s, key)[..|s| - 1] == m;
    var d := Dedup(m);
    var g := Grouped(rows, key);
    if k in d {
      GroupedStepOld(rows, key, v);
    } else {
      GroupedStepNew(rows, key, v);
    }
  }

  lemma GroupedStepOld<K(!new), V>(rows: seq<V>, key: V -> K, v: V)
    requires key(v) in Dedup(MapSeq(rows, key))
    ensures Grouped(rows + [v], key) == Push(Grouped(rows, key), key(v), v)
  {
    var s := rows + [v];
    var k := key(v);
    MapSeqSnoc(rows, key, v);
    assert MapSeq(s, key)[..|s| - 1] == MapSeq(rows, key);
    var d := Dedup(MapSeq(rows, key));
    assert Dedup(MapSeq(s, key)) == d;
    var g := Grouped(rows, key);
    var i := FindKey(g, GroupKey, k).value;
    var r := Grouped(s, key);
    var p := Push(g, k, v);
    assert |r| == |p|;
    forall j | 0 <= j < |r|
      ensures r[j] == p[j]
    {
      WithKeySnoc(rows, v, key, d[j]);
    }
  }

  lemma GroupedStepNew<K(!new), V>(rows: seq<V>, key: V -> K, v: V)
    requires key(v) !in Dedup(MapSeq(rows, key))
    ensures Grouped(rows + [v], key) == Push(Grouped(rows, key), key(v), v)
  {
    var s := rows + [v];
    var k := key(v);
    MapSeqSnoc(rows, key, v);
    assert MapSeq(s, key)[..|s| - 1] == MapSeq(rows, key);
    var d := Dedup(MapSeq(rows, key));
    assert Dedup(MapSeq(s, key)) == d + [k];
    var g := Grouped(rows, key);
    assert FindKey(g, GroupKey, k).None?;
    WithKeyNone(rows, key, k);
    var r := Grouped(s, key);
    var p := Push(g, k, v);
    assert |r| == |p|;
    forall j | 0 <= j < |r|
      ensures r[j] == p[j]
    {
      WithKeySnoc(rows, v, key, (d + [k])[j]);
    }
  }

  /** The lists hold one group per distinct key, in order of first appearance,
      each with exactly the rows of that key in their original order. */
  lemma {:induction false} GroupByGroups<K(!new), V>(rows: seq<V>, key: V -> K)
    ensures GroupBy(rows, key) == Grouped(rows, key)
  {
    if |rows| > 0 {
      var init := rows[..|rows| - 1];
      GroupByGroups(init, key);
      GroupedStep(init, key, rows[|rows| - 1]);
      assert init + [rows[|rows| - 1]] == rows;
    }
  }

  function GroupSize<K, V>(g: Group<K, V>): int { |g.items| }

  lemma PushSize<K, V>(groups: seq<Group<K, V>>, k: K, v: V)
    ensures Sum(MapSeq(Push(groups, k, v), GroupSize)) == Sum(MapSeq(groups, GroupSize)) + 1
  {
    var before := MapSeq(groups, GroupSize);
    match FindKey(groups, GroupKey, k)
    case Some(i) =>
      SumUpdate(before, i, 1);
      assert MapSeq(Push(groups, k, v), GroupSize) == before[i := before[i] + 1];
    case None =>
      SumAppend(before, [1]);
      assert MapSeq(Push(groups, k, v), GroupSize) == before + [1];
  }

  /** Every row lands in exactly one list: the list sizes add up to the number
      of rows. */
  lemma {:induction false} GroupBySizes<K, V>(rows: seq<V>, key: V -> K)
    ensures Sum(MapSeq(GroupBy(rows, key), GroupSize)) == |rows|
  {
    if |rows| > 0 {
      GroupBySizes(rows[..|rows| - 1], key);
      PushSize(GroupBy(rows[..|rows| - 1], key), key(rows[|rows| - 1]), rows[|rows| - 1]);
    }
  }

  // ---------------------------------------------------------------------------
  // Processing each group

  /** The outputs `f(key, rows)` of the groups one after the other, in group
      order: `Object.entries(groups).forEach(([k, rows]) => ...)` pushing onto
      one result list. */
  function FlatMapGroups<K, V, W>(gs: seq<Group<K, V>>, f: (K, seq<V>) -> seq<W>): seq<W> {
    if |gs| == 0 then []
    else FlatMapGroups(gs[..|gs| - 1], f) + f(gs[|gs| - 1].key, gs[|gs| - 1].items)
  }

  /** Everything `f` produces for a key is about that key. */
  ghost predicate KeepsKey<K(!new), V(!new), W(!new)>(f: (K, seq<V>) -> seq<W>, wkey: W -> K) {
    forall k, vs, w :: w in f(k, vs) ==> wkey(w) == k
  }

  lemma {:induction false} FlatMapGroupsKey<K(!new), V(!new), W(!new)>(
    gs: seq<Group<K, V>>, f: (K, seq<V>) -> seq<W>, wkey: W -> K, u: K)
    requires KeepsKey(f, wkey)
    requires NoDup(MapSeq(gs, GroupKey))
    ensures WithKey(FlatMapGroups(gs, f), wkey, u)
      == match FindKey(gs, GroupKey, u) case Some(i) => f(u, gs[i].items) case None => []
  {
    if |gs| > 0 {
      var init := gs[..|gs| - 1];
      var g := gs[|gs| - 1];
      assert MapSeq(init, GroupKey) == MapSeq(gs, GroupKey)[..|init|];
      FlatMapGroupsKey(init, f, wkey, u);
      OwnOutput(f, wkey, g.key, g.items, u);
      LastKeyNew(gs, u);
      FlatMapStep(gs, init, g, f, wkey, u);
    }
  }

  /** What `f` produces for one group, restricted to key `u`. */
  lemma OwnOutput<K(!new), V(!new), W(!new)>(f: (K, seq<V>) -> seq<W>, wkey: W -> K, k: K, vs: seq<V>, u: K)
    requires KeepsKey(f, wkey)
    ensures WithKey(f(k, vs), wkey, u) == if k == u then f(u, vs) else []
  {
    if k == u {
      WithKeyEvery(f(u, vs), wkey, u);
    } else {
      WithKeyAbsent(f(k, vs), wkey, u);
    }
  }

  /** With distinct keys, the key of the last group is no earlier group's. */
  lemma LastKeyNew<K, V>(gs: seq<Group<K, V>>, u: K)
    requires |gs| > 0 && NoDup(MapSeq(gs, GroupKey))
    ensures gs[|gs| - 1].key == u ==> FindKey(gs[..|gs| - 1], GroupKey, u).None?
  {
    var init := gs[..|gs| - 1];
    forall i | 0 <= i < |init|
      ensures init[i].key != gs[|gs| - 1].key
    {
      assert MapSeq(gs, GroupKey)[i] == init[i].key;
    }
  }

  /** The inductive step of `FlatMapGroupsKey`. */
  lemma FlatMapStep<K, V, W>(gs: seq<Group<K, V>>, init: seq<Group<K, V>>, g: Group<K, V>,
                            f: (K, seq<V>) -> seq<W>, wkey: W -> K, u: K)
    requires |gs| > 0 && init == gs[..|gs| - 1] && g == gs[|gs| - 1]
    requires WithKey(FlatMapGroups(init, f), wkey, u)
      == match FindKey(init, GroupKey, u) case Some(i) => f(u, init[i].items) case None => []
    requires WithKey(f(g.key, g.items), wkey, u) == if g.key == u then f(u, g.items) else []
    requires g.key == u ==> FindKey(init, GroupKey, u).None?
    ensures WithKey(FlatMapGroups(gs, f), wkey, u)
      == match FindKey(gs, GroupKey, u) case Some(i) => f(u, gs[i].items) case None => []
  {
    WithKeyAppend(FlatMapGroups(init, f), f(g.key, g.items), wkey, u);
  }

  /** Grouping rows by key and then processing every group: what comes out about
      key `u` is what processing `u`'s own rows alone gives. */
  lemma PerKey<K(!new), V(!new), W(!new)>(rows: seq<V>, key: V -> K, f: (K, seq<V>) -> seq<W>, wkey: W -> K, u: K)
    requires KeepsKey(f, wkey)
    requires f(u, []) == []
    ensures WithKey(FlatMapGroups(GroupBy(rows, key), f), wkey, u) == f(u, WithKey(rows, key, u))
  {
    GroupByGroups(rows, key);
    var gs := Grouped(rows, key);
    var d := Dedup(MapSeq(rows, key));
    assert MapSeq(gs, GroupKey) == d;
    FlatMapGroupsKey(gs, f, wkey, u);
    if FindKey(gs, GroupKey, u).None? {
      assert u !in d;
      WithKeyNone(rows, key, u);
    }
  }
}

=== FILE: js.dfy ===
/** JSON values as the route handlers receive them from `request.json()`, and
    the JavaScript operations the handlers apply to them: truthiness, `|| null`,
    property access, `Object.keys` and `String(v)`. `undefined` is `None` of
    an `Option<JVal>`. Numbers are integral here. */
module Js {
  import opened Wrappers
  import opened Seqs
  import opened Sorting
  import Text

  datatype JVal =
    | JNull
    | JBool(b: bool)
    | JNum(n: int)
    | JStr(s: string)
    | JArr(items: seq<JVal>)
    | JObj(fields: seq<(string, JVal)>)

  /** JavaScript truthiness of a possibly-undefined value. */
  predicate Truthy(v: Option<JVal>) {
    match v
    case None => false
    case Some(JNull) => false
    case Some(JBool(b)) => b
    case Some(JNum(n)) => n != 0
    case Some(JStr(s)) => s != ""
    case Some(_) => true
  }

  /** `v || null`. */
  function OrNull(v: Option<JVal>): (r: JVal)
    ensures Truthy(v) ==> Some(r) == v
    ensures !Truthy(v) ==> r == JNull
  {
    if Truthy(v) then v.value else JNull
  }

  /** `v || d`. */
  function OrElse(v: Option<JVal>, d: JVal): (r: JVal)
    ensures Truthy(v) ==> Some(r) == v
    ensures !Truthy(v) ==> r == d
  {
    if Truthy(v) then v.value else d
  }

  /** `v ?? d`: only `null` and `undefined` are replaced. */
  function OrIfNullish(v: Option<JVal>, d: JVal): (r: JVal)
    ensures v.Some? && v.value != JNull ==> r == v.value
    ensures v.None? || v.value == JNull ==> r == d
  {
    if v.Some? && v.value != JNull then v.value else d
  }

  /** A value that is neither `null` nor `undefined`. */
  predicate Present(v: Option<JVal>) {
    v.Some? && v.value != JNull
  }

  /** The last binding of `key` in a list of object fields (a repeated JSON key
      keeps its last value). */
  function Lookup(fields: seq<(string, JVal)>, key: string): (r: Option<JVal>)
    ensures r.Some? <==> exists i :: 0 <= i < |fields| && fields[i].0 == key
  {
    if |fields| == 0 then None
    else
      var last := fields[|fields| - 1];
      if last.0 == key then Some(last.1)
      else
        var r := Lookup(fields[..|fields| - 1], key);
        assert forall i :: 0 <= i < |fields| - 1 ==> fields[..|fields| - 1][i] == fields[i];
        r
  }

  /** A key bound at `i` and not again later is looked up to its value at `i`. */
  lemma {:induction false} LookupAt(fields: seq<(string, JVal)>, i: nat)
    requires i < |fields|
    requires forall j :: i < j < |fields| ==> fields[j].0 != fields[i].0
    ensures Lookup(fields, fields[i].0) == Some(fields[i].1)
  {
    if i < |fields| - 1 {
      LookupAt(fields[..|fields| - 1], i);
    }
  }

  /** Fields written under distinct keys, one per key, are looked up to the
      value written under each key. */
  lemma KeyedLookup(keys: seq<string>, fields: seq<(string, JVal)>, i: nat)
    requires NoDup(keys) && |fields| == |keys| && i < |keys|
    requires forall j :: 0 <= j < |fields| ==> fields[j].0 == keys[j]
    ensures Lookup(fields, keys[i]) == Some(fields[i].1)
  {
    LookupAt(fields, i);
  }

  /** A later list of fields overrides an earlier one for the keys it binds. */
  lemma {:induction false} LookupAppend(xs: seq<(string, JVal)>, ys: seq<(string, JVal)>, key: string)
    ensures Lookup(xs + ys, key) == if Lookup(ys, key).Some? then Lookup(ys, key) else Lookup(xs, key)
  {
    if |ys| == 0 {
      assert xs + ys == xs;
    } else {
      var zs := xs + ys;
      assert zs[|zs| - 1] == ys[|ys| - 1];
      assert zs[..|zs| - 1] == xs + ys[..|ys| - 1];
      LookupAppend(xs, ys[..|ys| - 1], key);
    }
  }

  /** `v.key` for a JSON value and a key that is neither an array index nor
      `length` (the fixed field names the handlers read): objects look the key
      up, every other value has no own data property of that name. */
  function Get(v: JVal, key: string): Option<JVal> {
    if v.JObj? then Lookup(v.fields, key) else None
  }

  /** The name of an object field. */
  function Name(field: (string, JVal)): string { field.0 }

  // ---------------------------------------------------------------------------
  // Array indices, `v[key]` and `Object.keys`

  /** The largest array index, 2^32 - 2. */
  const MaxIndex: nat := 4294967294

  /** The value of a decimal digit string, 0 for any other string. */
  function KeyValue(k: string): nat {
    if Text.AllDigits(k) then
      assert forall i :: 0 <= i < |k| ==> Text.IsRadixDigit(k[i], 10);
      Text.DigitsValue(k, 10)
    else 0
  }

  /** An array index: the canonical decimal text of an integer from 0 to
      2^32 - 2 ("7" is one, "07", "-1" and "1.0" are not). */
  predicate IsIndexKey(k: string) {
    KeyValue(k) <= MaxIndex && Text.NatToString(KeyValue(k)) == k
  }

  predicate NotIndexKey(k: string) {
    !IsIndexKey(k)
  }

  /** The order of array indices: by numeric value. */
  predicate IndexLt(a: string, b: string) {
    KeyValue(a) < KeyValue(b)
  }

  /** The text of an index up to 2^32 - 2 is an index of that value. */
  lemma IndexKeyOf(n: nat)
    requires n <= MaxIndex
    ensures IsIndexKey(Text.NatToString(n)) && KeyValue(Text.NatToString(n)) == n
  {
    Text.NatToStringValue(n);
  }

  /** Distinct indices have distinct values. */
  lemma IndexKeyInjective(a: string, b: string)
    requires IsIndexKey(a) && IsIndexKey(b) && KeyValue(a) == KeyValue(b)
    ensures a == b
  {
  }

  lemma IndexLtOrder()
    ensures StrictWeakOrder(IndexLt)
  {
  }

  /** `Object.keys` of an object: the array-index keys first in ascending
      numeric order, then the other keys in order of first appearance. */
  function ObjectKeys(fields: seq<(string, JVal)>): seq<string> {
    var names := Dedup(MapSeq(fields, Name));
    Sort(Filter(names, IsIndexKey), IndexLt) + Filter(names, NotIndexKey)
  }

  /** The indices `0` to `n - 1` of an array or string of length `n`, in
      ascending order (lengths are at most 2^32 - 1 in JavaScript). */
  function IndexKeys(n: nat): (keys: seq<string>)
    ensures |keys| == n
  {
    seq(n, i requires 0 <= i < n => Text.NatToString(i))
  }

  /** `Object.keys(v)`: the own enumerable keys. A number or a boolean has
      none (`null` throws, which the callers handle before asking). */
  function OwnKeys(v: JVal): seq<string> {
    match v
    case JObj(fields) => ObjectKeys(fields)
    case JArr(items) => IndexKeys(if |items| <= MaxIndex then |items| else MaxIndex + 1)
    case JStr(s) => IndexKeys(if |s| <= MaxIndex then |s| else MaxIndex + 1)
    case _ => []
  }

  /** `v[key]` for any key: an array or string answers its `length` (for a
      string, in UTF-16 code units) and the element (one-character string)
      at an index below its length; every other read is `Get`. */
  function Prop(v: JVal, key: string): (r: Option<JVal>)
    ensures v.JObj? ==> r == Lookup(v.fields, key)
    ensures v.JArr? && key == "length" ==> r == Some(JNum(|v.items|))
    ensures v.JStr? && key == "length" ==> r == Some(JNum(Text.Utf16Length(v.s)))
    ensures (v.JArr? || v.JStr?) && key != "length" && !IsIndexKey(key) ==> r.None?
    ensures !v.JObj? && !v.JArr? && !v.JStr? ==> r.None?
  {
    match v
    case JArr(items) =>
      if key == "length" then Some(JNum(|items|))
      else if IsIndexKey(key) && KeyValue(key) < |items| then Some(items[KeyValue(key)])
      else None
    case JStr(s) =>
      if key == "length" then Some(JNum(Text.Utf16Length(s)))
      else if IsIndexKey(key) && KeyValue(key) < |s| then Some(JStr([s[KeyValue(key)]]))
      else None
    case _ => Get(v, key)
  }

  /** The keys of an object are the names it binds, each once. */
  lemma ObjectKeysBound(fields: seq<(string, JVal)>)
    ensures NoDup(ObjectKeys(fields))
    ensures forall k :: k in ObjectKeys(fields) <==> Lookup(fields, k).Some?
  {
    var names := Dedup(MapSeq(fields, Name));
    var idx := Filter(names, IsIndexKey);
    var rest := Filter(names, NotIndexKey);
    FilterNoDup(names, IsIndexKey);
    FilterNoDup(names, NotIndexKey);
    SortNoDup(idx, IndexLt);
    var sorted := Sort(idx, IndexLt);
    forall i, j | 0 <= i < |sorted| && 0 <= j < |rest|
      ensures sorted[i] != rest[j]
    {
      SortMembers(idx, IndexLt, sorted[i]);
    }
    forall k
      ensures k in ObjectKeys(fields) <==> Lookup(fields, k).Some?
    {
      SortMembers(idx, IndexLt, k);
      var all := MapSeq(fields, Name);
      if Lookup(fields, k).Some? {
        var i :| 0 <= i < |fields| && fields[i].0 == k;
        assert all[i] == k;
      }
      if k in all {
        var i :| 0 <= i < |all| && all[i] == k;
        assert fields[i].0 == k;
      }
    }
  }

  /** Index keys listed first in index order, then keys that are not
      indices: every index key is preceded only by smaller index keys. */
  predicate IndicesFirst(keys: seq<string>) {
    forall i, j :: 0 <= i < j < |keys| && IsIndexKey(keys[j]) ==>
      IsIndexKey(keys[i]) && KeyValue(keys[i]) < KeyValue(keys[j])
  }

  lemma IndicesFirstAppend(sorted: seq<string>, rest: seq<string>)
    requires NoDup(sorted) && SortedBy(sorted, IndexLt)
    requires forall i :: 0 <= i < |sorted| ==> IsIndexKey(sorted[i])
    requires forall i :: 0 <= i < |rest| ==> NotIndexKey(rest[i])
    ensures IndicesFirst(sorted + rest)
  {
    var keys := sorted + rest;
    forall i, j | 0 <= i < j < |keys| && IsIndexKey(keys[j])
      ensures IsIndexKey(keys[i]) && KeyValue(keys[i]) < KeyValue(keys[j])
    {
      assert j < |sorted|;
      assert !IndexLt(sorted[j], sorted[i]);
    }
  }

  /** An object's keys put the array indices first, ascending, and keep the
      other keys in order of first appearance. */
  lemma ObjectKeysOrder(fields: seq<(string, JVal)>)
    ensures IndicesFirst(ObjectKeys(fields))
    ensures Filter(ObjectKeys(fields), NotIndexKey) == Filter(Dedup(MapSeq(fields, Name)), NotIndexKey)
  {
    var names := Dedup(MapSeq(fields, Name));
    var idx := Filter(names, IsIndexKey);
    var rest := Filter(names, NotIndexKey);
    var sorted := Sort(idx, IndexLt);
    IndexLtOrder();
    SortSorted(idx, IndexLt);
    FilterNoDup(names, IsIndexKey);
    SortNoDup(idx, IndexLt);
    forall i | 0 <= i < |sorted|
      ensures IsIndexKey(sorted[i])
    {
      SortMembers(idx, IndexLt, sorted[i]);
    }
    IndicesFirstAppend(sorted, rest);
    FilterAppend(sorted, rest, NotIndexKey);
    FilterNone(sorted, NotIndexKey);
    FilterAll(rest, NotIndexKey);
  }

  /** `Object.keys("ab")` and `Object.keys([x, y])` are `["0", "1"]`. */
  lemma IndexKeysBound(n: nat)
    requires n <= MaxIndex + 1
    ensures NoDup(IndexKeys(n))
    ensures forall k :: k in IndexKeys(n) <==> IsIndexKey(k) && KeyValue(k) < n
    ensures forall i :: 0 <= i < n ==> KeyValue(IndexKeys(n)[i]) == i
  {
    var keys := IndexKeys(n);
    forall i | 0 <= i < n
      ensures IsIndexKey(keys[i]) && KeyValue(keys[i]) == i
    {
      IndexKeyOf(i);
    }
    forall k | IsIndexKey(k) && KeyValue(k) < n
      ensures k in keys
    {
      assert keys[KeyValue(k)] == k;
    }
  }

  /** The own keys of any value are distinct; an object's are the names it
      binds, an array's or string's the indices below its length, and array
      indices always come first in ascending order. */
  lemma OwnKeysFacts(v: JVal)
    ensures NoDup(OwnKeys(v))
    ensures v.JObj? ==> forall k :: k in OwnKeys(v) <==> Lookup(v.fields, k).Some?
    ensures v.JArr? ==> forall k :: k in OwnKeys(v) <==> IsIndexKey(k) && KeyValue(k) < |v.items|
    ensures v.JStr? ==> forall k :: k in OwnKeys(v) <==> IsIndexKey(k) && KeyValue(k) < |v.s|
    ensures !v.JObj? && !v.JArr? && !v.JStr? ==> OwnKeys(v) == []
    ensures IndicesFirst(OwnKeys(v))
  {
    match v
    case JObj(fields) =>
      ObjectKeysBound(fields);
      ObjectKeysOrder(fields);
    case JArr(items) =>
      IndexKeysBound(if |items| <= MaxIndex then |items| else MaxIndex + 1);
    case JStr(s) =>
      IndexKeysBound(if |s| <= MaxIndex then |s| else MaxIndex + 1);
    case _ =>
  }

  /** Every own key of an array or string reads the element at that index. */
  lemma IndexKeysRead(v: JVal, i: nat)
    requires v.JArr? || v.JStr?
    requires i < |OwnKeys(v)|
    ensures v.JArr? ==> Prop(v, OwnKeys(v)[i]) == Some(v.items[i])
    ensures v.JStr? ==> Prop(v, OwnKeys(v)[i]) == Some(JStr([v.s[i]]))
  {
    IndexKeyOf(i);
  }

  /** An index key written after a plain key is still listed first. */
  lemma ObjectKeysExample()
    ensures ObjectKeys([("b", JNum(1)), ("2", JNum(2))]) == ["2", "b"]
  {
    ExampleNames();
    ExampleFilters();
    assert Sort(["2"], IndexLt) == ["2"] by {
      assert ["2"][..0] == [];
    }
  }

  lemma ExampleNames()
    ensures Dedup(MapSeq([("b", JNum(1)), ("2", JNum(2))], Name)) == ["b", "2"]
  {
    assert MapSeq([("b", JNum(1)), ("2", JNum(2))], Name) == ["b", "2"];
    ExampleDedup();
  }

  lemma ExampleDedup()
    ensures Dedup(["b", "2"]) == ["b", "2"]
  {
    assert ["b"][..0] == [];
    assert Dedup(["b"]) == ["b"];
    assert ["b", "2"][..1] == ["b"];
    assert "2" != "b";
  }

  lemma ExampleKinds()
    ensures IsIndexKey("2") && NotIndexKey("b")
  {
    IndexKeyOf(2);
    assert Text.NatToString(2) == "2";
    assert !Text.IsDigit("b"[0]);
    assert KeyValue("b") == 0;
  }

  lemma ExampleFilters()
    ensures Filter(["b", "2"], IsIndexKey) == ["2"]
    ensures Filter(["b", "2"], NotIndexKey) == ["b"]
  {
    ExampleKinds();
    assert ["b", "2"][..1] == ["b"];
    assert ["b"][..0] == [];
    assert Filter(["b"], IsIndexKey) == [];
    assert Filter(["b"], NotIndexKey) == ["b"];
  }

  /** The fields `out[k] = value(k, src[k])` a handler copies, in the order of
      `keys`, for each key `src` defines with a value `keep` accepts. */
  function Pick(src: JVal, keys: seq<string>, keep: JVal -> bool, value: (string, JVal) -> JVal): (data: seq<(string, JVal)>)
    ensures forall i :: 0 <= i < |data| ==> data[i].0 in keys
  {
    if |keys| == 0 then []
    else
      var init := Pick(src, keys[..|keys| - 1], keep, value);
      var k := keys[|keys| - 1];
      var v := Get(src, k);
      init + (if v.Some? && keep(v.value) then [(k, value(k, v.value))] else [])
  }

  /** A picked key is bound to its value, and nothing else is bound. */
  lemma {:induction false} PickLookup(src: JVal, keys: seq<string>, keep: JVal -> bool, value: (string, JVal) -> JVal, k: string)
    requires NoDup(keys)
    ensures Lookup(Pick(src, keys, keep, value), k) ==
      if k in keys && Get(src, k).Some? && keep(Get(src, k).value) then Some(value(k, Get(src, k).value)) else None
  {
    if |keys| == 0 {
    } else {
      var init := keys[..|keys| - 1];
      var last := keys[|keys| - 1];
      assert keys == init + [last];
      PickLookup(src, init, keep, value, k);
      var v := Get(src, last);
      var tail := if v.Some? && keep(v.value) then [(last, value(last, v.value))] else [];
      LookupAppend(Pick(src, init, keep, value), tail, k);
      if last == k {
        assert k !in init;
      }
    }
  }

  /** `Array.isArray(v)`. */
  predicate IsArray(v: Option<JVal>) {
    v.Some? && v.value.JArr?
  }

  /** `typeof v === 'object'`, which also holds for `null` and arrays. */
  predicate IsObjectType(v: Option<JVal>) {
    v.Some? && (v.value.JNull? || v.value.JArr? || v.value.JObj?)
  }

  /** The element texts `Array.prototype.join` uses: `null` becomes empty. */
  function JoinItems(items: seq<JVal>): seq<string>
    decreases items, 0
  {
    if |items| == 0 then []
    else [if items[0].JNull? then "" else ToJsString(items[0])] + JoinItems(items[1..])
  }

  /** `String(v)`. */
  function ToJsString(v: JVal): string
    decreases v, 1
  {
    match v
    case JNull => "null"
    case JBool(b) => if b then "true" else "false"
    case JNum(n) => Text.IntToString(n)
    case JStr(s) => s
    case JArr(items) => Text.Join(JoinItems(items), ",")
    case JObj(_) => "[object Object]"
  }

  /** `String(v)` for a possibly-undefined value. */
  function ToJsStringOpt(v: Option<JVal>): string {
    if v.None? then "undefined" else ToJsString(v.value)
  }

  /** `parseInt(v)`, which first converts `v` with `String`. */
  function ParseIntOf(v: Option<JVal>): Option<int> {
    Text.ParseInt(ToJsStringOpt(v))
  }

  /** A JSON number or `null` (what `NaN` becomes once serialised). */
  function NumOrNull(n: Option<int>): JVal {
    if n.Some? then JNum(n.value) else JNull
  }

  /** `parseInt` of a number gives the number back. */
  lemma ParseIntOfNumber(n: int)
    ensures ParseIntOf(Some(JNum(n))) == Some(n)
  {
    Text.ParseIntToString(n);
  }
}

=== FILE: newanalysis.dfy ===
/** The "new analysis" page: on submit it uploads a chosen recording once,
    turns the form into the request body of `POST /api/analyses`, and clears
    the form after a successful save. The upload route's answer and the save
    route's answer are parameters. */
module NewAnalysis {
  import opened Wrappers
  import opened Seqs
  import opened Text
  import opened Js
  import Analyses

  /** The form's text fields, all '' when the page opens. */
  datatype Form = Form(
    analysisText: string,
    transcript: string,
    customerProfile: string,
    score: string,
    tags: string,
    notes: string,
    salespersonName: string,
    customerName: string,
    customerId: string,
    recordingId: string)

  const EmptyForm := Form("", "", "", "", "", "", "", "", "", "")

  /** The page state: the form, the chosen file's name, and the address of a
      recording already uploaded for this form. */
  datatype State = State(form: Form, file: Option<string>, uploadedUrl: Option<string>)

  /** `v || null` for a form field. */
  function TextOrNull(v: string): (j: JVal)
    ensures v == "" ==> j == JNull
    ensures v != "" ==> j == JStr(v)
  {
    if v == "" then JNull else JStr(v)
  }

  function TagItem(t: string): JVal { JStr(t) }

  /** The tags as sent: `null` for an empty field, otherwise the trimmed
      non-empty comma-separated parts (possibly none). */
  function TagsValue(tags: string): (j: JVal)
    ensures tags == "" ==> j == JNull
    ensures tags != "" ==> j.JArr? && forall i :: 0 <= i < |j.items| ==> j.items[i] != JStr("")
  {
    if tags == "" then JNull
    else
      var parts := CommaList(tags);
      JArr(MapSeq(parts, TagItem))
  }

  /** The score as sent: `null` for an empty field, otherwise `parseInt` of
      it (`NaN` is serialised as `null`). */
  function ScoreValue(score: string): (j: JVal)
    ensures score == "" ==> j == JNull
    ensures score != "" ==> j == NumOrNull(ParseInt(score))
  {
    if score == "" then JNull else NumOrNull(ParseInt(score))
  }

  /** The keys of the request body, in the order the page writes them. */
  const BodyKeys: seq<string> := [
    "analysis_text", "transcript", "customer_profile", "score", "tags", "notes",
    "salesperson_name", "customer_name", "customer_id", "recording_id",
    "recording_file_url", "analyzed_by"]

  /** The value sent under key `k`: the recording address when there is one,
      `analyzed_by` always 'manual'. */
  function BodyValue(f: Form, fileUrl: Option<string>, k: string): JVal {
    if k == "analysis_text" then JStr(f.analysisText)
    else if k == "transcript" then TextOrNull(f.transcript)
    else if k == "customer_profile" then TextOrNull(f.customerProfile)
    else if k == "score" then ScoreValue(f.score)
    else if k == "tags" then TagsValue(f.tags)
    else if k == "notes" then TextOrNull(f.notes)
    else if k == "salesperson_name" then TextOrNull(f.salespersonName)
    else if k == "customer_name" then TextOrNull(f.customerName)
    else if k == "customer_id" then TextOrNull(f.customerId)
    else if k == "recording_id" then TextOrNull(f.recordingId)
    else if k == "recording_file_url" then (if Filled(fileUrl) then JStr(fileUrl.value) else JNull)
    else JStr("manual")
  }

  /** The request body. */
  function Body(f: Form, fileUrl: Option<string>): JVal {
    JObj(seq(|BodyKeys|, i requires 0 <= i < |BodyKeys| => (BodyKeys[i], BodyValue(f, fileUrl, BodyKeys[i]))))
  }

  /** Each key of the body holds its value. */
  lemma BodyGet(f: Form, fileUrl: Option<string>, k: string)
    requires k in BodyKeys
    ensures Get(Body(f, fileUrl), k) == Some(BodyValue(f, fileUrl, k))
  {
    var i :| 0 <= i < |BodyKeys| && BodyKeys[i] == k;
    BodyKeysDistinct();
    KeyedLookup(BodyKeys, Body(f, fileUrl).fields, i);
  }

  lemma BodyKeysDistinct()
    ensures NoDup(BodyKeys)
  {
  }

  datatype Outcome = UploadFailed | Saved | NotSaved

  /** A submission: what happened, whether the file was uploaded, the body
      sent (none when the upload failed) and the state afterwards. */
  datatype Submission = Submission(outcome: Outcome, uploaded: bool, body: Option<JVal>, next: State)

  /** `handleSubmit`. A chosen file is uploaded only while no upload address
      is held; a failed upload (no address, or an empty one) stops the
      submission. An address obtained is kept even when the save fails, so a
      retry does not upload again; a successful save clears everything. */
  function Submit(st: State, upload: Option<string>, saved: JVal -> bool): (r: Submission)
    ensures r.uploaded <==> st.file.Some? && !Filled(st.uploadedUrl)
    ensures r.outcome == UploadFailed <==> r.uploaded && !Filled(upload)
    ensures r.outcome == UploadFailed ==> r.body.None? && r.next == st
    ensures r.outcome != UploadFailed ==>
      && r.body.Some?
      && r.body.value == Body(st.form, if r.uploaded then upload else st.uploadedUrl)
      && (r.outcome == Saved <==> saved(r.body.value))
    ensures r.outcome == Saved ==> r.next == State(EmptyForm, None, None)
    ensures r.outcome == NotSaved ==>
      r.next == State(st.form, st.file, if r.uploaded then upload else st.uploadedUrl)
  {
    var uploading := st.file.Some? && !Filled(st.uploadedUrl);
    if uploading && !Filled(upload) then Submission(UploadFailed, true, None, st)
    else
      var url := if uploading then upload else st.uploadedUrl;
      var body := Body(st.form, url);
      if saved(body) then Submission(Saved, uploading, Some(body), State(EmptyForm, None, None))
      else Submission(NotSaved, uploading, Some(body), State(st.form, st.file, url))
  }

  /** After a save that failed following a successful upload, submitting
      again does not upload again. */
  lemma RetryDoesNotUpload(st: State, upload: Option<string>, saved: JVal -> bool,
                           again: Option<string>, saved2: JVal -> bool)
    requires Submit(st, upload, saved).outcome == NotSaved
    ensures Submit(st, upload, saved).uploaded ==> !Submit(Submit(st, upload, saved).next, again, saved2).uploaded
  {
  }

  /** A recording address sent in the body is the one the upload gave. */
  lemma BodyRecordingUrl(f: Form, url: string)
    requires url != ""
    ensures Get(Body(f, Some(url)), "recording_file_url") == Some(JStr(url))
  {
    BodyGet(f, Some(url), "recording_file_url");
  }

  /** The route stores the page's body with `analyzed_by` 'manual' and a score
      that parses to 0 (or not at all) as `null`; an empty analysis text is
      refused with nothing stored. */
  lemma SavedRecord(f: Form, url: Option<string>, insert: seq<(string, JVal)> -> Result<JVal>)
    ensures f.analysisText == "" ==>
      Analyses.AnalysesPost(Some(Body(f, url)), insert).inserted.None?
    ensures f.analysisText != "" ==>
      && var r := Analyses.AnalysesPost(Some(Body(f, url)), insert);
      && r.inserted.Some?
      && Lookup(r.inserted.value, "analyzed_by") == Some(JStr("manual"))
      && Lookup(r.inserted.value, "score") ==
           Some(if f.score != "" && ParseInt(f.score).Some? && ParseInt(f.score).value != 0
                then JNum(ParseInt(f.score).value) else JNull)
  {
    var body := Body(f, url);
    BodyGet(f, url, "analysis_text");
    if f.analysisText != "" {
      BodyGet(f, url, "score");
      BodyGet(f, url, "analyzed_by");
      Analyses.RecordColumns(body, "analyzed_by");
      Analyses.RecordColumns(body, "score");
    }
  }
}

=== FILE: pagination.dfy ===
/** The paging arithmetic of the two admin list endpoints (activity logs and
    users): `page` and `limit` come from the query string through `parseInt`
    with defaults 1 and 50, the store is asked for rows `offset .. offset +
    limit - 1` with `offset = (page - 1) * limit`, and the response reports
    `totalPages = Math.ceil((count || 0) / limit)`. `None` stands for `NaN`
    (and for `Infinity`, which JSON also writes as `null`). */
module Pagination {
  import opened Wrappers
  import opened Text
  import opened Seqs

  /** `parseInt(searchParams.get(name) || d)`: a missing or empty parameter
      takes the default text. */
  function IntParam(v: Option<string>, d: string): (r: Option<int>)
    ensures v.None? || v.value == "" ==> r == ParseInt(d)
    ensures v.Some? && v.value != "" ==> r == ParseInt(v.value)
  {
    ParseInt(if v.Some? && v.value != "" then v.value else d)
  }

  /** A missing or empty `page` is page 1. */
  lemma DefaultPage(v: Option<string>)
    requires v.None? || v.value == ""
    ensures IntParam(v, "1") == Some(1)
  {
    assert NatToString(1) == "1";
    ParseNatString(1, "1");
  }

  /** A missing or empty `limit` is 50 rows. */
  lemma DefaultLimit(v: Option<string>)
    requires v.None? || v.value == ""
    ensures IntParam(v, "50") == Some(50)
  {
    assert NatToString(50) == "50" by {
      assert NatToString(5) == "5";
    }
    ParseNatString(50, "50");
  }

  /** `range(offset, offset + limit - 1)` with `offset = (page - 1) * limit`;
      `NaN` in either parameter makes both bounds `NaN`. */
  datatype Range = Range(from: int, to: int)

  function RequestedRange(page: Option<int>, limit: Option<int>): (r: Option<Range>)
    ensures r.Some? <==> page.Some? && limit.Some?
    ensures r.Some? ==> r.value.from == (page.value - 1) * limit.value
    ensures r.Some? ==> r.value.to - r.value.from + 1 == limit.value
  {
    if page.Some? && limit.Some? then
      var offset := (page.value - 1) * limit.value;
      Some(Range(offset, offset + limit.value - 1))
    else None
  }

  /** Page `page` starts after `page - 1` full pages and ends one row before
      page `page + 1` starts. */
  lemma PageRows(page: int, limit: int)
    ensures RequestedRange(Some(page), Some(limit)) == Some(Range((page - 1) * limit, page * limit - 1))
  {
    assert (page - 1) * limit == page * limit - limit;
  }

  /** The rows the store returns for a range that starts at or after the first
      row and asks for a non-negative number of rows: the rows from `from`
      through `to` that exist. */
  function Window<T>(rows: seq<T>, r: Range): (w: seq<T>)
    requires 0 <= r.from && r.from - 1 <= r.to
    ensures |w| <= r.to - r.from + 1
    ensures r.from <= |rows| ==> w == rows[r.from..if r.to + 1 <= |rows| then r.to + 1 else |rows|]
    ensures r.from >= |rows| ==> w == []
  {
    if r.from >= |rows| then []
    else rows[r.from..if r.to + 1 <= |rows| then r.to + 1 else |rows|]
  }

  /** Division rounded up, for a positive divisor. */
  function CeilDiv(a: nat, b: nat): (q: nat)
    requires b > 0
  {
    (a + b - 1) / b
  }

  lemma {:induction false} CeilDivBounds(a: nat, b: nat)
    requires b > 0
    ensures CeilDiv(a, b) * b >= a
    ensures a > 0 ==> (CeilDiv(a, b) - 1) * b < a
    ensures a == 0 ==> CeilDiv(a, b) == 0
  {
    var q := CeilDiv(a, b);
    var rem := (a + b - 1) % b;
    assert a + b - 1 == q * b + rem;
    assert (q - 1) * b == q * b - b;
  }

  /** `Math.ceil(total / limit)`, `None` when it is `NaN` or infinite: a `NaN`
      limit, or a zero limit. A negative limit gives a non-positive count. */
  function TotalPages(total: nat, limit: Option<int>): (r: Option<int>)
    ensures r.None? <==> limit.None? || limit.value == 0
    ensures r.Some? && limit.value > 0 ==> r.value >= 0 && r.value * limit.value >= total
    ensures r.Some? && limit.value > 0 && total > 0 ==> (r.value - 1) * limit.value < total
    ensures r.Some? && limit.value > 0 && total == 0 ==> r.value == 0
    ensures r.Some? && limit.value < 0 ==> r.value <= 0
  {
    if limit.None? || limit.value == 0 then None
    else if limit.value > 0 then
      CeilDivBounds(total, limit.value);
      Some(CeilDiv(total, limit.value))
    else Some(-(total / -limit.value))
  }

  /** `count || 0`: a missing count is reported as zero. */
  function Total(count: Option<nat>): (t: nat)
    ensures count.None? ==> t == 0
    ensures count.Some? ==> t == count.value
  {
    count.GetOr(0)
  }

  /** What the store answers a paged list query: the page's rows and the
      number of matching rows, when it counted them. */
  datatype Listing<T> = Listing(rows: seq<T>, count: Option<nat>)

  /** The `pagination` object of a list reply; `NaN` is `None`. */
  datatype PageInfo = PageInfo(page: Option<int>, limit: Option<int>, total: nat, totalPages: Option<int>)

  /** The `pagination` object for the `page` and `limit` parameters (defaults
      1 and 50) and the store's count. */
  function PageInfoOf(page: Option<string>, limit: Option<string>, count: Option<nat>): (info: PageInfo)
    ensures info.page == IntParam(page, "1") && info.limit == IntParam(limit, "50")
    ensures info.total == Total(count)
    ensures info.totalPages == TotalPages(info.total, info.limit)
  {
    var l := IntParam(limit, "50");
    PageInfo(IntParam(page, "1"), l, Total(count), TotalPages(Total(count), l))
  }

  // ---------------------------------------------------------------------------
  // Pages cover the rows

  /** The windows of pages 1 through `n` for a fixed positive limit, one after
      the other. */
  function PagesUpTo<T>(rows: seq<T>, limit: nat, n: nat): seq<T>
    requires limit > 0
  {
    if n == 0 then []
    else
      var r := RequestedRange(Some(n), Some(limit)).value;
      assert r.from == (n - 1) * limit >= 0;
      PagesUpTo(rows, limit, n - 1) + Window(rows, r)
  }

  lemma {:induction false} PagesUpToPrefix<T>(rows: seq<T>, limit: nat, n: nat)
    requires limit > 0
    ensures PagesUpTo(rows, limit, n) == rows[..if n * limit <= |rows| then n * limit else |rows|]
  {
    if n > 0 {
      PagesUpToPrefix(rows, limit, n - 1);
      PageRows(n, limit);
      MulMonotone(n - 1, n, limit);
      var r := RequestedRange(Some(n), Some(limit)).value;
      var lo := if r.from <= |rows| then r.from else |rows|;
      var hi := if n * limit <= |rows| then n * limit else |rows|;
      PrefixSplit(rows, lo, hi);
    }
  }

  /** Walking pages 1 through `totalPages` with a positive limit returns every
      row exactly once and in order. */
  lemma PagesCoverRows<T>(rows: seq<T>, limit: nat)
    requires limit > 0
    ensures PagesUpTo(rows, limit, TotalPages(|rows|, Some(limit)).value) == rows
  {
    var n := TotalPages(|rows|, Some(limit)).value;
    PagesUpToPrefix(rows, limit, n);
    assert n * limit >= |rows|;
  }

  /** A page after the last one is empty. */
  lemma PageAfterLastEmpty<T>(rows: seq<T>, limit: nat, page: nat)
    requires limit > 0
    requires page > TotalPages(|rows|, Some(limit)).value
    ensures (page - 1) * limit >= |rows|
    ensures Window(rows, RequestedRange(Some(page), Some(limit)).value) == []
  {
    var n := TotalPages(|rows|, Some(limit)).value;
    MulMonotone(n, page - 1, limit);
    PageRows(page, limit);
  }

  lemma MulMonotone(a: int, b: int, c: nat)
    requires a <= b
    ensures a * c <= b * c
  {
    assert b * c == a * c + (b - a) * c;
  }
}

=== FILE: seqs.dfy ===
/** Sequence helpers shared by the aggregations: distinctness, first-appearance
    de-duplication (what `new Set(...)` and insertion-ordered object keys give),
    keyed selection and `slice(0, n)`. */
module Seqs {

  predicate NoDup<T(==)>(s: seq<T>) {
    forall i, j :: 0 <= i < j < |s| ==> s[i] != s[j]
  }

  function MapSeq<T, U>(s: seq<T>, f: T -> U): (r: seq<U>)
    ensures |r| == |s|
    ensures forall i :: 0 <= i < |s| ==> r[i] == f(s[i])
  {
    seq(|s|, i requires 0 <= i < |s| => f(s[i]))
  }

  /** The distinct elements of `s` in order of first appearance. */
  function Dedup<T(==,!new)>(s: seq<T>): (r: seq<T>)
    ensures NoDup(r)
    ensures forall x :: x in r <==> x in s
    ensures |r| <= |s|
  {
    if |s| == 0 then []
    else
      var d := Dedup(s[..|s| - 1]);
      var x := s[|s| - 1];
      assert forall y :: y in s <==> y in s[..|s| - 1] || y == x;
      if x in d then d else d + [x]
  }

  lemma DedupSnoc<T(!new)>(s: seq<T>, x: T)
    ensures Dedup(s + [x]) == if x in Dedup(s) then Dedup(s) else Dedup(s) + [x]
  {
    assert (s + [x])[..|s|] == s;
  }

  /** A duplicate-free sequence has as many elements as the set of its elements. */
  lemma {:induction false} NoDupCardinality<T>(s: seq<T>)
    requires NoDup(s)
    ensures |set x | x in s| == |s|
  {
    if |s| > 0 {
      var init := s[..|s| - 1];
      var x := s[|s| - 1];
      NoDupCardinality(init);
      assert (set y | y in s) == (set y | y in init) + {x};
      assert x !in (set y | y in init);
    }
  }

  /** The number of distinct elements is the cardinality of the set of elements. */
  lemma DedupCardinality<T(!new)>(s: seq<T>)
    ensures |Dedup(s)| == |set x | x in s|
  {
    NoDupCardinality(Dedup(s));
    assert (set x | x in Dedup(s)) == (set x | x in s);
  }

  /** The elements whose key is `k`, in their original order. */
  function WithKey<K(==), V>(rows: seq<V>, key: V -> K, k: K): (r: seq<V>)
    ensures |r| <= |rows|
    ensures forall v :: v in r ==> v in rows && key(v) == k
  {
    if |rows| == 0 then []
    else
      var init := WithKey(rows[..|rows| - 1], key, k);
      var v := rows[|rows| - 1];
      if key(v) == k then init + [v] else init
  }

  lemma WithKeyAbsent<K, V>(rows: seq<V>, key: V -> K, k: K)
    requires forall i :: 0 <= i < |rows| ==> key(rows[i]) != k
    ensures WithKey(rows, key, k) == []
  {
    if |rows| > 0 {
      WithKeyAbsent(rows[..|rows| - 1], key, k);
    }
  }

  lemma {:induction false} WithKeyHas<K, V>(rows: seq<V>, key: V -> K, k: nat)
    requires k < |rows|
    ensures rows[k] in WithKey(rows, key, key(rows[k]))
  {
    if k < |rows| - 1 {
      WithKeyHas(rows[..|rows| - 1], key, k);
    }
  }

  lemma {:induction false} WithKeyAppend<K, V>(a: seq<V>, b: seq<V>, key: V -> K, k: K)
    ensures WithKey(a + b, key, k) == WithKey(a, key, k) + WithKey(b, key, k)
  {
    if |b| == 0 {
      assert a + b == a;
    } else {
      var front, v := b[..|b| - 1], b[|b| - 1];
      WithKeyAppend(a, front, key, k);
      SplitLast(b);
      assert a + b == (a + front) + [v];
      WithKeySnoc(a + front, v, key, k);
      WithKeySnoc(front, v, key, k);
    }
  }

  lemma WithKeySnoc<K, V>(rows: seq<V>, v: V, key: V -> K, k: K)
    ensures WithKey(rows + [v], key, k) == WithKey(rows, key, k) + (if key(v) == k then [v] else [])
  {
    assert (rows + [v])[..|rows|] == rows;
  }

  lemma {:induction false} WithKeyEvery<K, V>(rows: seq<V>, key: V -> K, k: K)
    requires forall i :: 0 <= i < |rows| ==> key(rows[i]) == k
    ensures WithKey(rows, key, k) == rows
  {
    if |rows| > 0 {
      WithKeyEvery(rows[..|rows| - 1], key, k);
      assert rows[..|rows| - 1] + [rows[|rows| - 1]] == rows;
    }
  }

  /** A non-empty sequence is its prefix followed by its last element. */
  lemma SplitLast<T>(s: seq<T>)
    requires |s| > 0
    ensures s == s[..|s| - 1] + [s[|s| - 1]]
  {
  }

  lemma PrefixSplit<T>(s: seq<T>, i: nat, j: nat)
    requires i <= j <= |s|
    ensures s[..j] == s[..i] + s[i..j]
  {
  }

  lemma AppendAssoc<T>(a: seq<T>, b: seq<T>, c: seq<T>)
    ensures a + (b + c) == a + b + c
  {
  }

  /** `s.filter(p)`: the elements satisfying `p`, in their original order. */
  function Filter<T>(s: seq<T>, p: T -> bool): (r: seq<T>)
    ensures |r| <= |s|
    ensures forall i :: 0 <= i < |r| ==> p(r[i]) && r[i] in s
    ensures forall i :: 0 <= i < |s| && p(s[i]) ==> s[i] in r
  {
    if |s| == 0 then []
    else
      var init := Filter(s[..|s| - 1], p);
      var x := s[|s| - 1];
      assert forall i :: 0 <= i < |s| - 1 ==> s[i] == s[..|s| - 1][i];
      if p(x) then init + [x] else init
  }

  /** The values of `f` on the kept elements are the values of `f` on the
      elements satisfying `p`. */
  lemma FilterMapSet<T, U>(s: seq<T>, p: T -> bool, f: T -> U)
    ensures (set x | x in MapSeq(Filter(s, p), f)) == (set r | r in s && p(r) :: f(r))
  {
    var kept := Filter(s, p);
    var m := MapSeq(kept, f);
    forall r | r in s && p(r)
      ensures f(r) in m
    {
      var k :| 0 <= k < |kept| && kept[k] == r;
      assert m[k] == f(r);
    }
    forall x | x in m
      ensures exists r :: r in s && p(r) && x == f(r)
    {
      var k :| 0 <= k < |m| && m[k] == x;
      assert kept[k] in s && p(kept[k]);
    }
  }

  /** A filter's size grows by one exactly for a kept last element. */
  lemma FilterLast<T>(s: seq<T>, p: T -> bool)
    requires |s| > 0
    ensures |Filter(s, p)| == |Filter(s[..|s| - 1], p)| + (if p(s[|s| - 1]) then 1 else 0)
  {
  }

  /** A weaker condition keeps at least as many elements. */
  lemma {:induction false} FilterWeaker<T>(s: seq<T>, p: T -> bool, q: T -> bool)
    requires forall i :: 0 <= i < |s| && p(s[i]) ==> q(s[i])
    ensures |Filter(s, p)| <= |Filter(s, q)|
  {
    if |s| > 0 {
      var init := s[..|s| - 1];
      assert forall i :: 0 <= i < |init| ==> init[i] == s[i];
      FilterWeaker(init, p, q);
    }
  }

  lemma {:induction false} FilterNone<T>(s: seq<T>, p: T -> bool)
    requires forall i :: 0 <= i < |s| ==> !p(s[i])
    ensures Filter(s, p) == []
  {
    if |s| > 0 {
      FilterNone(s[..|s| - 1], p);
    }
  }

  lemma FilterAll<T>(s: seq<T>, p: T -> bool)
    requires forall i :: 0 <= i < |s| ==> p(s[i])
    ensures Filter(s, p) == s
  {
    if |s| > 0 {
      var init := s[..|s| - 1];
      assert forall i :: 0 <= i < |init| ==> init[i] == s[i];
      FilterAll(init, p);
      assert p(s[|s| - 1]);
      SplitLast(s);
    }
  }

  /** Filtering a concatenation filters each part. */
  lemma {:induction false} FilterAppend<T>(a: seq<T>, b: seq<T>, p: T -> bool)
    ensures Filter(a + b, p) == Filter(a, p) + Filter(b, p)
  {
    if |b| == 0 {
      assert a + b == a;
    } else {
      var front := b[..|b| - 1];
      FilterAppend(a, front, p);
      SplitLast(b);
      assert (a + b)[..|a + b| - 1] == a + front;
    }
  }

  /** Filtering keeps a duplicate-free sequence duplicate-free. */
  lemma {:induction false} FilterNoDup<T>(s: seq<T>, p: T -> bool)
    requires NoDup(s)
    ensures NoDup(Filter(s, p))
  {
    if |s| > 0 {
      var init := s[..|s| - 1];
      FilterNoDup(init, p);
      assert s[|s| - 1] !in init;
    }
  }

  lemma MapSeqCons<T, U>(x: T, s: seq<T>, f: T -> U)
    ensures MapSeq([x] + s, f) == [f(x)] + MapSeq(s, f)
  {
  }

  /** The number of elements equal to `x`. */
  function Count<T(==)>(s: seq<T>, x: T): (n: nat)
    ensures n == multiset(s)[x]
  {
    if |s| == 0 then 0
    else
      assert s == s[..|s| - 1] + [s[|s| - 1]];
      Count(s[..|s| - 1], x) + (if s[|s| - 1] == x then 1 else 0)
  }

  /** `s.slice(0, n)`. */
  function Take<T>(s: seq<T>, n: nat): (r: seq<T>)
    ensures |r| <= n && |r| <= |s|
    ensures r <= s
    ensures |s| <= n ==> r == s
  {
    if |s| <= n then s else s[..n]
  }

  function Sum(s: seq<int>): int {
    if |s| == 0 then 0 else Sum(s[..|s| - 1]) + s[|s| - 1]
  }

  lemma {:induction false} SumZero(s: seq<int>)
    requires forall i :: 0 <= i < |s| ==> s[i] == 0
    ensures Sum(s) == 0
  {
    if |s| > 0 {
      SumZero(s[..|s| - 1]);
    }
  }

  lemma SumAppend(a: seq<int>, b: seq<int>)
    ensures Sum(a + b) == Sum(a) + Sum(b)
  {
    if |b| > 0 {
      SumAppend(a, b[..|b| - 1]);
      assert (a + b)[..|a + b| - 1] == a + b[..|b| - 1];
    } else {
      assert a + b == a;
    }
  }

  /** The sequence with the element at index `i` changed by `d`: sums move by `d`. */
  lemma SumUpdate(s: seq<int>, i: nat, d: int)
    requires i < |s|
    ensures Sum(s[i := s[i] + d]) == Sum(s) + d
  {
    var t := s[i := s[i] + d];
    if i == |s| - 1 {
      assert t[..|t| - 1] == s[..|s| - 1];
    } else {
      SumUpdate(s[..|s| - 1], i, d);
      assert t[..|t| - 1] == s[..|s| - 1][i := s[i] + d];
    }
  }
}

=== FILE: sorting.dfy ===
/** Stable sorting with a "comes before" relation, as `Array.prototype.sort`
    does with a consistent comparator (`lt(a, b)` holds exactly when the
    comparator returns a negative number for `a, b`). For a strict weak order
    the stable result is unique, so any stable sort, here insertion sort, gives
    the array JavaScript returns. */
module Sorting {
  import opened Seqs
  import opened Text

  ghost predicate StrictWeakOrder<T(!new)>(lt: (T, T) -> bool) {
    && (forall a :: !lt(a, a))
    && (forall a, b, c :: lt(a, b) && lt(b, c) ==> lt(a, c))
    && (forall a, b, c :: lt(a, c) ==> lt(a, b) || lt(b, c))
  }

  /** No element is preceded by one that should come after it. */
  predicate SortedBy<T>(s: seq<T>, lt: (T, T) -> bool) {
    forall i, j :: 0 <= i < j < |s| ==> !lt(s[j], s[i])
  }

  /** Neither element comes before the other: the comparator returns 0. */
  predicate Tied<T>(lt: (T, T) -> bool, a: T, b: T) {
    !lt(a, b) && !lt(b, a)
  }

  /** Inserts `x` after every element it does not come before. */
  function Insert<T>(x: T, s: seq<T>, lt: (T, T) -> bool): (r: seq<T>)
    ensures |r| == |s| + 1
    ensures multiset(r) == multiset(s) + multiset{x}
  {
    if |s| == 0 then [x]
    else if lt(x, s[0]) then [x] + s
    else
      assert s == [s[0]] + s[1..];
      [s[0]] + Insert(x, s[1..], lt)
  }

  function Sort<T>(s: seq<T>, lt: (T, T) -> bool): (r: seq<T>)
    ensures |r| == |s|
    ensures multiset(r) == multiset(s)
  {
    if |s| == 0 then []
    else
      assert s == s[..|s| - 1] + [s[|s| - 1]];
      Insert(s[|s| - 1], Sort(s[..|s| - 1], lt), lt)
  }

  lemma {:induction false} InsertSorted<T(!new)>(x: T, s: seq<T>, lt: (T, T) -> bool)
    requires StrictWeakOrder(lt)
    requires SortedBy(s, lt)
    ensures SortedBy(Insert(x, s, lt), lt)
  {
    var r := Insert(x, s, lt);
    if |s| > 0 && !lt(x, s[0]) {
      var rest := Insert(x, s[1..], lt);
      InsertSorted(x, s[1..], lt);
      assert r == [s[0]] + rest;
      forall j | 0 <= j < |rest|
        ensures !lt(rest[j], s[0])
      {
        assert rest[j] in multiset(rest);
        assert rest[j] == x || rest[j] in s[1..];
      }
    }
  }

  /** The result of `Sort` is ordered by `lt`. */
  lemma {:induction false} SortSorted<T(!new)>(s: seq<T>, lt: (T, T) -> bool)
    requires StrictWeakOrder(lt)
    ensures SortedBy(Sort(s, lt), lt)
  {
    if |s| > 0 {
      SortSorted(s[..|s| - 1], lt);
      InsertSorted(s[|s| - 1], Sort(s[..|s| - 1], lt), lt);
    }
  }

  // ---------------------------------------------------------------------------
  // Stability

  /** The elements of `s` tied with `y`, in order. */
  function TiesWith<T>(s: seq<T>, lt: (T, T) -> bool, y: T): (r: seq<T>)
    ensures |r| <= |s|
  {
    if |s| == 0 then []
    else (if Tied(lt, s[0], y) then [s[0]] else []) + TiesWith(s[1..], lt, y)
  }

  lemma TiesWithAppend<T>(a: seq<T>, b: seq<T>, lt: (T, T) -> bool, y: T)
    ensures TiesWith(a + b, lt, y) == TiesWith(a, lt, y) + TiesWith(b, lt, y)
  {
    if |a| > 0 {
      assert (a + b)[1..] == a[1..] + b;
      TiesWithAppend(a[1..], b, lt, y);
    } else {
      assert a + b == b;
    }
  }

  lemma TiesWithNone<T(!new)>(s: seq<T>, lt: (T, T) -> bool, x: T, y: T)
    requires StrictWeakOrder(lt)
    requires Tied(lt, x, y)
    requires forall j :: 0 <= j < |s| ==> lt(x, s[j])
    ensures TiesWith(s, lt, y) == []
  {
    if |s| > 0 {
      assert lt(x, y) || lt(y, s[0]);
      TiesWithNone(s[1..], lt, x, y);
    }
  }

  lemma GreaterThanAll<T(!new)>(x: T, s: seq<T>, lt: (T, T) -> bool)
    requires StrictWeakOrder(lt)
    requires SortedBy(s, lt)
    requires |s| > 0 && lt(x, s[0])
    ensures forall j :: 0 <= j < |s| ==> lt(x, s[j])
  {
  }

  lemma InsertFrontTies<T(!new)>(x: T, s: seq<T>, lt: (T, T) -> bool, y: T)
    requires StrictWeakOrder(lt)
    requires SortedBy(s, lt)
    requires |s| > 0 && lt(x, s[0])
    ensures TiesWith([x] + s, lt, y) == TiesWith(s, lt, y) + (if Tied(lt, x, y) then [x] else [])
  {
    TiesWithAppend([x], s, lt, y);
    if Tied(lt, x, y) {
      GreaterThanAll(x, s, lt);
      TiesWithNone(s, lt, x, y);
    }
  }

  lemma {:induction false} InsertTies<T(!new)>(x: T, s: seq<T>, lt: (T, T) -> bool, y: T)
    requires StrictWeakOrder(lt)
    requires SortedBy(s, lt)
    ensures TiesWith(Insert(x, s, lt), lt, y)
         == TiesWith(s, lt, y) + (if Tied(lt, x, y) then [x] else [])
  {
    if |s| == 0 {
    } else if lt(x, s[0]) {
      assert Insert(x, s, lt) == [x] + s;
      InsertFrontTies(x, s, lt, y);
    } else {
      var rest := Insert(x, s[1..], lt);
      var head := if Tied(lt, s[0], y) then [s[0]] else [];
      assert SortedBy(s[1..], lt);
      InsertTies(x, s[1..], lt, y);
      assert Insert(x, s, lt) == [s[0]] + rest;
      TiesWithCons(s[0], rest, lt, y);
      AppendAssoc(head, TiesWith(s[1..], lt, y), if Tied(lt, x, y) then [x] else []);
    }
  }

  lemma TiesWithCons<T>(a: T, s: seq<T>, lt: (T, T) -> bool, y: T)
    ensures TiesWith([a] + s, lt, y) == (if Tied(lt, a, y) then [a] else []) + TiesWith(s, lt, y)
  {
    assert ([a] + s)[1..] == s;
  }

  /** Elements that compare equal keep their input order. */
  lemma {:induction false} SortStable<T(!new)>(s: seq<T>, lt: (T, T) -> bool, y: T)
    requires StrictWeakOrder(lt)
    ensures TiesWith(Sort(s, lt), lt, y) == TiesWith(s, lt, y)
  {
    if |s| > 0 {
      var init := s[..|s| - 1];
      var x := s[|s| - 1];
      SortStable(init, lt, y);
      SortSorted(init, lt);
      InsertTies(x, Sort(init, lt), lt, y);
      StableStep(s, lt, y);
    }
  }

  /** The inductive step of `SortStable`, given the ties of the sorted prefix
      and of the insertion. */
  lemma StableStep<T>(s: seq<T>, lt: (T, T) -> bool, y: T)
    requires |s| > 0
    requires TiesWith(Sort(s[..|s| - 1], lt), lt, y) == TiesWith(s[..|s| - 1], lt, y)
    requires TiesWith(Insert(s[|s| - 1], Sort(s[..|s| - 1], lt), lt), lt, y)
          == TiesWith(Sort(s[..|s| - 1], lt), lt, y) + (if Tied(lt, s[|s| - 1], y) then [s[|s| - 1]] else [])
    ensures TiesWith(Sort(s, lt), lt, y) == TiesWith(s, lt, y)
  {
    var init := s[..|s| - 1];
    var x := s[|s| - 1];
    assert Sort(s, lt) == Insert(x, Sort(init, lt), lt);
    SplitLast(s);
    TiesWithAppend(init, [x], lt, y);
    assert TiesWith([x], lt, y) == (if Tied(lt, x, y) then [x] else []);
  }

  // ---------------------------------------------------------------------------
  // Comparators by key

  /** Compare elements by a key: `(a, b) => lt(key(a), key(b))`. */
  function ByKey<T, K>(lt: (K, K) -> bool, key: T -> K): (T, T) -> bool {
    (a: T, b: T) => lt(key(a), key(b))
  }

  lemma ByKeyOrder<T(!new), K(!new)>(lt: (K, K) -> bool, key: T -> K)
    requires StrictWeakOrder(lt)
    ensures StrictWeakOrder(ByKey(lt, key))
  {
    var c := ByKey(lt, key);
    forall a, b, d | c(a, d)
      ensures c(a, b) || c(b, d)
    {
      assert lt(key(a), key(d));
    }
  }

  /** String comparison with `<` is a strict total order. */
  lemma StrLtOrder()
    ensures StrictWeakOrder(StrLt)
  {
    forall a | true
      ensures !StrLt(a, a)
    {
      StrLtIrreflexive(a);
    }
    forall a, b, c | StrLt(a, b) && StrLt(b, c)
      ensures StrLt(a, c)
    {
      StrLtTransitive(a, b, c);
    }
    forall a, b, c | StrLt(a, c)
      ensures StrLt(a, b) || StrLt(b, c)
    {
      StrLtTotal(a, b);
      StrLtTotal(b, c);
      if !StrLt(a, b) && !StrLt(b, c) {
        if b != a {
          StrLtTransitive(b, a, c);
        }
        StrLtIrreflexive(b);
        if b != c {
          StrLtTransitive(c, b, a);
          StrLtTransitive(a, c, b);
        }
      }
    }
  }

  /** Sorted by a string key, with distinct keys: keys strictly ascend. */
  lemma SortedStrictly<T>(s: seq<T>, key: T -> string)
    requires SortedBy(s, ByKey(StrLt, key))
    requires NoDup(MapSeq(s, key))
    ensures forall i, j :: 0 <= i < j < |s| ==> StrLt(key(s[i]), key(s[j]))
  {
    forall i, j | 0 <= i < j < |s|
      ensures StrLt(key(s[i]), key(s[j]))
    {
      assert !ByKey(StrLt, key)(s[j], s[i]);
      assert MapSeq(s, key)[i] != MapSeq(s, key)[j];
      StrLtTotal(key(s[i]), key(s[j]));
    }
  }

  /** The distinct strings of an ascending sequence, in order of first
      appearance, strictly ascend. */
  lemma {:induction false} DedupAscending(keys: seq<string>)
    requires SortedBy(keys, StrLt)
    ensures forall i, j :: 0 <= i < j < |Dedup(keys)| ==> StrLt(Dedup(keys)[i], Dedup(keys)[j])
  {
    if |keys| > 0 {
      var init := keys[..|keys| - 1];
      var x := keys[|keys| - 1];
      DedupAscending(init);
      var d := Dedup(init);
      assert keys == init + [x];
      DedupSnoc(init, x);
      if x !in d {
        forall i | 0 <= i < |d|
          ensures StrLt(d[i], x)
        {
          assert d[i] in init;
          var k :| 0 <= k < |init| && init[k] == d[i];
          assert !StrLt(keys[|keys| - 1], keys[k]);
          StrLtTotal(d[i], x);
        }
      }
    }
  }

  // ---------------------------------------------------------------------------
  // What sorting keeps

  lemma SortMembers<T>(s: seq<T>, lt: (T, T) -> bool, y: T)
    ensures y in Sort(s, lt) <==> y in s
  {
    assert y in Sort(s, lt) <==> y in multiset(Sort(s, lt));
  }

  lemma {:induction false} InsertDistinctKeys<T, K>(x: T, s: seq<T>, lt: (T, T) -> bool, key: T -> K)
    requires NoDup(MapSeq(s, key)) && key(x) !in MapSeq(s, key)
    ensures NoDup(MapSeq(Insert(x, s, lt), key))
  {
    if |s| > 0 && !lt(x, s[0]) {
      assert MapSeq(s[1..], key) == MapSeq(s, key)[1..];
      InsertDistinctKeys(x, s[1..], lt, key);
      var rest := Insert(x, s[1..], lt);
      assert MapSeq(Insert(x, s, lt), key) == [key(s[0])] + MapSeq(rest, key);
      forall j | 0 <= j < |rest|
        ensures key(rest[j]) != key(s[0])
      {
        assert rest[j] in multiset(rest);
        assert rest[j] == x || rest[j] in s[1..];
        if rest[j] != x {
          var k :| 0 <= k < |s[1..]| && s[1..][k] == rest[j];
          assert MapSeq(s, key)[k + 1] == key(rest[j]);
        }
      }
    } else if |s| > 0 {
      assert MapSeq(Insert(x, s, lt), key) == [key(x)] + MapSeq(s, key);
    }
  }

  /** Sorting keeps the keys of the elements distinct. */
  lemma {:induction false} SortDistinctKeys<T, K>(s: seq<T>, lt: (T, T) -> bool, key: T -> K)
    requires NoDup(MapSeq(s, key))
    ensures NoDup(MapSeq(Sort(s, lt), key))
  {
    if |s| > 0 {
      var init := s[..|s| - 1];
      var x := s[|s| - 1];
      assert MapSeq(init, key) == MapSeq(s, key)[..|s| - 1];
      SortDistinctKeys(init, lt, key);
      var sorted := Sort(init, lt);
      forall k | 0 <= k < |sorted|
        ensures key(sorted[k]) != key(x)
      {
        SortMembers(init, lt, sorted[k]);
        var m :| 0 <= m < |init| && init[m] == sorted[k];
        assert MapSeq(s, key)[m] == key(sorted[k]);
      }
      InsertDistinctKeys(x, Sort(init, lt), lt, key);
    }
  }

  function Itself<T>(x: T): T { x }

  /** Sorting keeps a duplicate-free sequence duplicate-free. */
  lemma SortNoDup<T>(s: seq<T>, lt: (T, T) -> bool)
    requires NoDup(s)
    ensures NoDup(Sort(s, lt))
  {
    assert MapSeq(s, Itself) == s;
    SortDistinctKeys(s, lt, Itself);
    assert MapSeq(Sort(s, lt), Itself) == Sort(s, lt);
  }

  lemma {:induction false} InsertSum<T>(x: T, s: seq<T>, lt: (T, T) -> bool, f: T -> int)
    ensures Sum(MapSeq(Insert(x, s, lt), f)) == f(x) + Sum(MapSeq(s, f))
  {
    if |s| == 0 {
      assert MapSeq([x], f) == [] + [f(x)];
    } else if lt(x, s[0]) {
      assert MapSeq([x] + s, f) == [f(x)] + MapSeq(s, f);
      SumAppend([f(x)], MapSeq(s, f));
      assert Sum([f(x)]) == Sum([]) + f(x);
    } else {
      InsertSum(x, s[1..], lt, f);
      var rest := Insert(x, s[1..], lt);
      assert MapSeq([s[0]] + rest, f) == [f(s[0])] + MapSeq(rest, f);
      assert MapSeq(s, f) == [f(s[0])] + MapSeq(s[1..], f);
      SumAppend([f(s[0])], MapSeq(rest, f));
      SumAppend([f(s[0])], MapSeq(s[1..], f));
      assert Sum([f(s[0])]) == Sum([]) + f(s[0]);
    }
  }

  /** Sorting does not change a total over the elements. */
  lemma {:induction false} SortSum<T>(s: seq<T>, lt: (T, T) -> bool, f: T -> int)
    ensures Sum(MapSeq(Sort(s, lt), f)) == Sum(MapSeq(s, f))
  {
    if |s| > 0 {
      var init := s[..|s| - 1];
      var x := s[|s| - 1];
      assert Sort(s, lt) == Insert(x, Sort(init, lt), lt);
      SortSum(init, lt, f);
      InsertSum(x, Sort(init, lt), lt, f);
      var m := MapSeq(s, f);
      assert m[..|m| - 1] == MapSeq(init, f);
      assert Sum(m) == Sum(MapSeq(init, f)) + f(x);
    }
  }

  /** A subsequence of a sorted sequence is sorted. */
  lemma {:induction false} FilterSorted<T>(s: seq<T>, p: T -> bool, lt: (T, T) -> bool)
    requires SortedBy(s, lt)
    ensures SortedBy(Filter(s, p), lt)
  {
    if |s| > 0 {
      var init := s[..|s| - 1];
      var x := s[|s| - 1];
      FilterSorted(init, p, lt);
      var f := Filter(init, p);
      forall i | 0 <= i < |f|
        ensures !lt(x, f[i])
      {
        var k :| 0 <= k < |init| && init[k] == f[i];
        assert s[k] == f[i];
      }
    }
  }

  lemma {:induction false} WithKeySorted<K, T>(s: seq<T>, key: T -> K, k: K, lt: (T, T) -> bool)
    requires SortedBy(s, lt)
    ensures SortedBy(WithKey(s, key, k), lt)
  {
    if |s| > 0 {
      var init := s[..|s| - 1];
      var x := s[|s| - 1];
      WithKeySorted(init, key, k, lt);
      var w := WithKey(init, key, k);
      forall i | 0 <= i < |w|
        ensures !lt(x, w[i])
      {
        assert w[i] in w;
        var j :| 0 <= j < |init| && init[j] == w[i];
        assert s[j] == w[i];
      }
    }
  }

  // ---------------------------------------------------------------------------
  // Top-N selection: `sort(...).slice(0, n)`

  /** The first `n` elements of the sorted sequence: none of the elements left
      out comes before any of the elements kept. */
  function TopN<T>(s: seq<T>, lt: (T, T) -> bool, n: nat): (r: seq<T>)
    ensures |r| <= n && |r| <= |s|
    ensures |s| <= n ==> |r| == |s|
  {
    Take(Sort(s, lt), n)
  }

  lemma {:induction false} TopNProperties<T(!new)>(s: seq<T>, lt: (T, T) -> bool, n: nat)
    requires StrictWeakOrder(lt)
    ensures SortedBy(TopN(s, lt, n), lt)
    ensures multiset(TopN(s, lt, n)) <= multiset(s)
    ensures forall x, y :: x in multiset(s) - multiset(TopN(s, lt, n)) && y in TopN(s, lt, n) ==> !lt(x, y)
  {
    var sorted := Sort(s, lt);
    var top := TopN(s, lt, n);
    SortSorted(s, lt);
    var k := |top|;
    assert sorted == top + sorted[k..];
    assert multiset(sorted) == multiset(top) + multiset(sorted[k..]);
    forall x, y | x in multiset(s) - multiset(top) && y in top
      ensures !lt(x, y)
    {
      assert x in sorted[k..];
      var j :| k <= j < |sorted| && sorted[j] == x by {
        var j' :| 0 <= j' < |sorted[k..]| && sorted[k..][j'] == x;
        assert sorted[k + j'] == x;
      }
      var i :| 0 <= i < k && top[i] == y;
      assert sorted[i] == y;
    }
  }
}

=== FILE: statspage.dfy ===
/** The statistics page: the leading salespersons and tags of the statistics
    it loaded, by count, most frequent first (`Object.entries(...)
    .sort((a, b) => b.count - a.count).slice(0, n)`). Before the statistics
    arrive both lists are empty. */
module StatsPage {
  import opened Wrappers
  import opened Seqs
  import opened Sorting
  import opened Grouping

  /** One `salespersonStats` entry as the page reads it. */
  datatype SalesEntry = SalesEntry(name: string, count: int, avgScore: real)

  /** The part of the loaded statistics the rankings read, each object as its
      entries in key order. */
  datatype PageStats = PageStats(salespersonStats: seq<SalesEntry>, tagStats: seq<Entry<string>>)

  const DefaultTopSalespersons: nat := 5

  const DefaultTopTags: nat := 10

  /** `b.count - a.count` as a comparator: `a` goes first iff its count is
      larger. */
  function ByCount<T>(count: T -> int): (T, T) -> bool {
    (a: T, b: T) => count(a) > count(b)
  }

  lemma ByCountOrder<T(!new)>(count: T -> int)
    ensures StrictWeakOrder(ByCount(count))
  {
  }

  /** The first `n` entries by count: never more than `n`, counts
      non-increasing, each drawn from the input no more often than it occurs
      there, and none left out counts more than one kept. */
  function TopByCount<T(!new)>(s: seq<T>, count: T -> int, n: nat): (r: seq<T>)
    ensures |r| <= n && |r| <= |s|
    ensures |s| <= n ==> multiset(r) == multiset(s)
    ensures forall i, j :: 0 <= i < j < |r| ==> count(r[i]) >= count(r[j])
    ensures multiset(r) <= multiset(s)
    ensures forall x, y :: x in multiset(s) - multiset(r) && y in r ==> count(x) <= count(y)
  {
    var r := TopN(s, ByCount(count), n);
    TopByCountFacts(s, count, n);
    r
  }

  lemma TopByCountFacts<T(!new)>(s: seq<T>, count: T -> int, n: nat)
    ensures var r := TopN(s, ByCount(count), n);
            && (forall i, j :: 0 <= i < j < |r| ==> count(r[i]) >= count(r[j]))
            && multiset(r) <= multiset(s)
            && (|s| <= n ==> multiset(r) == multiset(s))
            && forall x, y :: x in multiset(s) - multiset(r) && y in r ==> count(x) <= count(y)
  {
    var lt := ByCount(count);
    var r := TopN(s, lt, n);
    ByCountOrder(count);
    TopNProperties(s, lt, n);
    if |s| <= n {
      assert r == Sort(s, lt);
    }
    forall i, j | 0 <= i < j < |r|
      ensures count(r[i]) >= count(r[j])
    {
      assert !lt(r[j], r[i]);
    }
    forall x, y | x in multiset(s) - multiset(r) && y in r
      ensures count(x) <= count(y)
    {
      assert !lt(x, y);
    }
  }

  /** Entries with distinct keys stay distinct in the ranking. */
  lemma TopByCountDistinct<T(!new), K>(s: seq<T>, count: T -> int, n: nat, key: T -> K)
    requires NoDup(MapSeq(s, key))
    ensures NoDup(MapSeq(TopByCount(s, count, n), key))
  {
    var sorted := Sort(s, ByCount(count));
    SortDistinctKeys(s, ByCount(count), key);
    var r := TopByCount(s, count, n);
    assert r == Take(sorted, n);
    assert forall i :: 0 <= i < |r| ==> MapSeq(r, key)[i] == MapSeq(sorted, key)[i];
  }

  function SalesCount(e: SalesEntry): int { e.count }

  function SalesName(e: SalesEntry): string { e.name }

  /** `getTopSalespersons(n)`, `n` being 5 on the page. */
  function TopSalespersons(stats: Option<PageStats>, n: nat): (r: seq<SalesEntry>)
    ensures stats.None? ==> r == []
    ensures |r| <= n
    ensures forall i, j :: 0 <= i < j < |r| ==> r[i].count >= r[j].count
    ensures stats.Some? ==> multiset(r) <= multiset(stats.value.salespersonStats)
    ensures stats.Some? ==> forall x, y :: x in multiset(stats.value.salespersonStats) - multiset(r) && y in r ==> x.count <= y.count
  {
    if stats.None? then []
    else
      SalespersonsLeftOut(stats.value.salespersonStats, n);
      TopByCount(stats.value.salespersonStats, SalesCount, n)
  }

  lemma SalespersonsLeftOut(s: seq<SalesEntry>, n: nat)
    ensures var r := TopByCount(s, SalesCount, n);
            forall x, y :: x in multiset(s) - multiset(r) && y in r ==> x.count <= y.count
  {
    var r := TopByCount(s, SalesCount, n);
    forall x, y | x in multiset(s) - multiset(r) && y in r
      ensures x.count <= y.count
    {
      assert SalesCount(x) <= SalesCount(y);
    }
  }

  /** `getTopTags(n)`, `n` being 10 on the page. */
  function TopTags(stats: Option<PageStats>, n: nat): (r: seq<Entry<string>>)
    ensures stats.None? ==> r == []
    ensures |r| <= n
    ensures forall i, j :: 0 <= i < j < |r| ==> r[i].count >= r[j].count
    ensures stats.Some? ==> multiset(r) <= multiset(stats.value.tagStats)
    ensures stats.Some? ==> forall x, y :: x in multiset(stats.value.tagStats) - multiset(r) && y in r ==> x.count <= y.count
  {
    if stats.None? then []
    else
      TagsLeftOut(stats.value.tagStats, n);
      TopByCount(stats.value.tagStats, EntryCount, n)
  }

  lemma TagsLeftOut(s: seq<Entry<string>>, n: nat)
    ensures var r := TopByCount(s, EntryCount, n);
            forall x, y :: x in multiset(s) - multiset(r) && y in r ==> x.count <= y.count
  {
    var r := TopByCount(s, EntryCount, n);
    forall x, y | x in multiset(s) - multiset(r) && y in r
      ensures x.count <= y.count
    {
      assert EntryCount(x) <= EntryCount(y);
    }
  }

  /** All salespersons are shown when there are at most `n`, and no name is
      shown twice. */
  lemma TopSalespersonsBest(stats: PageStats, n: nat)
    requires NoDup(MapSeq(stats.salespersonStats, SalesName))
    ensures var all := stats.salespersonStats;
            var r := TopSalespersons(Some(stats), n);
            && (|all| <= n ==> multiset(r) == multiset(all))
            && NoDup(MapSeq(r, SalesName))
  {
    var all := stats.salespersonStats;
    var r := TopSalespersons(Some(stats), n);
    TopByCountDistinct(all, SalesCount, n, SalesName);
  }

  /** All tags are shown when there are at most `n`, and no tag is shown
      twice. */
  lemma TopTagsBest(stats: PageStats, n: nat)
    requires NoDup(MapSeq(stats.tagStats, EntryKey))
    ensures var all := stats.tagStats;
            var r := TopTags(Some(stats), n);
            && (|all| <= n ==> multiset(r) == multiset(all))
            && NoDup(MapSeq(r, EntryKey))
  {
    var all := stats.tagStats;
    var r := TopTags(Some(stats), n);
    TopByCountDistinct(all, EntryCount, n, EntryKey);
  }
}

=== FILE: text.dfy ===
/** String helpers with the semantics of the JavaScript built-ins the
    application uses: `split`, `trim`, `join`, `includes`, `padStart(2, '0')`,
    `String(n)`, `parseInt` and the `<` comparison on strings. */
module Text {
  import opened Wrappers
  import opened Seqs

  // ---------------------------------------------------------------------------
  // Characters

  predicate IsDigit(c: char) {
    '0' <= c <= '9'
  }

  predicate AllDigits(s: string) {
    forall i :: 0 <= i < |s| ==> IsDigit(s[i])
  }

  /** The white space and line terminators removed by `String.prototype.trim`. */
  predicate IsJsSpace(c: char) {
    var n := c as int;
    n == 0x09 || n == 0x0A || n == 0x0B || n == 0x0C || n == 0x0D || n == 0x20
    || n == 0xA0 || n == 0x1680 || (0x2000 <= n <= 0x200A) || n == 0x2028
    || n == 0x2029 || n == 0x202F || n == 0x205F || n == 0x3000 || n == 0xFEFF
  }

  function DigitChar(d: nat): (c: char)
    requires d < 10
    ensures IsDigit(c)
  {
    ('0' as int + d) as char
  }

  /** The value of a digit in base 16 (0-9, a-f, A-F), or 16 for any other character. */
  function HexValue(c: char): (v: nat)
    ensures v <= 16
  {
    if '0' <= c <= '9' then c as int - '0' as int
    else if 'a' <= c <= 'f' then c as int - 'a' as int + 10
    else if 'A' <= c <= 'F' then c as int - 'A' as int + 10
    else 16
  }

  predicate IsRadixDigit(c: char, radix: nat) {
    HexValue(c) < radix
  }

  // ---------------------------------------------------------------------------
  // Decimal rendering (`String(n)` for integral numbers) and `padStart(2, '0')`

  function NatToString(n: nat): (s: string)
    ensures 1 <= |s|
    ensures AllDigits(s)
    ensures n >= 10 ==> s[0] != '0'
  {
    if n < 10 then [DigitChar(n)] else NatToString(n / 10) + [DigitChar(n % 10)]
  }

  function IntToString(i: int): (s: string)
    ensures 1 <= |s|
  {
    if i < 0 then "-" + NatToString(-i) else NatToString(i)
  }

  /** `String(n).padStart(2, '0')`. */
  function Pad2(n: nat): (s: string)
    ensures AllDigits(s)
    ensures n < 100 ==> |s| == 2
  {
    if n < 10 then ['0', DigitChar(n)]
    else
      assert n < 100 ==> |NatToString(n / 10)| == 1;
      NatToString(n)
  }

  /** `String(i).padStart(2, '0')` for any integer: a negative number's text
      is already two characters long. */
  function PadInt2(i: int): string {
    if i >= 0 then Pad2(i) else IntToString(i)
  }

  function Pow10(w: nat): (p: nat)
    ensures p >= 1
  {
    if w == 0 then 1 else 10 * Pow10(w - 1)
  }

  /** The last `w` decimal digits of `n`, zero-padded on the left: what
      `String(n).padStart(w, '0')` gives when `n < 10^w`. */
  function PadNum(n: nat, w: nat): (s: string)
    ensures |s| == w
    ensures AllDigits(s)
  {
    if w == 0 then "" else PadNum(n / 10, w - 1) + [DigitChar(n % 10)]
  }

  /** The value of a string of radix digits, most significant first. */
  function DigitsValue(s: string, radix: nat): nat
    requires forall i :: 0 <= i < |s| ==> IsRadixDigit(s[i], radix)
  {
    if |s| == 0 then 0
    else
      var init := s[..|s| - 1];
      assert forall i :: 0 <= i < |init| ==> init[i] == s[i];
      var high := DigitsValue(init, radix);
      MulNat(high, radix);
      high * radix + HexValue(s[|s| - 1])
  }

  lemma MulNat(a: nat, b: nat)
    ensures a * b >= 0
  {
  }

  lemma {:induction false} NatToStringValue(n: nat)
    ensures DigitsValue(NatToString(n), 10) == n
  {
    var s := NatToString(n);
    if n >= 10 {
      NatToStringValue(n / 10);
      assert s[..|s| - 1] == NatToString(n / 10);
    }
  }

  lemma {:induction false} PadNumValue(n: nat, w: nat)
    requires n < Pow10(w)
    ensures DigitsValue(PadNum(n, w), 10) == n
  {
    if w > 0 {
      var s := PadNum(n, w);
      PadNumValue(n / 10, w - 1);
      assert s[..|s| - 1] == PadNum(n / 10, w - 1);
    }
  }

  /** Fixed-width numbers compare as strings the way they compare as numbers. */
  lemma {:induction false} PadNumOrder(a: nat, b: nat, w: nat)
    requires a < Pow10(w) && b < Pow10(w)
    ensures StrLt(PadNum(a, w), PadNum(b, w)) <==> a < b
    ensures PadNum(a, w) == PadNum(b, w) <==> a == b
  {
    PadNumValue(a, w);
    PadNumValue(b, w);
    if w > 0 {
      var p := Pow10(w - 1);
      assert a / 10 < p && b / 10 < p;
      PadNumOrder(a / 10, b / 10, w - 1);
      StrLtConcat(PadNum(a / 10, w - 1), [DigitChar(a % 10)], PadNum(b / 10, w - 1), [DigitChar(b % 10)]);
      assert a == 10 * (a / 10) + a % 10;
      assert b == 10 * (b / 10) + b % 10;
    }
  }

  /** A number with exactly `w` digits is printed as its `w`-digit padding. */
  lemma {:induction false} NatToStringPadded(n: nat, w: nat)
    requires 1 <= w && n < Pow10(w) && (w == 1 || Pow10(w - 1) <= n)
    ensures NatToString(n) == PadNum(n, w)
  {
    if w > 1 {
      NatToStringPadded(n / 10, w - 1);
    }
  }

  /** `padStart(2, '0')` is the two-digit padding below 100. */
  lemma Pad2IsPadNum(n: nat)
    requires n < 100
    ensures Pad2(n) == PadNum(n, 2)
  {
    if n >= 10 {
      NatToStringPadded(n, 2);
    }
  }

  // ---------------------------------------------------------------------------
  // parseInt

  function TrimStart(s: string): (r: string)
    ensures |r| <= |s| && r == s[|s| - |r|..]
    ensures |r| > 0 ==> !IsJsSpace(r[0])
  {
    if |s| > 0 && IsJsSpace(s[0]) then TrimStart(s[1..]) else s
  }

  function TrimEnd(s: string): (r: string)
    ensures |r| <= |s| && r == s[..|r|]
    ensures |r| > 0 ==> !IsJsSpace(r[|r| - 1])
  {
    if |s| > 0 && IsJsSpace(s[|s| - 1]) then TrimEnd(s[..|s| - 1]) else s
  }

  /** `String.prototype.trim`. */
  function Trim(s: string): (r: string)
    ensures |r| > 0 ==> !IsJsSpace(r[0]) && !IsJsSpace(r[|r| - 1])
  {
    TrimEnd(TrimStart(s))
  }

  /** The longest prefix of `s` made of radix digits. */
  function RadixPrefix(s: string, radix: nat): (p: string)
    ensures p <= s
    ensures forall i :: 0 <= i < |p| ==> IsRadixDigit(p[i], radix)
    ensures |p| < |s| ==> !IsRadixDigit(s[|p|], radix)
  {
    if |s| > 0 && IsRadixDigit(s[0], radix) then [s[0]] + RadixPrefix(s[1..], radix) else []
  }

  /** The magnitude part of `parseInt`, after the sign: an optional `0x`/`0X`
      prefix selects base 16, otherwise base 10; no digit at all is `NaN`. */
  function ParseMagnitude(s: string): Option<nat> {
    if |s| >= 2 && s[0] == '0' && (s[1] == 'x' || s[1] == 'X') then
      var p := RadixPrefix(s[2..], 16);
      if |p| == 0 then None else Some(DigitsValue(p, 16))
    else
      var p := RadixPrefix(s, 10);
      if |p| == 0 then None else Some(DigitsValue(p, 10))
  }

  /** `parseInt(s)` with no radix; `None` stands for `NaN`. Large values keep
      their exact integer value here. */
  function ParseInt(s: string): Option<int> {
    var t := TrimStart(s);
    if |t| > 0 && t[0] == '-' then
      match ParseMagnitude(t[1..])
      case None => None
      case Some(m) => Some(-(m as int))
    else
      ParseMagnitude(if |t| > 0 && t[0] == '+' then t[1..] else t)
  }

  lemma DigitStringPrefix(s: string)
    requires AllDigits(s)
    ensures RadixPrefix(s, 10) == s
  {
    if |s| > 0 {
      DigitStringPrefix(s[1..]);
    }
  }

  /** `parseInt` reads back any decimal digit string it is given. */
  lemma ParseDigitString(s: string)
    requires 1 <= |s| && AllDigits(s)
    ensures ParseMagnitude(s) == Some(DigitsValue(s, 10))
  {
    DigitStringPrefix(s);
  }

  lemma TrimStartDigits(s: string)
    requires 1 <= |s| && AllDigits(s)
    ensures TrimStart(s) == s
  {
    assert IsDigit(s[0]);
    assert !IsJsSpace(s[0]);
  }

  /** `parseInt` of a decimal digit string is its value. */
  lemma DigitsParse(s: string)
    requires 1 <= |s| && AllDigits(s)
    ensures ParseInt(s) == Some(DigitsValue(s, 10))
  {
    TrimStartDigits(s);
    ParseDigitString(s);
  }

  /** `parseInt(String(n)) == n` for a natural number. */
  lemma {:induction false} ParseNatToString(n: nat)
    ensures ParseInt(NatToString(n)) == Some(n)
  {
    var s := NatToString(n);
    TrimStartDigits(s);
    ParseDigitString(s);
    NatToStringValue(n);
  }

  /** `parseInt` of the decimal writing of `n`, for a writing given as text. */
  lemma ParseNatString(n: nat, s: string)
    requires s == NatToString(n)
    ensures ParseInt(s) == Some(n)
  {
    ParseNatToString(n);
  }

  /** `parseInt` of a minus sign followed by decimal digits. */
  lemma ParseNegative(t: string, n: nat)
    requires 2 <= |t| && t[0] == '-' && AllDigits(t[1..]) && DigitsValue(t[1..], 10) == n
    ensures ParseInt(t) == Some(-(n as int))
  {
    var digits := t[1..];
    assert TrimStart(t) == t;
    ParseDigitString(digits);
    var m := ParseMagnitude(digits);
    assert m == Some(n);
    assert ParseInt(t) == if m.Some? then Some(-(m.value as int)) else None;
  }

  /** `parseInt(String(i)) == i`. */
  lemma {:induction false} ParseIntToString(i: int)
    ensures ParseInt(IntToString(i)) == Some(i)
  {
    if i < 0 {
      NegativeWriting(i);
      ParseNegative(IntToString(i), -i);
    } else {
      ParseNatToString(i);
    }
  }

  /** `String(i)` of a negative `i` is a minus sign and the digits of `-i`. */
  lemma NegativeWriting(i: int)
    requires i < 0
    ensures var t := IntToString(i);
            2 <= |t| && t[0] == '-' && AllDigits(t[1..]) && DigitsValue(t[1..], 10) == -i
  {
    var t := IntToString(i);
    var digits := NatToString(-i);
    assert t == "-" + digits;
    assert t[1..] == digits;
    NatToStringValue(-i);
  }

  /** `parseInt(String(n).padStart(2, '0')) == n`: two-digit keys read back. */
  lemma {:induction false} ParsePad2(n: nat)
    ensures ParseInt(Pad2(n)) == Some(n)
  {
    if n < 10 {
      var s := Pad2(n);
      TrimStartDigits(s);
      ParseDigitString(s);
      assert s[..1] == "0";
      assert DigitsValue(s[..1], 10) == 0;
    } else {
      ParseIntToString(n);
    }
  }

  /** A character outside the Basic Multilingual Plane, which UTF-16 writes
      as a surrogate pair. */
  predicate Astral(c: char) {
    c as int >= 0x10000
  }

  /** JavaScript's `s.length`: the number of UTF-16 code units, two for each
      astral character and one for every other. */
  function Utf16Length(s: string): (n: nat)
    ensures |s| <= n <= 2 * |s|
    ensures n == |s| <==> forall i :: 0 <= i < |s| ==> !Astral(s[i])
  {
    if |s| == 0 then 0
    else
      var init := s[..|s| - 1];
      assert forall i :: 0 <= i < |init| ==> init[i] == s[i];
      Utf16Length(init) + (if Astral(s[|s| - 1]) then 2 else 1)
  }

  /** `s || ''` for an optional string. */
  function OrEmpty(s: Option<string>): (r: string)
    ensures s.Some? ==> r == s.value
    ensures s.None? ==> r == ""
  {
    if s.Some? then s.value else ""
  }

  /** A possibly-missing string that is truthy: present and not empty. */
  predicate Filled(v: Option<string>) {
    v.Some? && v.value != ""
  }

  /** A query filter is added only for a non-empty parameter. */
  function FilledOnly(v: Option<string>): (r: Option<string>)
    ensures r.Some? <==> Filled(v)
    ensures r.Some? ==> r == v
  {
    if Filled(v) then v else None
  }

  // ---------------------------------------------------------------------------
  // Searching, splitting and joining

  /** `p` occurs in `t` starting at index `i`. */
  predicate OccursAt(p: string, t: string, i: int) {
    0 <= i <= |t| - |p| && t[i..i + |p|] == p
  }

  /** `t.includes(p)`. */
  predicate IsSubstring(p: string, t: string) {
    exists i | 0 <= i <= |t| - |p| :: OccursAt(p, t, i)
  }

  function IndexOfChar(s: string, c: char): (i: nat)
    requires c in s
    ensures i < |s| && s[i] == c && c !in s[..i]
  {
    if s[0] == c then 0 else 1 + IndexOfChar(s[1..], c)
  }

  /** `parts.join(sep)`. */
  function Join(parts: seq<string>, sep: string): string {
    if |parts| == 0 then ""
    else if |parts| == 1 then parts[0]
    else parts[0] + sep + Join(parts[1..], sep)
  }

  /** `s.split(c)` for a one-character separator. */
  function Split(s: string, c: char): (parts: seq<string>)
    ensures |parts| >= 1
    ensures forall i :: 0 <= i < |parts| ==> c !in parts[i]
    ensures Join(parts, [c]) == s
    decreases |s|
  {
    if c !in s then [s]
    else
      var i := IndexOfChar(s, c);
      var rest := Split(s[i + 1..], c);
      assert s == s[..i] + [c] + s[i + 1..];
      [s[..i]] + rest
  }

  /** Splitting after appending a separator and a separator-free tail adds
      the tail as the last part. */
  lemma {:induction false} SplitAppend(s: string, c: char, t: string)
    requires c !in t
    ensures Split(s + [c] + t, c) == Split(s, c) + [t]
    decreases |s|
  {
    if c !in s {
      SplitFirst(s, c, t);
      SplitNoSeparator(t, c);
      SplitNoSeparator(s, c);
    } else {
      var i := IndexOfChar(s, c);
      var head, rest := s[..i], s[i + 1..];
      SeparatorAt(s, c, i, t);
      SplitFirst(head, c, rest + [c] + t);
      SplitFirst(head, c, rest);
      SplitAppend(rest, c, t);
      AppendAssoc([head], Split(rest, c), [t]);
    }
  }

  /** Cutting `s` at an occurrence of `c`, with and without a tail after it. */
  lemma SeparatorAt(s: string, c: char, i: nat, t: string)
    requires i < |s| && s[i] == c
    ensures s == s[..i] + [c] + s[i + 1..]
    ensures s + [c] + t == s[..i] + [c] + (s[i + 1..] + [c] + t)
  {
    assert s == s[..i] + [c] + s[i + 1..];
  }


  function NonEmpty(s: string): bool { s != "" }

  /** `s.split(',').map(t => t.trim()).filter(t => t)`: the non-empty trimmed
      comma-separated parts, in order. */
  function CommaList(s: string): (r: seq<string>)
    ensures forall i :: 0 <= i < |r| ==> r[i] != "" && r[i] in MapSeq(Split(s, ','), Trim)
    ensures forall i :: 0 <= i < |Split(s, ',')| && Trim(Split(s, ',')[i]) != "" ==> Trim(Split(s, ',')[i]) in r
  {
    var parts := MapSeq(Split(s, ','), Trim);
    assert forall i :: 0 <= i < |Split(s, ',')| ==> parts[i] == Trim(Split(s, ',')[i]);
    Filter(parts, NonEmpty)
  }

  /** A list whose every part trims to '' has no entries. */
  lemma CommaListBlank(s: string)
    requires forall i :: 0 <= i < |Split(s, ',')| ==> Trim(Split(s, ',')[i]) == ""
    ensures CommaList(s) == []
  {
    FilterNone(MapSeq(Split(s, ','), Trim), NonEmpty);
  }

  /** Splitting a string with no separator gives the string itself. */
  lemma SplitNoSeparator(s: string, c: char)
    requires c !in s
    ensures Split(s, c) == [s]
  {
  }

  /** Splitting `a + [c] + b` where `a` has no separator yields `a` first. */
  lemma SplitFirst(a: string, c: char, b: string)
    requires c !in a
    ensures Split(a + [c] + b, c) == [a] + Split(b, c)
  {
    var s := a + [c] + b;
    assert s[|a|] == c;
    assert s[..|a|] == a;
    assert IndexOfChar(s, c) == |a|;
    assert s[|a| + 1..] == b;
  }

  /** The first index at or after `from` where `sep` occurs in `s`. */
  function IndexOfFrom(s: string, sep: string, from: nat): (r: Option<nat>)
    requires |sep| > 0
    ensures r.Some? ==> from <= r.value && r.value + |sep| <= |s| && s[r.value..r.value + |sep|] == sep
    decreases |s| - from
  {
    if from + |sep| > |s| then None
    else if s[from..from + |sep|] == sep then Some(from)
    else IndexOfFrom(s, sep, from + 1)
  }

  /** `s.split(sep)` for a non-empty multi-character separator. */
  function SplitOn(s: string, sep: string): (parts: seq<string>)
    requires |sep| > 0
    ensures |parts| >= 1
    decreases |s|
  {
    match IndexOfFrom(s, sep, 0)
    case None => [s]
    case Some(i) => [s[..i]] + SplitOn(s[i + |sep|..], sep)
  }

  lemma IndexOfFromSkipsDigits(s: string, sep: string, from: nat, k: nat)
    requires |sep| > 0 && !IsDigit(sep[0])
    requires from <= k <= |s| && k + |sep| <= |s| && s[k..k + |sep|] == sep
    requires forall i :: from <= i < k ==> IsDigit(s[i])
    ensures IndexOfFrom(s, sep, from) == Some(k)
    decreases k - from
  {
    if from < k {
      assert s[from..from + |sep|][0] == s[from];
      IndexOfFromSkipsDigits(s, sep, from + 1, k);
    }
  }

  lemma IndexOfFromNone(s: string, sep: string, from: nat)
    requires |sep| > 0 && !IsDigit(sep[0])
    requires forall i :: from <= i < |s| ==> IsDigit(s[i])
    ensures IndexOfFrom(s, sep, from) == None
    decreases |s| - from
  {
    if from + |sep| <= |s| {
      assert s[from..from + |sep|][0] == s[from];
      IndexOfFromNone(s, sep, from + 1);
    }
  }

  /** Splitting digits + separator + digits on a separator that starts with a
      non-digit gives exactly the two digit strings back. */
  lemma {:induction false} SplitOnDigits(a: string, sep: string, b: string)
    requires |sep| > 0 && !IsDigit(sep[0])
    requires AllDigits(a) && AllDigits(b)
    ensures SplitOn(a + sep + b, sep) == [a, b]
  {
    var s := a + sep + b;
    assert s[|a|..|a| + |sep|] == sep;
    IndexOfFromSkipsDigits(s, sep, 0, |a|);
    assert s[..|a|] == a;
    assert s[|a| + |sep|..] == b;
    IndexOfFromNone(b, sep, 0);
  }

  /** The same split when the second part is a minus sign and digits, for a
      separator whose first two characters are not digits. */
  lemma {:induction false} SplitOnDigitsNegative(a: string, sep: string, b: string)
    requires |sep| >= 2 && !IsDigit(sep[0]) && !IsDigit(sep[1])
    requires AllDigits(a) && AllDigits(b)
    ensures SplitOn(a + sep + ("-" + b), sep) == [a, "-" + b]
  {
    var c := "-" + b;
    var s := a + sep + c;
    assert s[|a|..|a| + |sep|] == sep;
    IndexOfFromSkipsDigits(s, sep, 0, |a|);
    assert s[..|a|] == a;
    assert s[|a| + |sep|..] == c;
    if |sep| <= |c| {
      assert c[0..|sep|][1] == b[0];
      assert c[1..] == b;
      IndexOfFromNone(c, sep, 1);
    }
  }

  // ---------------------------------------------------------------------------
  // Character replacement

  /** `s.replace(/x/g, y)` for single characters `x` and `y`. */
  function ReplaceChar(s: string, x: char, y: char): (r: string)
    ensures |r| == |s|
    ensures forall i :: 0 <= i < |s| ==> r[i] == (if s[i] == x then y else s[i])
  {
    if |s| == 0 then "" else [if s[0] == x then y else s[0]] + ReplaceChar(s[1..], x, y)
  }

  lemma ReplaceCharRemoves(s: string, x: char, y: char)
    requires x != y
    ensures x !in ReplaceChar(s, x, y)
  {
    var r := ReplaceChar(s, x, y);
    assert forall i :: 0 <= i < |r| ==> r[i] != x;
  }

  lemma ReplaceCharKeepsAbsent(s: string, x: char, y: char, z: char)
    requires z !in s && z != y
    ensures z !in ReplaceChar(s, x, y)
  {
    var r := ReplaceChar(s, x, y);
    assert forall i :: 0 <= i < |r| ==> r[i] != z;
  }

  // ---------------------------------------------------------------------------
  // Ordering: JavaScript's `<` on strings, modelled as Unicode code point order
  // (a proper prefix first); it matches UTF-16 code-unit order below U+E000

  predicate StrLt(a: string, b: string) {
    if |a| == 0 then |b| > 0
    else if |b| == 0 then false
    else a[0] < b[0] || (a[0] == b[0] && StrLt(a[1..], b[1..]))
  }

  lemma StrLtIrreflexive(a: string)
    ensures !StrLt(a, a)
  {
  }

  lemma StrLtTransitive(a: string, b: string, c: string)
    requires StrLt(a, b) && StrLt(b, c)
    ensures StrLt(a, c)
  {
    if |a| > 0 && |b| > 0 && |c| > 0 && a[0] == b[0] && b[0] == c[0] {
      StrLtTransitive(a[1..], b[1..], c[1..]);
    }
  }

  lemma StrLtTotal(a: string, b: string)
    ensures StrLt(a, b) || StrLt(b, a) || a == b
  {
    if |a| > 0 && |b| > 0 && a[0] == b[0] {
      StrLtTotal(a[1..], b[1..]);
      if a[1..] == b[1..] {
        assert a == [a[0]] + a[1..];
        assert b == [b[0]] + b[1..];
      }
    }
  }

  /** Comparing two concatenations whose first parts have equal length compares
      the first parts, then the second ones. */
  lemma {:induction false} StrLtConcat(x1: string, y1: string, x2: string, y2: string)
    requires |x1| == |x2|
    ensures StrLt(x1 + y1, x2 + y2) <==> StrLt(x1, x2) || (x1 == x2 && StrLt(y1, y2))
    decreases |x1|
  {
    if |x1| > 0 {
      assert (x1 + y1)[1..] == x1[1..] + y1;
      assert (x2 + y2)[1..] == x2[1..] + y2;
      StrLtConcat(x1[1..], y1, x2[1..], y2);
      if x1[0] == x2[0] && x1[1..] == x2[1..] {
        assert x1 == [x1[0]] + x1[1..];
        assert x2 == [x2[0]] + x2[1..];
      }
    } else {
      assert x1 + y1 == y1;
      assert x2 + y2 == y2;
    }
  }

  // ---------------------------------------------------------------------------
  // Case folding (ASCII letters)

  function LowerChar(c: char): char {
    if 'A' <= c <= 'Z' then (c as int - 'A' as int + 'a' as int) as char else c
  }

  function ToLower(s: string): (r: string)
    ensures |r| == |s|
    ensures forall i :: 0 <= i < |s| ==> r[i] == LowerChar(s[i])
  {
    if |s| == 0 then "" else [LowerChar(s[0])] + ToLower(s[1..])
  }
}

=== FILE: upload.dfy ===
/** The upload route (`POST /api/upload`): checks the configuration and the
    file, names the stored object `<timestamp>_<random>.<extension>`, checks
    that the 'recordings' bucket exists and uploads without overwriting. The
    clock, the random suffix and the storage service are parameters. */
module Upload {
  import opened Wrappers
  import opened Text
  import Auth

  /** 100 MiB, the largest accepted file. */
  const MaxSize: nat := 100 * 1024 * 1024

  const Bucket := "recordings"

  const DefaultContentType := "application/octet-stream"

  /** A file form entry. */
  datatype File = File(name: string, size: nat, mime: string)

  /** `formData.get('file')`: no entry (`null`), a text entry or a file. */
  datatype Entry = NoEntry | TextEntry(text: string) | FileEntry(file: File)

  /** `await request.formData()`: a body that is not form data rejects with
      an error carrying `message`; otherwise the `file` entry. */
  datatype Form = Unreadable(message: string) | Form(entry: Entry)

  /** The message of the `TypeError` a text entry raises at
      `file.name.split('.')`: a string has no `name`, so `split` is read
      from `undefined` (Node's wording). */
  const NameOfText := "Cannot read properties of undefined (reading 'split')"

  /** What the storage service is asked to store. */
  datatype UploadCall = UploadCall(bucket: string, path: string, contentType: string, upsert: bool)

  datatype Uploaded = Uploaded(fileName: string, fileUrl: string, fileSize: nat, fileType: string)

  datatype Reply = Reply(status: int, result: Result<Uploaded>, upload: Option<UploadCall>)

  /** `name.split('.').pop()`: the text after the last '.', or the whole name
      when it has none. */
  function Extension(name: string): (ext: string)
    ensures '.' !in ext
  {
    var parts := Split(name, '.');
    parts[|parts| - 1]
  }

  /** The extension is exactly the text after the last '.'. */
  lemma ExtensionOf(stem: string, ext: string)
    requires '.' !in ext
    ensures Extension(stem + "." + ext) == ext
  {
    SplitAppend(stem, '.', ext);
  }

  /** A name without '.' is its own extension. */
  lemma ExtensionWithoutDot(name: string)
    requires '.' !in name
    ensures Extension(name) == name
  {
  }

  /** `${timestamp}_${random}.${extension}`. */
  function StoredName(timestamp: int, random: string, name: string): (r: string)
    ensures r == IntToString(timestamp) + "_" + random + "." + Extension(name)
    ensures Extension(r) == Extension(name)
  {
    ExtensionOf(IntToString(timestamp) + "_" + random, Extension(name));
    IntToString(timestamp) + "_" + random + "." + Extension(name)
  }

  /** `file.type || 'application/octet-stream'`. */
  function ContentType(f: File): string {
    if f.mime != "" then f.mime else DefaultContentType
  }

  /** The handler. Checks run in order: configuration (500, before the form
      is read), an unreadable form (500 with its error), a missing or empty
      entry (400), a size above `MaxSize` (400), an empty file (400), then
      the bucket listing (500 on error or without 'recordings'); only then is
      the upload issued, its error giving 400 and a missing answer 500. A
      non-empty text entry passes the `!file` check and both size checks
      (its `size` is `undefined`) and throws at `file.name.split`, which the
      catch answers with 500. */
  function UploadPost(
    env: Auth.Env,
    form: Form,
    timestamp: int,
    random: string,
    buckets: Result<seq<string>>,
    upload: UploadCall -> Result<Option<string>>,
    publicUrl: string -> string): (r: Reply)
    ensures !Filled(env.url) || !Filled(env.anonKey) ==> r.status == 500 && r.upload.None?
    ensures Filled(env.url) && Filled(env.anonKey) ==>
      && (form.Unreadable? ==> r == Reply(500, Fail(form.message), None))
      && (form == Form(NoEntry) || form == Form(TextEntry("")) ==> r == Reply(400, Fail("未提供檔案"), None))
      && (form.Form? && form.entry.TextEntry? && form.entry.text != "" ==> r == Reply(500, Fail(NameOfText), None))
      && (form.Form? && form.entry.FileEntry? && form.entry.file.size > MaxSize ==>
            r == Reply(400, Fail("檔案大小超過 100MB 限制"), None))
      && (form.Form? && form.entry.FileEntry? && form.entry.file.size == 0 ==>
            r == Reply(400, Fail("檔案大小為 0，請選擇有效的檔案"), None))
    ensures r.upload.Some? <==>
      && Filled(env.url) && Filled(env.anonKey)
      && form.Form? && form.entry.FileEntry? && 1 <= form.entry.file.size <= MaxSize
      && buckets.Ok? && Bucket in buckets.value
    ensures r.upload.Some? ==>
      r.upload.value == UploadCall(Bucket, StoredName(timestamp, random, form.entry.file.name), ContentType(form.entry.file), false)
    ensures r.status == 200 <==> r.upload.Some? && upload(r.upload.value).Ok? && upload(r.upload.value).value.Some?
    ensures r.status == 200 ==>
      r.result == Ok(Uploaded(r.upload.value.path, publicUrl(upload(r.upload.value).value.value),
                              form.entry.file.size, form.entry.file.mime))
  {
    if !Filled(env.url) || !Filled(env.anonKey) then
      Reply(500, Fail("伺服器配置錯誤：缺少 Supabase 環境變數。請檢查 Vercel 環境變數設定。"), None)
    else
      match form
      case Unreadable(message) => Reply(500, Fail(message), None)
      case Form(NoEntry) => Reply(400, Fail("未提供檔案"), None)
      case Form(TextEntry(text)) =>
        if text == "" then Reply(400, Fail("未提供檔案"), None) else Reply(500, Fail(NameOfText), None)
      case Form(FileEntry(f)) =>
        if f.size > MaxSize then Reply(400, Fail("檔案大小超過 100MB 限制"), None)
        else if f.size == 0 then Reply(400, Fail("檔案大小為 0，請選擇有效的檔案"), None)
        else
          var path := StoredName(timestamp, random, f.name);
          match buckets
          case Fail(m) => Reply(500, Fail("無法連接到 Supabase Storage: " + m), None)
          case Ok(names) =>
            if Bucket !in names then Reply(500, Fail("找不到 recordings bucket，請確認 Supabase Storage 配置"), None)
            else
              var call := UploadCall(Bucket, path, ContentType(f), false);
              match upload(call)
              case Fail(m) => Reply(400, Fail("上傳失敗: " + m), Some(call))
              case Ok(None) => Reply(500, Fail("上傳成功但未返回資料"), Some(call))
              case Ok(Some(stored)) => Reply(200, Ok(Uploaded(path, publicUrl(stored), f.size, f.mime)), Some(call))
  }

  /** With the configuration present and the bucket there, a file is uploaded
      exactly when its size is 1 through 100 MiB. */
  lemma SizeBounds(env: Auth.Env, f: File, timestamp: int, random: string, names: seq<string>,
                   upload: UploadCall -> Result<Option<string>>, publicUrl: string -> string)
    requires Filled(env.url) && Filled(env.anonKey) && Bucket in names
    ensures UploadPost(env, Form(FileEntry(f)), timestamp, random, Ok(names), upload, publicUrl).upload.Some?
        <==> 0 < f.size <= 104857600
  {
  }
}

=== FILE: usagepanel.dfy ===
/** The salesperson usage panel: clicking a row selects that salesperson or,
    when it is already selected, clears the selection; the selected
    salesperson's timeline is shown below the table when it has entries. The
    bucket labels of the timeline are `DateKeys.BucketLabel`. */
module UsagePanel {
  import opened Wrappers
  import opened Text

  /** A timeline entry as the panel reads it. */
  datatype Point = Point(date: string, logins: int, actions: int)

  /** One row of the panel. */
  datatype UserUsage = UserUsage(userId: string, name: string, timeline: seq<Point>)

  /** The row click: the selected row is deselected, any other row becomes
      the selection. */
  function Toggle(selected: Option<string>, clicked: string): (r: Option<string>)
    ensures r.None? <==> selected == Some(clicked)
    ensures r.Some? ==> r.value == clicked
  {
    if selected == Some(clicked) then None else Some(clicked)
  }

  /** Clicking the same row twice from no selection ends with no selection;
      clicking another row moves the selection there. */
  lemma ToggleTwice(clicked: string, other: string)
    ensures Toggle(Toggle(None, clicked), clicked) == None
    ensures other != clicked ==> Toggle(Toggle(None, clicked), other) == Some(other)
  {
  }

  /** `stats.find(s => s.user_id === id)`: the first row with that id. */
  function Find(stats: seq<UserUsage>, id: string): (r: Option<nat>)
    ensures r.Some? ==>
      && r.value < |stats| && stats[r.value].userId == id
      && forall j :: 0 <= j < r.value ==> stats[j].userId != id
    ensures r.None? ==> forall j :: 0 <= j < |stats| ==> stats[j].userId != id
  {
    if |stats| == 0 then None
    else if stats[0].userId == id then Some(0)
    else
      var rest := Find(stats[1..], id);
      if rest.Some? then Some(rest.value + 1) else None
  }

  /** The timeline shown below the table: only for a (non-empty) selected id
      found among the rows, and only when that row's timeline has entries. */
  function Detail(stats: seq<UserUsage>, selected: Option<string>): (r: Option<UserUsage>)
    ensures r.Some? ==>
      && Filled(selected) && r.value in stats
      && r.value.userId == selected.value && |r.value.timeline| > 0
    ensures r.None? && Filled(selected) ==>
      forall j :: 0 <= j < |stats| && stats[j].userId == selected.value ==>
        (exists k :: 0 <= k <= j && stats[k].userId == selected.value && |stats[k].timeline| == 0)
  {
    if !Filled(selected) then None
    else
      match Find(stats, selected.value)
      case None => None
      case Some(i) => if |stats[i].timeline| > 0 then Some(stats[i]) else None
  }

  /** Selecting a row whose id no earlier row has shows that row's timeline
      exactly when it has entries. */
  lemma SelectShowsRow(stats: seq<UserUsage>, i: nat)
    requires i < |stats| && stats[i].userId != ""
    requires forall j :: 0 <= j < i ==> stats[j].userId != stats[i].userId
    ensures var shown := Detail(stats, Toggle(None, stats[i].userId));
            shown == (if |stats[i].timeline| > 0 then Some(stats[i]) else None)
  {
  }
}

=== FILE: usagestats.dfy ===
/** The per-salesperson usage statistics route (`GET /api/admin/activity/user-stats`):
    for every salesperson, the number of logins and of page views/actions in a
    date range, and a timeline of both counts bucketed by day, ISO week, month
    or year. The store's answers are inputs: the salesperson list (already
    restricted to role 'salesperson' and ordered by creation, newest first)
    and the activity-log table as each of the two log queries saw it, `None`
    when a query failed. The time filter and the per-type filter of the two
    log queries are applied here. */
module UsageStats {
  import opened Wrappers
  import opened Text
  import opened Seqs
  import opened Sorting
  import opened Civil
  import opened DateKeys
  import Auth

  datatype Salesperson = Salesperson(
    id: string,
    email: Option<string>,
    name: Option<string>,
    lastLogin: Option<Time>,
    lastActivity: Option<Time>)

  datatype LogRow = LogRow(userId: string, activityType: string, created: Time)

  /** The query-string parameters (`searchParams.get` gives `null` when absent). */
  datatype Params = Params(
    userId: Option<string>,
    startDate: Option<string>,
    endDate: Option<string>,
    dimension: Option<string>)

  /** One timeline bucket. */
  datatype Point = Point(date: string, logins: nat, actions: nat)

  datatype UserUsage = UserUsage(
    userId: string,
    email: Option<string>,
    name: Option<string>,
    loginCount: nat,
    actionCount: nat,
    lastLogin: Option<Time>,
    lastActivity: Option<Time>,
    timeline: seq<Point>)

  datatype Reply = Reply(status: int, data: seq<UserUsage>)

  function PointDate(p: Point): string { p.date }
  function PointLogins(p: Point): int { p.logins }
  function PointActions(p: Point): int { p.actions }

  // ---------------------------------------------------------------------------
  // Date range

  /** `searchParams.get('dimension') || 'day'`. */
  function Dimension(p: Params): string {
    if Filled(p.dimension) then p.dimension.value else "day"
  }

  /** The default start for a dimension: 7 days, 28 days, 6 months or 1 year
      before now, and 30 days for any other dimension; the time of day is kept. */
  function DefaultStart(now: Time, dimension: string): (s: Time)
    ensures dimension == "day" ==> EpochMs(s) == EpochMs(now) - 7 * MsPerDay
    ensures dimension == "week" ==> EpochMs(s) == EpochMs(now) - 28 * MsPerDay
    ensures dimension == "month" ==> s == Instant(MinusMonths(now.date, 6), now.ms)
    ensures dimension == "year" ==> s == Instant(MinusYear(now.date), now.ms)
    ensures dimension != "day" && dimension != "week" && dimension != "month" && dimension != "year"
      ==> EpochMs(s) == EpochMs(now) - 30 * MsPerDay
  {
    match dimension
    case "day" => MinusDays(now, 7)
    case "week" => MinusDays(now, 28)
    case "month" => Instant(MinusMonths(now.date, 6), now.ms)
    case "year" => Instant(MinusYear(now.date), now.ms)
    case _ => MinusDays(now, 30)
  }

  /** Start and end of the range: both parsed from the parameters when both
      are given, otherwise the default range ending now. `None` is an Invalid
      Date. */
  function QueryRange(p: Params, now: Time, parseDate: string -> Option<Time>): (r: Period)
    ensures !(Filled(p.startDate) && Filled(p.endDate)) ==> r == Period(Some(DefaultStart(now, Dimension(p))), Some(now))
    ensures Filled(p.startDate) && Filled(p.endDate) ==> r == Period(parseDate(p.startDate.value), parseDate(p.endDate.value))
  {
    if Filled(p.startDate) && Filled(p.endDate) then Period(parseDate(p.startDate.value), parseDate(p.endDate.value))
    else Period(Some(DefaultStart(now, Dimension(p))), Some(now))
  }

  // ---------------------------------------------------------------------------
  // The two log queries

  /** `userId ? [userId] : salespersons.map(s => s.id)`. */
  function Targets(p: Params, salespersons: seq<Salesperson>): seq<string> {
    if Filled(p.userId) then [p.userId.value] else MapSeq(salespersons, (s: Salesperson) => s.id)
  }

  function IsLoginIn(targets: seq<string>, start: Time, end: Time): LogRow -> bool {
    (r: LogRow) => r.activityType == "login" && r.userId in targets && InWindow(r.created, start, end)
  }

  function IsActionIn(targets: seq<string>, start: Time, end: Time): LogRow -> bool {
    (r: LogRow) => (r.activityType == "page_view" || r.activityType == "action")
      && r.userId in targets && InWindow(r.created, start, end)
  }

  // ---------------------------------------------------------------------------
  // Timeline

  function FindPoint(t: seq<Point>, k: string): (r: Option<nat>)
    ensures r.Some? ==> r.value < |t| && t[r.value].date == k
    ensures r.None? ==> k !in MapSeq(t, PointDate)
  {
    if |t| == 0 then None
    else if t[|t| - 1].date == k then Some(|t| - 1)
    else
      var r := FindPoint(t[..|t| - 1], k);
      assert MapSeq(t, PointDate) == MapSeq(t[..|t| - 1], PointDate) + [t[|t| - 1].date];
      r
  }

  /** `timeline[k] ||= { logins: 0, actions: 0 }` followed by `timeline[k].logins++`
      (when `login`) or `timeline[k].actions++`. */
  function Bump(t: seq<Point>, k: string, login: bool): seq<Point> {
    match FindPoint(t, k)
    case Some(i) =>
      t[i := if login then t[i].(logins := t[i].logins + 1) else t[i].(actions := t[i].actions + 1)]
    case None => t + [NewPoint(k, login)]
  }

  /** Counting every key in order. */
  function AddAll(t: seq<Point>, keys: seq<string>, login: bool): seq<Point> {
    if |keys| == 0 then t else Bump(AddAll(t, keys[..|keys| - 1], login), keys[|keys| - 1], login)
  }

  /** The timeline of a user: login keys counted first, then action keys, then
      the entries sorted by key. */
  function Timeline(loginKeys: seq<string>, actionKeys: seq<string>): seq<Point> {
    Sort(AddAll(AddAll([], loginKeys, true), actionKeys, false), ByKey(StrLt, PointDate))
  }

  ghost predicate DistinctDates(t: seq<Point>) {
    NoDup(MapSeq(t, PointDate))
  }

  ghost predicate CountsMatch(t: seq<Point>, L: seq<string>, A: seq<string>) {
    forall p :: p in t ==> p.logins == Count(L, p.date) && p.actions == Count(A, p.date)
  }

  ghost predicate KeysCover(t: seq<Point>, L: seq<string>, A: seq<string>) {
    forall k :: k in MapSeq(t, PointDate) <==> k in L || k in A
  }

  ghost predicate SumsMatch(t: seq<Point>, L: seq<string>, A: seq<string>) {
    Sum(MapSeq(t, PointLogins)) == |L| && Sum(MapSeq(t, PointActions)) == |A|
  }

  /** `t` holds, once each, exactly the keys of `L` and `A`, with the number of
      times each occurs in `L` and in `A`. */
  ghost predicate Tallies(t: seq<Point>, L: seq<string>, A: seq<string>) {
    DistinctDates(t) && CountsMatch(t, L, A) && KeysCover(t, L, A) && SumsMatch(t, L, A)
  }

  lemma CountSnoc(s: seq<string>, k: string, x: string)
    ensures Count(s + [k], x) == Count(s, x) + (if x == k then 1 else 0)
  {
    assert (s + [k])[..|s|] == s;
  }

  lemma BumpOldDates(t: seq<Point>, k: string, login: bool, i: nat)
    requires FindPoint(t, k) == Some(i)
    ensures MapSeq(Bump(t, k, login), PointDate) == MapSeq(t, PointDate)
  {
  }

  lemma BumpOldCounts(t: seq<Point>, L: seq<string>, A: seq<string>, k: string, login: bool, i: nat)
    requires DistinctDates(t) && CountsMatch(t, L, A)
    requires FindPoint(t, k) == Some(i)
    ensures CountsMatch(Bump(t, k, login), if login then L + [k] else L, if login then A else A + [k])
  {
    var t' := Bump(t, k, login);
    var L' := if login then L + [k] else L;
    var A' := if login then A else A + [k];
    forall p | p in t'
      ensures p.logins == Count(L', p.date) && p.actions == Count(A', p.date)
    {
      var j :| 0 <= j < |t'| && t'[j] == p;
      BumpOldAt(t, L, A, k, login, i, j);
    }
  }

  /** One entry after bumping an existing key: the bumped entry gains the new
      occurrence, any other entry keeps its counts. */
  lemma BumpOldAt(t: seq<Point>, L: seq<string>, A: seq<string>, k: string, login: bool, i: nat, j: nat)
    requires DistinctDates(t) && CountsMatch(t, L, A)
    requires FindPoint(t, k) == Some(i) && j < |t|
    ensures var p := Bump(t, k, login)[j];
            && p.logins == Count(if login then L + [k] else L, p.date)
            && p.actions == Count(if login then A else A + [k], p.date)
  {
    var p := Bump(t, k, login)[j];
    assert t[j] in t;
    CountSnoc(L, k, p.date);
    CountSnoc(A, k, p.date);
    if j != i {
      assert p == t[j];
      assert MapSeq(t, PointDate)[i] == k;
      assert MapSeq(t, PointDate)[j] == t[j].date;
    }
  }

  lemma BumpOldSums(t: seq<Point>, L: seq<string>, A: seq<string>, k: string, login: bool, i: nat)
    requires SumsMatch(t, L, A)
    requires FindPoint(t, k) == Some(i)
    ensures SumsMatch(Bump(t, k, login), if login then L + [k] else L, if login then A else A + [k])
  {
    var t' := Bump(t, k, login);
    if login {
      SumUpdate(MapSeq(t, PointLogins), i, 1);
      assert MapSeq(t', PointLogins) == MapSeq(t, PointLogins)[i := t[i].logins + 1];
      assert MapSeq(t', PointActions) == MapSeq(t, PointActions);
    } else {
      SumUpdate(MapSeq(t, PointActions), i, 1);
      assert MapSeq(t', PointActions) == MapSeq(t, PointActions)[i := t[i].actions + 1];
      assert MapSeq(t', PointLogins) == MapSeq(t, PointLogins);
    }
  }

  lemma BumpOld(t: seq<Point>, L: seq<string>, A: seq<string>, k: string, login: bool, i: nat)
    requires Tallies(t, L, A)
    requires FindPoint(t, k) == Some(i)
    ensures Tallies(Bump(t, k, login), if login then L + [k] else L, if login then A else A + [k])
  {
    BumpOldDates(t, k, login, i);
    BumpOldCounts(t, L, A, k, login, i);
    BumpOldSums(t, L, A, k, login, i);
    assert MapSeq(t, PointDate)[i] == k;
  }

  function NewPoint(k: string, login: bool): Point {
    if login then Point(k, 1, 0) else Point(k, 0, 1)
  }

  lemma BumpNewCounts(t: seq<Point>, L: seq<string>, A: seq<string>, k: string, login: bool)
    requires CountsMatch(t, L, A) && KeysCover(t, L, A)
    requires k !in MapSeq(t, PointDate)
    ensures CountsMatch(t + [NewPoint(k, login)], if login then L + [k] else L, if login then A else A + [k])
  {
    var q := NewPoint(k, login);
    var L' := if login then L + [k] else L;
    var A' := if login then A else A + [k];
    assert k !in multiset(L) && k !in multiset(A);
    forall p | p in t + [q]
      ensures p.logins == Count(L', p.date) && p.actions == Count(A', p.date)
    {
      CountSnoc(L, k, p.date);
      CountSnoc(A, k, p.date);
      if p != q {
        var j :| 0 <= j < |t| && t[j] == p;
        assert MapSeq(t, PointDate)[j] == p.date;
      }
    }
  }

  lemma BumpNewSums(t: seq<Point>, L: seq<string>, A: seq<string>, k: string, login: bool)
    requires SumsMatch(t, L, A)
    ensures SumsMatch(t + [NewPoint(k, login)], if login then L + [k] else L, if login then A else A + [k])
  {
    var q := NewPoint(k, login);
    var t' := t + [q];
    SumAppend(MapSeq(t, PointLogins), [q.logins]);
    SumAppend(MapSeq(t, PointActions), [q.actions]);
    assert MapSeq(t', PointLogins) == MapSeq(t, PointLogins) + [q.logins];
    assert MapSeq(t', PointActions) == MapSeq(t, PointActions) + [q.actions];
  }

  lemma BumpNew(t: seq<Point>, L: seq<string>, A: seq<string>, k: string, login: bool)
    requires Tallies(t, L, A)
    requires FindPoint(t, k) == None
    ensures Tallies(Bump(t, k, login), if login then L + [k] else L, if login then A else A + [k])
  {
    assert Bump(t, k, login) == t + [NewPoint(k, login)];
    BumpNewKeys(t, L, A, k, login);
    BumpNewCounts(t, L, A, k, login);
    BumpNewSums(t, L, A, k, login);
  }

  lemma BumpNewKeys(t: seq<Point>, L: seq<string>, A: seq<string>, k: string, login: bool)
    requires DistinctDates(t) && KeysCover(t, L, A)
    requires k !in MapSeq(t, PointDate)
    ensures var t' := t + [NewPoint(k, login)];
            && DistinctDates(t')
            && KeysCover(t', if login then L + [k] else L, if login then A else A + [k])
  {
    assert MapSeq(t + [NewPoint(k, login)], PointDate) == MapSeq(t, PointDate) + [k];
  }

  lemma BumpTallies(t: seq<Point>, L: seq<string>, A: seq<string>, k: string, login: bool)
    requires Tallies(t, L, A)
    ensures Tallies(Bump(t, k, login), if login then L + [k] else L, if login then A else A + [k])
  {
    match FindPoint(t, k)
    case Some(i) => BumpOld(t, L, A, k, login, i);
    case None => BumpNew(t, L, A, k, login);
  }

  lemma {:induction false} AddAllTallies(t: seq<Point>, L: seq<string>, A: seq<string>, keys: seq<string>, login: bool)
    requires Tallies(t, L, A)
    ensures Tallies(AddAll(t, keys, login), if login then L + keys else L, if login then A else A + keys)
  {
    if |keys| > 0 {
      var init := keys[..|keys| - 1];
      var k := keys[|keys| - 1];
      var L0 := if login then L + init else L;
      var A0 := if login then A else A + init;
      AddAllTallies(t, L, A, init, login);
      BumpTallies(AddAll(t, init, login), L0, A0, k, login);
      AppendLast(L, keys);
      AppendLast(A, keys);
    }
  }

  lemma AppendLast(s: seq<string>, keys: seq<string>)
    requires |keys| > 0
    ensures s + keys[..|keys| - 1] + [keys[|keys| - 1]] == s + keys
  {
    assert keys == keys[..|keys| - 1] + [keys[|keys| - 1]];
  }

  lemma SortTallies(t: seq<Point>, L: seq<string>, A: seq<string>)
    requires Tallies(t, L, A)
    ensures Tallies(Sort(t, ByKey(StrLt, PointDate)), L, A)
  {
    var lt := ByKey(StrLt, PointDate);
    var s := Sort(t, lt);
    SortDistinctKeys(t, lt, PointDate);
    SortSum(t, lt, PointLogins);
    SortSum(t, lt, PointActions);
    forall p | p in s
      ensures p in t
    {
      SortMembers(t, lt, p);
    }
    forall k | k in MapSeq(s, PointDate)
      ensures k in MapSeq(t, PointDate)
    {
      var j :| 0 <= j < |s| && MapSeq(s, PointDate)[j] == k;
      SortMembers(t, lt, s[j]);
      var m :| 0 <= m < |t| && t[m] == s[j];
      assert MapSeq(t, PointDate)[m] == k;
    }
    forall k | k in MapSeq(t, PointDate)
      ensures k in MapSeq(s, PointDate)
    {
      var j :| 0 <= j < |t| && MapSeq(t, PointDate)[j] == k;
      SortMembers(t, lt, t[j]);
      var m :| 0 <= m < |s| && s[m] == t[j];
      assert MapSeq(s, PointDate)[m] == k;
    }
  }

  /** A timeline has one entry per distinct key of the logins and actions, in
      strictly ascending key order, each with the number of logins and of
      actions that have its key; the entries' counts add up to the number of
      logins and of actions. */
  lemma TimelineFacts(loginKeys: seq<string>, actionKeys: seq<string>)
    ensures var tl := Timeline(loginKeys, actionKeys);
      && (forall i, j :: 0 <= i < j < |tl| ==> StrLt(tl[i].date, tl[j].date))
      && (forall p :: p in tl ==> p.logins == Count(loginKeys, p.date) && p.actions == Count(actionKeys, p.date))
      && (forall k :: k in MapSeq(tl, PointDate) <==> k in loginKeys || k in actionKeys)
      && Sum(MapSeq(tl, PointLogins)) == |loginKeys|
      && Sum(MapSeq(tl, PointActions)) == |actionKeys|
  {
    var tl := Timeline(loginKeys, actionKeys);
    TimelineTallies(loginKeys, actionKeys);
    TimelineAscending(loginKeys, actionKeys);
    assert CountsMatch(tl, loginKeys, actionKeys);
    assert KeysCover(tl, loginKeys, actionKeys);
    assert SumsMatch(tl, loginKeys, actionKeys);
  }

  lemma TimelineTallies(loginKeys: seq<string>, actionKeys: seq<string>)
    ensures Tallies(Timeline(loginKeys, actionKeys), loginKeys, actionKeys)
  {
    LoginTallies(loginKeys);
    var t1 := AddAll([], loginKeys, true);
    ActionTallies(t1, loginKeys, actionKeys);
    SortTallies(AddAll(t1, actionKeys, false), loginKeys, actionKeys);
  }

  lemma LoginTallies(keys: seq<string>)
    ensures Tallies(AddAll([], keys, true), keys, [])
  {
    assert Tallies([], [], []);
    AddAllTallies([], [], [], keys, true);
    assert [] + keys == keys;
  }

  lemma ActionTallies(t: seq<Point>, L: seq<string>, keys: seq<string>)
    requires Tallies(t, L, [])
    ensures Tallies(AddAll(t, keys, false), L, keys)
  {
    AddAllTallies(t, L, [], keys, false);
    assert [] + keys == keys;
  }

  lemma TimelineAscending(loginKeys: seq<string>, actionKeys: seq<string>)
    ensures var tl := Timeline(loginKeys, actionKeys);
            forall i, j :: 0 <= i < j < |tl| ==> StrLt(tl[i].date, tl[j].date)
  {
    var t2 := AddAll(AddAll([], loginKeys, true), actionKeys, false);
    TimelineTallies(loginKeys, actionKeys);
    var lt := ByKey(StrLt, PointDate);
    StrLtOrder();
    ByKeyOrder(StrLt, PointDate);
    SortSorted(t2, lt);
    SortedStrictly(Sort(t2, lt), PointDate);
  }

  // ---------------------------------------------------------------------------
  // Per-salesperson statistics and the route

  function LogUser(r: LogRow): string { r.userId }

  /** The bucket key of a row's date for the dimension. */
  function RowKey(dimension: string): LogRow -> string {
    (r: LogRow) => FormatDateByDimension(r.created.date, dimension)
  }

  /** One salesperson's entry, from the rows the two log queries returned: the
      salesperson's own logins and actions, counted and bucketed; the last
      login and activity come from the profile and are not range-restricted. */
  function UserStats(s: Salesperson, logins: seq<LogRow>, actions: seq<LogRow>, dimension: string): UserUsage {
    var own := WithKey(logins, LogUser, s.id);
    var acts := WithKey(actions, LogUser, s.id);
    UserUsage(
      s.id, s.email, if Filled(s.name) then s.name else s.email,
      |own|, |acts|, s.lastLogin, s.lastActivity,
      Timeline(MapSeq(own, RowKey(dimension)), MapSeq(acts, RowKey(dimension))))
  }

  /** The entry's counts are the numbers of the salesperson's rows, its
      timeline buckets add up to those counts, every bucket counts the rows
      that have its key, and the buckets strictly ascend. */
  lemma UserStatsFacts(s: Salesperson, logins: seq<LogRow>, actions: seq<LogRow>, dimension: string)
    ensures var u := UserStats(s, logins, actions, dimension);
      var own := MapSeq(WithKey(logins, LogUser, s.id), RowKey(dimension));
      var acts := MapSeq(WithKey(actions, LogUser, s.id), RowKey(dimension));
      && u.userId == s.id && u.email == s.email
      && u.name == (if Filled(s.name) then s.name else s.email)
      && u.lastLogin == s.lastLogin && u.lastActivity == s.lastActivity
      && u.loginCount == |WithKey(logins, LogUser, s.id)|
      && u.actionCount == |WithKey(actions, LogUser, s.id)|
      && Sum(MapSeq(u.timeline, PointLogins)) == u.loginCount
      && Sum(MapSeq(u.timeline, PointActions)) == u.actionCount
      && (forall i, j :: 0 <= i < j < |u.timeline| ==> StrLt(u.timeline[i].date, u.timeline[j].date))
      && (forall pt :: pt in u.timeline ==> pt.logins == Count(own, pt.date) && pt.actions == Count(acts, pt.date))
      && (forall k :: k in MapSeq(u.timeline, PointDate) <==> k in own || k in acts)
  {
    var own := MapSeq(WithKey(logins, LogUser, s.id), RowKey(dimension));
    var acts := MapSeq(WithKey(actions, LogUser, s.id), RowKey(dimension));
    TimelineFacts(own, acts);
  }

  /** A salesperson without rows in range still gets an entry, with an empty
      timeline. */
  lemma IdleSalesperson(s: Salesperson, logins: seq<LogRow>, actions: seq<LogRow>, dimension: string)
    requires forall i :: 0 <= i < |logins| ==> logins[i].userId != s.id
    requires forall i :: 0 <= i < |actions| ==> actions[i].userId != s.id
    ensures var u := UserStats(s, logins, actions, dimension);
      u.loginCount == 0 && u.actionCount == 0 && u.timeline == []
  {
    WithKeyAbsent(logins, LogUser, s.id);
    WithKeyAbsent(actions, LogUser, s.id);
  }

  /** The result order: users who have logged in before those who have not,
      and among the former the latest login first. */
  predicate LoggedInLater(a: UserUsage, b: UserUsage) {
    || (a.lastLogin.Some? && b.lastLogin.None?)
    || (a.lastLogin.Some? && b.lastLogin.Some? && EpochMs(a.lastLogin.value) > EpochMs(b.lastLogin.value))
  }

  lemma LoggedInLaterOrder()
    ensures StrictWeakOrder(LoggedInLater)
  {
  }

  /** `!userId || s.id === userId`. */
  function Wanted(p: Params): Salesperson -> bool {
    (s: Salesperson) => !Filled(p.userId) || s.id == p.userId.value
  }

  function StatsOf(logins: seq<LogRow>, actions: seq<LogRow>, dimension: string): Salesperson -> UserUsage {
    (s: Salesperson) => UserStats(s, logins, actions, dimension)
  }

  function UsageUser(u: UserUsage): string { u.userId }

  /** The rows a log query returns; a failed query counts as none. */
  function Rows(table: Option<seq<LogRow>>, keep: LogRow -> bool): seq<LogRow> {
    if table.Some? then Filter(table.value, keep) else []
  }

  /** One entry per wanted salesperson, built from the logins and actions of
      the targeted users inside the range, in profile order. */
  function Entries(
    p: Params, sps: seq<Salesperson>, start: Time, end: Time,
    loginTable: Option<seq<LogRow>>, actionTable: Option<seq<LogRow>>): seq<UserUsage>
  {
    var targets := Targets(p, sps);
    MapSeq(Filter(sps, Wanted(p)), StatsOf(Rows(loginTable, IsLoginIn(targets, start, end)), Rows(actionTable, IsActionIn(targets, start, end)), Dimension(p)))
  }

  /** The handler. A failed admin gate answers 403 or 500 by its message; no
      salespersons (or a failed profile query) gives an empty list before any
      date is used; an Invalid Date then fails the log queries' construction
      with 500; otherwise one entry per wanted salesperson, sorted by last
      login. A failed log query counts as no rows. */
  function UserStatsGet(
    gate: Result<Auth.CurrentUser>, p: Params, now: Time, parseDate: string -> Option<Time>,
    salespersons: Option<seq<Salesperson>>, loginTable: Option<seq<LogRow>>, actionTable: Option<seq<LogRow>>): (r: Reply)
    ensures gate.Fail? ==> r == Reply(Auth.AdminErrorStatus(gate.message), [])
    ensures gate.Ok? && (salespersons.None? || |salespersons.value| == 0) ==> r == Reply(200, [])
    ensures r.status != 200 ==> r.data == []
    ensures gate.Ok? && salespersons.Some? && |salespersons.value| > 0 ==>
      (r.status == 200 <==> QueryRange(p, now, parseDate).start.Some? && QueryRange(p, now, parseDate).end.Some?)
    ensures gate.Ok? && salespersons.Some? && |salespersons.value| > 0 && r.status == 200 ==>
      var range := QueryRange(p, now, parseDate);
      multiset(r.data) == multiset(Entries(p, salespersons.value, range.start.value, range.end.value, loginTable, actionTable))
  {
    if gate.Fail? then Reply(Auth.AdminErrorStatus(gate.message), [])
    else if salespersons.None? || |salespersons.value| == 0 then Reply(200, [])
    else
      var range := QueryRange(p, now, parseDate);
      if range.start.None? || range.end.None? then Reply(500, [])
      else
        Reply(200, Sort(Entries(p, salespersons.value, range.start.value, range.end.value, loginTable, actionTable), LoggedInLater))
  }

  /** Users with a last login come first, latest first. */
  predicate LoginOrdered(d: seq<UserUsage>) {
    forall i, j :: 0 <= i < j < |d| ==>
      && (d[i].lastLogin.None? ==> d[j].lastLogin.None?)
      && (d[i].lastLogin.Some? && d[j].lastLogin.Some? ==> EpochMs(d[i].lastLogin.value) >= EpochMs(d[j].lastLogin.value))
  }

  /** Sorting by last login puts users with one first, latest first. */
  lemma LoginSorted(xs: seq<UserUsage>)
    ensures LoginOrdered(Sort(xs, LoggedInLater))
  {
    LoggedInLaterOrder();
    SortSorted(xs, LoggedInLater);
    var d := Sort(xs, LoggedInLater);
    forall i, j | 0 <= i < j < |d|
      ensures d[i].lastLogin.None? ==> d[j].lastLogin.None?
      ensures d[i].lastLogin.Some? && d[j].lastLogin.Some? ==> EpochMs(d[i].lastLogin.value) >= EpochMs(d[j].lastLogin.value)
    {
      assert !LoggedInLater(d[j], d[i]);
    }
  }

  /** Users with a last login come first, latest first. */
  lemma UserStatsOrdered(
    gate: Result<Auth.CurrentUser>, p: Params, now: Time, parseDate: string -> Option<Time>,
    salespersons: Option<seq<Salesperson>>, loginTable: Option<seq<LogRow>>, actionTable: Option<seq<LogRow>>)
    ensures LoginOrdered(UserStatsGet(gate, p, now, parseDate, salespersons, loginTable, actionTable).data)
  {
    var r := UserStatsGet(gate, p, now, parseDate, salespersons, loginTable, actionTable);
    if gate.Ok? && salespersons.Some? && |salespersons.value| > 0 {
      var range := QueryRange(p, now, parseDate);
      if range.start.Some? && range.end.Some? {
        var e := Entries(p, salespersons.value, range.start.value, range.end.value, loginTable, actionTable);
        assert r.data == Sort(e, LoggedInLater);
        LoginSorted(e);
      } else {
        assert r.data == [];
      }
    } else {
      assert r.data == [];
    }
  }

  function SalespersonId(s: Salesperson): string { s.id }

  /** Distinct ids: at most one salesperson has the requested id. */
  lemma {:induction false} AtMostOneWanted(sps: seq<Salesperson>, p: Params)
    requires Filled(p.userId)
    requires NoDup(MapSeq(sps, SalespersonId))
    ensures |Filter(sps, Wanted(p))| <= 1
  {
    if |sps| > 0 {
      var init := sps[..|sps| - 1];
      var last := sps[|sps| - 1];
      assert MapSeq(init, SalespersonId) == MapSeq(sps, SalespersonId)[..|sps| - 1];
      AtMostOneWanted(init, p);
      if Wanted(p)(last) {
        forall i | 0 <= i < |init|
          ensures !Wanted(p)(init[i])
        {
          assert MapSeq(sps, SalespersonId)[i] != MapSeq(sps, SalespersonId)[|sps| - 1];
        }
        FilterNone(init, Wanted(p));
      }
    }
  }

  /** With `user_id` given, only that salesperson can be reported: at most
      once when the ids are distinct, and exactly when it is a salesperson. */
  lemma OnlyRequestedUser(sps: seq<Salesperson>, p: Params, logins: seq<LogRow>, actions: seq<LogRow>)
    requires Filled(p.userId)
    requires NoDup(MapSeq(sps, SalespersonId))
    ensures var d := MapSeq(Filter(sps, Wanted(p)), StatsOf(logins, actions, Dimension(p)));
      && (forall i :: 0 <= i < |d| ==> d[i].userId == p.userId.value)
      && |d| <= 1
      && (|d| == 1 <==> exists i :: 0 <= i < |sps| && sps[i].id == p.userId.value)
  {
    var kept := Filter(sps, Wanted(p));
    AtMostOneWanted(sps, p);
    if exists i :: 0 <= i < |sps| && sps[i].id == p.userId.value {
      var i :| 0 <= i < |sps| && sps[i].id == p.userId.value;
      assert Wanted(p)(sps[i]);
    } else {
      FilterNone(sps, Wanted(p));
    }
  }
}

=== FILE: users.dfy ===
/** The user administration route. `GET /api/admin/users` lists user profiles
    for admins, one page at a time, filtered by role, active flag and an email
    search; `POST /api/admin/users` creates a confirmed account through the
    identity provider, then sets its profile. The provider and the store are
    parameters. */
module Users {
  import opened Wrappers
  import opened Text
  import opened Js
  import opened Pagination
  import Auth
  import AdminClient

  // ---------------------------------------------------------------------------
  // GET

  datatype ListParams = ListParams(
    role: Option<string>,
    isActive: Option<string>,
    search: Option<string>,
    page: Option<string>,
    limit: Option<string>)

  /** The list query, newest first: a role filter, an active-flag filter, a
      case-insensitive `%search%` pattern on the email column, and the range. */
  datatype Query = Query(role: Option<string>, isActive: Option<bool>, emailPattern: Option<string>, range: Option<Range>)

  /** `is_active` filters whenever the parameter is present, even empty: only
      'true' selects active users. */
  function ActiveFilter(v: Option<string>): (f: Option<bool>)
    ensures f.Some? <==> v.Some?
    ensures f == Some(true) <==> v == Some("true")
  {
    if v.Some? then Some(v.value == "true") else None
  }

  function ListQuery(p: ListParams): (q: Query)
    ensures q.role.Some? <==> Filled(p.role)
    ensures q.role.Some? ==> q.role == p.role
    ensures q.isActive == ActiveFilter(p.isActive)
    ensures q.emailPattern.Some? <==> Filled(p.search)
    ensures q.emailPattern.Some? ==> q.emailPattern.value == "%" + p.search.value + "%"
    ensures q.range == RequestedRange(IntParam(p.page, "1"), IntParam(p.limit, "50"))
  {
    Query(
      if Filled(p.role) then p.role else None,
      ActiveFilter(p.isActive),
      if Filled(p.search) then Some("%" + p.search.value + "%") else None,
      RequestedRange(IntParam(p.page, "1"), IntParam(p.limit, "50")))
  }

  /** A user profile row as the filters see it. */
  datatype ProfileRow = ProfileRow(email: string, name: Option<string>, role: string, active: bool)

  /** `email ILIKE '%search%'` for a search without the `%` and `_`
      wildcards: the email holds the search, ignoring case. */
  predicate EmailMatches(search: string, email: string) {
    IsSubstring(ToLower(search), ToLower(email))
  }

  /** The rows the query's filters keep. */
  predicate Selects(q: Query, row: ProfileRow) {
    && (q.role.Some? ==> row.role == q.role.value)
    && (q.isActive.Some? ==> row.active == q.isActive.value)
    && (q.emailPattern.Some? && |q.emailPattern.value| >= 2 ==>
          EmailMatches(q.emailPattern.value[1..|q.emailPattern.value| - 1], row.email))
  }

  /** The search looks at the email only: a row is kept exactly when the other
      filters keep it and its email holds the search in any letter case, and
      the name plays no part. */
  lemma SearchSelects(p: ListParams, row: ProfileRow, otherName: Option<string>)
    requires Filled(p.search)
    ensures Selects(ListQuery(p), row) <==>
      && (Filled(p.role) ==> row.role == p.role.value)
      && (p.isActive.Some? ==> row.active == (p.isActive.value == "true"))
      && EmailMatches(p.search.value, row.email)
    ensures Selects(ListQuery(p), row) == Selects(ListQuery(p), row.(name := otherName))
  {
    var pat := ListQuery(p).emailPattern.value;
    assert pat[1..|pat| - 1] == p.search.value;
  }

  /** A search matches an email that holds it in any letter case. */
  lemma SearchIgnoresCase(search: string, before: string, after: string)
    ensures EmailMatches(search, before + ToLower(search) + after)
    ensures EmailMatches(ToLower(search), before + search + after)
  {
    var e1 := before + ToLower(search) + after;
    LowerIdempotent(search);
    LowerAppend(before, ToLower(search), after);
    assert OccursAt(ToLower(search), ToLower(e1), |before|);
    var e2 := before + search + after;
    LowerAppend(before, search, after);
    assert OccursAt(ToLower(ToLower(search)), ToLower(e2), |before|);
  }

  lemma LowerIdempotent(s: string)
    ensures ToLower(ToLower(s)) == ToLower(s)
  {
    LowerCharIdempotent();
  }

  lemma LowerCharIdempotent()
    ensures forall c :: LowerChar(LowerChar(c)) == LowerChar(c)
  {
  }

  lemma LowerAppend(a: string, b: string, c: string)
    ensures ToLower(a + b + c) == ToLower(a) + ToLower(b) + ToLower(c)
  {
  }

  /** Without paging parameters the first 50 rows are requested. */
  lemma DefaultUserListing(p: ListParams)
    requires !Filled(p.page) && !Filled(p.limit)
    ensures ListQuery(p).range == Some(Range(0, 49))
  {
    DefaultPage(p.page);
    DefaultLimit(p.limit);
  }

  datatype ListReply<T> = ListReply(status: int, result: Result<seq<T>>, pagination: Option<PageInfo>)

  /** The handler: the admin gate's failure answers 403 or 500 by its message,
      a missing admin configuration 500, a failed query 400 with its message,
      otherwise the page and its `pagination` object. */
  function UsersGet<T>(gate: Result<Auth.CurrentUser>, env: AdminClient.AdminEnv, p: ListParams, store: Query -> Result<Listing<T>>): (r: ListReply<T>)
    ensures gate.Fail? ==> r == ListReply(Auth.AdminErrorStatus(gate.message), Fail(Auth.AdminErrorMessage(gate.message)), None)
    ensures gate.Ok? && AdminClient.CreateAdminClient(env).Fail? ==> r == ListReply(500, Fail("Internal server error"), None)
    ensures gate.Ok? && AdminClient.CreateAdminClient(env).Ok? && store(ListQuery(p)).Fail? ==>
      r == ListReply(400, Fail(store(ListQuery(p)).message), None)
    ensures gate.Ok? && AdminClient.CreateAdminClient(env).Ok? && store(ListQuery(p)).Ok? ==>
      && r.status == 200 && r.result == Ok(store(ListQuery(p)).value.rows)
      && r.pagination == Some(PageInfoOf(p.page, p.limit, store(ListQuery(p)).value.count))
    ensures r.status == 200 <==> gate.Ok? && AdminClient.CreateAdminClient(env).Ok? && store(ListQuery(p)).Ok?
  {
    if gate.Fail? then ListReply(Auth.AdminErrorStatus(gate.message), Fail(Auth.AdminErrorMessage(gate.message)), None)
    else
      match AdminClient.CreateAdminClient(env)
      case Fail(m) =>
        AdminClient.MissingAdminEnvStatus();
        ListReply(Auth.AdminErrorStatus(m), Fail(Auth.AdminErrorMessage(m)), None)
      case Ok(_) =>
        match store(ListQuery(p))
        case Fail(m) => ListReply(400, Fail(m), None)
        case Ok(l) => ListReply(200, Ok(l.rows), Some(PageInfoOf(p.page, p.limit, l.count)))
  }

  // ---------------------------------------------------------------------------
  // POST

  /** The account the provider created. */
  datatype NewUser = NewUser(id: string, email: Option<string>, createdAt: string)

  /** What the provider is asked: the credentials and the metadata name. */
  datatype CreateCall = CreateCall(email: JVal, password: JVal, metadataName: JVal)

  /** The fields requested from the body, with the destructuring defaults:
      `role` 'salesperson' and `is_active` true when undefined. */
  datatype NewUserForm = NewUserForm(email: Option<JVal>, password: Option<JVal>, name: Option<JVal>, role: JVal, isActive: JVal)

  datatype UserData = UserData(id: string, email: Option<string>, name: JVal, role: JVal, isActive: JVal, createdAt: string)

  datatype PostReply = PostReply(
    status: int,
    result: Result<UserData>,
    created: Option<CreateCall>,
    profileUpdate: Option<(string, seq<(string, JVal)>)>)

  function FormOf(body: JVal): (f: NewUserForm)
    ensures f.email == Get(body, "email") && f.password == Get(body, "password") && f.name == Get(body, "name")
    ensures Get(body, "role").None? ==> f.role == JStr("salesperson")
    ensures Get(body, "role").Some? ==> f.role == Get(body, "role").value
    ensures Get(body, "is_active").None? ==> f.isActive == JBool(true)
    ensures Get(body, "is_active").Some? ==> f.isActive == Get(body, "is_active").value
  {
    NewUserForm(
      Get(body, "email"), Get(body, "password"), Get(body, "name"),
      Get(body, "role").GetOr(JStr("salesperson")),
      Get(body, "is_active").GetOr(JBool(true)))
  }

  /** `name || email`. */
  function DisplayName(f: NewUserForm): JVal
    requires Truthy(f.email)
  {
    OrElse(f.name, f.email.value)
  }

  /** The profile values written after creation. */
  function ProfileFields(f: NewUserForm): seq<(string, JVal)>
    requires Truthy(f.email)
  {
    [("name", DisplayName(f)), ("role", f.role), ("is_active", f.isActive)]
  }

  /** The reply's user: each field prefers the stored profile (`name` and
      `role` when truthy, `is_active` when neither null nor undefined), falling
      back to the request. */
  function Merged(u: NewUser, f: NewUserForm, stored: Option<JVal>): (d: UserData)
    requires Truthy(f.email)
    ensures d.id == u.id && d.email == u.email && d.createdAt == u.createdAt
    ensures var sv := if stored.Some? then Get(stored.value, "name") else None;
      Truthy(sv) ==> d.name == sv.value
    ensures var sv := if stored.Some? then Get(stored.value, "name") else None;
      !Truthy(sv) ==> d.name == DisplayName(f)
    ensures var sv := if stored.Some? then Get(stored.value, "role") else None;
      d.role == if Truthy(sv) then sv.value else f.role
    ensures var sv := if stored.Some? then Get(stored.value, "is_active") else None;
      d.isActive == if Present(sv) then sv.value else f.isActive
  {
    var field := (k: string) => if stored.Some? then Get(stored.value, k) else None;
    UserData(
      u.id, u.email,
      OrElse(field("name"), DisplayName(f)),
      OrElse(field("role"), f.role),
      OrIfNullish(field("is_active"), f.isActive),
      u.createdAt)
  }

  /** The handler. The admin gate's failure answers 403 or 500 by its
      message; an unreadable or `null` body throws (500); a falsy email or
      password answers 400 and calls nothing; a missing admin configuration
      then throws (500) before the provider is called; a provider error answers 400
      with its message and no created user 500. Otherwise the profile update
      is issued, its failure ignored, and the merged user is returned. */
  function UsersPost(
    gate: Result<Auth.CurrentUser>,
    env: AdminClient.AdminEnv,
    body: Option<JVal>,
    createUser: CreateCall -> Result<Option<NewUser>>,
    storedProfile: string -> Option<JVal>): (r: PostReply)
    ensures gate.Fail? ==> r == PostReply(Auth.AdminErrorStatus(gate.message), Fail(Auth.AdminErrorMessage(gate.message)), None, None)
    ensures gate.Ok? && (body.None? || body == Some(JNull)) ==> r == PostReply(500, Fail("Internal server error"), None, None)
    ensures gate.Ok? && body.Some? && body.value != JNull ==>
      var f := FormOf(body.value);
      && (!Truthy(f.email) || !Truthy(f.password) ==> r == PostReply(400, Fail("Email and password are required"), None, None))
      && (Truthy(f.email) && Truthy(f.password) && AdminClient.CreateAdminClient(env).Fail? ==>
            r == PostReply(500, Fail("Internal server error"), None, None))
      && (Truthy(f.email) && Truthy(f.password) && AdminClient.CreateAdminClient(env).Ok? ==>
            var call := CreateCall(f.email.value, f.password.value, DisplayName(f));
            && r.created == Some(call)
            && (createUser(call).Fail? ==> r.status == 400 && r.result == Fail(createUser(call).message) && r.profileUpdate.None?)
            && (createUser(call) == Ok(None) ==> r.status == 500 && r.profileUpdate.None?)
            && (createUser(call).Ok? && createUser(call).value.Some? ==>
                  var u := createUser(call).value.value;
                  && r.status == 200
                  && r.profileUpdate == Some((u.id, ProfileFields(f)))
                  && r.result == Ok(Merged(u, f, storedProfile(u.id)))))
  {
    if gate.Fail? then PostReply(Auth.AdminErrorStatus(gate.message), Fail(Auth.AdminErrorMessage(gate.message)), None, None)
    else if body.None? || body.value == JNull then PostReply(500, Fail("Internal server error"), None, None)
    else
      var f := FormOf(body.value);
      if !Truthy(f.email) || !Truthy(f.password) then PostReply(400, Fail("Email and password are required"), None, None)
      else if AdminClient.CreateAdminClient(env).Fail? then
        var m := AdminClient.CreateAdminClient(env).message;
        AdminClient.MissingAdminEnvStatus();
        PostReply(Auth.AdminErrorStatus(m), Fail(Auth.AdminErrorMessage(m)), None, None)
      else
        var call := CreateCall(f.email.value, f.password.value, DisplayName(f));
        match createUser(call)
        case Fail(m) => PostReply(400, Fail(m), Some(call), None)
        case Ok(None) => PostReply(500, Fail("Failed to create user"), Some(call), None)
        case Ok(Some(u)) => PostReply(200, Ok(Merged(u, f, storedProfile(u.id))), Some(call), Some((u.id, ProfileFields(f))))
  }

  /** A body with only credentials creates an active salesperson named by
      the email, and a missing stored profile leaves those values in the reply. */
  lemma CreateDefaults(email: string, password: string, u: NewUser)
    requires email != "" && password != ""
    ensures var f := FormOf(JObj([("email", JStr(email)), ("password", JStr(password))]));
      && Truthy(f.email)
      && ProfileFields(f) == [("name", JStr(email)), ("role", JStr("salesperson")), ("is_active", JBool(true))]
      && Merged(u, f, None) == UserData(u.id, u.email, JStr(email), JStr("salesperson"), JBool(true), u.createdAt)
  {
    var body := JObj([("email", JStr(email)), ("password", JStr(password))]);
    assert Get(body, "name") == None;
    assert Get(body, "role") == None;
    assert Get(body, "is_active") == None;
    LookupAt(body.fields, 0);
  }

  /** The stored profile wins over the request when it holds a value. */
  lemma StoredProfileWins(u: NewUser, f: NewUserForm, name: string, role: string, active: bool)
    requires Truthy(f.email) && name != "" && role != ""
    ensures Merged(u, f, Some(JObj([("name", JStr(name)), ("role", JStr(role)), ("is_active", JBool(active))])))
      == UserData(u.id, u.email, JStr(name), JStr(role), JBool(active), u.createdAt)
  {
    var stored := JObj([("name", JStr(name)), ("role", JStr(role)), ("is_active", JBool(active))]);
    LookupAt(stored.fields, 0);
    LookupAt(stored.fields, 1);
    assert Get(stored, "is_active") == Some(JBool(active));
  }
}

=== FILE: userspage.dfy ===
/** The user administration page: the create and edit form, the local checks
    run before a create or a password reset is sent, the bodies it sends, the
    list query it builds from its filters, and the pager. */
module UsersPage {
  import opened Wrappers
  import opened Seqs
  import opened Text
  import opened Js
  import opened Pagination
  import Users

  /** The create/edit form. */
  datatype Form = Form(email: string, password: string, name: string, role: string, isActive: bool)

  /** The form as the page opens it and after every successful save. */
  const EmptyForm := Form("", "", "", "salesperson", true)

  /** A listed user as the page reads it. */
  datatype User = User(id: string, email: string, name: Option<string>, role: string, isActive: Option<bool>)

  // ---------------------------------------------------------------------------
  // Create

  const MissingCredentials := "請填寫郵箱和密碼"

  /** `handleCreateUser`'s check: an empty email or password is refused
      before anything is sent. */
  function CreateCheck(f: Form): (error: Option<string>)
    ensures error.None? <==> f.email != "" && f.password != ""
    ensures error.Some? ==> error.value == MissingCredentials
  {
    if f.email == "" || f.password == "" then Some(MissingCredentials) else None
  }

  /** The keys of `JSON.stringify(formData)`. */
  const CreateKeys: seq<string> := ["email", "password", "name", "role", "is_active"]

  function CreateValue(f: Form, k: string): JVal {
    if k == "email" then JStr(f.email)
    else if k == "password" then JStr(f.password)
    else if k == "name" then JStr(f.name)
    else if k == "role" then JStr(f.role)
    else JBool(f.isActive)
  }

  /** The create request body: the whole form. */
  function CreateBody(f: Form): JVal {
    JObj(seq(|CreateKeys|, i requires 0 <= i < |CreateKeys| => (CreateKeys[i], CreateValue(f, CreateKeys[i]))))
  }

  lemma CreateBodyGet(f: Form, k: string)
    requires k in CreateKeys
    ensures Get(CreateBody(f), k) == Some(CreateValue(f, k))
  {
    var i :| 0 <= i < |CreateKeys| && CreateKeys[i] == k;
    CreateKeysDistinct();
    KeyedLookup(CreateKeys, CreateBody(f).fields, i);
  }

  lemma CreateKeysDistinct()
    ensures NoDup(CreateKeys)
  {
  }

  /** The page's check and the route's agree: a form passes the page exactly
      when the route finds a truthy email and password in its body. A form
      that passes asks the provider for the form's credentials, named by the
      form's name or else the email, and writes the form's role and active
      flag to the profile. */
  lemma CreateMatchesRoute(f: Form)
    ensures var rf := Users.FormOf(CreateBody(f));
            CreateCheck(f).None? <==> Truthy(rf.email) && Truthy(rf.password)
    ensures var rf := Users.FormOf(CreateBody(f));
            CreateCheck(f).None? ==>
              && Users.DisplayName(rf) == JStr(if f.name != "" then f.name else f.email)
              && Users.ProfileFields(rf) ==
                   [("name", JStr(if f.name != "" then f.name else f.email)),
                    ("role", JStr(f.role)), ("is_active", JBool(f.isActive))]
  {
    CreateBodyGet(f, "email");
    CreateBodyGet(f, "password");
    CreateBodyGet(f, "name");
    CreateBodyGet(f, "role");
    CreateBodyGet(f, "is_active");
  }

  // ---------------------------------------------------------------------------
  // Password reset

  datatype ResetError = Mismatch | TooShort

  /** The shortest password the page sends. */
  const MinPassword: nat := 6

  /** `handleResetPassword`'s checks, in order: the two entries must agree,
      then the password's `length`, counted in UTF-16 code units, must be at
      least six. */
  function ResetCheck(password: string, confirm: string): (r: Option<ResetError>)
    ensures r == Some(Mismatch) <==> password != confirm
    ensures r == Some(TooShort) <==> password == confirm && Utf16Length(password) < MinPassword
  {
    if password != confirm then Some(Mismatch)
    else if Utf16Length(password) < MinPassword then Some(TooShort)
    else None
  }

  /** A reset is sent exactly for two equal entries six or more code units
      long, and a short mismatching pair is reported as a mismatch. Three
      characters always fall short and six always suffice, and for text
      without astral characters the count is the number of characters. */
  lemma ResetAccepts(password: string, confirm: string)
    ensures ResetCheck(password, confirm).None? <==> password == confirm && Utf16Length(password) >= MinPassword
    ensures password != confirm && Utf16Length(password) < MinPassword ==> ResetCheck(password, confirm) == Some(Mismatch)
    ensures password == confirm && |password| < 3 ==> ResetCheck(password, confirm) == Some(TooShort)
    ensures password == confirm && |password| >= MinPassword ==> ResetCheck(password, confirm).None?
    ensures (forall i :: 0 <= i < |password| ==> !Astral(password[i])) ==>
      (ResetCheck(password, confirm).None? <==> password == confirm && |password| >= MinPassword)
  {
  }

  /** Three emoji are six code units long, so the page accepts them. */
  lemma ResetAcceptsThreeEmoji()
    ensures ResetCheck("\U{1F600}\U{1F600}\U{1F600}", "\U{1F600}\U{1F600}\U{1F600}").None?
  {
    var e := '\U{1F600}';
    assert Astral(e);
    assert [e][..0] == [];
    assert Utf16Length([e]) == 2;
    assert [e, e][..1] == [e];
    assert Utf16Length([e, e]) == 4;
    assert [e, e, e][..2] == [e, e];
    assert Utf16Length([e, e, e]) == 6;
    assert "\U{1F600}\U{1F600}\U{1F600}" == [e, e, e];
  }

  // ---------------------------------------------------------------------------
  // Edit

  /** `startEdit`: the user's email and role, its name or '', its active flag
      or true, and no password. */
  function StartEdit(u: User): (f: Form)
    ensures f.email == u.email && f.role == u.role && f.password == ""
    ensures u.name.Some? ==> f.name == u.name.value
    ensures u.name.None? ==> f.name == ""
    ensures u.isActive.Some? ==> f.isActive == u.isActive.value
    ensures u.isActive.None? ==> f.isActive
  {
    Form(u.email, "", if u.name.Some? then u.name.value else "", u.role,
         if u.isActive.Some? then u.isActive.value else true)
  }

  /** The update request body: name, role and active flag. */
  function UpdateBody(f: Form): (body: JVal)
    ensures body.JObj? && MapSeq(body.fields, Name) == ["name", "role", "is_active"]
  {
    JObj([("name", JStr(f.name)), ("role", JStr(f.role)), ("is_active", JBool(f.isActive))])
  }

  /** The email is never part of an update, whatever the form holds. */
  lemma UpdateNeverSendsEmail(f: Form)
    ensures Get(UpdateBody(f), "email").None?
  {
    var fields := UpdateBody(f).fields;
    assert forall i :: 0 <= i < |fields| ==> fields[i].0 != "email";
  }

  /** Saving an edit without changes writes back the user's own values, with
      a missing name as '' and a missing active flag as true. */
  lemma UnchangedEditKeepsUser(u: User)
    ensures var body := UpdateBody(StartEdit(u));
            && Get(body, "name") == Some(JStr(if u.name.Some? then u.name.value else ""))
            && Get(body, "role") == Some(JStr(u.role))
            && Get(body, "is_active") == Some(JBool(if u.isActive.Some? then u.isActive.value else true))
  {
    var body := UpdateBody(StartEdit(u));
    LookupAt(body.fields, 0);
    LookupAt(body.fields, 1);
    LookupAt(body.fields, 2);
  }

  // ---------------------------------------------------------------------------
  // Filters and the pager

  datatype Filters = Filters(role: string, isActive: string, search: string)

  const NoFilters := Filters("", "", "")

  /** The pager: the page shown and the page count of the last answer. */
  datatype Pager = Pager(page: int, limit: int, total: int, totalPages: int)

  /** The list request's parameters: each filter only when non-empty, then
      the page and the limit. */
  function ListParams(f: Filters, p: Pager): (params: Users.ListParams)
    ensures params.role.Some? <==> f.role != ""
    ensures params.isActive.Some? <==> f.isActive != ""
    ensures params.search.Some? <==> f.search != ""
    ensures params.page == Some(IntToString(p.page)) && params.limit == Some(IntToString(p.limit))
  {
    Users.ListParams(
      if f.role != "" then Some(f.role) else None,
      if f.isActive != "" then Some(f.isActive) else None,
      if f.search != "" then Some(f.search) else None,
      Some(IntToString(p.page)),
      Some(IntToString(p.limit)))
  }

  /** The route lists what the page's filters select: the role filter, an
      active filter exactly when one is chosen ('true' meaning active), the
      email search, and the rows of the current page. */
  lemma ListQueryOfPage(f: Filters, p: Pager)
    requires p.page >= 1 && p.limit >= 1
    ensures var q := Users.ListQuery(ListParams(f, p));
            && (q.role.Some? <==> f.role != "")
            && (q.isActive.Some? <==> f.isActive != "")
            && (q.isActive == Some(true) <==> f.isActive == "true")
            && (q.emailPattern.Some? <==> f.search != "")
            && q.range == Some(Range((p.page - 1) * p.limit, p.page * p.limit - 1))
  {
    RangeOfPage(p.page, p.limit);
  }

  lemma RangeOfPage(page: int, limit: int)
    requires page >= 1 && limit >= 1
    ensures var q := Users.ListQuery(Users.ListParams(None, None, None, Some(IntToString(page)), Some(IntToString(limit))));
            q.range == Some(Range((page - 1) * limit, page * limit - 1))
  {
    var params := Users.ListParams(None, None, None, Some(IntToString(page)), Some(IntToString(limit)));
    NumberParam(page, "1");
    NumberParam(limit, "50");
    PageRange(params, page, limit);
  }

  /** Parameters that read as page `page` and limit `limit` ask for that
      page's rows. */
  lemma PageRange(params: Users.ListParams, page: int, limit: int)
    requires IntParam(params.page, "1") == Some(page) && IntParam(params.limit, "50") == Some(limit)
    ensures Users.ListQuery(params).range == Some(Range((page - 1) * limit, page * limit - 1))
  {
    PageRows(page, limit);
  }

  /** A positive number written into the query string reads back as itself. */
  lemma NumberParam(n: int, d: string)
    requires n >= 1
    ensures IntParam(Some(IntToString(n)), d) == Some(n)
  {
    assert IntToString(n) == NatToString(n);
    ParseNatToString(n);
  }

  /** Any filter change (and clearing them) shows page 1. */
  function SetFilters(p: Pager, f: Filters): (r: (Filters, Pager))
    ensures r.0 == f && r.1.page == 1
    ensures r.1.limit == p.limit && r.1.total == p.total && r.1.totalPages == p.totalPages
  {
    (f, p.(page := 1))
  }

  /** The pager is drawn only with more than one page. */
  predicate PagerShown(p: Pager) {
    p.totalPages > 1
  }

  predicate PreviousDisabled(p: Pager) {
    p.page == 1
  }

  predicate NextDisabled(p: Pager) {
    p.page >= p.totalPages
  }

  datatype Button = Previous | Next

  /** A click on an enabled pager button moves one page; a disabled button
      does nothing. */
  function Click(p: Pager, b: Button): (r: Pager)
    ensures b == Previous && !PreviousDisabled(p) ==> r == p.(page := p.page - 1)
    ensures b == Next && !NextDisabled(p) ==> r == p.(page := p.page + 1)
    ensures (b == Previous && PreviousDisabled(p)) || (b == Next && NextDisabled(p)) ==> r == p
  {
    match b
    case Previous => if PreviousDisabled(p) then p else p.(page := p.page - 1)
    case Next => if NextDisabled(p) then p else p.(page := p.page + 1)
  }

  /** A page the pager can reach: from 1 up to the page count (page 1 also
      when there are no pages). */
  predicate InRange(p: Pager) {
    1 <= p.page && (p.page <= p.totalPages || p.page == 1)
  }

  /** Pager clicks and filter changes keep the page in range. */
  lemma {:induction false} ClicksStayInRange(p: Pager, clicks: seq<Button>)
    requires InRange(p)
    ensures InRange(Clicks(p, clicks))
  {
    if |clicks| > 0 {
      ClicksStayInRange(p, clicks[..|clicks| - 1]);
    }
  }

  function Clicks(p: Pager, clicks: seq<Button>): Pager {
    if |clicks| == 0 then p else Click(Clicks(p, clicks[..|clicks| - 1]), clicks[|clicks| - 1])
  }

  /** After a filter change the page is in range whatever it was. */
  lemma FilterChangeInRange(p: Pager, f: Filters)
    ensures InRange(SetFilters(p, f).1)
  {
  }
}

=== FILE: wrappers.dfy ===
/** Optional values, used for JavaScript's `null`/`undefined` and for
    computations that can yield `NaN` or fail. */
module Wrappers {

  datatype Option<+T> = None | Some(value: T) {

    /** The contained value, or `default` when there is none. */
    function GetOr(default: T): T {
      match this
      case Some(v) => v
      case None => default
    }
  }

  /** The outcome of code that can throw: a value, or the message of the
      `Error` thrown. */
  datatype Result<+T> = Ok(value: T) | Fail(message: string)
}
